=== FILE: README.md ===
# CMS core logic in Dafny

The modelled repository is the content-management system behind a portfolio site. It has an Express back end and a React front end. This project models the deterministic logic inside it. Each core source file becomes one Dafny module. Each module proves what that file promises.

- **ServicesValidation** (`services_validation.dfy`) models the back end's validator of the services page. It covers:
  - every section check: hero, services grid, skills and video, approach, testimonials, clients and SEO;
  - the cross-section check, including the `TypeError` it can throw;
  - the real-time `validateField`;
  - the hex-colour and URL tests.

  Each section method pushes into `errors` and `warnings` as the source does. Its loops, including the `forEach` loops over the `usedColors`/`usedNumbers` sets, are proved against a report function. Lemmas on those functions state the count bounds, the duplicate rules, which findings are errors and which only warnings, and when the page is valid.
- **CacheService** (`cache_service.dfy`) models the universal editor's cache as a class. It covers:
  - the entries in insertion order and the running `totalSize`;
  - `set`, `get`, `has`, `delete`, `clear` and `preload`;
  - the eviction loop and the expiry cleanup.

  Every method keeps `totalSize` equal to the sum of the entry sizes.
- **MemoryManagement** (`memory_manager.dfy`) models the object-URL registry and the listener groups. It covers expiry and the 50-entry cap, the oldest-first cleanup, the idle logic and the statistics. The browser calls it makes are recorded in logs.
- **UploadDebugging** (`upload_debugger.dfy`) models the duplicate-upload debugger:
  - the bounded event and error logs, in memory and as stored;
  - the metrics, the recent-entry views and the key redaction.
- **SearchService** (`search_service.dfy`) models the front-end search:
  - the filters, the relevance score, the sort and the suggestions;
  - the history and popular lists kept in storage, as a class.
- **MediaValidation** (`media_validation.dfy`) models the back end's media rules table, the checks of a file against it, and the optimisation advice.
- **MediaSelection** (`media_selector.dfy`) models the media picker: its configuration, the file check, library filtering, selection and paging.
- **TestimonialsHtml** (`testimonials_html.dfy`) models the testimonials carousel generator: data validation, ordering, field defaults and the preview, with the `TypeError`s they throw on a missing author or project or a text or URL that is not a string.
- **HomepageRoutes** (`homepage_routes.dfy`) models the list logic inside the homepage routes:
  - section data turned into database rows;
  - the media filename guard;
  - adding, removing and reordering brand logos.
- **The list editors**:
  - OfferEditing (`offer_editor.dfy`);
  - SkillsEditing (`skills_editor.dfy`);
  - ServicesGridEditing (`services_grid_editor.dfy`);
  - ClientsEditing (`clients_editor.dfy`);
  - TestimonialsEditing (`testimonials_editor.dfy`);
  - NotionEditing (`notion_editor.dfy`).

  Each models its form rules and its add, update and remove operations, and its drag-and-drop reordering. Each proves the numbering invariant it keeps. Each drag move is proved to be a permutation that moves exactly one item.
- Shared helpers, which have no rows below:
  - `Wrappers`: Option, Result, and Outcome for code that may throw.
  - `Text`: JavaScript string primitives.
  - `Lists`: filter, splice-move, dedupe and stable sort.
  - `Js`: loosely typed JavaScript values, truthiness, `String(v)` and `Number(v)`.
  - `FormRules`: the editors' shared rule for a required field with a maximum length.

Modelling conventions:

- The source reads some things from outside. Here they are parameters:
  - `Date.now()` is `now`;
  - generated ids are arguments;
  - `new URL(...)` succeeding is a predicate `parsesAsUrl`;
  - the `localeCompare` order is a rank function;
  - `fs.stat`/`sharp` results are given values.
- A JavaScript `Map` is a sequence of entries with distinct keys, in insertion order, which is the order the `Map` iterates in.
- Numbers the source treats as integers are `int`. A value that may not be a number is a `JsValue`, and that type includes NaN.

## Model

| member | source | states |
|---|---|---|
| FormRules.RequiredAtMost | cms/frontend/src/components/services/ServicesGridEditor.tsx:224-228 | a required field is Required exactly when blank, TooLong exactly when non-blank and over the limit, and passes exactly otherwise |
| FormRules.PassingFieldNotBlank | cms/frontend/src/components/services/ServicesGridEditor.tsx:224-228 | a required field that passes is not blank |
| OfferEditing.NextId | cms/frontend/src/components/homepage/OfferEditor.tsx:119 | the new id is at least 1 and above every id in use |
| OfferEditing.AddPoint | cms/frontend/src/components/homepage/OfferEditor.tsx:107-130 | blank text is refused first, then a seventh point; otherwise exactly the new point (fresh id, trimmed text, order one past the length) is appended |
| OfferEditing.AddPointKeeps | cms/frontend/src/components/homepage/OfferEditor.tsx:112-125 | adding keeps the ids unique and the list numbered from one, and never holds more than six points |
| OfferEditing.AppendAboveKeepsDistinct | cms/frontend/src/components/homepage/OfferEditor.tsx:119-130 | appending a point whose id is above all others keeps the ids unique |
| OfferEditing.UpdatePoint | cms/frontend/src/components/homepage/OfferEditor.tsx:147-160 | nothing happens without a point being edited; blank text is refused; otherwise exactly the points with the edited id get the trimmed text |
| OfferEditing.UpdatePointKeeps | cms/frontend/src/components/homepage/OfferEditor.tsx:156-160 | an update keeps every id in its place and a numbered list numbered |
| OfferEditing.Renumber | cms/frontend/src/components/homepage/OfferEditor.tsx:176-178 | the result is numbered from one and differs from the input only in the orders |
| OfferEditing.RenumberKeepsIds | cms/frontend/src/components/homepage/OfferEditor.tsx:218-221 | renumbering keeps the ids in place |
| OfferEditing.RemovePointSpec | cms/frontend/src/components/homepage/OfferEditor.tsx:175-178 | after a removal no point has the id, the others keep their relative order and are numbered from one, and with unique ids exactly one point goes |
| OfferEditing.HandleDrop | cms/frontend/src/components/homepage/OfferEditor.tsx:199-222 | the copy-splice-splice-renumber steps give exactly the specified drop |
| OfferEditing.DroppedSpec | cms/frontend/src/components/homepage/OfferEditor.tsx:204-221 | a drop puts the dragged point at the drop index, keeps the others in relative order, loses and repeats no id, and renumbers; a drop onto its own place changes nothing |
| SkillsEditing.NameError | cms/frontend/src/components/services/SkillsVideoEditor.tsx:105-125 | the duplicate error wins exactly when another skill (not the one being edited) has the name ignoring case; otherwise blank gives Required and more than 100 characters as typed gives TooLong(100); no error exactly when the name is valid |
| SkillsEditing.ValidateSkillForm | cms/frontend/src/components/services/SkillsVideoEditor.tsx:105-125 | the record-then-overwrite steps and the `some` scan give exactly that error, and the form is valid exactly when the name is not blank, at most 100 characters and no duplicate |
| SkillsEditing.AddSkill | cms/frontend/src/components/services/SkillsVideoEditor.tsx:114-144 | the intended add, every skill counting for the duplicate check: refused exactly when the name has an error (with that error); otherwise exactly the skill with the trimmed name and order the list's length is appended |
| SkillsEditing.AddSkillKeeps | cms/frontend/src/components/services/SkillsVideoEditor.tsx:114-144 | an accepted skill keeps the names unique ignoring case and every order equal to its position |
| SkillsEditing.AddSkillAsWritten | cms/frontend/src/components/services/SkillsVideoEditor.tsx:114-144 | the add as written, its duplicate check skipping the skill still held in `editingSkill`: refused exactly when that check gives an error, otherwise the trimmed skill is appended |
| SkillsEditing.AddSkillAsWrittenAgrees | cms/frontend/src/components/services/SkillsVideoEditor.tsx:114-144 | with no skill being edited, or an edited id that names no skill, the add as written is the intended add |
| SkillsEditing.StaleEditAddsDuplicate | cms/frontend/src/components/services/SkillsVideoEditor.tsx:572 | after editing "React" and closing the dialog with Escape, adding "React" is accepted and leaves two skills named "React" |
| SkillsEditing.UpdateSkill | cms/frontend/src/components/services/SkillsVideoEditor.tsx:160-170 | refused without a skill being edited or with a name error; otherwise exactly the skills with the edited id get the trimmed name |
| SkillsEditing.UpdateSkillKeeps | cms/frontend/src/components/services/SkillsVideoEditor.tsx:114-170 | with unique ids an accepted update keeps the names unique ignoring case; ids and orders stay in place |
| SkillsEditing.Reorder | cms/frontend/src/components/services/SkillsVideoEditor.tsx:186-188 | every skill's order becomes its position and nothing else changes |
| SkillsEditing.ReorderKeepsIds | cms/frontend/src/components/services/SkillsVideoEditor.tsx:235-238 | reordering keeps the ids in place |
| SkillsEditing.RemoveSkillSpec | cms/frontend/src/components/services/SkillsVideoEditor.tsx:185-188 | after a removal no skill has the id, the others keep their relative order and carry their positions, and with unique ids exactly one skill goes |
| SkillsEditing.HandleDrop | cms/frontend/src/components/services/SkillsVideoEditor.tsx:216-238 | the copy-splice-splice-reorder steps give exactly the specified drop |
| SkillsEditing.DroppedSpec | cms/frontend/src/components/services/SkillsVideoEditor.tsx:221-238 | a drop puts the dragged skill at the drop index, keeps the others in relative order, loses and repeats no id, and gives every skill its position; a drop onto its own place changes nothing |
| ServicesGridEditing.FormErrors | cms/frontend/src/components/services/ServicesGridEditor.tsx:221-234 | the title is Required exactly when blank and TooLong(100) exactly when non-blank and longer than 100 as typed; the description likewise with 200; the record is empty exactly when both fields are valid |
| ServicesGridEditing.ValidateServiceForm | cms/frontend/src/components/services/ServicesGridEditor.tsx:221-238 | the field-by-field steps give exactly those errors, and the form is valid exactly when both fields are |
| ServicesGridEditing.AddService | cms/frontend/src/components/services/ServicesGridEditor.tsx:241-264 | refused (with the form's errors) exactly when the form is invalid; otherwise the old services are kept and one service is appended with the new id, number length + 1, order length, trimmed texts and the chosen colour |
| ServicesGridEditing.AppendKeepsNumbering | cms/frontend/src/components/services/ServicesGridEditor.tsx:249-258 | appending a service numbered one past the length and ordered at the length keeps the grid numbered |
| ServicesGridEditing.AddServiceKeepsNumbering | cms/frontend/src/components/services/ServicesGridEditor.tsx:241-264 | adding to a numbered grid keeps it numbered (number k + 1, order k) |
| ServicesGridEditing.UpdateService | cms/frontend/src/components/services/ServicesGridEditor.tsx:284-299 | refused without a service being edited or with an invalid form; otherwise exactly the services with the edited id get the trimmed texts and the colour, and every id, number and order stays |
| ServicesGridEditing.UpdateServiceKeeps | cms/frontend/src/components/services/ServicesGridEditor.tsx:290-299 | an update keeps every id in its place and a numbered grid numbered |
| ServicesGridEditing.Renumber | cms/frontend/src/components/services/ServicesGridEditor.tsx:316-321 | the result is numbered (number k + 1, order k) and differs from the input only in those two fields |
| ServicesGridEditing.RenumberKeepsIds | cms/frontend/src/components/services/ServicesGridEditor.tsx:372-376 | renumbering keeps the ids in place |
| ServicesGridEditing.RemoveServiceSpec | cms/frontend/src/components/services/ServicesGridEditor.tsx:314-321 | after a removal no service has the id, the others keep their relative order and are numbered, and with unique ids exactly one service goes |
| ServicesGridEditing.HandleDrop | cms/frontend/src/components/services/ServicesGridEditor.tsx:353-376 | the copy-splice-splice-renumber steps give exactly the specified drop |
| ServicesGridEditing.DroppedSpec | cms/frontend/src/components/services/ServicesGridEditor.tsx:358-376 | a drop puts the dragged service at the drop index, keeps the others in relative order, loses and repeats no id, and renumbers; a drop onto its own place changes nothing |
| ClientsEditing.UpdateClientOrder | cms/frontend/src/components/services/ClientsEditor.tsx:362-367 | the result is numbered from one and differs from the input only in the orders |
| ClientsEditing.UpdateClientOrderKeeps | cms/frontend/src/components/services/ClientsEditor.tsx:362-367 | renumbering keeps the ids in place and leaves a list already numbered from one as it is |
| ClientsEditing.FilteredClientsSpec | cms/frontend/src/components/services/ClientsEditor.tsx:370-379 | the shown list keeps the clients' order and holds exactly the clients whose lower-cased name or description contains the lower-cased search, in the chosen industry and status; with no search and both filters at `all` it is the whole list |
| ClientsEditing.OfIndustrySpec | cms/frontend/src/components/services/ClientsEditor.tsx:382-388 | an industry's group holds exactly the clients of that industry, in list order |
| ClientsEditing.IndustriesAreGroups | cms/frontend/src/components/services/ClientsEditor.tsx:382-388 | an industry has a group exactly when some client has it |
| ClientsEditing.ClientsByIndustry | cms/frontend/src/components/services/ClientsEditor.tsx:382-388 | the `reduce` gives one key per industry that occurs, and each key's list is exactly that industry's clients in list order |
| ClientsEditing.ValidateClientForm | cms/frontend/src/components/services/ClientsEditor.tsx:391-411 | name Required exactly when blank and TooLong(100) when trimmed longer than 100; description the same with 300; industry Required exactly when empty; no error exactly when all three hold |
| ClientsEditing.AddClient | cms/frontend/src/components/services/ClientsEditor.tsx:481-502 | refused (with the form's errors) exactly when the form has an error; otherwise the old clients are kept and one client is appended with the new id, trimmed texts, the industry, the flag and order length + 1 |
| ClientsEditing.AppendKeepsNumbering | cms/frontend/src/components/services/ClientsEditor.tsx:489-497 | appending a client ordered one past the length keeps the list numbered from one |
| ClientsEditing.AddClientKeepsNumbering | cms/frontend/src/components/services/ClientsEditor.tsx:481-502 | adding to a list numbered from one keeps it numbered from one |
| ClientsEditing.UpdateClient | cms/frontend/src/components/services/ClientsEditor.tsx:537-558 | nothing happens without a client being edited; a form with errors is refused with them; otherwise exactly the clients with the edited id get the trimmed texts, the industry and the flag, and ids and orders stay |
| ClientsEditing.UpdateClientKeeps | cms/frontend/src/components/services/ClientsEditor.tsx:547-558 | an update keeps every id in its place and a numbered list numbered |
| ClientsEditing.ToggleActive | cms/frontend/src/components/services/ClientsEditor.tsx:463-466 | only the `isActive` flag of the clients with that id changes, to the given value |
| ClientsEditing.ToggleActiveRestores | cms/frontend/src/components/services/ClientsEditor.tsx:463-466 | with unique ids, setting a client's flag back restores the list, and the ids never move |
| ClientsEditing.RemoveClientSpec | cms/frontend/src/components/services/ClientsEditor.tsx:585-590 | after a removal no client has the id, the others keep their relative order and are numbered from one, and with unique ids exactly one client goes |
| ClientsEditing.DragEndSpec | cms/frontend/src/components/services/ClientsEditor.tsx:439-447 | a drag onto another client moves the dragged client to that client's index with `arrayMove`, keeps every id (moved), and numbers the list from one |
| NotionEditing.FilterEntriesSpec | cms/frontend/src/components/NotionEditor.tsx:40-43 | the menu's filter keeps the table's order and holds exactly the entries whose lower-cased label or description contains the lower-cased filter; an empty filter keeps every entry |
| NotionEditing.MenuEntryMatches | cms/frontend/src/components/NotionEditor.tsx:40-43 | every block type the menu lists matches the filter |
| NotionEditing.MenuEntriesInOrder | cms/frontend/src/components/NotionEditor.tsx:28-43 | the menu lists the block types in the table's order |
| NotionEditing.MenuListsEveryMatch | cms/frontend/src/components/NotionEditor.tsx:28-43 | every block type whose label or description contains the filter is listed |
| NotionEditing.MenuListsAllWhenUnfiltered | cms/frontend/src/components/NotionEditor.tsx:28-43 | with an empty filter the menu lists all six block types |
| NotionEditing.Merge | cms/frontend/src/components/NotionEditor.tsx:284-286 | the spread keeps the id and takes each field the update sets, keeping the others |
| NotionEditing.UpdateBlocks | cms/frontend/src/components/NotionEditor.tsx:281-288 | the ids stay in place, blocks with another id are unchanged and the blocks with that id get the update merged in |
| NotionEditing.UpdateBlocksIdempotent | cms/frontend/src/components/NotionEditor.tsx:281-288 | applying the same update twice is applying it once |
| NotionEditing.IndexOfId | cms/frontend/src/components/NotionEditor.tsx:291 | `findIndex`: -1 exactly when no block has the id, otherwise the first block with it |
| NotionEditing.InsertAfterSpec | cms/frontend/src/components/NotionEditor.tsx:290-297 | the new block sits right after the first block with the id (first when there is none), the list grows by one, and taking it out again gives back the list |
| NotionEditing.RemoveBlocksSpec | cms/frontend/src/components/NotionEditor.tsx:302-306 | a single block is never removed; with two or more the id is gone |
| NotionEditing.RemoveBlocksKeepsOrder | cms/frontend/src/components/NotionEditor.tsx:305 | the blocks left keep their order |
| NotionEditing.RemoveBlocksShortens | cms/frontend/src/components/NotionEditor.tsx:302-306 | with unique ids, removing a block that exists leaves one block fewer and never an empty editor |
| NotionEditing.FocusAfterRemoveSpec | cms/frontend/src/components/NotionEditor.tsx:308-313 | the focus goes to the block before the removed one when there is one, always to a block that stays, and is left alone only when every block had the removed id |
| NotionEditing.FocusStays | cms/frontend/src/components/NotionEditor.tsx:308-313 | a block whose id is not the removed one is among those left |
| NotionEditing.TypeChangeSpec | cms/frontend/src/components/NotionEditor.tsx:326-333 | choosing a type sets it and keeps the id; the content is cleared except for an image, which keeps it |
| NotionEditing.NotionEditor.constructor | cms/frontend/src/components/NotionEditor.tsx:361-365 | an empty list is replaced by one empty paragraph; the focus and the menu start empty and closed |
| NotionEditing.NotionEditor.UpdateBlock | cms/frontend/src/components/NotionEditor.tsx:281-288 | the blocks become the updated list; focus and menu unchanged |
| NotionEditing.NotionEditor.AddBlockAfter | cms/frontend/src/components/NotionEditor.tsx:290-299 | the given block, or a new empty paragraph, is inserted after the block with the id and focused |
| NotionEditing.NotionEditor.RemoveBlock | cms/frontend/src/components/NotionEditor.tsx:301-314 | the last block stays; otherwise the blocks with the id go and the focus moves as specified, or stays when there is nowhere to go |
| NotionEditing.NotionEditor.OpenMenu | cms/frontend/src/components/NotionEditor.tsx:316-323 | the menu opens for the block with an empty filter; blocks and focus unchanged |
| NotionEditing.NotionEditor.SelectBlockType | cms/frontend/src/components/NotionEditor.tsx:325-336 | when the menu belongs to a block, that block takes the type change and is focused; the menu closes either way |
| TestimonialsEditing.SectionErrors | cms/frontend/src/components/services/TestimonialsEditor.backup.tsx:303-311 | the `forEach` fills exactly the error map of the report's testimonials issues |
| TestimonialsEditing.ErrorMapKeys | cms/frontend/src/components/services/TestimonialsEditor.backup.tsx:305-309 | a field has an entry exactly when some testimonials issue names it |
| TestimonialsEditing.ErrorMapLastWins | cms/frontend/src/components/services/TestimonialsEditor.backup.tsx:305-309 | a field's entry is the code of the last testimonials issue naming it |
| TestimonialsEditing.TextError | cms/frontend/src/components/services/TestimonialsEditor.backup.tsx:337-343 | the text is Required exactly when blank, TooShort(10) when trimmed shorter than 10, TooLong(1000) when trimmed longer than 1000, and has no error exactly when trimmed it is 10 to 1000 characters |
| TestimonialsEditing.OptionalAtMost | cms/frontend/src/components/services/TestimonialsEditor.backup.tsx:357-359 | an optional field has an error (TooLong) exactly when trimmed it is longer than the limit |
| TestimonialsEditing.UrlError | cms/frontend/src/components/services/TestimonialsEditor.backup.tsx:361-367 | the project URL has an error (InvalidUrl) exactly when it is not blank and does not parse |
| TestimonialsEditing.FormErrorsEmptyIff | cms/frontend/src/components/services/TestimonialsEditor.backup.tsx:334-374 | a form passes exactly when every field keeps to its rule: text 10 to 1000, author name 1 to 100, title 1 to 150, company and project name at most 100 (all trimmed), and a URL that parses when given |
| TestimonialsEditing.CheckText | cms/frontend/src/components/services/TestimonialsEditor.backup.tsx:337-343 | the text's `if` chain gives exactly the text's error |
| TestimonialsEditing.CheckRequired | cms/frontend/src/components/services/TestimonialsEditor.backup.tsx:345-355 | a required field's `if` chain gives exactly its Required or TooLong error |
| TestimonialsEditing.CheckOptional | cms/frontend/src/components/services/TestimonialsEditor.backup.tsx:357-371 | an optional field's check gives exactly its error |
| TestimonialsEditing.CheckUrl | cms/frontend/src/components/services/TestimonialsEditor.backup.tsx:361-367 | the URL's try/catch gives exactly its error |
| TestimonialsEditing.ValidateTestimonialForm | cms/frontend/src/components/services/TestimonialsEditor.backup.tsx:334-374 | the field-by-field checks give exactly the form's errors |
| TestimonialsEditing.FromValidFormWellFormed | cms/frontend/src/components/services/TestimonialsEditor.backup.tsx:448-470 | a form that passes becomes, trimmed, a well-formed testimonial |
| TestimonialsEditing.AddTestimonial | cms/frontend/src/components/services/TestimonialsEditor.backup.tsx:448-477 | refused with the errors exactly when the form has one; otherwise exactly the trimmed testimonial with order length + 1 is appended |
| TestimonialsEditing.AppendKeeps | cms/frontend/src/components/services/TestimonialsEditor.backup.tsx:456-477 | appending a well-formed testimonial ordered one past the length keeps the list well formed and numbered |
| TestimonialsEditing.AddTestimonialKeeps | cms/frontend/src/components/services/TestimonialsEditor.backup.tsx:448-477 | adding keeps every testimonial well formed and the list numbered from one |
| TestimonialsEditing.Revised | cms/frontend/src/components/services/TestimonialsEditor.backup.tsx:517-535 | a testimonial after an update keeps its id and order |
| TestimonialsEditing.UpdateTestimonial | cms/frontend/src/components/services/TestimonialsEditor.backup.tsx:507-535 | nothing happens without a testimonial being edited; a form with errors is refused; otherwise exactly the testimonials with the edited id take the trimmed texts |
| TestimonialsEditing.UpdateTestimonialKeepsIds | cms/frontend/src/components/services/TestimonialsEditor.backup.tsx:517-535 | an update keeps every id in its place and a numbered list numbered |
| TestimonialsEditing.UpdateTestimonialKeepsWellFormed | cms/frontend/src/components/services/TestimonialsEditor.backup.tsx:507-535 | an update keeps every testimonial well formed |
| TestimonialsEditing.UpdateTestimonialOrder | cms/frontend/src/components/services/TestimonialsEditor.backup.tsx:326-331 | the result is numbered from one and differs from the input only in the orders |
| TestimonialsEditing.UpdateTestimonialOrderKeeps | cms/frontend/src/components/services/TestimonialsEditor.backup.tsx:326-331 | renumbering keeps the ids in place and every testimonial well formed |
| TestimonialsEditing.RemoveTestimonialSpec | cms/frontend/src/components/services/TestimonialsEditor.backup.tsx:560-565 | after a removal no testimonial has the id, the others keep their relative order and are numbered from one, and with unique ids exactly one goes |
| TestimonialsEditing.DragEndSpec | cms/frontend/src/components/services/TestimonialsEditor.backup.tsx:424-432 | a drag onto another testimonial moves the dragged one to that one's index with `arrayMove`, keeps every id (moved), and numbers the list from one |
| HomepageRoutes.TransformSectionDataToDatabase | cms/backend/src/routes/homepage.ts:265-319 | an unknown section is refused with `Unknown section: <name>`; a known one gives exactly its fields in order, with display orders 1..n, JSON fields stringified and a falsy hero video URL stored as `''` |
| HomepageRoutes.HeroWithoutVideoStoresEmpty | cms/backend/src/routes/homepage.ts:270-274 | a hero without a video URL stores `''` as its third row |
| HomepageRoutes.CheckMediaFilename | cms/backend/src/routes/homepage.ts:518-533 | an empty filename is missing; a filename passes exactly when it has no `..`, `/` or `\`, and then it is used as given |
| HomepageRoutes.TraversalIffContains | cms/backend/src/routes/homepage.ts:528 | a filename is free of traversal at every position exactly when it contains none of `..`, `/` and `\` |
| HomepageRoutes.Ids | cms/backend/src/routes/homepage.ts:738 | the ids of the logos, in place |
| HomepageRoutes.Orders | cms/backend/src/routes/homepage.ts:610-612 | the orders of the logos, in place |
| HomepageRoutes.NextId | cms/backend/src/routes/homepage.ts:603-607 | the new id is above every logo id, 1 when there are no logos, and otherwise one past an existing id |
| HomepageRoutes.NextOrder | cms/backend/src/routes/homepage.ts:609-612 | the new order is above every order, 1 when there are no logos, and otherwise one past an existing order |
| HomepageRoutes.AddLogo | cms/backend/src/routes/homepage.ts:580-623 | a missing or blank name is refused first, then a URL that is not `http(s)://` plus a character; otherwise the old logos are kept and one logo with the trimmed texts, a fresh id and the next order is appended |
| HomepageRoutes.RenumberLogos | cms/backend/src/routes/homepage.ts:677-682 | every logo keeps everything but its order, which becomes its position plus one |
| HomepageRoutes.RemoveLogo | cms/backend/src/routes/homepage.ts:652-682 | a NaN id is refused, an unknown id is not found; otherwise no logo with the id is left and the others are renumbered from 1 in order |
| HomepageRoutes.RemoveLogoShortens | cms/backend/src/routes/homepage.ts:668-682 | with unique ids, removing a logo that exists leaves one fewer, numbered 1..n-1 |
| HomepageRoutes.LastWithId | cms/backend/src/routes/homepage.ts:759 | the `Map` built from the logos gives, for a known id, the last logo carrying it |
| HomepageRoutes.Numbers | cms/backend/src/routes/homepage.ts:724-731 | the ids of a request of numbers, in place |
| HomepageRoutes.ReorderChecks | cms/backend/src/routes/homepage.ts:716-756 | the checks pass exactly for a non-empty array of numbers that names only existing logos and every existing logo; an empty or missing array is the first refusal |
| HomepageRoutes.MembershipChecks | cms/backend/src/routes/homepage.ts:737-756 | unknown ids are refused first, then logos left out of the request; the checks pass exactly when neither happens |
| HomepageRoutes.Reordered | cms/backend/src/routes/homepage.ts:759-765 | logo i of the result is the logo the map gives for the i-th requested id, numbered i + 1 |
| HomepageRoutes.ReorderLogosAsWritten | cms/backend/src/routes/homepage.ts:711-765 | the handler as written: the checks decide, and the result is the requested ids mapped to their logos |
| HomepageRoutes.Request | cms/backend/src/routes/homepage.ts:713 | a JSON array holding exactly the given numbers |
| HomepageRoutes.ReorderAsWrittenDuplicates | cms/backend/src/routes/homepage.ts:737-765 | a request naming the first logo twice and then every logo passes every check, and the result holds that logo twice and one logo more than stored |
| HomepageRoutes.DuplicatedRequestPasses | cms/backend/src/routes/homepage.ts:716-756 | that request passes the handler's checks |
| HomepageRoutes.DuplicatedRequestMembers | cms/backend/src/routes/homepage.ts:737-756 | that request names only existing logos and every existing logo |
| HomepageRoutes.ReorderLogos | cms/backend/src/routes/homepage.ts:711-765 | the handler with a request that must also name each logo once: accepted exactly when the checks pass and no id repeats, and then numbered 1..n |
| HomepageRoutes.ReorderPermutes | cms/backend/src/routes/homepage.ts:737-765 | with unique logo ids an accepted reorder keeps exactly the same logos: same count, ids permuted |
| UploadDebugging.Keys | cms/frontend/src/services/DuplicateUploadDebugger.ts:394-399 | the keys of an object, in order |
| UploadDebugging.RedactComplete | cms/frontend/src/services/DuplicateUploadDebugger.ts:389-403 | after the redacting round trip every sensitive key, at any depth, holds `[REDACTED]` |
| UploadDebugging.RedactClean | cms/frontend/src/services/DuplicateUploadDebugger.ts:389-403 | data without a sensitive key comes back unchanged |
| UploadDebugging.RedactIdempotent | cms/frontend/src/services/DuplicateUploadDebugger.ts:389-403 | redacting twice is redacting once |
| UploadDebugging.SanitizeSpec | cms/frontend/src/services/DuplicateUploadDebugger.ts:389-403 | sanitized data has every secret hidden, is a fixed point of sanitizing, equals the input when clean, and keeps an object's keys in order; data the JSON round trip rejects becomes the `error`/`original` fallback object carrying `String(data)` |
| UploadDebugging.LogLevelOf | cms/frontend/src/services/DuplicateUploadDebugger.ts:405-412 | `error` exactly for error events, `warn` exactly for detections, `info` exactly for validations, `log` for the other four types |
| UploadDebugging.ErrorLogLevel | cms/frontend/src/services/DuplicateUploadDebugger.ts:414-416 | `warn` exactly for low and medium severity, `error` exactly for high and critical |
| UploadDebugging.Window | cms/frontend/src/services/DuplicateUploadDebugger.ts:134-136 | the trimmed log has length min(length, limit) and is the newest suffix of the log |
| UploadDebugging.WindowAppend | cms/frontend/src/services/DuplicateUploadDebugger.ts:131-136 | appending to a bounded log puts the new entry last, keeps the newest of the old entries in order, and below the limit just appends |
| UploadDebugging.SliceFrom | cms/frontend/src/services/DuplicateUploadDebugger.ts:292 | `slice(start)` gives a suffix of the array no longer than it |
| UploadDebugging.Recent | cms/frontend/src/services/DuplicateUploadDebugger.ts:291-300 | the intended recent entries: the newest `limit` in order, none for a limit that is not positive |
| UploadDebugging.RecentAgrees | cms/frontend/src/services/DuplicateUploadDebugger.ts:291-300 | for a positive limit `slice(-limit)` gives exactly those entries |
| UploadDebugging.RecentZeroReturnsAll | cms/frontend/src/services/DuplicateUploadDebugger.ts:291-300 | `slice(-0)` returns every entry where none were meant, and a negative limit drops the oldest |
| UploadDebugging.CountOf | cms/frontend/src/services/DuplicateUploadDebugger.ts:261-268 | a type's count never exceeds the number of events |
| UploadDebugging.CountAppend | cms/frontend/src/services/DuplicateUploadDebugger.ts:261-268 | one more event adds one to its own type's count and nothing to the others |
| UploadDebugging.CountsPartition | cms/frontend/src/services/DuplicateUploadDebugger.ts:261-268 | the counts of the seven types add up to the number of events |
| UploadDebugging.LastValue | cms/frontend/src/services/DuplicateUploadDebugger.ts:269-271 | a field's value is found exactly when the object has that key |
| UploadDebugging.Metrics | cms/frontend/src/services/DuplicateUploadDebugger.ts:260-288 | successful plus failed actions is the action count, failed is the error count, the error rate is 0 exactly when there are no actions or no errors, the average is 0 without processing events, and the last activity is the newest event's timestamp or `''` |
| UploadDebugging.MetricsBounded | cms/frontend/src/services/DuplicateUploadDebugger.ts:260-288 | detections, dialog opens, dialog closes and actions together never exceed the number of events |
| UploadDebugging.LoggedOnce | cms/frontend/src/services/DuplicateUploadDebugger.ts:119-136 | logging one event into a log below its limit adds one to that type's count only |
| UploadDebugging.Debugger.constructor | cms/frontend/src/services/DuplicateUploadDebugger.ts:40-48 | a new debugger is enabled, with empty logs, over what `localStorage` already holds |
| UploadDebugging.Debugger.LogEvent | cms/frontend/src/services/DuplicateUploadDebugger.ts:119-153 | nothing when disabled; otherwise the sanitized event (the fallback object for unserialisable data) is appended to the in-memory log (kept to 1000), and then to the stored copy (kept to 500) unless the message for `null` data of a non-`error` event throws, which it reports; no kept event holds a secret |
| UploadDebugging.MessageThrows | cms/frontend/src/services/DuplicateUploadDebugger.ts:418-433 | the message throws exactly for `null` data of an event type other than `error`, whose case reads no property of the data |
| UploadDebugging.Debugger.PersistEvent | cms/frontend/src/services/DuplicateUploadDebugger.ts:437-451 | the stored events get the event and are spliced down to the last 500 |
| UploadDebugging.Debugger.LogError | cms/frontend/src/services/DuplicateUploadDebugger.ts:158-189 | logged even when disabled: the error is appended to the in-memory log (kept to 100) and the stored copy (kept to 100) |
| UploadDebugging.Debugger.GetRecentEvents | cms/frontend/src/services/DuplicateUploadDebugger.ts:291-293 | the newest `limit` events in order (see Findings for a limit that is not positive) |
| UploadDebugging.Debugger.GetRecentErrors | cms/frontend/src/services/DuplicateUploadDebugger.ts:298-300 | the newest `limit` errors in order (see Findings) |
| UploadDebugging.Debugger.ClearDebugData | cms/frontend/src/services/DuplicateUploadDebugger.ts:323-329 | both logs and both stored copies are emptied, so the metrics are all zero |
| UploadDebugging.Debugger.SetEnabled | cms/frontend/src/services/DuplicateUploadDebugger.ts:334-337 | only the enabled flag changes |
| SearchService.FilterByType | cms/frontend/src/services/SearchService.ts:162-165 | a type filter other than `all` keeps exactly the items of that type, in order |
| SearchService.FilterByCategory | cms/frontend/src/services/SearchService.ts:167-170 | a category filter keeps exactly the items of that category, in order |
| SearchService.FilterByStatus | cms/frontend/src/services/SearchService.ts:172-175 | a status filter keeps exactly the items with that status, in order |
| SearchService.FilterByStart | cms/frontend/src/services/SearchService.ts:178-185 | a start date keeps the undated items and those created on or after it |
| SearchService.FilterByEnd | cms/frontend/src/services/SearchService.ts:187-193 | an end date keeps the undated items and those created on or before it |
| SearchService.ApplyFilters | cms/frontend/src/services/SearchService.ts:159-197 | the five filters in sequence leave exactly the items every given filter admits, in their original order |
| SearchService.FilteredSubsequence | cms/frontend/src/services/SearchService.ts:159-197 | the filtered items are a subsequence of the items, and an item is kept iff it is present and admitted |
| SearchService.NoFiltersKeepAll | cms/frontend/src/services/SearchService.ts:159-197 | with no filter given every item is kept |
| SearchService.TermPointsZero | cms/frontend/src/services/SearchService.ts:241-255 | the per-term points are zero iff no term occurs in the title or the description, and at most 8 per term |
| SearchService.RelevanceZero | cms/frontend/src/services/SearchService.ts:199-281 | an item scores 0 iff the query and every term miss both texts, it earns no recency bonus, and it is not a published project |
| SearchService.StartsWithContains | cms/frontend/src/services/SearchService.ts:224-232 | a title that starts with the query also contains it, so the prefix bonus always comes with the partial-match bonus |
| SearchService.ContainsSelf | cms/frontend/src/services/SearchService.ts:213-232 | a text contains itself, so an exact match also earns the partial-match points |
| SearchService.ExactTitleScore | cms/frontend/src/services/SearchService.ts:213-232 | a title equal to the query scores at least 50 + 25 + 15 |
| SearchService.RelevanceBound | cms/frontend/src/services/SearchService.ts:199-281 | the score is at most 138 plus 8 per term |
| SearchService.TitleMatches | cms/frontend/src/services/SearchService.ts:212-246 | the title matches hold only the title, at most three times, and are empty iff neither the query nor any term occurs in the title |
| SearchService.DescriptionMatches | cms/frontend/src/services/SearchService.ts:218-253 | the description matches hold only the description, at most twice, and are empty iff neither the query nor any term occurs in it |
| SearchService.TermStep | cms/frontend/src/services/SearchService.ts:241-255 | one more term adds its 5 and 3 points, and widens the any-term-matches conditions by that term |
| SearchService.MatchStep | cms/frontend/src/services/SearchService.ts:241-255 | pushing a text only when it is not yet listed turns the phrase matches into the matches after the term loop |
| SearchService.ScorePhrase | cms/frontend/src/services/SearchService.ts:212-238 | the exact, prefix and partial checks give the phrase points and push the title or description once per hit |
| SearchService.Bonuses | cms/frontend/src/services/SearchService.ts:257-273 | the recency bonus (5 under 7 days, 2 under 30) plus 3 for a published project |
| SearchService.ScoreTerms | cms/frontend/src/services/SearchService.ts:241-255 | the term loop adds the term points and pushes each text at most once beyond the phrase matches |
| SearchService.ScoreItem | cms/frontend/src/services/SearchService.ts:201-279 | scoring one item gives its result with the relevance and match lists of the specification |
| SearchService.TextSearch | cms/frontend/src/services/SearchService.ts:199-282 | a result is present iff it is the scored form of an item with a score above 0; there are no more results than items |
| SearchService.SortResults | cms/frontend/src/services/SearchService.ts:284-299 | the sorted results are a permutation of the results, ordered by the key the sort field and direction select, and results with equal keys keep their order (a stable sort) |
| SearchService.RelevanceFirst | cms/frontend/src/services/SearchService.ts:296-298 | by default the results come in non-increasing relevance |
| SearchService.QueryTerms | cms/frontend/src/services/SearchService.ts:136 | every query term is longer than one character and holds no white space |
| SearchService.QueryTermsSplit | cms/frontend/src/services/SearchService.ts:136 | the terms of text cut at a white-space character are the terms of each side, in order |
| SearchService.QueryTermsOfRun | cms/frontend/src/services/SearchService.ts:136 | a run without white space is one term iff longer than one character; white space alone gives none |
| Text.WordsSplit | cms/frontend/src/services/SearchService.ts:136 | `split(/\s+/)` without its empty pieces cuts at every white-space character: the words of each side, in order |
| Text.WordsOfWord | cms/frontend/src/services/SearchService.ts:136 | a non-empty run without white space is a single word |
| Text.WordsOfBlank | cms/frontend/src/services/SearchService.ts:136 | white space alone has no words |
| SearchService.SortedMembers | cms/frontend/src/services/SearchService.ts:284-299 | sorting neither adds nor drops a result |
| SearchService.PipelineMembers | cms/frontend/src/services/SearchService.ts:145-152 | filtering, scoring and sorting yield exactly the admitted items scored above 0 |
| SearchService.SearchResultsSound | cms/frontend/src/services/SearchService.ts:128-156 | a blank query finds nothing; otherwise the results are exactly the admitted items that score above 0 for the normalised query |
| SearchService.Keywords | cms/frontend/src/services/SearchService.ts:318-321 | the keywords are distinct, and a word is a keyword iff it is longer than three characters and a word of some description |
| SearchService.GroupsOrdered | cms/frontend/src/services/SearchService.ts:334-340 | the items that start with the query, sorted by rank, then the others, sorted by rank, are in the comparator's order: prefix matches first and the `localeCompare` rank within each group |
| SearchService.Arranged | cms/frontend/src/services/SearchService.ts:331-341 | the arranged matches are a permutation of the matches, prefix matches first, each group in rank order |
| SearchService.ChosenSpec | cms/frontend/src/services/SearchService.ts:331-343 | at most five distinct suggestions in the comparator's order, each a source containing the lower-cased query; fewer than five only when every such source is chosen, and no such source left out comes before a chosen one |
| Lists.FirstDistinctBest | cms/frontend/src/services/SearchService.ts:343 | the first n distinct elements of an ordered list are fewer than n only when they are all of them, and every element left out comes after every one kept |
| SearchService.ArrangedMembers | cms/frontend/src/services/SearchService.ts:331-343 | every deduplicated suggestion is a source that contains the query |
| SearchService.SuggestionsSpec | cms/frontend/src/services/SearchService.ts:302-344 | a blank query suggests nothing; otherwise at most five distinct suggestions in the comparator's order, each a title, keyword or past search containing the query, fewer than five only when every such source is suggested, and none left out ranks before one suggested |
| SearchService.Remembered | cms/frontend/src/services/SearchService.ts:362-366 | the new history starts with the query, holds it once, keeps at most ten entries, keeps the others in order, and its length is fixed by how many others there were |
| SearchService.Popularized | cms/frontend/src/services/SearchService.ts:382-390 | a known query leaves the popular list alone; a new one is put in front of the first entries of the list, ten entries at most and exactly min(length + 1, 10); afterwards the query is popular |
| SearchService.SearchStore.constructor | cms/frontend/src/services/SearchService.ts:346-376 | a new store has no history and no stored popular list |
| SearchService.SearchStore.GetSearchHistory | cms/frontend/src/services/SearchService.ts:373-376 | returns the stored history, empty when none |
| SearchService.SearchStore.GetPopularSearches | cms/frontend/src/services/SearchService.ts:346-360 | returns the stored popular list, or the five defaults |
| SearchService.SearchStore.ClearSearchHistory | cms/frontend/src/services/SearchService.ts:378-380 | empties the history and leaves the popular list |
| SearchService.SearchStore.UpdatePopularSearches | cms/frontend/src/services/SearchService.ts:382-390 | stores the popular list of `Popularized` and leaves the history |
| SearchService.SearchStore.SaveSearchHistory | cms/frontend/src/services/SearchService.ts:362-371 | stores the remembered history and then the popularized list |
| SearchService.SearchStore.Search | cms/frontend/src/services/SearchService.ts:128-156 | returns the specified results; a blank query changes nothing stored, any other records the raw query in both lists |
| SearchService.SearchStore.GetSuggestions | cms/frontend/src/services/SearchService.ts:302-344 | returns the specified suggestions over the current history |
| MediaSelection.SelectorConfigSpec | cms/frontend/src/components/media/MediaSelector.tsx:175-200 | one specific type keeps its own entry; otherwise the allowed MIME types and extensions are those of the listed types, the description is 'Médias autorisés', and the size limit is the prop, or 50 MB when it is missing or 0 |
| MediaSelection.PushEach | cms/frontend/src/components/media/MediaSelector.tsx:191-197 | pushing each type's lists in turn gives the concatenation of the types' MIME types and of their extensions |
| MediaSelection.GetValidationConfig | cms/frontend/src/components/media/MediaSelector.tsx:175-200 | the picker's configuration is the one specified for its allowed types and size prop |
| MediaSelection.AnyAccepts | cms/frontend/src/components/media/MediaSelector.tsx:262-268 | true iff some allowed type accepts the MIME type |
| MediaSelection.WildcardAccepts | cms/frontend/src/components/media/MediaSelector.tsx:264-266 | a wildcard `family/*` accepts exactly the MIME types starting with `family/` |
| MediaSelection.ExactAccepts | cms/frontend/src/components/media/MediaSelector.tsx:262-268 | allowed types without a star accept exactly themselves |
| MediaSelection.SpecificTypesExact | cms/frontend/src/components/media/MediaSelector.tsx:81-130 | the entries of the specific types hold no wildcard |
| MediaSelection.ValidateFile | cms/frontend/src/components/media/MediaSelector.tsx:255-276 | a file over the size limit is refused with that limit; otherwise it passes iff `any` is allowed or an allowed type accepts its MIME type; a type refusal carries the description |
| MediaSelection.SingleTypeValidation | cms/frontend/src/components/media/MediaSelector.tsx:175-181 | a single-type picker takes a file iff it is within that type's size and one of its MIME types |
| MediaSelection.DefaultPickerTakesAnyType | cms/frontend/src/components/media/MediaSelector.tsx:255-276 | the default `any` picker takes every file within the size limit |
| MediaSelection.FilterMediaThreeFilters | cms/frontend/src/components/media/MediaSelector.tsx:222-253 | `filterMedia` is the three conditional filters in a row |
| MediaSelection.ThreeFiltersShown | cms/frontend/src/components/media/MediaSelector.tsx:222-253 | the three filters in a row keep exactly the shown items |
| MediaSelection.FilterMediaSpec | cms/frontend/src/components/media/MediaSelector.tsx:222-253 | the filtered library keeps the library's order and holds exactly the items matching the search, the type filter and the allowed types |
| MediaSelection.HandleMediaSelect | cms/frontend/src/components/media/MediaSelector.tsx:356-369 | in multiple mode only the clicked id's membership flips and nothing is chosen; in single mode the selection stays and the item is chosen |
| MediaSelection.SelectTwiceRestores | cms/frontend/src/components/media/MediaSelector.tsx:356-366 | clicking the same item twice in multiple mode restores the selection |
| MediaSelection.ConfirmSelectionSpec | cms/frontend/src/components/media/MediaSelector.tsx:372-378 | the confirmed items are, in library order, exactly the library items whose ids are selected |
| MediaSelection.PagesStayInRange | cms/frontend/src/components/media/MediaSelector.tsx:562-580 | the page buttons keep the page within 1 and the page count, moving by one where there is room |
| MediaValidation.ContentTypeNamed | cms/backend/src/services/mediaValidationService.ts:28-105 | a name finds an entry iff it is one of the six keys, and the entry found carries that name |
| MediaValidation.NamesRoundTrip | cms/backend/src/services/mediaValidationService.ts:28-105 | every content type is found again under its own name |
| MediaValidation.Config | cms/backend/src/services/mediaValidationService.ts:28-105 | every table entry has a positive size limit, some allowed MIME type, and minimum dimensions exactly when it has maximum ones, no larger than them |
| MediaValidation.ConfigFor | cms/backend/src/services/mediaValidationService.ts:310-312 | the configuration exists iff the content type is one of the table's keys |
| MediaValidation.WarningTexts | cms/backend/src/services/mediaValidationService.ts:209-228 | the texts of the warnings, one per warning, in order |
| MediaValidation.ImageCheck | cms/backend/src/services/mediaValidationService.ts:181-236 | the image check's only errors are the minimum size and unreadable metadata, and it gives no advice |
| MediaValidation.VideoCheck | cms/backend/src/services/mediaValidationService.ts:241-267 | the video check's only error is an unreadable file, and its only advice is the MP4 and duration advice |
| MediaValidation.MediaChecks | cms/backend/src/services/mediaValidationService.ts:142-161 | the image and video checks add only their own errors and the video advice |
| MediaValidation.UnknownTypeRejected | cms/backend/src/services/mediaValidationService.ts:118-124 | an unknown content type gives exactly one error, no warning, no advice, and is invalid |
| MediaValidation.SizeAndMimeChecked | cms/backend/src/services/mediaValidationService.ts:129-139 | the size error is reported iff the file is over the limit, the MIME error iff the type is not allowed, and either makes the file invalid |
| MediaValidation.ImageNotVideo | cms/backend/src/services/mediaValidationService.ts:142-161 | an image MIME type never runs the video checks |
| MediaValidation.ImageChecksOnly | cms/backend/src/services/mediaValidationService.ts:142-161 | for an image the checks are the image checks alone |
| MediaValidation.DimensionsChecked | cms/backend/src/services/mediaValidationService.ts:200-211 | an image below the minimum is an error, one above the maximum only a warning, and the metadata is reported |
| MediaValidation.LargeVideoWarned | cms/backend/src/services/mediaValidationService.ts:251-256 | a video above 50 MB is warned about and still valid iff its size and MIME type are allowed |
| MediaValidation.ContentAdviceFormats | cms/backend/src/services/mediaValidationService.ts:272-305 | the SVG advice is given iff a logo is not SVG, the WebP advice iff an image is not WebP |
| MediaValidation.FormatAdvice | cms/backend/src/services/mediaValidationService.ts:163-165 | in a full report the SVG and WebP advice appear under the same conditions |
| MediaValidation.ValidateImage | cms/backend/src/services/mediaValidationService.ts:181-236 | the warnings pushed one check after the other are the specified image check, with the metadata when it could be read |
| MediaValidation.DimensionWarnings | cms/backend/src/services/mediaValidationService.ts:207-219 | the maximum-size warning and then the aspect-ratio warning, each exactly when its condition holds |
| MediaValidation.ValidateVideo | cms/backend/src/services/mediaValidationService.ts:241-267 | the video check is the specified one |
| MediaValidation.AddContentSpecificRecommendations | cms/backend/src/services/mediaValidationService.ts:272-305 | the type's fixed advice is appended to what was gathered |
| MediaValidation.ValidateMedia | cms/backend/src/services/mediaValidationService.ts:111-176 | the report is the specified one, and the file is valid iff no error was reported |
| MediaValidation.CheckSizeAndMime | cms/backend/src/services/mediaValidationService.ts:129-139 | the size and MIME errors in that order, and the flag stays set iff there is none |
| MediaValidation.CheckMedia | cms/backend/src/services/mediaValidationService.ts:141-161 | the image checks for an image, the video checks for a video, with the metadata of an image |
| MediaValidation.CheckFile | cms/backend/src/services/mediaValidationService.ts:126-168 | the report of a readable file is the specified one, valid iff it has no error |
| MediaValidation.AnyCallsForOptimization | cms/backend/src/services/mediaValidationService.ts:350-354 | true iff some warning mentions dimensions, size or quality |
| MediaValidation.ShouldOptimize | cms/backend/src/services/mediaValidationService.ts:345-357 | true iff the type is known, it compresses, and some warning mentions dimensions, size or quality |
| MediaValidation.AboveMaximumCallsForOptimization | cms/backend/src/services/mediaValidationService.ts:209 | the maximum-size warning mentions dimensions |
| MediaValidation.LowDpiCallsForOptimization | cms/backend/src/services/mediaValidationService.ts:228 | the low-density warning mentions quality |
| MediaValidation.ImageWarningTexts | cms/backend/src/services/mediaValidationService.ts:142-161 | the warnings of an image report are those of the image check |
| MediaValidation.TextCallsForOptimization | cms/backend/src/services/mediaValidationService.ts:350-354 | one warning calling for optimisation is enough |
| MediaValidation.ImageWarningsCallForOptimization | cms/backend/src/services/mediaValidationService.ts:207-229 | an image above the maximum or of low density gets a warning that calls for optimisation |
| MediaValidation.FlaggedImageOptimized | cms/backend/src/services/mediaValidationService.ts:345-357 | such an image of a compressing type is to be optimised |
| MediaValidation.GetOptimizationRecommendations | cms/backend/src/services/mediaValidationService.ts:362-381 | nothing for an unknown type; otherwise one line per optimisation the type performs, in the order compress, thumbnail, responsive |
| MediaValidation.ValidateAll | cms/backend/src/services/mediaValidationService.ts:335-340 | one report per file, in order, each the file's own report |
| MemoryManagement.UrlsOf | cms/frontend/src/components/UniversalEditor/services/MemoryManager.ts:323-326 | the URLs of the entries, in iteration order |
| MemoryManagement.Remove | cms/frontend/src/components/UniversalEditor/services/MemoryManager.ts:94-99 | deleting a URL keeps exactly the entries with other URLs |
| MemoryManagement.RemoveFacts | cms/frontend/src/components/UniversalEditor/services/MemoryManager.ts:94-99 | deleting an absent URL changes nothing; deleting keeps the URLs distinct and removes one entry for a registered URL |
| MemoryManagement.SetUrl | cms/frontend/src/components/UniversalEditor/services/MemoryManager.ts:79-82 | setting a URL keeps the URLs distinct, holds the new entry and the others unchanged, and grows the map only for a new URL |
| MemoryManagement.WithoutAll | cms/frontend/src/components/UniversalEditor/services/MemoryManager.ts:289-291 | revoking a list of URLs keeps exactly the entries whose URL is not in it, keeping the URLs distinct |
| MemoryManagement.StillRegistered | cms/frontend/src/components/UniversalEditor/services/MemoryManager.ts:289-291 | a registered URL not in the revoked list stays registered |
| MemoryManagement.WithoutAllCount | cms/frontend/src/components/UniversalEditor/services/MemoryManager.ts:289-291 | revoking distinct registered URLs removes exactly one entry each |
| MemoryManagement.ExpiredUrls | cms/frontend/src/components/UniversalEditor/services/MemoryManager.ts:279-287 | every collected URL is registered, and every entry with `timestamp <= now` is collected |
| MemoryManagement.ExpiredUrlsDistinct | cms/frontend/src/components/UniversalEditor/services/MemoryManager.ts:279-287 | with distinct URLs, the collected URLs are distinct and name only expired entries |
| MemoryManagement.ExpiredGone | cms/frontend/src/components/UniversalEditor/services/MemoryManager.ts:279-296 | after the expired cleanup exactly the entries that have not expired are left |
| MemoryManagement.VictimsOldest | cms/frontend/src/components/UniversalEditor/services/MemoryManager.ts:302-318 | the URLs picked are `count` (or all) distinct registered URLs, none expiring later than any entry left |
| MemoryManagement.OldestRemoved | cms/frontend/src/components/UniversalEditor/services/MemoryManager.ts:302-318 | the oldest cleanup removes `count` entries (or all), and each removed one expires no later than each kept one |
| MemoryManagement.RegistrationSpec | cms/frontend/src/components/UniversalEditor/services/MemoryManager.ts:74-88 | registration keeps distinct URLs and at most 50 entries; an untracked URL changes nothing; a tracked URL that was known or found room is kept with its expiry |
| MemoryManagement.GroupIndex | cms/frontend/src/components/UniversalEditor/services/MemoryManager.ts:32 | where a group is, if anywhere |
| MemoryManagement.TotalConcat | cms/frontend/src/components/UniversalEditor/services/MemoryManager.ts:364-367 | the listener count of two lists of groups is the sum of theirs |
| MemoryManagement.TotalSplit | cms/frontend/src/components/UniversalEditor/services/MemoryManager.ts:364-367 | the listener count splits around one group |
| MemoryManagement.AllListeners | cms/frontend/src/components/UniversalEditor/services/MemoryManager.ts:339-345 | all listeners, group after group, as many as the total count |
| MemoryManagement.AddListener | cms/frontend/src/components/UniversalEditor/services/MemoryManager.ts:108-122 | the listener is appended to its group (created when missing); the other groups are unchanged and the total grows by one |
| MemoryManagement.GroupIndexUpdate | cms/frontend/src/components/UniversalEditor/services/MemoryManager.ts:117-121 | updating a group in place moves no group |
| MemoryManagement.GroupIndexAppend | cms/frontend/src/components/UniversalEditor/services/MemoryManager.ts:114-116 | a new group is found at the end and the others where they were |
| MemoryManagement.CutIndex | cms/frontend/src/components/UniversalEditor/services/MemoryManager.ts:137-138 | after deleting a group it is gone and every other group is found unchanged |
| MemoryManagement.RemoveGroup | cms/frontend/src/components/UniversalEditor/services/MemoryManager.ts:129-140 | deleting a group removes it and its listeners from the total and leaves the other groups alone |
| MemoryManagement.MemoryManager.constructor | cms/frontend/src/components/UniversalEditor/services/MemoryManager.ts:28-43 | a new manager has nothing registered, is enabled, checks periodically and is active |
| MemoryManagement.MemoryManager.SetEnabled | cms/frontend/src/components/UniversalEditor/services/MemoryManager.ts:59-67 | the periodic check starts when enabling and stops when disabling; nothing else changes |
| MemoryManagement.MemoryManager.RevokeObjectUrl | cms/frontend/src/components/UniversalEditor/services/MemoryManager.ts:94-99 | only a registered URL is revoked and deleted |
| MemoryManagement.MemoryManager.RevokeEach | cms/frontend/src/components/UniversalEditor/services/MemoryManager.ts:289-291 | revoking distinct registered URLs in turn logs each and deletes each |
| MemoryManagement.MemoryManager.CleanupExpiredObjectUrls | cms/frontend/src/components/UniversalEditor/services/MemoryManager.ts:279-296 | the expired URLs are revoked in iteration order and deleted |
| MemoryManagement.MemoryManager.CleanupOldestObjectUrls | cms/frontend/src/components/UniversalEditor/services/MemoryManager.ts:302-318 | nothing for a count that is not positive or an empty map; otherwise the oldest `count` are revoked |
| MemoryManagement.MemoryManager.RegisterObjectUrl | cms/frontend/src/components/UniversalEditor/services/MemoryManager.ts:74-88 | the map and the revocation log become those of the registration, keeping the invariant |
| MemoryManagement.MemoryManager.RegisterEventListener | cms/frontend/src/components/UniversalEditor/services/MemoryManager.ts:108-122 | the listener joins its group; nothing else changes |
| MemoryManagement.MemoryManager.RemoveEventListeners | cms/frontend/src/components/UniversalEditor/services/MemoryManager.ts:129-140 | the group's listeners are detached in order and the group deleted |
| MemoryManagement.MemoryManager.CleanupAllObjectUrls | cms/frontend/src/components/UniversalEditor/services/MemoryManager.ts:323-334 | every URL is revoked in order and the map emptied |
| MemoryManagement.MemoryManager.RemoveAllEventListeners | cms/frontend/src/components/UniversalEditor/services/MemoryManager.ts:339-352 | every listener is detached, group after group, and the map emptied |
| MemoryManagement.MemoryManager.Cleanup | cms/frontend/src/components/UniversalEditor/services/MemoryManager.ts:145-168 | nothing when disabled and not forced; otherwise the expired URLs are revoked |
| MemoryManagement.MemoryManager.FullCleanup | cms/frontend/src/components/UniversalEditor/services/MemoryManager.ts:173-184 | all URLs revoked, all listeners detached, the cache emptied |
| MemoryManagement.MemoryManager.CheckMemoryUsage | cms/frontend/src/components/UniversalEditor/services/MemoryManager.ts:214-239 | idle after five minutes without activity; becoming idle or a heap above 150 MB triggers a cleanup |
| MemoryManagement.MemoryManager.UpdateActivity | cms/frontend/src/components/UniversalEditor/services/MemoryManager.ts:245-248 | activity records the time and clears idleness |
| MemoryManagement.MemoryManager.OnVisibilityChange | cms/frontend/src/components/UniversalEditor/services/MemoryManager.ts:258-266 | visible is activity; hidden makes the user idle and cleans up when enabled |
| MemoryManagement.MemoryManager.OnBlur | cms/frontend/src/components/UniversalEditor/services/MemoryManager.ts:270-273 | losing focus makes the user idle without cleanup |
| MemoryManagement.MemoryManager.GetStats | cms/frontend/src/components/UniversalEditor/services/MemoryManager.ts:357-377 | the counts of URLs, groups and listeners, the idleness and the idle time |
| MemoryManagement.CollectExpired | cms/frontend/src/components/UniversalEditor/services/MemoryManager.ts:279-287 | the first loop collects exactly the specified expired URLs |
| CacheService.EstimateSize | cms/frontend/src/components/UniversalEditor/services/CacheService.ts:260-301 | nothing is 0, a string 2 bytes per unit, a number 8, a boolean 4, an unknown value 100 |
| CacheService.EstimateArrayAppend | cms/frontend/src/components/UniversalEditor/services/CacheService.ts:285-287 | the estimate of an array is additive over joined arrays |
| CacheService.EstimateArrayCons | cms/frontend/src/components/UniversalEditor/services/CacheService.ts:285-287 | an array's estimate is its first element's plus the rest's, as the `reduce` sums it |
| CacheService.Without | cms/frontend/src/components/UniversalEditor/services/CacheService.ts:169-181 | deleting a set of keys keeps exactly the other entries, with distinct keys |
| CacheService.WithoutNothing | cms/frontend/src/components/UniversalEditor/services/CacheService.ts:169-181 | deleting no key changes nothing |
| CacheService.WithoutTwice | cms/frontend/src/components/UniversalEditor/services/CacheService.ts:351-366 | deleting keys in two rounds is deleting them all at once |
| CacheService.WithoutOneSum | cms/frontend/src/components/UniversalEditor/services/CacheService.ts:169-181 | deleting a present key takes exactly its size off the total |
| CacheService.WithoutUntouched | cms/frontend/src/components/UniversalEditor/services/CacheService.ts:169-181 | deleting keys that are absent changes nothing |
| CacheService.SumSizesUpdate | cms/frontend/src/components/UniversalEditor/services/CacheService.ts:90-104 | replacing one entry changes the total by the difference of the sizes |
| CacheService.SumSizesAppend | cms/frontend/src/components/UniversalEditor/services/CacheService.ts:126-127 | appending an entry adds its size to the total |
| CacheService.RemoveStep | cms/frontend/src/components/UniversalEditor/services/CacheService.ts:338-340 | deleting one more present key keeps the remaining entries and their total exact |
| CacheService.EvictStep | cms/frontend/src/components/UniversalEditor/services/CacheService.ts:338-340 | evicting the next ranked entry removes a key still present and takes its size off |
| CacheService.EvictionStart | cms/frontend/src/components/UniversalEditor/services/CacheService.ts:307-345 | before the eviction loop nothing is removed and the whole ranking is ahead |
| CacheService.EvictionEnd | cms/frontend/src/components/UniversalEditor/services/CacheService.ts:307-345 | when the loop stops, the cache is the old one without the victims and the total is exact |
| CacheService.EvictionSkip | cms/frontend/src/components/UniversalEditor/services/CacheService.ts:334-336 | skipping a protected entry leaves the loop's bookkeeping as it was |
| CacheService.EvictionDelete | cms/frontend/src/components/UniversalEditor/services/CacheService.ts:338-344 | deleting the next ranked entry moves it from the cache to the removed list |
| CacheService.EvictionDeleted | cms/frontend/src/components/UniversalEditor/services/CacheService.ts:338-344 | the same, for the loop's variables after the deletion |
| CacheService.VictimsStopEarly | cms/frontend/src/components/UniversalEditor/services/CacheService.ts:342-344 | eviction stops as soon as enough is freed: before its last victim it was still short |
| CacheService.VictimsSpareProtected | cms/frontend/src/components/UniversalEditor/services/CacheService.ts:334-336 | once any space is freed, no entry above priority 90 is evicted |
| CacheService.VictimsFromRanking | cms/frontend/src/components/UniversalEditor/services/CacheService.ts:333-345 | eviction only deletes entries of the ranking |
| CacheService.VictimsSkip | cms/frontend/src/components/UniversalEditor/services/CacheService.ts:334-336 | skipping a protected entry is the victims list skipping it |
| CacheService.VictimsTake | cms/frontend/src/components/UniversalEditor/services/CacheService.ts:338-344 | deleting the next entry is the victims list taking it, and the end when enough is freed |
| CacheService.VictimsShortOnlyProtected | cms/frontend/src/components/UniversalEditor/services/CacheService.ts:333-345 | when eviction cannot free enough, every entry it kept is protected |
| CacheService.WithoutExpired | cms/frontend/src/components/UniversalEditor/services/CacheService.ts:351-366 | dropping the expired keys drops exactly the entries older than a day |
| CacheService.Touched | cms/frontend/src/components/UniversalEditor/services/CacheService.ts:145-150 | a read entry is accessed now, once more, and one point more urgent up to 100; its data stays |
| CacheService.Refreshed | cms/frontend/src/components/UniversalEditor/services/CacheService.ts:90-101 | a re-set entry has the new data and size, is stamped now, its priority never lowered, and keeps its metadata unless new metadata is given |
| CacheService.CountTypesSum | cms/frontend/src/components/UniversalEditor/services/CacheService.ts:398-409 | the per-type counts add up to the number of entries |
| CacheService.Evict | cms/frontend/src/components/UniversalEditor/services/CacheService.ts:307-346 | the eviction loop keeps exactly the cache without the victims, with the total of what is kept |
| CacheService.CollectExpired | cms/frontend/src/components/UniversalEditor/services/CacheService.ts:351-360 | the first loop collects exactly the keys of the expired entries, each present |
| CacheService.ExpiredKeysNext | cms/frontend/src/components/UniversalEditor/services/CacheService.ts:355-360 | one more entry adds its key to the expired keys iff it is expired |
| CacheService.DeletionPresent | cms/frontend/src/components/UniversalEditor/services/CacheService.ts:362-366 | deleting a present key takes its entry and size away |
| CacheService.DeletionAbsent | cms/frontend/src/components/UniversalEditor/services/CacheService.ts:362-366 | deleting an absent key changes nothing |
| CacheService.DeletionTurn | cms/frontend/src/components/UniversalEditor/services/CacheService.ts:362-366 | one turn of the deletion loop keeps its bookkeeping |
| CacheService.DeletionEnd | cms/frontend/src/components/UniversalEditor/services/CacheService.ts:362-366 | after the deletion loop the cache lacks exactly the listed keys and the total is exact |
| CacheService.DeleteKeys | cms/frontend/src/components/UniversalEditor/services/CacheService.ts:362-366 | the second loop deletes exactly the listed keys and keeps the total exact |
| CacheService.Cache.constructor | cms/frontend/src/components/UniversalEditor/services/CacheService.ts:44-56 | a new cache is empty, sized 0, with nothing queued |
| CacheService.Cache.Has | cms/frontend/src/components/UniversalEditor/services/CacheService.ts:160-162 | true iff some entry has the key |
| CacheService.Cache.Set | cms/frontend/src/components/UniversalEditor/services/CacheService.ts:75-131 | an entry above 50 MB is refused and nothing changes; a known key is refreshed in place; a new key is appended after eviction when it would overflow; the total stays exact |
| CacheService.Cache.Get | cms/frontend/src/components/UniversalEditor/services/CacheService.ts:138-153 | a miss changes nothing; a hit returns the data and touches the entry |
| CacheService.Cache.Delete | cms/frontend/src/components/UniversalEditor/services/CacheService.ts:169-178 | false iff the key is absent; otherwise the key is gone and its size subtracted |
| CacheService.Cache.Clear | cms/frontend/src/components/UniversalEditor/services/CacheService.ts:183-186 | the cache is empty and sized 0 |
| CacheService.Cache.Preload | cms/frontend/src/components/UniversalEditor/services/CacheService.ts:195-218 | a key cached with at least the priority is skipped; otherwise a key not yet queued is queued once, with its own loader, type and priority |
| CacheService.DrainAsWritten | cms/frontend/src/components/UniversalEditor/services/CacheService.ts:209-253 | as written, every key queued during one drain is loaded and stored with the loader, type and priority of the call that started it |
| CacheService.DrainAsWrittenSwapsLoader | cms/frontend/src/components/UniversalEditor/services/CacheService.ts:209-253 | two keys queued with different loaders: the second key gets the first key's loader, type and priority |
| CacheService.Cache.ProcessPreload | cms/frontend/src/components/UniversalEditor/services/CacheService.ts:223-253 | the first queued job is shifted off; its data is stored iff the loader succeeded and the estimated size is at most `MAX_SIZE`, and the entries become exactly what `set` makes of the job's key, data, estimated size, type and priority with no metadata |
| CacheService.Cache.EvictEntries | cms/frontend/src/components/UniversalEditor/services/CacheService.ts:307-346 | the victims are deleted and their sizes subtracted |
| CacheService.Cache.CleanupExpiredEntries | cms/frontend/src/components/UniversalEditor/services/CacheService.ts:351-371 | exactly the entries older than a day are deleted |
| CacheService.Cache.GetStats | cms/frontend/src/components/UniversalEditor/services/CacheService.ts:391-417 | the entry count, the exact total size, the limit and the count per type |
| CacheService.StatsCountsSum | cms/frontend/src/components/UniversalEditor/services/CacheService.ts:398-409 | the per-type counts of the statistics add up to the entry count |
| TestimonialsHtml.Check | cms/backend/src/services/testimonialsHtmlGenerator.ts:179-197 | a failing check appends exactly one error naming the testimonial's position plus one; a passing one appends nothing |
| TestimonialsHtml.JudgeComplete | cms/backend/src/services/testimonialsHtmlGenerator.ts:179-197 | a testimonial passes the five checks iff it is complete, and a complete one never makes the text check throw |
| TestimonialsHtml.CheckItem | cms/backend/src/services/testimonialsHtmlGenerator.ts:178-198 | one testimonial appends between zero and five errors, and none iff it passes every check |
| TestimonialsHtml.ItemPushed | cms/backend/src/services/testimonialsHtmlGenerator.ts:179-197 | the five checks one after the other append what the iteration specifies |
| TestimonialsHtml.CheckPositions | cms/backend/src/services/testimonialsHtmlGenerator.ts:179-197 | a check adds only errors that name the testimonial's position |
| TestimonialsHtml.CheckItemPositions | cms/backend/src/services/testimonialsHtmlGenerator.ts:178-198 | every error of one testimonial names its position |
| TestimonialsHtml.Verdicts | cms/backend/src/services/testimonialsHtmlGenerator.ts:178-198 | the verdict on each testimonial, in order |
| TestimonialsHtml.CheckTestimonial | cms/backend/src/services/testimonialsHtmlGenerator.ts:178-198 | the `forEach` callback throws iff the text is truthy and not a string; otherwise it appends the errors its verdict specifies |
| TestimonialsHtml.ValidateTestimonialsData | cms/backend/src/services/testimonialsHtmlGenerator.ts:164-204 | missing data gives one error, a non-array one error; otherwise it throws iff some testimonial's text is truthy and not a string, and else gives the errors of every testimonial in turn; valid iff no error |
| TestimonialsHtml.ErrorsUpToEmpty | cms/backend/src/services/testimonialsHtmlGenerator.ts:178-198 | the first n iterations push nothing iff each of those testimonials passes every check |
| TestimonialsHtml.ErrorsUpToLength | cms/backend/src/services/testimonialsHtmlGenerator.ts:178-198 | each iteration pushes at most five errors |
| TestimonialsHtml.ErrorsUpToPositions | cms/backend/src/services/testimonialsHtmlGenerator.ts:178-198 | every error of the first n iterations names one of the positions 1 to n |
| TestimonialsHtml.ValidIffComplete | cms/backend/src/services/testimonialsHtmlGenerator.ts:164-204 | the data is valid, without a throw, iff it is present, its testimonials form an array, and each is complete |
| TestimonialsHtml.ProblemsPositions | cms/backend/src/services/testimonialsHtmlGenerator.ts:164-204 | every error names the data as a whole or one testimonial, at most five per testimonial; missing data and a non-array never throw |
| TestimonialsHtml.OrDefault | cms/backend/src/services/testimonialsHtmlGenerator.ts:8-11 | a truthy value is shown as itself, any other gives the fallback |
| TestimonialsHtml.GenerateSlide | cms/backend/src/services/testimonialsHtmlGenerator.ts:7-58 | throws iff the author or the project is missing or the project URL is truthy and not a string; otherwise the text and name are shown as `String` shows them, the avatar, project image, URL and name fall back to their defaults, and the link opens a new tab iff the URL starts with `http` |
| TestimonialsHtml.DefaultUrlStaysInTab | cms/backend/src/services/testimonialsHtmlGenerator.ts:10-40 | a slide whose author and project are there but whose project has no URL does not throw, links to `#` and never opens a new tab |
| TestimonialsHtml.CompanyShownIffTruthy | cms/backend/src/services/testimonialsHtmlGenerator.ts:29 | the company is shown after a bullet iff it is truthy |
| TestimonialsHtml.OrderKeyConverts | cms/backend/src/services/testimonialsHtmlGenerator.ts:116 | the comparator's key converts the order as `-` does: a number is itself, `null` and `false` are 0, `true` is 1, and a numeric string is the number it writes |
| TestimonialsHtml.SortByOrder | cms/backend/src/services/testimonialsHtmlGenerator.ts:116 | the sorted copy is a permutation of the testimonials in non-decreasing order of the converted `order`, and testimonials of equal order keep their order (a stable sort) |
| Lists.SortByStable | cms/backend/src/services/testimonialsHtmlGenerator.ts:116 | the sort is stable, as `Array.prototype.sort` is: for every key, the elements with that key come out in the order they went in |
| TestimonialsHtml.PermutationKeepsThrows | cms/backend/src/services/testimonialsHtmlGenerator.ts:116-119 | reordering neither adds nor removes a testimonial whose slide throws |
| TestimonialsHtml.Slides | cms/backend/src/services/testimonialsHtmlGenerator.ts:119 | one slide per testimonial, in the same order, each the one its testimonial generates |
| TestimonialsHtml.GenerateSection | cms/backend/src/services/testimonialsHtmlGenerator.ts:63-123 | a falsy `testimonials` or an empty array gives the placeholder; a missing data object or a truthy non-array throws; an array throws iff some slide throws, and otherwise gives one slide per testimonial, taken from a sorted permutation of them |
| TestimonialsHtml.ValidDataGenerates | cms/backend/src/services/testimonialsHtmlGenerator.ts:209-223 | data that passes validation is an array of testimonials that all have authors; its section still throws iff some testimonial lacks a project or has a truthy project URL that is not a string |
| TestimonialsHtml.GeneratePreviewHtml | cms/backend/src/services/testimonialsHtmlGenerator.ts:209-244 | throws iff validation throws or valid data's section throws; the error listing with the errors iff validation fails; otherwise the section of valid data |
| ServicesValidation.PushedMembers | cms/backend/src/services/servicesValidationService.ts:240-270 | an issue is pushed by a `forEach` iff some iteration pushes it |
| ServicesValidation.PushedIndexed | cms/backend/src/services/servicesValidationService.ts:240-270 | if every iteration reports only about list elements, so does the loop |
| ServicesValidation.ToResult | cms/backend/src/services/servicesValidationService.ts:197 | a result is valid iff it has no error, and carries the errors and warnings as found |
| ServicesValidation.RelativeUrlsAreValid | cms/backend/src/services/servicesValidationService.ts:1510-1521 | a URL starting with `/`, `./` or `../` is valid whatever the URL parser says |
| ServicesValidation.UnparsableAbsoluteUrlsAreInvalid | cms/backend/src/services/servicesValidationService.ts:1510-1521 | a URL that does not parse and has no relative prefix is invalid |
| ServicesValidation.ColorsFrom | cms/backend/src/services/servicesValidationService.ts:1523-1527 | every extracted colour is a valid hex colour |
| ServicesValidation.ExtractValidColor | cms/backend/src/services/servicesValidationService.ts:1502-1527 | a valid colour extracts to itself alone |
| ServicesValidation.SimilarityIsEquivalence | cms/backend/src/services/servicesValidationService.ts:1532-1534 | colour similarity is reflexive, symmetric and transitive |
| ServicesValidation.TextRule | cms/backend/src/services/servicesValidationService.ts:113-136 | a required text rule reports at most one error and one warning, both about its field |
| ServicesValidation.PresentTextRule | cms/backend/src/services/servicesValidationService.ts:449-456 | a presence rule reports at most one issue, about its field |
| ServicesValidation.IdRule | cms/backend/src/services/servicesValidationService.ts:283-291 | the id rule reports at most one issue, about its field |
| ServicesValidation.NumberRule | cms/backend/src/services/servicesValidationService.ts:294-302 | the number rule reports at most one issue, about its field |
| ServicesValidation.BoolRule | cms/backend/src/services/servicesValidationService.ts:576-584 | the boolean rule reports at most one issue, about its field |
| ServicesValidation.OptionalTextRule | cms/backend/src/services/servicesValidationService.ts:167-185 | the optional text rule reports at most one issue, about its field |
| ServicesValidation.OptionalUrlRule | cms/backend/src/services/servicesValidationService.ts:1275-1291 | the optional URL rule reports at most one issue, about its field |
| ServicesValidation.RequiredUrlRule | cms/backend/src/services/servicesValidationService.ts:540-556 | the required URL rule reports at most one issue, about its field |
| ServicesValidation.MediaRule | cms/backend/src/services/servicesValidationService.ts:956-972 | the image rule reports at most one issue, about its field |
| ServicesValidation.Check | cms/backend/src/services/servicesValidationService.ts:278-383 | a field check reports at most one issue about its field, never a duplicate, and warns only for a missing image or a short text |
| ServicesValidation.ChecksAt | cms/backend/src/services/servicesValidationService.ts:278-383 | when only one check concerns a path, the run reports about that path exactly what that check reports |
| ServicesValidation.ChecksInclude | cms/backend/src/services/servicesValidationService.ts:278-383 | every finding of a field check is among the run's findings |
| ServicesValidation.ColorRule | cms/backend/src/services/servicesValidationService.ts:342-360 | the colour rule reports at most one issue, about its field |
| ServicesValidation.CheckElementErrors | cms/backend/src/services/servicesValidationService.ts:278-383 | a list element's field check without image or minimum reports only errors about the element |
| ServicesValidation.PushedElementErrors | cms/backend/src/services/servicesValidationService.ts:240-270 | a loop of element reports pushes an element report |
| ServicesValidation.ChecksElementErrors | cms/backend/src/services/servicesValidationService.ts:278-383 | the checks of an element without images or minimums report only errors about the element |
| ServicesValidation.HeroNotObjectOnlyError | cms/backend/src/services/servicesValidationService.ts:100-109 | a hero that is not an object gives one `INVALID_DATA_FORMAT` error and nothing else |
| ServicesValidation.HeroTitleOutcomes | cms/backend/src/services/servicesValidationService.ts:113-136 | the hero title gives exactly one of: required error (blank), length error (over 200), short warning (under 10), or nothing |
| ServicesValidation.ServiceItemErrors | cms/backend/src/services/servicesValidationService.ts:278-383 | a service's findings are errors about that service, none a duplicate |
| ServicesValidation.ServiceItemNoWarnings | cms/backend/src/services/servicesValidationService.ts:278-383 | a service's own check never warns |
| ServicesValidation.BadColorIsInvalidFormat | cms/backend/src/services/servicesValidationService.ts:342-360 | a present colour that is not a 3- or 6-digit hex colour is an `INVALID_FORMAT` error |
| ServicesValidation.GridEntryDuplicates | cms/backend/src/services/servicesValidationService.ts:240-270 | one iteration reports duplicates at service i iff it is iteration i and its colour or number repeats |
| ServicesValidation.GridDuplicatesAtMembers | cms/backend/src/services/servicesValidationService.ts:246-268 | a service's duplicate findings concern that service only |
| ServicesValidation.ValidateServicesGrid | cms/backend/src/services/servicesValidationService.ts:203-273 | the grid's result is the one specified by its report |
| ServicesValidation.GridLoop | cms/backend/src/services/servicesValidationService.ts:240-270 | the loop pushes each service's findings then its duplicate findings |
| ServicesValidation.GridEntryIs | cms/backend/src/services/servicesValidationService.ts:240-270 | an iteration's findings are the service's own then its duplicates |
| ServicesValidation.GridDuplicateChecks | cms/backend/src/services/servicesValidationService.ts:246-268 | the duplicate checks of service i report what is specified and record its truthy colour and number |
| ServicesValidation.GridCountError | cms/backend/src/services/servicesValidationService.ts:218-235 | no service or more than five gives exactly one count error, the first error of the section |
| ServicesValidation.GridIndexed | cms/backend/src/services/servicesValidationService.ts:240-270 | everything the grid's loop pushes is about a service, never the whole list |
| ServicesValidation.GridDuplicates | cms/backend/src/services/servicesValidationService.ts:237-270 | a duplicate-colour warning at service i iff it repeats an earlier truthy colour; a duplicate-number error iff it repeats an earlier truthy number |
| ServicesValidation.SkillItemErrors | cms/backend/src/services/servicesValidationService.ts:488-531 | a skill's findings are errors about that skill, none a duplicate |
| ServicesValidation.ValidateSkillsVideo | cms/backend/src/services/servicesValidationService.ts:389-483 | the section's result is the one specified by its report |
| ServicesValidation.ValidateSkillsList | cms/backend/src/services/servicesValidationService.ts:412-446 | the array check and the loop give the specified findings |
| ServicesValidation.SkillsCountBounds | cms/backend/src/services/servicesValidationService.ts:420-439 | outside 5 to 20 skills the first finding is the one count error |
| ServicesValidation.SkillsIndexed | cms/backend/src/services/servicesValidationService.ts:441-446 | the skills loop never reports about the whole list |
| ServicesValidation.StepErrors | cms/backend/src/services/servicesValidationService.ts:691-780 | a step's findings are errors about that step, none a duplicate |
| ServicesValidation.StepEntryDuplicates | cms/backend/src/services/servicesValidationService.ts:665-682 | one iteration reports a duplicate at step i iff it is iteration i and its number repeats |
| ServicesValidation.StepDuplicateCheck | cms/backend/src/services/servicesValidationService.ts:671-681 | the duplicate check of step i reports what is specified and records its truthy number |
| ServicesValidation.ValidateApproach | cms/backend/src/services/servicesValidationService.ts:612-686 | the section's result is the one specified by its report |
| ServicesValidation.StepsLoop | cms/backend/src/services/servicesValidationService.ts:665-682 | the loop pushes each step's findings then its duplicate finding |
| ServicesValidation.StepsCountBounds | cms/backend/src/services/servicesValidationService.ts:643-662 | outside 3 to 6 steps there is exactly one count error, the right one |
| ServicesValidation.StepsIndexed | cms/backend/src/services/servicesValidationService.ts:665-682 | the steps loop never reports about the whole list |
| ServicesValidation.StepDuplicates | cms/backend/src/services/servicesValidationService.ts:664-682 | a duplicate-number error at step i iff it repeats an earlier truthy number |
| ServicesValidation.ValidateTestimonials | cms/backend/src/services/servicesValidationService.ts:785-827 | the section's result is the one specified by its report |
| ServicesValidation.EmptyTestimonials | cms/backend/src/services/servicesValidationService.ts:808-817 | an empty list is valid with one `EMPTY_COLLECTION` warning |
| ServicesValidation.TooManyTestimonials | cms/backend/src/services/servicesValidationService.ts:798-806 | more than ten testimonials make `MAX_ITEMS_EXCEEDED` the first error |
| ServicesValidation.AvatarRule | cms/backend/src/services/servicesValidationService.ts:956-972 | a missing avatar is only a warning; an invalid one is an error |
| ServicesValidation.ValidateClients | cms/backend/src/services/servicesValidationService.ts:1044-1076 | the section's result is the one specified by its report |
| ServicesValidation.SeoTextErrors | cms/backend/src/services/servicesValidationService.ts:1197-1245 | an SEO text gives an error iff it is missing; lengths only warn |
| ServicesValidation.SeoKeywordsErrors | cms/backend/src/services/servicesValidationService.ts:1249-1273 | the keywords give an error iff they are not an array |
| ServicesValidation.OptionalUrlErrors | cms/backend/src/services/servicesValidationService.ts:1275-1291 | an optional URL is accepted outright or rejected with an error |
| ServicesValidation.SeoErrors | cms/backend/src/services/servicesValidationService.ts:1193-1294 | the SEO data is error-free iff title and description are present, the keywords an array and the image acceptable |
| ServicesValidation.ServiceColors | cms/backend/src/services/servicesValidationService.ts:1325 | the services' colours, in order |
| ServicesValidation.ValidateCrossSection | cms/backend/src/services/servicesValidationService.ts:1299-1346 | the cross-section result is the specified one, or a throw exactly where the source dereferences a missing value |
| ServicesValidation.ThrowPersists | cms/backend/src/services/servicesValidationService.ts:1305-1320 | once the company loop throws, it has thrown for every longer prefix |
| ServicesValidation.MatchingCompanyNotWarned | cms/backend/src/services/servicesValidationService.ts:1306-1310 | a company naming a client, ignoring case, is found |
| ServicesValidation.FindClientFound | cms/backend/src/services/servicesValidationService.ts:1306-1308 | the search from any earlier client finds a matching client |
| ServicesValidation.ValidateServicesData | cms/backend/src/services/servicesValidationService.ts:35-92 | the page's result is the specified one, valid iff no error |
| ServicesValidation.ValidityIgnoresWarnings | cms/backend/src/services/servicesValidationService.ts:35-92 | the page is valid iff no section reports an error and the cross-section check does not throw |
| ServicesValidation.FieldMirrorsHeroTitle | cms/backend/src/services/servicesValidationService.ts:1381-1460 | real-time validation of the hero title reports exactly the full check's error for it; other sections give nothing |

## Left out

- I/O of every kind is outside the model:
  - the HTTP handlers' Express, Prisma and filesystem calls;
  - `console` output, `localStorage` serialisation (each stored list is a field), timers (`setTimeout`, `setInterval`, the cache's cleanup timer), `async` loading and the 200 ms delay of the search;
  - `updateServicesHtml`, which writes an HTML file.
- Singletons: the `getInstance` accessors of `CacheService` and `MemoryManager` are left out. A model object is created with its constructor.
- Messages: ServicesValidation and the media checks identify a finding by its code (with its field path and section) rather than its message text. `formatFileSize` is left out as a consequence. The media warnings whose text `shouldOptimize` searches carry their text.
- ServicesValidation: `initializeValidationConfigs` builds a table of per-field validators that no modelled operation reads; it is left out. `validateField` on a section other than the hero calls a validator that returns nothing, and the model returns `None` for those sections directly.
- `new URL(...)` is the parameter `parsesAsUrl`. The model proves everything that holds for every URL parser, not the WHATWG URL grammar.
- The order `localeCompare` gives is a rank function parameter (`titleRank` in SearchService, `rank` in the suggestions). The proofs hold for any such order.
- Floating point:
  - The cache's `usagePercentage` is left out of `CacheService.Cache.GetStats`.
  - The eviction score (a float mix of priority, access count and age) is given as the order it sorts the entries into: the `ranking` parameter of `CacheService.Cache.Set`, `CacheService.Cache.EvictEntries` and `CacheService.Cache.ProcessPreload`, which must be a permutation of the entries.
  - `UploadDebugging.Metrics` computes the average processing time and the error rate as `real`; JavaScript's rounding is not modelled.
  - The aspect-ratio and pixel-density warnings of the media checks are given as their conditions.
- JavaScript numbers: fields the source treats as counts, sizes, ids and orders are unbounded integers. Fractional values, infinities and `-0` are not modelled. NaN is modelled for the `parseInt` of a route id, for `typeof` tests and for the conversion of a testimonial's `order`. The two sort comparators that can return NaN are keyed as described in the next two lines.
- `Js.ToNumber` reads a string as a decimal integer with an optional sign. A fraction, an exponent, a hex literal or `Infinity` is read as NaN, and so is every object, including an array holding one number.
- TestimonialsHtml.SortByOrder: an `order` that converts to NaN (undefined, an object, a non-numeric string) makes the comparator `a.order - b.order` return NaN. The order the engine's sort then picks depends on its algorithm. The model sorts such a testimonial as order 0.
- SearchService.SortResults: sorting by date, an item with no `createdAt` or an unparsable one gives an invalid `Date`, so the source's comparator returns NaN and the engine's sort decides where the item goes. The model sorts such an item as time 0.
- TestimonialsHtml.ValidateTestimonialsData: every element of the `testimonials` array is an object, and so is an author that is present. A `null` element would throw at `testimonial.id`; that case is not modelled.
- TestimonialsHtml.GeneratePreviewHtml: the same holds; a `null` element would make validation throw.
- TestimonialsHtml.GenerateSection: a truthy `testimonials` that is not an array is taken to throw. An object with a `length` of 0 would give the placeholder, and an iterable one (a `Set`) would be spread; neither is modelled. A `null` element of the array would throw in its slide; elements are objects here.
- UploadDebugging.Sanitize: the data the JSON round trip rejects is an object holding a cycle or a BigInt, which is truthy. A top-level BigInt `0n` would be returned as falsy data; it is not modelled. Values `JSON.stringify` drops (`undefined`, functions) are not part of `Json`.
- ServicesValidation.ValidateServicesData: the model gives every section object, and every nested object the section checks read (`video`, a testimonial's `author` and `project`, `seo`), a value, and every list element is an object. In the source a missing one, or a `null` element, throws a `TypeError` inside that section's check. `validateServicesData` then keeps the findings of the earlier sections, appends one `VALIDATION_ERROR` under `general`/`hero`, and skips the later sections and the cross-section check. The model covers the throw of the cross-section check only.
- ServicesValidation.ValidityIgnoresWarnings: for the same reason, "valid iff no section reports an error and the cross-section check does not throw" is proved only for pages whose section objects, nested objects and list elements are all there.
- ServicesValidation: `validateHeroSection` wraps its field checks in a `try`/`catch` that turns a throw into a `VALIDATION_ERROR`. Once the hero is an object, only a property getter that throws could reach that `catch`, and getters are not modelled.
- MediaValidation.ConfigFor: `VALIDATION_CONFIGS[contentType] || null` (and the lookup at the head of `validateMedia`) reads a plain object, so an inherited name such as `toString` or `constructor` finds a function rather than nothing. `validateMedia` then passes its unknown-type check and enters its `try`. Comparing the size with the missing `maxFileSize` never fires, and `config.allowedMimeTypes.includes(...)` throws. The `catch` turns that into a single "Failed to validate file" error with `isValid` false; nothing escapes. The model returns `None` for every name outside the table, which gives the one "Unknown content type" error instead.
- UploadDebugging.Debugger.LogEvent: `undefined` data is not part of `Json`. It would throw in `formatEventMessage` as `null` data does.
- MediaValidation.FixedTwo: the aspect ratio is rounded half up from the exact quotient, where `toFixed(2)` rounds the nearest double. On a ratio that is exactly a half in the third decimal (603 by 200 gives 3.015, stored just below it) the source prints `3.01` and the model `3.02`.
- UploadDebugging.Duration: a truthy `duration` that is not a number counts as 0 in the average. The source would add it as text.
- Text.Lower: `toLowerCase` is modelled on ASCII letters only. Every other character is kept as it is.
- Lengths are counts of characters, where JavaScript counts UTF-16 code units.
- OfferEditing.HandleDrop, SkillsEditing.HandleDrop, ServicesGridEditing.HandleDrop: the drag and drop indices are positions of the displayed list, so the model requires them to be in range.
- ClientsEditing.DragEndSpec, TestimonialsEditing.DragEndSpec: both ids of a drag are required to be in the list, as they come from the rendered items. An id that is missing would make `findIndex` return -1. That case is not modelled.
- MemoryManagement.MemoryManager.RevokeEach: it requires distinct registered URLs. Its callers pass the URLs they collected from the registry.
- MemoryManagement.MemoryManager.Cleanup: the calls to `performanceMonitor`, `mediaOptimizationService.clearMediaCache` and `window.gc` have no effect on the manager's state and are left out. The document and window listeners it installs for activity are modelled as the handlers `UpdateActivity`, `OnVisibilityChange` and `OnBlur`.
- MemoryManagement.MemoryManager.CheckMemoryUsage: the heap size is the parameter `usedHeap`. A browser without `performance.memory` is the `None` case.
- UploadDebugging:
  - left out: `exportDebugData` (JSON text), `createDebuggingTools` (a console helper), console interception in `initializeDebugger`, the text `formatEventMessage` builds (its throw is modelled), `sendToMonitoring`, `validateTestData` and the session id;
  - the `log…` convenience wrappers only call `logEvent` with fixed data, and `logEvent` is modelled.
- SearchService: the built-in sample items are the `items` parameter. The titles, descriptions and keywords behind the suggestions are parameters too.
- MediaSelection: the upload flow, the icons, the thumbnails and the fetching of library pages are left out. The page fetched is a parameter.
- NotionEditing: `handleImageUpload` (a `FileReader` callback), the block icons, keyboard handling and rendering are left out.
- ServicesGridEditing: the colour palette offered by the form is presentation and left out. The chosen colour is carried as given.
- React state, rendering, dialogs and toasts: the editors' state is passed in and returned as values, except where a class holds it (NotionEditing, the stores).

## Findings

| source | as written | input that shows it | evidently intended | confidence | as-written member | corrected member |
|---|---|---|---|---|---|---|
| cms/backend/src/routes/homepage.ts:737-765 | the reorder request is checked only for unknown ids and for logos it leaves out; a repeated id passes both checks | logos with ids `[1, 2]` and the request `[1, 1, 2]`: the result has three logos, two of them logo 1 | a reorder is a permutation of the existing logos, so a repeated id is refused | not executed | HomepageRoutes.ReorderLogosAsWritten, HomepageRoutes.ReorderAsWrittenDuplicates | HomepageRoutes.ReorderLogos, HomepageRoutes.ReorderPermutes |
| cms/frontend/src/components/UniversalEditor/services/CacheService.ts:209-253 | `processPreloadQueue` goes on with its own `loader`, `type` and `priority` for every key left in the queue, and `preload` only queues the key while a drain runs | `preload('a.jpg', loadA, 'image')`, then `preload('b.html', loadB, 'html')` before `loadA` settles: `b.html` is stored with `loadA`'s data, as an image | each queued key is loaded with its own loader and stored with its own type and priority | not executed | CacheService.DrainAsWritten, CacheService.DrainAsWrittenSwapsLoader | CacheService.Cache.Preload, CacheService.Cache.ProcessPreload |
| cms/frontend/src/components/services/SkillsVideoEditor.tsx:114-118 | the duplicate check skips the skill held in `editingSkill`, and that state is cleared only by Cancel and by a successful update, not when the edit dialog closes through Escape or a click outside it (:572), so a later add skips it too | skills `[React]`; edit React, press Escape, open Add and submit "React": a second React is appended | a skill being added is never the one being edited, so every existing skill counts against a duplicate | not executed | SkillsEditing.AddSkillAsWritten, SkillsEditing.StaleEditAddsDuplicate | SkillsEditing.AddSkill, SkillsEditing.AddSkillKeeps |
| cms/frontend/src/services/DuplicateUploadDebugger.ts:291-300 | `slice(-limit)` returns every entry for a limit of 0, and all but the oldest `-limit` entries for a negative limit | `getRecentEvents(0)` with events logged returns all of them | the last `limit` entries: none for a limit of 0 | not executed | UploadDebugging.RecentAsWritten, UploadDebugging.RecentZeroReturnsAll | UploadDebugging.Recent, UploadDebugging.RecentAgrees |

=== FILE: cache_service.dfy ===
/**
 * The universal editor's in-memory cache: a map from keys to entries that
 * keeps a running total of the entries' sizes, evicts entries in a given
 * ranking when a new entry would not fit, drops entries older than a day,
 * and queues keys to preload.
 *
 * The `Map` is modelled as the sequence of its entries in insertion order
 * (the order a `Map` iterates in), with distinct keys.  `Date.now()` is the
 * parameter `now`; the eviction score is a floating-point mix of priority,
 * access count and age, so the order it sorts the entries into is the
 * parameter `ranking`.
 */
module CacheService {
  import opened Wrappers

  /** `CACHE_CONFIG.MAX_SIZE`: 50 MB. */
  const MAX_SIZE: int := 50 * 1024 * 1024
  /** `CACHE_CONFIG.MAX_AGE`: 24 hours in milliseconds. */
  const MAX_AGE: int := 24 * 60 * 60 * 1000
  /** The default priority of `set` and `preload`. */
  const DEFAULT_PRIORITY: int := 50
  /** Once some space is freed, eviction skips entries above this priority. */
  const PROTECTED_PRIORITY: int := 90

  datatype EntryType = Image | Html | Json | Component | Other

  /** The values the cache stores, as far as `estimateSize` tells them apart. */
  datatype CacheData =
    | Nothing                        // null or undefined
    | Text(s: string)
    | Number(n: int)
    | Boolean(b: bool)
    | Blob(size: nat)                // a Blob or a File
    | Buffer(byteLength: nat)        // an ArrayBuffer
    | Array(items: seq<CacheData>)
    | Object(fields: seq<Field>)     // own enumerable properties, in order
    | Opaque                         // a function or a symbol

  datatype Field = Field(name: string, value: CacheData)

  datatype CacheEntry = CacheEntry(
    key: string, data: CacheData, size: int, kind: EntryType,
    timestamp: int, lastAccessed: int, accessCount: int, priority: int,
    metadata: Option<CacheData>)

  // ---------------------------------------------------------------------
  // estimateSize
  // ---------------------------------------------------------------------

  function SumNat(s: seq<nat>): nat
    decreases |s|
  {
    if s == [] then 0 else s[0] + SumNat(s[1..])
  }

  lemma {:induction false} SumNatAppend(a: seq<nat>, b: seq<nat>)
    ensures SumNat(a + b) == SumNat(a) + SumNat(b)
    decreases |a|
  {
    if a == [] {
      assert a + b == b;
    } else {
      assert (a + b)[1..] == a[1..] + b;
      SumNatAppend(a[1..], b);
    }
  }

  /**
   * `estimateSize`: 2 bytes per UTF-16 unit of a string, 8 for a number,
   * 4 for a boolean, the byte size of a blob or buffer, the sum over the
   * elements of an array, 2 bytes per key character plus the value for
   * each property of an object, and 100 for anything else.
   */
  function EstimateSize(d: CacheData): (n: nat)
    ensures d.Nothing? ==> n == 0
    ensures d.Text? ==> n == 2 * |d.s|
    ensures d.Number? ==> n == 8
    ensures d.Boolean? ==> n == 4
    ensures d.Opaque? ==> n == 100
    decreases d
  {
    match d
    case Nothing => 0
    case Text(s) => 2 * |s|
    case Number(_) => 8
    case Boolean(_) => 4
    case Blob(size) => size
    case Buffer(byteLength) => byteLength
    case Array(items) => SumNat(seq(|items|, i requires 0 <= i < |items| => EstimateSize(items[i])))
    case Object(fields) =>
      SumNat(seq(|fields|, i requires 0 <= i < |fields| => 2 * |fields[i].name| + EstimateSize(fields[i].value)))
    case Opaque => 100
  }

  /** The estimate of an array is additive: joining two arrays adds their estimates. */
  lemma EstimateArrayAppend(a: seq<CacheData>, b: seq<CacheData>)
    ensures EstimateSize(Array(a + b)) == EstimateSize(Array(a)) + EstimateSize(Array(b))
  {
    var sa := seq(|a|, i requires 0 <= i < |a| => EstimateSize(a[i]));
    var sb := seq(|b|, i requires 0 <= i < |b| => EstimateSize(b[i]));
    assert seq(|a + b|, i requires 0 <= i < |a + b| => EstimateSize((a + b)[i])) == sa + sb;
    SumNatAppend(sa, sb);
  }

  /** The estimate of a non-empty array is its first element's plus the rest's: the `reduce` sum. */
  lemma EstimateArrayCons(items: seq<CacheData>)
    requires items != []
    ensures EstimateSize(Array(items)) == EstimateSize(items[0]) + EstimateSize(Array(items[1..]))
  {
    var all := seq(|items|, i requires 0 <= i < |items| => EstimateSize(items[i]));
    assert all[1..] == seq(|items[1..]|, i requires 0 <= i < |items[1..]| => EstimateSize(items[1..][i]));
  }

  // ---------------------------------------------------------------------
  // Entry lists
  // ---------------------------------------------------------------------

  predicate DistinctKeys(es: seq<CacheEntry>) {
    forall i, j :: 0 <= i < j < |es| ==> es[i].key != es[j].key
  }

  predicate HasKey(es: seq<CacheEntry>, key: string) {
    exists e :: e in es && e.key == key
  }

  /** The sum of the entries' sizes: what `totalSize` must always equal. */
  function SumSizes(es: seq<CacheEntry>): int
    decreases |es|
  {
    if es == [] then 0 else es[0].size + SumSizes(es[1..])
  }

  /** The position of the entry with key `key`. */
  function KeyIndex(es: seq<CacheEntry>, key: string): (i: nat)
    requires HasKey(es, key)
    ensures i < |es| && es[i].key == key
    ensures forall j :: 0 <= j < i ==> es[j].key != key
    decreases |es|
  {
    if es[0].key == key then 0
    else
      var e :| e in es && e.key == key;
      assert e in es[1..];
      KeyIndex(es[1..], key) + 1
  }

  /** The entries whose keys are not in `gone`, in their order. */
  function Without(es: seq<CacheEntry>, gone: set<string>): (r: seq<CacheEntry>)
    ensures forall e :: e in r <==> e in es && e.key !in gone
    ensures DistinctKeys(es) ==> DistinctKeys(r)
    ensures |r| <= |es|
    decreases |es|
  {
    if es == [] then []
    else
      var rest := Without(es[1..], gone);
      if es[0].key in gone then rest
      else
        assert DistinctKeys(es) ==> forall e :: e in rest ==> e.key != es[0].key by {
          if DistinctKeys(es) {
            forall e | e in rest ensures e.key != es[0].key {
              var j :| 0 <= j < |es[1..]| && es[1..][j] == e;
              assert es[j + 1] == e;
            }
          }
        }
        [es[0]] + rest
  }

  lemma {:induction false} WithoutNothing(es: seq<CacheEntry>)
    ensures Without(es, {}) == es
    decreases |es|
  {
    if es != [] {
      WithoutNothing(es[1..]);
    }
  }

  /** Removing keys in two rounds is removing them all at once. */
  lemma {:induction false} WithoutTwice(es: seq<CacheEntry>, gone: set<string>, more: set<string>)
    ensures Without(Without(es, gone), more) == Without(es, gone + more)
    decreases |es|
  {
    if es != [] {
      WithoutTwice(es[1..], gone, more);
    }
  }

  /** Removing the entry with a present key takes exactly its size off the total. */
  lemma {:induction false} WithoutOneSum(es: seq<CacheEntry>, e: CacheEntry)
    requires DistinctKeys(es) && e in es
    ensures SumSizes(Without(es, {e.key})) == SumSizes(es) - e.size
    decreases |es|
  {
    assert DistinctKeys(es[1..]) by {
      forall i, j | 0 <= i < j < |es[1..]| ensures es[1..][i].key != es[1..][j].key {
        assert es[1..][i] == es[i + 1] && es[1..][j] == es[j + 1];
      }
    }
    if es[0] == e {
      forall k | 0 <= k < |es[1..]| ensures es[1..][k].key != e.key {
        assert es[1..][k] == es[k + 1];
      }
      WithoutUntouched(es[1..], {e.key});
    } else {
      assert e in es[1..];
      assert es[0].key != e.key by {
        var j :| 0 <= j < |es[1..]| && es[1..][j] == e;
        assert es[j + 1] == e;
      }
      WithoutOneSum(es[1..], e);
    }
  }

  lemma {:induction false} WithoutUntouched(es: seq<CacheEntry>, gone: set<string>)
    requires forall k :: 0 <= k < |es| ==> es[k].key !in gone
    ensures Without(es, gone) == es
    decreases |es|
  {
    if es != [] {
      WithoutUntouched(es[1..], gone);
    }
  }

  /** Replacing one entry changes the total by the difference of the two sizes. */
  lemma {:induction false} SumSizesUpdate(es: seq<CacheEntry>, i: nat, e: CacheEntry)
    requires i < |es|
    ensures SumSizes(es[i := e]) == SumSizes(es) - es[i].size + e.size
    decreases |es|
  {
    if i > 0 {
      assert es[i := e][1..] == es[1..][i - 1 := e];
      SumSizesUpdate(es[1..], i - 1, e);
    }
  }

  lemma {:induction false} SumSizesAppend(es: seq<CacheEntry>, e: CacheEntry)
    ensures SumSizes(es + [e]) == SumSizes(es) + e.size
    decreases |es|
  {
    if es == [] {
      assert es + [e] == [e];
    } else {
      assert (es + [e])[1..] == es[1..] + [e];
      SumSizesAppend(es[1..], e);
    }
  }

  /** One eviction or expiry step: deleting one more present key keeps the bookkeeping exact. */
  lemma RemoveStep(before: seq<CacheEntry>, gone: set<string>, e: CacheEntry)
    requires DistinctKeys(before) && e in before && e.key !in gone
    ensures e in Without(before, gone)
    ensures Without(Without(before, gone), {e.key}) == Without(before, gone + {e.key})
    ensures SumSizes(Without(Without(before, gone), {e.key})) == SumSizes(Without(before, gone)) - e.size
  {
    WithoutOneSum(Without(before, gone), e);
    WithoutTwice(before, gone, {e.key});
  }

  lemma KeySetAppend(es: seq<CacheEntry>, e: CacheEntry)
    ensures KeySet(es + [e]) == KeySet(es) + {e.key}
  {
  }

  /** The ranking after its first entry avoids that entry's key as well. */
  lemma TailAvoids(rest: seq<CacheEntry>, gone: set<string>)
    requires rest != [] && DistinctKeys(rest)
    requires forall k :: 0 <= k < |rest| ==> rest[k].key !in gone
    ensures forall k :: 0 <= k < |rest[1..]| ==> rest[1..][k].key !in gone + {rest[0].key}
  {
    forall k | 0 <= k < |rest[1..]| ensures rest[1..][k].key !in gone + {rest[0].key} {
      assert rest[1..][k] == rest[k + 1];
    }
  }

  /** Evicting the next entry of the ranking removes a key still present. */
  lemma EvictStep(rest: seq<CacheEntry>, before: seq<CacheEntry>, removed: seq<CacheEntry>)
    requires rest != [] && DistinctKeys(rest) && DistinctKeys(before)
    requires forall e :: e in rest ==> e in before
    requires forall k :: 0 <= k < |rest| ==> rest[k].key !in KeySet(removed)
    ensures rest[0] in Without(before, KeySet(removed))
    ensures Without(Without(before, KeySet(removed)), {rest[0].key}) == Without(before, KeySet(removed + [rest[0]]))
    ensures SumSizes(Without(Without(before, KeySet(removed)), {rest[0].key}))
            == SumSizes(Without(before, KeySet(removed))) - rest[0].size
    ensures forall k :: 0 <= k < |rest[1..]| ==> rest[1..][k].key !in KeySet(removed + [rest[0]])
  {
    var e := rest[0];
    assert rest[0] in rest;
    RemoveStep(before, KeySet(removed), e);
    KeySetAppend(removed, e);
    TailAvoids(rest, KeySet(removed));
  }

  /**
   * The bookkeeping of the eviction loop: `cache` and `total` are the
   * cache less the entries removed so far, `freed` is their total size,
   * the ranking still to walk holds none of their keys, and what is
   * removed now and later is the victims list.
   */
  ghost predicate EvictionState(before: seq<CacheEntry>, victims: seq<CacheEntry>, required: int,
                                cache: seq<CacheEntry>, total: int, freed: int,
                                removed: seq<CacheEntry>, rest: seq<CacheEntry>, done: bool) {
    && DistinctKeys(before) && DistinctKeys(cache) && total == SumSizes(cache)
    && DistinctKeys(rest) && (forall e :: e in rest ==> e in before)
    && freed == SumSizes(removed)
    && cache == Without(before, KeySet(removed))
    && (forall k :: 0 <= k < |rest| ==> rest[k].key !in KeySet(removed))
    && (done ==> removed == victims)
    && (!done ==> removed + Victims(rest, required, freed) == victims)
  }

  /** Before the first turn nothing is removed and the whole ranking is ahead. */
  lemma EvictionStart(cache: seq<CacheEntry>, total: int, required: int, ranking: seq<CacheEntry>)
    requires DistinctKeys(cache) && total == SumSizes(cache) && IsRanking(ranking, cache)
    ensures EvictionState(cache, Victims(ranking, required, 0), required, cache, total, 0, [], ranking, false)
  {
    WithoutNothing(cache);
    assert KeySet([]) == {};
  }

  /** When the loop stops, the removed entries are the victims and the rest is the cache without them. */
  lemma EvictionEnd(before: seq<CacheEntry>, victims: seq<CacheEntry>, required: int,
                    cache: seq<CacheEntry>, total: int, freed: int,
                    removed: seq<CacheEntry>, rest: seq<CacheEntry>, done: bool)
    requires EvictionState(before, victims, required, cache, total, freed, removed, rest, done)
    requires rest == [] || done
    ensures cache == Without(before, KeySet(victims))
    ensures DistinctKeys(cache) && total == SumSizes(cache)
  {
    if !done {
      assert removed + Victims([], required, freed) == removed;
    }
  }

  lemma TailDistinct(rest: seq<CacheEntry>)
    requires rest != [] && DistinctKeys(rest)
    ensures DistinctKeys(rest[1..])
  {
    forall a, b | 0 <= a < b < |rest[1..]| ensures rest[1..][a].key != rest[1..][b].key {
      assert rest[1..][a] == rest[a + 1] && rest[1..][b] == rest[b + 1];
    }
  }

  /** Skipping a protected entry leaves everything but the ranking as it was. */
  lemma EvictionSkip(before: seq<CacheEntry>, victims: seq<CacheEntry>, required: int,
                     cache: seq<CacheEntry>, total: int, freed: int,
                     removed: seq<CacheEntry>, rest: seq<CacheEntry>, rest': seq<CacheEntry>)
    requires rest != [] && EvictionState(before, victims, required, cache, total, freed, removed, rest, false)
    requires rest[0].priority > PROTECTED_PRIORITY && freed > 0
    requires rest' == rest[1..]
    ensures EvictionState(before, victims, required, cache, total, freed, removed, rest', false)
  {
    TailDistinct(rest);
    VictimsSkip(rest, required, freed, removed, victims);
    forall k | 0 <= k < |rest[1..]| ensures rest[1..][k].key !in KeySet(removed) {
      assert rest[1..][k] == rest[k + 1];
    }
  }

  /** Deleting the first entry of the ranking moves it from the cache to the removed list. */
  lemma EvictionDelete(before: seq<CacheEntry>, victims: seq<CacheEntry>, required: int,
                       cache: seq<CacheEntry>, total: int, freed: int,
                       removed: seq<CacheEntry>, rest: seq<CacheEntry>)
    requires rest != [] && EvictionState(before, victims, required, cache, total, freed, removed, rest, false)
    requires !(rest[0].priority > PROTECTED_PRIORITY && freed > 0)
    ensures EvictionState(before, victims, required, Without(cache, {rest[0].key}), total - rest[0].size,
                          freed + rest[0].size, removed + [rest[0]], rest[1..], freed + rest[0].size >= required)
  {
    TailDistinct(rest);
    VictimsTake(rest, required, freed, removed, victims);
    EvictStep(rest, before, removed);
    SumSizesAppend(removed, rest[0]);
  }

  /** `EvictionDelete`, stated for the variables of the loop after the deletion. */
  lemma EvictionDeleted(before: seq<CacheEntry>, victims: seq<CacheEntry>, required: int,
                        cache: seq<CacheEntry>, total: int, freed: int,
                        removed: seq<CacheEntry>, rest: seq<CacheEntry>,
                        cache': seq<CacheEntry>, total': int, freed': int,
                        removed': seq<CacheEntry>, rest': seq<CacheEntry>, done': bool)
    requires rest != [] && EvictionState(before, victims, required, cache, total, freed, removed, rest, false)
    requires !(rest[0].priority > PROTECTED_PRIORITY && freed > 0)
    requires cache' == Without(cache, {rest[0].key}) && total' == total - rest[0].size
    requires freed' == freed + rest[0].size && removed' == removed + [rest[0]]
    requires rest' == rest[1..] && done' == (freed' >= required)
    ensures EvictionState(before, victims, required, cache', total', freed', removed', rest', done')
  {
    EvictionDelete(before, victims, required, cache, total, freed, removed, rest);
  }

  function KeysIn(ks: seq<string>): set<string> {
    set k | k in ks
  }

  function KeySet(es: seq<CacheEntry>): set<string> {
    set e | e in es :: e.key
  }

  /** What the sort by eviction score yields: the same entries, each once. */
  ghost predicate IsRanking(ranking: seq<CacheEntry>, es: seq<CacheEntry>) {
    DistinctKeys(ranking) && forall e :: e in ranking <==> e in es
  }

  // ---------------------------------------------------------------------
  // evictEntries
  // ---------------------------------------------------------------------

  /**
   * The entries the eviction loop deletes, walking `ranking` with `freed`
   * bytes already freed: once something is freed, entries above priority
   * 90 are skipped; the loop stops right after the freed space reaches
   * `required`.
   */
  function Victims(ranking: seq<CacheEntry>, required: int, freed: int): seq<CacheEntry>
    decreases |ranking|
  {
    if ranking == [] then []
    else
      var e := ranking[0];
      if e.priority > PROTECTED_PRIORITY && freed > 0 then Victims(ranking[1..], required, freed)
      else if freed + e.size >= required then [e]
      else [e] + Victims(ranking[1..], required, freed + e.size)
  }

  /** Eviction stops as soon as enough is freed: before its last victim it was still short. */
  lemma {:induction false} VictimsStopEarly(ranking: seq<CacheEntry>, required: int, freed: int)
    ensures forall k :: 0 < k < |Victims(ranking, required, freed)| ==>
      freed + SumSizes(Victims(ranking, required, freed)[..k]) < required
    decreases |ranking|
  {
    if ranking != [] {
      var e := ranking[0];
      var r := Victims(ranking, required, freed);
      if e.priority > PROTECTED_PRIORITY && freed > 0 {
        assert r == Victims(ranking[1..], required, freed);
        VictimsStopEarly(ranking[1..], required, freed);
      } else if freed + e.size < required {
        var rest := Victims(ranking[1..], required, freed + e.size);
        assert r == [e] + rest;
        VictimsStopEarly(ranking[1..], required, freed + e.size);
        forall k | 0 < k < |r| ensures freed + SumSizes(r[..k]) < required {
          assert r[..k][0] == e && r[..k][1..] == rest[..k - 1];
          assert SumSizes(r[..k]) == e.size + SumSizes(rest[..k - 1]);
          if k - 1 == 0 {
            assert rest[..k - 1] == [];
          } else {
            assert freed + e.size + SumSizes(rest[..k - 1]) < required;
          }
        }
      }
    }
  }

  /** Once any space has been freed, an entry above priority 90 is never evicted. */
  lemma {:induction false} VictimsSpareProtected(ranking: seq<CacheEntry>, required: int, freed: int)
    ensures forall k :: 0 <= k < |Victims(ranking, required, freed)| && freed + SumSizes(Victims(ranking, required, freed)[..k]) > 0 ==>
      Victims(ranking, required, freed)[k].priority <= PROTECTED_PRIORITY
    decreases |ranking|
  {
    if ranking != [] {
      var e := ranking[0];
      var r := Victims(ranking, required, freed);
      if e.priority > PROTECTED_PRIORITY && freed > 0 {
        assert r == Victims(ranking[1..], required, freed);
        VictimsSpareProtected(ranking[1..], required, freed);
      } else {
        var rest := Victims(ranking[1..], required, freed + e.size);
        if freed + e.size >= required {
          assert r == [e];
        } else {
          assert r == [e] + rest;
          VictimsSpareProtected(ranking[1..], required, freed + e.size);
        }
        forall k | 0 <= k < |r| && freed + SumSizes(r[..k]) > 0 ensures r[k].priority <= PROTECTED_PRIORITY {
          if k == 0 {
            assert r[..k] == [];
          } else {
            assert r[..k][0] == e && r[..k][1..] == rest[..k - 1];
            assert SumSizes(r[..k]) == e.size + SumSizes(rest[..k - 1]);
            assert r[k] == rest[k - 1];
            assert freed + e.size + SumSizes(rest[..k - 1]) > 0;
          }
        }
      }
    }
  }

  /** Eviction only deletes entries of the ranking. */
  lemma {:induction false} VictimsFromRanking(ranking: seq<CacheEntry>, required: int, freed: int)
    ensures forall v :: v in Victims(ranking, required, freed) ==> v in ranking
    decreases |ranking|
  {
    if ranking != [] {
      VictimsFromRanking(ranking[1..], required, freed);
      VictimsFromRanking(ranking[1..], required, freed + ranking[0].size);
    }
  }

  /** The eviction loop skipping a protected entry, as the victims list sees it. */
  lemma VictimsSkip(rest: seq<CacheEntry>, required: int, freed: int, removed: seq<CacheEntry>, victims: seq<CacheEntry>)
    requires rest != [] && rest[0].priority > PROTECTED_PRIORITY && freed > 0
    requires removed + Victims(rest, required, freed) == victims
    ensures removed + Victims(rest[1..], required, freed) == victims
  {
  }

  /** The eviction loop deleting the next entry of the ranking, as the victims list sees it. */
  lemma VictimsTake(rest: seq<CacheEntry>, required: int, freed: int, removed: seq<CacheEntry>, victims: seq<CacheEntry>)
    requires rest != [] && !(rest[0].priority > PROTECTED_PRIORITY && freed > 0)
    requires removed + Victims(rest, required, freed) == victims
    ensures freed + rest[0].size >= required ==> removed + [rest[0]] == victims
    ensures freed + rest[0].size < required ==>
      (removed + [rest[0]]) + Victims(rest[1..], required, freed + rest[0].size) == victims
  {
    var next := Victims(rest[1..], required, freed + rest[0].size);
    assert (removed + [rest[0]]) + next == removed + ([rest[0]] + next);
  }

  /** When eviction cannot free enough, every entry it kept is a protected one. */
  lemma {:induction false} VictimsShortOnlyProtected(ranking: seq<CacheEntry>, required: int, freed: int)
    requires freed + SumSizes(Victims(ranking, required, freed)) < required
    ensures forall e :: e in ranking && e !in Victims(ranking, required, freed) ==> e.priority > PROTECTED_PRIORITY
    decreases |ranking|
  {
    if ranking != [] {
      var e := ranking[0];
      if e.priority > PROTECTED_PRIORITY && freed > 0 {
        VictimsShortOnlyProtected(ranking[1..], required, freed);
      } else {
        var rest := Victims(ranking[1..], required, freed + e.size);
        assert Victims(ranking, required, freed) == [e] + rest;
        assert SumSizes([e] + rest) == e.size + SumSizes(rest) by {
          assert ([e] + rest)[1..] == rest;
        }
        VictimsShortOnlyProtected(ranking[1..], required, freed + e.size);
      }
    }
  }

  /** The entries `cleanupExpiredEntries` removes: those older than `MAX_AGE` at `now`. */
  predicate Expired(e: CacheEntry, now: int) {
    now - e.timestamp > MAX_AGE
  }

  function ExpiredKeys(es: seq<CacheEntry>, now: int): set<string> {
    set e | e in es && Expired(e, now) :: e.key
  }

  /** With distinct keys, dropping the expired keys drops exactly the expired entries. */
  lemma WithoutExpired(es: seq<CacheEntry>, now: int)
    requires DistinctKeys(es)
    ensures forall e :: e in Without(es, ExpiredKeys(es, now)) <==> e in es && !Expired(e, now)
  {
    forall e | e in es && e.key in ExpiredKeys(es, now) ensures Expired(e, now) {
      var x :| x in es && Expired(x, now) && x.key == e.key;
      var i :| 0 <= i < |es| && es[i] == e;
      var j :| 0 <= j < |es| && es[j] == x;
      assert i == j;
    }
  }

  /** Whether a preload of `key` at `priority` is skipped: the key is cached with at least that priority. */
  predicate PreloadSkipped(es: seq<CacheEntry>, key: string, priority: int) {
    HasKey(es, key) && es[KeyIndex(es, key)].priority >= priority
  }

  /**
   * A `preload` call waiting in the queue: its key, its loader (a function
   * value, known here by an identifier), its entry type and its priority.
   */
  datatype PreloadJob = PreloadJob(key: string, loader: nat, kind: EntryType, priority: int)

  /** The keys waiting in the queue. */
  function QueuedKeys(q: seq<PreloadJob>): set<string> {
    set j | j in q :: j.key
  }

  /** No key waits in the queue twice. */
  predicate QueueDistinct(q: seq<PreloadJob>) {
    forall i, j :: 0 <= i < j < |q| ==> q[i].key != q[j].key
  }

  /**
   * The jobs that `processPreloadQueue` as written runs for the keys queued
   * during one drain: it goes on with its own `loader`, `type` and
   * `priority`, so every key is loaded and stored with those of the
   * `preload` call that started the drain.
   */
  function DrainAsWritten(q: seq<PreloadJob>): (r: seq<PreloadJob>)
    ensures |r| == |q|
    ensures forall i :: 0 <= i < |q| ==> r[i].key == q[i].key && r[i].loader == q[0].loader
  {
    seq(|q|, i requires 0 <= i < |q| => q[0].(key := q[i].key))
  }

  /** Two keys preloaded with different loaders while a drain runs: as written, the second key is loaded by the first key's loader. */
  lemma DrainAsWrittenSwapsLoader()
    ensures var q := [PreloadJob("hero.jpg", 1, Image, 50), PreloadJob("page.html", 2, Html, 80)];
      var r := DrainAsWritten(q);
      r[1].key == "page.html" && r[1].loader == 1 && r[1].kind == Image && r[1].priority == 50
      && r[1] != q[1]
  {
  }

  /** An entry after `get`: accessed now, once more, and one point more urgent up to 100. */
  function Touched(e: CacheEntry, now: int): (t: CacheEntry)
    ensures t.key == e.key && t.data == e.data && t.size == e.size && t.kind == e.kind
    ensures t.accessCount == e.accessCount + 1 && t.lastAccessed == now
    ensures e.priority < 100 ==> t.priority == e.priority + 1
    ensures e.priority >= 100 ==> t.priority == 100
  {
    e.(lastAccessed := now, accessCount := e.accessCount + 1,
       priority := if e.priority + 1 < 100 then e.priority + 1 else 100)
  }

  /** An existing entry after `set`: new data and size, stamped now, priority never lowered. */
  function Refreshed(e: CacheEntry, data: CacheData, size: int, metadata: Option<CacheData>, priority: int, now: int): (t: CacheEntry)
    ensures t.key == e.key && t.kind == e.kind && t.data == data && t.size == size
    ensures t.timestamp == now && t.lastAccessed == now && t.accessCount == e.accessCount + 1
    ensures t.priority >= e.priority && t.priority >= priority && (t.priority == e.priority || t.priority == priority)
    ensures t.metadata == if metadata.Some? then metadata else e.metadata
  {
    e.(data := data, size := size, timestamp := now, lastAccessed := now,
       accessCount := e.accessCount + 1,
       priority := if e.priority >= priority then e.priority else priority,
       metadata := if metadata.Some? then metadata else e.metadata)
  }

  /** The entries left before a new key is inserted: evicted when the new size would overflow. */
  function BeforeInsert(es: seq<CacheEntry>, total: int, size: int, ranking: seq<CacheEntry>): seq<CacheEntry> {
    if total + size > MAX_SIZE then Without(es, KeySet(Victims(ranking, size, 0))) else es
  }

  /** The number of entries of type `t`. */
  function CountType(es: seq<CacheEntry>, t: EntryType): nat
    decreases |es|
  {
    if es == [] then 0
    else CountType(es[..|es| - 1], t) + (if es[|es| - 1].kind == t then 1 else 0)
  }

  /** The per-type counts partition the entries. */
  lemma {:induction false} CountTypesSum(es: seq<CacheEntry>)
    ensures CountType(es, Image) + CountType(es, Html) + CountType(es, Json)
          + CountType(es, Component) + CountType(es, Other) == |es|
    decreases |es|
  {
    if es != [] {
      CountTypesSum(es[..|es| - 1]);
    }
  }

  /**
   * The eviction loop of `evictEntries` over the entries `cache` and their
   * total `total`: walks the ranking, skipping protected entries once
   * something is freed, deleting the others and stopping as soon as
   * `required` bytes are freed.
   */
  method Evict(cache: seq<CacheEntry>, total: int, required: int, ranking: seq<CacheEntry>)
    returns (kept: seq<CacheEntry>, keptTotal: int)
    requires DistinctKeys(cache) && total == SumSizes(cache) && IsRanking(ranking, cache)
    ensures kept == Without(cache, KeySet(Victims(ranking, required, 0)))
    ensures DistinctKeys(kept) && keptTotal == SumSizes(kept)
  {
    ghost var victims := Victims(ranking, required, 0);
    ghost var removed: seq<CacheEntry> := [];
    kept, keptTotal := cache, total;
    var freed := 0;
    var done := false;
    var rest := ranking;
    EvictionStart(cache, total, required, ranking);
    while rest != [] && !done
      invariant EvictionState(cache, victims, required, kept, keptTotal, freed, removed, rest, done)
      decreases |rest|
    {
      var entry := rest[0];
      ghost var (kept0, total0, freed0, removed0, rest0) := (kept, keptTotal, freed, removed, rest);
      if entry.priority > PROTECTED_PRIORITY && freed > 0 {
        // a protected entry is spared once something has been freed
        rest := rest[1..];
        EvictionSkip(cache, victims, required, kept, keptTotal, freed, removed, rest0, rest);
      } else {
        kept := Without(kept, {entry.key});
        freed := freed + entry.size;
        keptTotal := keptTotal - entry.size;
        removed := removed + [entry];
        done := freed >= required;
        rest := rest[1..];
        EvictionDeleted(cache, victims, required, kept0, total0, freed0, removed0, rest0,
                        kept, keptTotal, freed, removed, rest, done);
      }
    }
    EvictionEnd(cache, victims, required, kept, keptTotal, freed, removed, rest, done);
  }

  /** The first loop of `cleanupExpiredEntries`: the keys of the entries older than `MAX_AGE`. */
  method CollectExpired(es: seq<CacheEntry>, now: int) returns (keys: seq<string>)
    ensures KeysIn(keys) == ExpiredKeys(es, now)
    ensures forall k :: 0 <= k < |keys| ==> HasKey(es, keys[k])
  {
    keys := [];
    var i := 0;
    while i < |es|
      invariant 0 <= i <= |es|
      invariant KeysIn(keys) == ExpiredKeys(es[..i], now)
      invariant forall k :: 0 <= k < |keys| ==> HasKey(es, keys[k])
    {
      ExpiredKeysNext(es, i, now);
      if Expired(es[i], now) {
        KeysInAppend(keys, es[i].key);
        assert es[i] in es;
        keys := keys + [es[i].key];
      }
      i := i + 1;
    }
    assert es[..i] == es;
  }

  lemma ExpiredKeysNext(es: seq<CacheEntry>, i: nat, now: int)
    requires i < |es|
    ensures ExpiredKeys(es[..i + 1], now) ==
      ExpiredKeys(es[..i], now) + (if Expired(es[i], now) then {es[i].key} else {})
  {
    assert es[..i + 1] == es[..i] + [es[i]];
  }

  lemma KeysInAppend(ks: seq<string>, k: string)
    ensures KeysIn(ks + [k]) == KeysIn(ks) + {k}
  {
  }

  /** What the deletion loop keeps: `kept` is the cache without the keys `gone`, and `total` its size. */
  ghost predicate DeletionState(cache: seq<CacheEntry>, gone: set<string>, kept: seq<CacheEntry>, total: int) {
    DistinctKeys(cache) && kept == Without(cache, gone) && DistinctKeys(kept) && total == SumSizes(kept)
  }

  /** Deleting a key that is present takes its entry and its size away. */
  lemma DeletionPresent(cache: seq<CacheEntry>, keys: seq<string>, j: nat, kept: seq<CacheEntry>, total: int)
    requires j < |keys| && DeletionState(cache, KeysIn(keys[..j]), kept, total) && HasKey(kept, keys[j])
    ensures DeletionState(cache, KeysIn(keys[..j + 1]), Without(kept, {keys[j]}),
                          total - kept[KeyIndex(kept, keys[j])].size)
  {
    var e := kept[KeyIndex(kept, keys[j])];
    assert e in kept;
    WithoutOneSum(kept, e);
    WithoutTwice(cache, KeysIn(keys[..j]), {keys[j]});
    KeysInNext(keys, j);
  }

  /** Deleting a key that is absent changes nothing. */
  lemma DeletionAbsent(cache: seq<CacheEntry>, keys: seq<string>, j: nat, kept: seq<CacheEntry>, total: int)
    requires j < |keys| && DeletionState(cache, KeysIn(keys[..j]), kept, total) && !HasKey(kept, keys[j])
    ensures DeletionState(cache, KeysIn(keys[..j + 1]), kept, total)
  {
    forall k | 0 <= k < |kept| ensures kept[k].key !in {keys[j]} {
      assert kept[k] in kept;
    }
    WithoutUntouched(kept, {keys[j]});
    WithoutTwice(cache, KeysIn(keys[..j]), {keys[j]});
    KeysInNext(keys, j);
  }

  /** One turn of the deletion loop keeps its bookkeeping, whether the key is cached or not. */
  lemma DeletionTurn(cache: seq<CacheEntry>, keys: seq<string>, j: nat, kept: seq<CacheEntry>, total: int,
                     kept': seq<CacheEntry>, total': int)
    requires j < |keys| && DeletionState(cache, KeysIn(keys[..j]), kept, total)
    requires HasKey(kept, keys[j]) ==>
      kept' == Without(kept, {keys[j]}) && total' == total - kept[KeyIndex(kept, keys[j])].size
    requires !HasKey(kept, keys[j]) ==> kept' == kept && total' == total
    ensures DeletionState(cache, KeysIn(keys[..j + 1]), kept', total')
  {
    if HasKey(kept, keys[j]) {
      DeletionPresent(cache, keys, j, kept, total);
    } else {
      DeletionAbsent(cache, keys, j, kept, total);
    }
  }

  lemma DeletionStart(cache: seq<CacheEntry>, total: int, keys: seq<string>)
    requires DistinctKeys(cache) && total == SumSizes(cache)
    ensures DeletionState(cache, KeysIn(keys[..0]), cache, total)
  {
    WithoutNothing(cache);
    assert KeysIn(keys[..0]) == {};
  }

  lemma DeletionEnd(cache: seq<CacheEntry>, keys: seq<string>, kept: seq<CacheEntry>, total: int)
    requires DeletionState(cache, KeysIn(keys[..|keys|]), kept, total)
    ensures kept == Without(cache, KeysIn(keys)) && DistinctKeys(kept) && total == SumSizes(kept)
  {
    assert keys[..|keys|] == keys;
  }

  lemma KeysInNext(keys: seq<string>, j: nat)
    requires j < |keys|
    ensures KeysIn(keys[..j + 1]) == KeysIn(keys[..j]) + {keys[j]}
  {
    assert keys[..j + 1] == keys[..j] + [keys[j]];
  }

  /**
   * The second loop of `cleanupExpiredEntries`: each listed key still
   * cached has its size subtracted and its entry deleted.
   */
  method DeleteKeys(cache: seq<CacheEntry>, total: int, keys: seq<string>)
    returns (kept: seq<CacheEntry>, keptTotal: int)
    requires DistinctKeys(cache) && total == SumSizes(cache)
    ensures kept == Without(cache, KeysIn(keys))
    ensures DistinctKeys(kept) && keptTotal == SumSizes(kept)
  {
    kept, keptTotal := cache, total;
    DeletionStart(cache, total, keys);
    var j := 0;
    while j < |keys|
      invariant 0 <= j <= |keys|
      invariant DeletionState(cache, KeysIn(keys[..j]), kept, keptTotal)
    {
      var key := keys[j];
      ghost var (kept0, total0) := (kept, keptTotal);
      var found := HasKey(kept, key);
      if found {
        var i := KeyIndex(kept, key);
        keptTotal := keptTotal - kept[i].size;
        kept := Without(kept, {key});
      }
      DeletionTurn(cache, keys, j, kept0, total0, kept, keptTotal);
      j := j + 1;
    }
    DeletionEnd(cache, keys, kept, keptTotal);
  }

  datatype CacheStats = CacheStats(entryCount: nat, totalSize: int, maxSize: int, entriesByType: map<EntryType, nat>)

  class Cache {
    /** The `Map`'s entries in iteration order. */
    var entries: seq<CacheEntry>
    var totalSize: int
    var preloadQueue: seq<PreloadJob>

    /** Keys are unique, `totalSize` is the sum of the entries' sizes, and a key is queued at most once. */
    predicate Valid()
      reads this
    {
      DistinctKeys(entries) && totalSize == SumSizes(entries) && QueueDistinct(preloadQueue)
    }

    constructor()
      ensures Valid() && entries == [] && totalSize == 0 && preloadQueue == []
    {
      entries := [];
      totalSize := 0;
      preloadQueue := [];
    }

    /** `has`. */
    function Has(key: string): (b: bool)
      reads this
      ensures b <==> exists k :: 0 <= k < |entries| && entries[k].key == key
    {
      HasKey(entries, key)
    }

    /**
     * `set`: an entry larger than `MAX_SIZE` is refused and nothing
     * changes.  An existing key is refreshed in place; a new key is
     * appended, after evicting in ranking order when it would overflow.
     */
    method Set(key: string, data: CacheData, size: int, kind: EntryType, metadata: Option<CacheData>,
               priority: int, now: int, ranking: seq<CacheEntry>) returns (stored: bool)
      requires Valid() && IsRanking(ranking, entries)
      modifies this
      ensures Valid() && preloadQueue == old(preloadQueue)
      ensures stored <==> size <= MAX_SIZE
      ensures !stored ==> entries == old(entries)
      ensures stored && HasKey(old(entries), key) ==>
        var i := KeyIndex(old(entries), key);
        entries == old(entries)[i := Refreshed(old(entries)[i], data, size, metadata, priority, now)]
      ensures stored && !HasKey(old(entries), key) ==>
        entries == BeforeInsert(old(entries), old(totalSize), size, ranking)
                   + [CacheEntry(key, data, size, kind, now, now, 1, priority, metadata)]
    {
      if size > MAX_SIZE {
        return false;
      }
      if HasKey(entries, key) {
        var i := KeyIndex(entries, key);
        var updated := Refreshed(entries[i], data, size, metadata, priority, now);
        SumSizesUpdate(entries, i, updated);
        totalSize := totalSize - entries[i].size;
        entries := entries[i := updated];
        totalSize := totalSize + size;
        return true;
      }
      if totalSize + size > MAX_SIZE {
        EvictEntries(size, ranking);
      }
      var entry := CacheEntry(key, data, size, kind, now, now, 1, priority, metadata);
      SumSizesAppend(entries, entry);
      entries := entries + [entry];
      totalSize := totalSize + size;
      return true;
    }

    /** `get`: a miss changes nothing; a hit returns the data and touches the entry. */
    method Get(key: string, now: int) returns (data: Option<CacheData>)
      requires Valid()
      modifies this
      ensures Valid() && totalSize == old(totalSize) && preloadQueue == old(preloadQueue)
      ensures data.Some? <==> HasKey(old(entries), key)
      ensures !HasKey(old(entries), key) ==> entries == old(entries)
      ensures HasKey(old(entries), key) ==>
        var i := KeyIndex(old(entries), key);
        data == Some(old(entries)[i].data) && entries == old(entries)[i := Touched(old(entries)[i], now)]
    {
      if !HasKey(entries, key) {
        return None;
      }
      var i := KeyIndex(entries, key);
      var entry := entries[i];
      SumSizesUpdate(entries, i, Touched(entry, now));
      entries := entries[i := Touched(entry, now)];
      data := Some(entry.data);
    }

    /** `delete`: false iff the key is absent; otherwise the key is gone and its size is subtracted. */
    method Delete(key: string) returns (deleted: bool)
      requires Valid()
      modifies this
      ensures Valid() && preloadQueue == old(preloadQueue)
      ensures deleted <==> HasKey(old(entries), key)
      ensures entries == Without(old(entries), {key}) && !HasKey(entries, key)
      ensures deleted ==> totalSize == old(totalSize) - old(entries)[KeyIndex(old(entries), key)].size
    {
      if !HasKey(entries, key) {
        WithoutUntouched(entries, {key});
        return false;
      }
      var entry := entries[KeyIndex(entries, key)];
      WithoutOneSum(entries, entry);
      totalSize := totalSize - entry.size;
      entries := Without(entries, {key});
      return true;
    }

    /** `clear`. */
    method Clear()
      requires Valid()
      modifies this
      ensures Valid() && entries == [] && totalSize == 0 && preloadQueue == old(preloadQueue)
    {
      entries := [];
      totalSize := 0;
    }

    /**
     * `preload`, up to queueing: a key already cached with at least the
     * requested priority is skipped, and a key is queued at most once, with
     * the loader, type and priority of the call that queued it.
     */
    method Preload(key: string, loader: nat, kind: EntryType, priority: int)
      requires Valid()
      modifies this
      ensures Valid() && entries == old(entries) && totalSize == old(totalSize)
      ensures preloadQueue ==
        if PreloadSkipped(old(entries), key, priority) || key in QueuedKeys(old(preloadQueue)) then old(preloadQueue)
        else old(preloadQueue) + [PreloadJob(key, loader, kind, priority)]
    {
      if HasKey(entries, key) && entries[KeyIndex(entries, key)].priority >= priority {
        return;
      }
      if key !in QueuedKeys(preloadQueue) {
        preloadQueue := preloadQueue + [PreloadJob(key, loader, kind, priority)];
      }
    }

    /**
     * One round of `processPreloadQueue`, with the outcome of the first
     * queued job's own loader given as `loaded` (`None` when it threw): the
     * job is shifted off and its data is stored under its key, with its
     * estimated size, the job's type and priority and no metadata, exactly
     * as `set` stores it.
     */
    method ProcessPreload(loaded: Option<CacheData>, now: int, ranking: seq<CacheEntry>)
      returns (stored: bool)
      requires Valid() && IsRanking(ranking, entries)
      modifies this
      ensures Valid()
      ensures preloadQueue == if old(preloadQueue) == [] then [] else old(preloadQueue)[1..]
      ensures stored <==> old(preloadQueue) != [] && loaded.Some? && EstimateSize(loaded.value) <= MAX_SIZE
      ensures !stored ==> entries == old(entries)
      ensures stored ==>
        var job := old(preloadQueue)[0];
        var size := EstimateSize(loaded.value);
        if HasKey(old(entries), job.key) then
          var i := KeyIndex(old(entries), job.key);
          entries == old(entries)[i := Refreshed(old(entries)[i], loaded.value, size, None, job.priority, now)]
        else
          entries == BeforeInsert(old(entries), old(totalSize), size, ranking)
                     + [CacheEntry(job.key, loaded.value, size, job.kind, now, now, 1, job.priority, None)]
    {
      if preloadQueue == [] {
        return false;
      }
      var job := preloadQueue[0];
      preloadQueue := preloadQueue[1..];
      if loaded.None? {
        return false;
      }
      stored := Set(job.key, loaded.value, EstimateSize(loaded.value), job.kind, None, job.priority, now, ranking);
    }

    /**
     * `evictEntries`: deletes the entries of `Victims(ranking, required, 0)`
     * and subtracts each one's size; an empty cache is left alone.
     */
    method EvictEntries(required: int, ranking: seq<CacheEntry>)
      requires Valid() && IsRanking(ranking, entries)
      modifies this
      ensures Valid() && preloadQueue == old(preloadQueue)
      ensures entries == Without(old(entries), KeySet(Victims(ranking, required, 0)))
    {
      if |entries| == 0 {
        return;
      }
      entries, totalSize := Evict(entries, totalSize, required, ranking);
    }

    /**
     * `cleanupExpiredEntries`: collects the keys of the entries older than `MAX_AGE`
     * at `now`, then deletes them one by one.
     */
    method CleanupExpiredEntries(now: int)
      requires Valid()
      modifies this
      ensures Valid() && preloadQueue == old(preloadQueue)
      ensures entries == Without(old(entries), ExpiredKeys(old(entries), now))
      ensures forall e :: e in entries <==> e in old(entries) && !Expired(e, now)
    {
      var expiredKeys := CollectExpired(entries, now);
      WithoutExpired(entries, now);
      entries, totalSize := DeleteKeys(entries, totalSize, expiredKeys);
    }

    /** `getStats` without the floating-point usage percentage. */
    method GetStats() returns (stats: CacheStats)
      requires Valid()
      ensures stats.entryCount == |entries| && stats.totalSize == SumSizes(entries) && stats.maxSize == MAX_SIZE
      ensures forall t :: t in stats.entriesByType && stats.entriesByType[t] == CountType(entries, t)
    {
      var counts: map<EntryType, nat> := map[Image := 0, Html := 0, Json := 0, Component := 0, Other := 0];
      var i := 0;
      assert forall t :: t in counts by {
        forall t ensures t in counts {
          match t
          case Image =>
          case Html =>
          case Json =>
          case Component =>
          case Other =>
        }
      }
      while i < |entries|
        invariant 0 <= i <= |entries|
        invariant forall t :: t in counts && counts[t] == CountType(entries[..i], t)
      {
        assert entries[..i + 1][..i] == entries[..i];
        counts := counts[entries[i].kind := counts[entries[i].kind] + 1];
        i := i + 1;
      }
      assert entries[..i] == entries;
      stats := CacheStats(|entries|, totalSize, MAX_SIZE, counts);
    }
  }

  /** The per-type counts of `getStats` add up to its entry count. */
  lemma StatsCountsSum(stats: CacheStats, es: seq<CacheEntry>)
    requires stats.entryCount == |es|
    requires forall t :: t in stats.entriesByType && stats.entriesByType[t] == CountType(es, t)
    ensures stats.entriesByType[Image] + stats.entriesByType[Html] + stats.entriesByType[Json]
          + stats.entriesByType[Component] + stats.entriesByType[Other] == stats.entryCount
  {
    CountTypesSum(es);
  }
}

=== FILE: clients_editor.dfy ===
/**
 * The editor of the services page's client list: numbering, search and
 * filters, grouping by industry, the client form's rules, reordering by
 * drag and drop, activation, adding and removing.
 *
 * Generated ids (`Date.now()` and `Math.random()`) are parameters; the
 * editor's React state is passed in and returned as values.
 */
module ClientsEditing {
  import opened Wrappers
  import opened Text
  import opened Lists
  import opened FormRules

  /** `ClientItem`. */
  datatype Client = Client(
    id: string, name: string, logo: string, description: string, industry: string, isActive: bool, order: int)

  /** `ClientFormData`. */
  datatype ClientForm = ClientForm(name: string, logo: string, description: string, industry: string, isActive: bool)

  function Ids(clients: seq<Client>): seq<string> {
    Map(clients, (c: Client) => c.id)
  }

  /** Clients carry the orders 1, 2, ... in list order. */
  predicate NumberedFromOne(clients: seq<Client>) {
    forall k :: 0 <= k < |clients| ==> clients[k].order == k + 1
  }

  /** `updateClientOrder`: every client gets its position plus one as order, and keeps everything else. */
  function UpdateClientOrder(clients: seq<Client>): (r: seq<Client>)
    ensures |r| == |clients| && NumberedFromOne(r)
    ensures forall k :: 0 <= k < |r| ==> r[k].(order := clients[k].order) == clients[k]
  {
    seq(|clients|, k requires 0 <= k < |clients| => clients[k].(order := k + 1))
  }

  /** Renumbering keeps the ids in their order, and a numbered list is left as it is. */
  lemma UpdateClientOrderKeeps(clients: seq<Client>)
    ensures Ids(UpdateClientOrder(clients)) == Ids(clients)
    ensures NumberedFromOne(clients) ==> UpdateClientOrder(clients) == clients
  {
    var r := UpdateClientOrder(clients);
    assert forall k :: 0 <= k < |r| ==> r[k].id == clients[k].id;
  }

  // ---------------------------------------------------------------------
  // Search, filters and grouping
  // ---------------------------------------------------------------------

  /** The status filter: `all`, `active` or `inactive`. */
  datatype StatusFilter = AllStatuses | ActiveOnly | InactiveOnly

  /** The three conditions of `filteredClients`. */
  predicate ClientShown(c: Client, searchTerm: string, filterIndustry: string, filterStatus: StatusFilter) {
    && (Contains(Lower(c.name), Lower(searchTerm)) || Contains(Lower(c.description), Lower(searchTerm)))
    && (filterIndustry == "all" || c.industry == filterIndustry)
    && (filterStatus == AllStatuses || (filterStatus == ActiveOnly && c.isActive) || (filterStatus == InactiveOnly && !c.isActive))
  }

  function ShownFilter(searchTerm: string, filterIndustry: string, filterStatus: StatusFilter): Client -> bool {
    (c: Client) => ClientShown(c, searchTerm, filterIndustry, filterStatus)
  }

  /** `filteredClients`. */
  function FilteredClients(clients: seq<Client>, searchTerm: string, filterIndustry: string, filterStatus: StatusFilter): seq<Client> {
    Filter(clients, ShownFilter(searchTerm, filterIndustry, filterStatus))
  }

  /**
   * The list shown keeps the clients' order and holds exactly those that
   * match the search, the industry and the status; with no search and
   * both filters at `all` it is the whole list.
   */
  lemma FilteredClientsSpec(clients: seq<Client>, searchTerm: string, filterIndustry: string, filterStatus: StatusFilter)
    ensures var r := FilteredClients(clients, searchTerm, filterIndustry, filterStatus);
      && IsSubsequence(r, clients)
      && (forall c :: c in r <==> c in clients && ClientShown(c, searchTerm, filterIndustry, filterStatus))
      && (searchTerm == "" && filterIndustry == "all" && filterStatus == AllStatuses ==> r == clients)
  {
    var p := ShownFilter(searchTerm, filterIndustry, filterStatus);
    FilterSubsequence(clients, p);
    if searchTerm == "" && filterIndustry == "all" && filterStatus == AllStatuses {
      forall k | 0 <= k < |clients| ensures p(clients[k]) {
        ContainsPrefix(Lower(clients[k].name), "");
      }
      FilterAll(clients, p);
    }
  }

  function InIndustry(industry: string): Client -> bool {
    (c: Client) => c.industry == industry
  }

  /** The clients of one industry, in list order. */
  function OfIndustry(clients: seq<Client>, industry: string): seq<Client> {
    Keep(clients, InIndustry(industry))
  }

  /** The industries that occur among the clients. */
  function Industries(clients: seq<Client>): set<string> {
    if |clients| == 0 then {}
    else Industries(clients[..|clients| - 1]) + {clients[|clients| - 1].industry}
  }

  /** An industry's group holds exactly the clients of that industry, in list order. */
  lemma OfIndustrySpec(clients: seq<Client>, industry: string)
    ensures forall c :: c in OfIndustry(clients, industry) <==> c in clients && c.industry == industry
    ensures IsSubsequence(OfIndustry(clients, industry), clients)
  {
    KeepIsFilter(clients, InIndustry(industry));
    FilterSubsequence(clients, InIndustry(industry));
  }

  /** An industry occurs among the clients exactly when its group is not empty. */
  lemma {:induction false} IndustriesAreGroups(clients: seq<Client>, industry: string)
    ensures industry in Industries(clients) <==> OfIndustry(clients, industry) != []
  {
    if |clients| > 0 {
      IndustriesAreGroups(clients[..|clients| - 1], industry);
    }
  }

  /**
   * `clientsByIndustry`: the `reduce` that pushes each client onto the
   * list of its industry, creating the list on first sight.  Each group
   * is the clients of that industry in list order.
   */
  method ClientsByIndustry(clients: seq<Client>) returns (groups: map<string, seq<Client>>)
    ensures groups.Keys == Industries(clients)
    ensures forall industry :: industry in groups ==> groups[industry] == OfIndustry(clients, industry)
  {
    groups := map[];
    for i := 0 to |clients|
      invariant groups.Keys == Industries(clients[..i])
      invariant forall industry :: industry in groups ==> groups[industry] == OfIndustry(clients[..i], industry)
    {
      var c := clients[i];
      assert clients[..i + 1][..i] == clients[..i];
      var group := [];
      if c.industry in groups {
        group := groups[c.industry];
      } else {
        IndustriesAreGroups(clients[..i], c.industry);
      }
      groups := groups[c.industry := group + [c]];
    }
    assert clients[..|clients|] == clients;
  }

  // ---------------------------------------------------------------------
  // The client form
  // ---------------------------------------------------------------------

  /** The errors of the client form, per field. */
  datatype ClientFormErrors = ClientFormErrors(name: Option<FieldError>, description: Option<FieldError>, industry: Option<FieldError>) {
    predicate Empty() {
      name.None? && description.None? && industry.None?
    }
  }

  /**
   * `validateClientForm`: a name and a description that are not blank
   * and, trimmed, at most 100 and 300 characters long, and an industry.
   */
  function ValidateClientForm(form: ClientForm): (e: ClientFormErrors)
    ensures e.Empty() <==>
      Trim(form.name) != "" && |Trim(form.name)| <= 100
      && Trim(form.description) != "" && |Trim(form.description)| <= 300
      && form.industry != ""
    ensures e.name == Some(Required) <==> Trim(form.name) == ""
    ensures e.name == Some(TooLong(100)) <==> Trim(form.name) != "" && |Trim(form.name)| > 100
    ensures e.description == Some(Required) <==> Trim(form.description) == ""
    ensures e.description == Some(TooLong(300)) <==> Trim(form.description) != "" && |Trim(form.description)| > 300
    ensures e.industry == Some(Required) <==> form.industry == ""
  {
    ClientFormErrors(
      RequiredAtMost(form.name, Trim(form.name), 100),
      RequiredAtMost(form.description, Trim(form.description), 300),
      if form.industry == "" then Some(Required) else None)
  }

  // ---------------------------------------------------------------------
  // Editing the list
  // ---------------------------------------------------------------------

  /**
   * `handleAddClient`: a form with errors is refused; otherwise the client,
   * its texts trimmed and its order one past the list's length, is appended.
   */
  function AddClient(clients: seq<Client>, form: ClientForm, newId: string): (r: Result<seq<Client>, ClientFormErrors>)
    ensures r.Err? <==> !ValidateClientForm(form).Empty()
    ensures r.Err? ==> r.error == ValidateClientForm(form)
    ensures r.Ok? ==> |r.value| == |clients| + 1 && r.value[..|clients|] == clients
    ensures r.Ok? ==> var c := r.value[|clients|];
      && c.id == newId && c.order == |clients| + 1
      && c.name == Trim(form.name) && c.logo == Trim(form.logo) && c.description == Trim(form.description)
      && c.industry == form.industry && c.isActive == form.isActive
  {
    var errors := ValidateClientForm(form);
    if !errors.Empty() then Err(errors)
    else
      Ok(clients + [Client(newId, Trim(form.name), Trim(form.logo), Trim(form.description), form.industry, form.isActive, |clients| + 1)])
  }

  lemma AppendKeepsNumbering(clients: seq<Client>, c: Client)
    requires NumberedFromOne(clients) && c.order == |clients| + 1
    ensures NumberedFromOne(clients + [c])
  {
  }

  /** Adding to a list numbered from one keeps it numbered from one. */
  lemma AddClientKeepsNumbering(clients: seq<Client>, form: ClientForm, newId: string)
    requires NumberedFromOne(clients) && AddClient(clients, form, newId).Ok?
    ensures NumberedFromOne(AddClient(clients, form, newId).value)
  {
    var r := AddClient(clients, form, newId).value;
    assert r == r[..|clients|] + [r[|clients|]];
    AppendKeepsNumbering(clients, r[|clients|]);
  }

  /** Why an update is refused: no client is being edited, or the form has errors. */
  datatype UpdateRefusal = NotEditing | InvalidForm(errors: ClientFormErrors)

  /**
   * `handleUpdateClient`: with a client being edited and a form without
   * errors, the clients with the edited id get the trimmed texts, the
   * industry and the flag; ids and orders stay.
   */
  function UpdateClient(clients: seq<Client>, editingId: Option<string>, form: ClientForm): (r: Result<seq<Client>, UpdateRefusal>)
    ensures editingId.None? ==> r == Err(NotEditing)
    ensures editingId.Some? ==> (r.Err? <==> !ValidateClientForm(form).Empty())
    ensures editingId.Some? && r.Err? ==> r.error == InvalidForm(ValidateClientForm(form))
    ensures r.Ok? ==> |r.value| == |clients|
    ensures r.Ok? ==> forall k :: 0 <= k < |clients| ==>
      && r.value[k].id == clients[k].id && r.value[k].order == clients[k].order
      && (clients[k].id != editingId.value ==> r.value[k] == clients[k])
      && (clients[k].id == editingId.value ==>
            && r.value[k].name == Trim(form.name) && r.value[k].logo == Trim(form.logo)
            && r.value[k].description == Trim(form.description)
            && r.value[k].industry == form.industry && r.value[k].isActive == form.isActive)
  {
    if editingId.None? then Err(NotEditing)
    else
      var errors := ValidateClientForm(form);
      if !errors.Empty() then Err(InvalidForm(errors))
      else
        Ok(seq(|clients|, k requires 0 <= k < |clients| =>
          if clients[k].id == editingId.value
          then clients[k].(name := Trim(form.name), logo := Trim(form.logo), description := Trim(form.description),
                           industry := form.industry, isActive := form.isActive)
          else clients[k]))
  }

  /** An update keeps every id in its place and a numbered list numbered. */
  lemma UpdateClientKeeps(clients: seq<Client>, editingId: Option<string>, form: ClientForm)
    requires UpdateClient(clients, editingId, form).Ok?
    ensures Ids(UpdateClient(clients, editingId, form).value) == Ids(clients)
    ensures NumberedFromOne(clients) ==> NumberedFromOne(UpdateClient(clients, editingId, form).value)
  {
    var r := UpdateClient(clients, editingId, form).value;
    MapPointwise(r, clients, (c: Client) => c.id);
  }

  /** `handleToggleActive`: the flag is set on the clients with that id; nothing else changes. */
  function ToggleActive(clients: seq<Client>, clientId: string, isActive: bool): (r: seq<Client>)
    ensures |r| == |clients|
    ensures forall k :: 0 <= k < |r| ==> r[k].(isActive := clients[k].isActive) == clients[k]
    ensures forall k :: 0 <= k < |r| ==> r[k].isActive == if clients[k].id == clientId then isActive else clients[k].isActive
  {
    seq(|clients|, k requires 0 <= k < |clients| =>
      if clients[k].id == clientId then clients[k].(isActive := isActive) else clients[k])
  }

  /** Setting a client's flag back to what it was restores the list, and the ids and orders never move. */
  lemma ToggleActiveRestores(clients: seq<Client>, i: nat, isActive: bool)
    requires i < |clients| && Distinct(Ids(clients))
    ensures var id := clients[i].id;
      ToggleActive(ToggleActive(clients, id, isActive), id, clients[i].isActive) == clients
    ensures Ids(ToggleActive(clients, clients[i].id, isActive)) == Ids(clients)
  {
    var id := clients[i].id;
    var once := ToggleActive(clients, id, isActive);
    var twice := ToggleActive(once, id, clients[i].isActive);
    forall k | 0 <= k < |clients| ensures twice[k] == clients[k] {
      if clients[k].id == id {
        assert Ids(clients)[k] == Ids(clients)[i];
      }
    }
    assert forall k :: 0 <= k < |once| ==> Ids(once)[k] == Ids(clients)[k];
  }

  function OtherThan(clientId: string): Client -> bool {
    (c: Client) => c.id != clientId
  }

  /** `handleRemoveClient`: the clients with that id are dropped and the rest renumbered from one. */
  function RemoveClient(clients: seq<Client>, clientId: string): seq<Client> {
    UpdateClientOrder(Filter(clients, OtherThan(clientId)))
  }

  /**
   * After a removal no client has that id, the others keep their order
   * and are numbered from one; with unique ids, removing a client that
   * exists leaves one fewer.
   */
  lemma RemoveClientSpec(clients: seq<Client>, clientId: string)
    ensures var r := RemoveClient(clients, clientId);
      && clientId !in Ids(r)
      && NumberedFromOne(r)
      && Ids(r) == Ids(Filter(clients, OtherThan(clientId)))
      && (Distinct(Ids(clients)) && clientId in Ids(clients) ==> |r| == |clients| - 1)
  {
    var kept := Filter(clients, OtherThan(clientId));
    UpdateClientOrderKeeps(kept);
    assert forall k :: 0 <= k < |kept| ==> Ids(kept)[k] != clientId;
    if Distinct(Ids(clients)) && clientId in Ids(clients) {
      var i :| 0 <= i < |clients| && Ids(clients)[i] == clientId;
      forall j | 0 <= j < |clients| && j != i ensures OtherThan(clientId)(clients[j]) {
        assert Ids(clients)[j] != Ids(clients)[i];
      }
      FilterDropsOne(clients, OtherThan(clientId), i);
    }
  }

  /**
   * `handleDragEnd`: a drop outside the list, or onto the dragged client
   * itself, changes nothing; otherwise the dragged client is moved to the
   * place of the one it was dropped on and the list renumbered.  Both ids
   * are those of listed clients, the only ones the sortable list reports.
   */
  function DragEnd(clients: seq<Client>, activeId: string, overId: Option<string>): seq<Client>
    requires overId.Some? && overId.value != activeId ==> activeId in Ids(clients) && overId.value in Ids(clients)
  {
    if overId.None? || overId.value == activeId then clients
    else
      var oldIndex := FirstIndex(Ids(clients), activeId);
      var newIndex := FirstIndex(Ids(clients), overId.value);
      UpdateClientOrder(Move(clients, oldIndex, newIndex))
  }

  /**
   * A drag that lands on another client puts the dragged client at that
   * client's place, keeps every id (the ids are those of the list, moved)
   * and numbers the list from one.
   */
  lemma DragEndSpec(clients: seq<Client>, activeId: string, overId: string)
    requires activeId in Ids(clients) && overId in Ids(clients) && overId != activeId
    ensures var r := DragEnd(clients, activeId, Some(overId));
      var oldIndex := FirstIndex(Ids(clients), activeId);
      var newIndex := FirstIndex(Ids(clients), overId);
      && Ids(r) == Move(Ids(clients), oldIndex, newIndex)
      && multiset(Ids(r)) == multiset(Ids(clients))
      && r[newIndex].id == activeId
      && NumberedFromOne(r)
  {
    var oldIndex := FirstIndex(Ids(clients), activeId);
    var newIndex := FirstIndex(Ids(clients), overId);
    var moved := Move(clients, oldIndex, newIndex);
    UpdateClientOrderKeeps(moved);
    MapMove(clients, (c: Client) => c.id, oldIndex, newIndex);
    MovePermutes(Ids(clients), oldIndex, newIndex);
  }
}

=== FILE: form_rules.dfy ===
/**
 * The field rules the CMS editors share: a field that must not be blank
 * once trimmed and must not exceed a length, and the kinds of error an
 * editor form reports per field.
 */
module FormRules {
  import opened Wrappers
  import opened Text

  /** Why a form field is refused; each stands for the editor's message for that field. */
  datatype FieldError = Required | TooShort(min: nat) | TooLong(max: nat) | Duplicate | InvalidUrl

  /**
   * `if (!value.trim()) required; else if (measured.length > max) too long`,
   * where the editor measures either the value itself or its trimmed form.
   */
  function RequiredAtMost(value: string, measured: string, max: nat): (e: Option<FieldError>)
    ensures e == Some(Required) <==> Trim(value) == ""
    ensures e == Some(TooLong(max)) <==> Trim(value) != "" && |measured| > max
    ensures e.None? <==> Trim(value) != "" && |measured| <= max
  {
    if Trim(value) == "" then Some(Required)
    else if |measured| > max then Some(TooLong(max))
    else None
  }

  /** A field that passes has a non-blank value. */
  lemma PassingFieldNotBlank(value: string, measured: string, max: nat)
    requires RequiredAtMost(value, measured, max).None?
    ensures !IsBlank(value)
  {
    BlankIffTrimmedEmpty(value);
  }
}

=== FILE: homepage_routes.dfy ===
/**
 * The list and validation logic embedded in the homepage routes: turning a
 * section's data into the database rows `updateSectionContent` stores, the
 * guard on media filenames, and the brands section's logo add, remove and
 * reorder requests.  The database, the filesystem and the HTTP responses
 * are outside the model: each handler is a function from the current logos
 * and the request to the new logos or the error the handler answers with.
 */
module HomepageRoutes {
  import opened Wrappers
  import opened Text
  import opened Lists
  import opened Js

  // ---------------------------------------------------------------------
  // transformSectionDataToDatabase
  // ---------------------------------------------------------------------

  datatype FieldType = TextField | TextareaField | UrlField | JsonField

  /** A stored field value: the request's value as is, or its `JSON.stringify` text. */
  datatype StoredValue = Value(v: JsValue) | Stringified(of: JsValue)

  /** One row `{ fieldName, fieldValue, fieldType, displayOrder }`. */
  datatype ContentUpdate = ContentUpdate(fieldName: string, fieldValue: StoredValue, fieldType: FieldType, displayOrder: nat)

  /** A field of a section's table: its name, its type, and whether a falsy value is stored as `''`. */
  datatype FieldSpec = FieldSpec(name: string, kind: FieldType, orEmpty: bool)

  /** The fields each known homepage section stores, in display order; `None` for any other section. */
  function SectionFields(section: string): Option<seq<FieldSpec>> {
    if section == "hero" then
      Some([FieldSpec("title", TextField, false), FieldSpec("description", TextareaField, false),
            FieldSpec("videoUrl", UrlField, true)])
    else if section == "brands" then
      Some([FieldSpec("title", TextField, false), FieldSpec("logos", JsonField, false)])
    else if section == "services" then
      Some([FieldSpec("title", TextField, false), FieldSpec("description", TextareaField, false),
            FieldSpec("services", JsonField, false)])
    else if section == "offer" then
      Some([FieldSpec("title", TextField, false), FieldSpec("points", JsonField, false)])
    else if section == "testimonials" then
      Some([FieldSpec("testimonials", JsonField, false)])
    else if section == "footer" then
      Some([FieldSpec("title", TextField, false), FieldSpec("email", TextField, false),
            FieldSpec("copyright", TextField, false), FieldSpec("links", JsonField, false)])
    else None
  }

  /** What is stored for field `f` of the request data `data`. */
  function Stored(f: FieldSpec, data: string -> JsValue): StoredValue {
    if f.kind == JsonField then Stringified(data(f.name))
    else if f.orEmpty && !Truthy(data(f.name)) then Value(Str(""))
    else Value(data(f.name))
  }

  /** `updates` stores the fields `fields` of `data`, in order, with display orders 1..n. */
  predicate StoresFields(updates: seq<ContentUpdate>, fields: seq<FieldSpec>, data: string -> JsValue) {
    |updates| == |fields|
    && forall k :: 0 <= k < |fields| ==>
         updates[k] == ContentUpdate(fields[k].name, Stored(fields[k], data), fields[k].kind, k + 1)
  }

  /**
   * `transformSectionDataToDatabase`: the `switch` pushes each known
   * section's rows; any other section throws `Unknown section: ...`.
   */
  method TransformSectionDataToDatabase(section: string, data: string -> JsValue)
    returns (r: Result<seq<ContentUpdate>, string>)
    ensures r.Err? <==> SectionFields(section).None?
    ensures r.Err? ==> r.error == "Unknown section: " + section
    ensures r.Ok? ==> StoresFields(r.value, SectionFields(section).value, data)
  {
    var updates: seq<ContentUpdate> := [];
    if section == "hero" {
      var videoUrl := if Truthy(data("videoUrl")) then data("videoUrl") else Str("");
      updates := updates + [ContentUpdate("title", Value(data("title")), TextField, 1),
                            ContentUpdate("description", Value(data("description")), TextareaField, 2),
                            ContentUpdate("videoUrl", Value(videoUrl), UrlField, 3)];
    } else if section == "brands" {
      updates := updates + [ContentUpdate("title", Value(data("title")), TextField, 1),
                            ContentUpdate("logos", Stringified(data("logos")), JsonField, 2)];
    } else if section == "services" {
      updates := updates + [ContentUpdate("title", Value(data("title")), TextField, 1),
                            ContentUpdate("description", Value(data("description")), TextareaField, 2),
                            ContentUpdate("services", Stringified(data("services")), JsonField, 3)];
    } else if section == "offer" {
      updates := updates + [ContentUpdate("title", Value(data("title")), TextField, 1),
                            ContentUpdate("points", Stringified(data("points")), JsonField, 2)];
    } else if section == "testimonials" {
      updates := updates + [ContentUpdate("testimonials", Stringified(data("testimonials")), JsonField, 1)];
    } else if section == "footer" {
      updates := updates + [ContentUpdate("title", Value(data("title")), TextField, 1),
                            ContentUpdate("email", Value(data("email")), TextField, 2),
                            ContentUpdate("copyright", Value(data("copyright")), TextField, 3),
                            ContentUpdate("links", Stringified(data("links")), JsonField, 4)];
    } else {
      return Err("Unknown section: " + section);
    }
    r := Ok(updates);
  }

  /** A hero without a video URL stores `''` as its third row. */
  lemma HeroWithoutVideoStoresEmpty(updates: seq<ContentUpdate>, data: string -> JsValue)
    requires StoresFields(updates, SectionFields("hero").value, data)
    requires !Truthy(data("videoUrl"))
    ensures |updates| == 3 && updates[2] == ContentUpdate("videoUrl", Value(Str("")), UrlField, 3)
  {
    assert SectionFields("hero").value[2] == FieldSpec("videoUrl", UrlField, true);
  }

  // ---------------------------------------------------------------------
  // DELETE /media/:filename
  // ---------------------------------------------------------------------

  datatype FilenameError = MissingFilename | InvalidFilename

  /** The filename contains no `..`, `/` or `\`. */
  predicate NoTraversal(filename: string) {
    forall i :: 0 <= i < |filename| ==> SafeAt(filename, i)
  }

  /** Position `i` holds no separator and does not start a `..`. */
  predicate SafeAt(filename: string, i: nat)
    requires i < |filename|
  {
    filename[i] != '/' && filename[i] != '\\' && (i + 1 < |filename| ==> filename[i..i + 2] != "..")
  }

  /**
   * The guard run before any path is built: an empty filename is
   * missing; one containing `..`, `/` or `\` is rejected.
   */
  function CheckMediaFilename(filename: string): (r: Result<string, FilenameError>)
    ensures r == Err(MissingFilename) <==> filename == []
    ensures r.Ok? <==> filename != [] && NoTraversal(filename)
    ensures r.Ok? ==> r.value == filename
  {
    if filename == [] then Err(MissingFilename)
    else if Contains(filename, "..") || '/' in filename || '\\' in filename then
      TraversalIffContains(filename);
      Err(InvalidFilename)
    else
      TraversalIffContains(filename);
      Ok(filename)
  }

  lemma TraversalIffContains(filename: string)
    ensures NoTraversal(filename) <==> !Contains(filename, "..") && '/' !in filename && '\\' !in filename
  {
    if !NoTraversal(filename) {
      var i :| 0 <= i < |filename| && !SafeAt(filename, i);
      if filename[i] == '/' || filename[i] == '\\' {
        assert filename[i] in filename;
      } else {
        assert filename[i..][..2] == filename[i..i + 2];
        assert StartsWith(filename[i..], "..");
      }
    }
    if Contains(filename, "..") {
      var i :| 0 <= i <= |filename| - 2 && StartsWith(filename[i..], "..");
      assert filename[i..i + 2] == filename[i..][..2] == "..";
      assert !SafeAt(filename, i);
    }
    if '/' in filename || '\\' in filename {
      var i :| 0 <= i < |filename| && (filename[i] == '/' || filename[i] == '\\');
      assert !SafeAt(filename, i);
    }
  }

  // ---------------------------------------------------------------------
  // Brands logos
  // ---------------------------------------------------------------------

  datatype Logo = Logo(id: int, name: string, logoUrl: string, order: int)

  /** Why a logo request is answered with 400 or 404. */
  datatype LogoError =
    | InvalidName                            // 400: name missing or blank
    | InvalidLogoUrl                         // 400: not an http(s) URL
    | InvalidId                              // 400: `parseInt` gave NaN
    | LogoNotFound                           // 404
    | EmptyRequest                           // 400: not an array, or empty
    | NonNumericIds(invalid: seq<JsValue>)   // 400
    | UnknownIds(missing: seq<int>)          // 400
    | MissingFromRequest(extra: seq<int>)    // 400
    | RepeatedIds                            // 400: an id requested twice

  function Ids(logos: seq<Logo>): (ids: seq<int>)
    ensures |ids| == |logos| && forall k :: 0 <= k < |logos| ==> ids[k] == logos[k].id
  {
    seq(|logos|, k requires 0 <= k < |logos| => logos[k].id)
  }

  function Orders(logos: seq<Logo>): (orders: seq<int>)
    ensures |orders| == |logos| && forall k :: 0 <= k < |logos| ==> orders[k] == logos[k].order
  {
    seq(|logos|, k requires 0 <= k < |logos| => logos[k].order)
  }

  /** The characters a regular expression `.` does not match. */
  predicate IsLineTerminator(c: char) {
    c == '\n' || c == '\r' || c == '\U{2028}' || c == '\U{2029}'
  }

  /** `/^https?:\/\/.+/`: the scheme, then at least one character on the same line. */
  predicate IsHttpUrl(s: string) {
    (StartsWith(s, "http://") && |s| > 7 && !IsLineTerminator(s[7]))
    || (StartsWith(s, "https://") && |s| > 8 && !IsLineTerminator(s[8]))
  }

  /** The id of a new logo: one more than the largest id, or 1 when there are no logos. */
  function NextId(logos: seq<Logo>): (id: int)
    ensures forall k :: 0 <= k < |logos| ==> logos[k].id < id
    ensures logos == [] ==> id == 1
    ensures logos != [] ==> exists k :: 0 <= k < |logos| && id == logos[k].id + 1
  {
    if logos == [] then 1 else Max(Ids(logos)) + 1
  }

  /** The order of a new logo: one more than the largest order, or 1. */
  function NextOrder(logos: seq<Logo>): (order: int)
    ensures forall k :: 0 <= k < |logos| ==> logos[k].order < order
    ensures logos == [] ==> order == 1
    ensures logos != [] ==> exists k :: 0 <= k < |logos| && order == logos[k].order + 1
  {
    if logos == [] then 1 else Max(Orders(logos)) + 1
  }

  /**
   * `POST /brands/logo`: a non-blank name and an http(s) URL are required;
   * the new logo, with both trimmed, is appended with a fresh id and the
   * next order.
   */
  function AddLogo(logos: seq<Logo>, name: JsValue, logoUrl: JsValue): (r: Result<seq<Logo>, LogoError>)
    ensures r == Err(InvalidName) <==> MissingText(name)
    ensures r == Err(InvalidLogoUrl) <==> !MissingText(name) && !(logoUrl.Str? && IsHttpUrl(logoUrl.s))
    ensures r.Ok? ==> |r.value| == |logos| + 1 && r.value[..|logos|] == logos
    ensures r.Ok? ==> var added := r.value[|logos|];
      added.name == Trim(name.s) && added.logoUrl == Trim(logoUrl.s)
      && added.id == NextId(logos) && added.order == NextOrder(logos)
      && added.id !in Ids(logos)
  {
    if MissingText(name) then Err(InvalidName)
    else if !logoUrl.Str? || !IsHttpUrl(logoUrl.s) then Err(InvalidLogoUrl)
    else Ok(logos + [Logo(NextId(logos), Trim(name.s), Trim(logoUrl.s), NextOrder(logos))])
  }

  /** The filter `logo => logo.id !== id`. */
  function OtherThan(id: int): Logo -> bool {
    (l: Logo) => l.id != id
  }

  /** The logos numbered 1..n in list order, everything else kept. */
  function RenumberLogos(logos: seq<Logo>): (r: seq<Logo>)
    ensures |r| == |logos|
    ensures forall k :: 0 <= k < |r| ==> r[k] == logos[k].(order := k + 1)
  {
    seq(|logos|, k requires 0 <= k < |logos| => logos[k].(order := k + 1))
  }

  /**
   * `DELETE /brands/logo/:id` after `parseInt` (`None` is NaN): a NaN id
   * is rejected, an unknown one is not found; otherwise every logo with
   * that id is filtered out and the rest renumbered from 1.
   */
  function RemoveLogo(logos: seq<Logo>, logoId: Option<int>): (r: Result<seq<Logo>, LogoError>)
    ensures r == Err(InvalidId) <==> logoId.None?
    ensures r == Err(LogoNotFound) <==> logoId.Some? && logoId.value !in Ids(logos)
    ensures r.Ok? ==> logoId.Some? && logoId.value !in Ids(r.value)
    ensures r.Ok? ==> var kept := Filter(logos, OtherThan(logoId.value));
      |r.value| == |kept| && forall k :: 0 <= k < |kept| ==> r.value[k] == kept[k].(order := k + 1)
  {
    if logoId.None? then Err(InvalidId)
    else if logoId.value !in Ids(logos) then Err(LogoNotFound)
    else Ok(RenumberLogos(Filter(logos, OtherThan(logoId.value))))
  }

  /** With unique ids, removing a logo that exists leaves one logo fewer, numbered 1..n-1. */
  lemma RemoveLogoShortens(logos: seq<Logo>, id: int)
    requires Distinct(Ids(logos)) && id in Ids(logos)
    ensures var r := RemoveLogo(logos, Some(id));
      r.Ok? && |r.value| == |logos| - 1 && forall k :: 0 <= k < |r.value| ==> r.value[k].order == k + 1
  {
    var i :| 0 <= i < |logos| && logos[i].id == id;
    forall j | 0 <= j < |logos| && j != i ensures OtherThan(id)(logos[j]) {
      assert Ids(logos)[j] != Ids(logos)[i];
    }
    FilterDropsOne(logos, OtherThan(id), i);
  }

  /** `new Map(logos.map(l => [l.id, l])).get(id)`: the last logo with that id wins. */
  function LastWithId(logos: seq<Logo>, id: int): (l: Logo)
    requires id in Ids(logos)
    ensures l in logos && l.id == id
    ensures exists k :: 0 <= k < |logos| && logos[k] == l && forall j :: k < j < |logos| ==> logos[j].id != id
    decreases |logos|
  {
    var last := logos[|logos| - 1];
    if last.id == id then last
    else
      assert Ids(logos) == Ids(logos[..|logos| - 1]) + [last.id];
      var l := LastWithId(logos[..|logos| - 1], id);
      assert forall k :: 0 <= k < |logos| - 1 ==> logos[..|logos| - 1][k] == logos[k];
      l
  }

  /** The ids of a reorder request, once they are known to be numbers. */
  function Numbers(vs: seq<JsValue>): (ns: seq<int>)
    requires forall k :: 0 <= k < |vs| ==> vs[k].Num?
    ensures |ns| == |vs| && forall k :: 0 <= k < |vs| ==> ns[k] == vs[k].n
  {
    seq(|vs|, k requires 0 <= k < |vs| => vs[k].n)
  }

  /** `typeof id !== 'number' || isNaN(id)`. */
  predicate NotANumber(v: JsValue) {
    !v.Num?
  }

  /**
   * What the reorder handler checks, in its order: a non-empty array, of
   * numbers only, naming only existing logos and every existing logo.
   */
  predicate ValidReorderRequest(logos: seq<Logo>, logoIds: Option<seq<JsValue>>) {
    logoIds.Some? && logoIds.value != []
    && (forall k :: 0 <= k < |logoIds.value| ==> logoIds.value[k].Num?)
    && AllKnown(logos, Numbers(logoIds.value)) && AllNamed(logos, Numbers(logoIds.value))
  }

  /** Every requested id is the id of a logo. */
  predicate AllKnown(logos: seq<Logo>, ids: seq<int>) {
    forall k :: 0 <= k < |ids| ==> ids[k] in Ids(logos)
  }

  /** Every logo is requested. */
  predicate AllNamed(logos: seq<Logo>, ids: seq<int>) {
    forall k :: 0 <= k < |logos| ==> logos[k].id in ids
  }

  /** The filter `x => !xs.includes(x)`. */
  function NotIn(xs: seq<int>): int -> bool {
    x => x !in xs
  }

  /** The request checks shared by both versions of the reorder handler, answering with the first that fails. */
  function ReorderChecks(logos: seq<Logo>, logoIds: Option<seq<JsValue>>): (r: Result<seq<int>, LogoError>)
    ensures r.Ok? <==> ValidReorderRequest(logos, logoIds)
    ensures r.Ok? ==> r.value == Numbers(logoIds.value)
    ensures r == Err(EmptyRequest) <==> logoIds.None? || logoIds.value == []
  {
    if logoIds.None? || logoIds.value == [] then Err(EmptyRequest)
    else
      var invalid := Filter(logoIds.value, NotANumber);
      FilterEmptyIff(logoIds.value, NotANumber);
      if invalid != [] then
        assert !ValidReorderRequest(logos, logoIds) by {
          var k :| 0 <= k < |logoIds.value| && NotANumber(logoIds.value[k]);
        }
        Err(NonNumericIds(invalid))
      else
        MembershipChecks(logos, Numbers(logoIds.value))
  }

  /** The two membership checks of the reorder handler: no unknown id, no logo left out. */
  function MembershipChecks(logos: seq<Logo>, ids: seq<int>): (r: Result<seq<int>, LogoError>)
    ensures r.Ok? <==> AllKnown(logos, ids) && AllNamed(logos, ids)
    ensures r.Ok? ==> r.value == ids
    ensures r != Err(EmptyRequest)
  {
    var missing := Filter(ids, NotIn(Ids(logos)));
    var extra := Filter(Ids(logos), NotIn(ids));
    FilterEmptyIff(ids, NotIn(Ids(logos)));
    FilterEmptyIff(Ids(logos), NotIn(ids));
    if missing != [] then
      Err(UnknownIds(missing))
    else if extra != [] then
      assert exists k :: 0 <= k < |logos| && logos[k].id !in ids by {
        var k :| 0 <= k < |Ids(logos)| && NotIn(ids)(Ids(logos)[k]);
        assert logos[k].id == Ids(logos)[k];
      }
      Err(MissingFromRequest(extra))
    else
      assert forall k :: 0 <= k < |logos| ==> logos[k].id in ids by {
        forall k | 0 <= k < |logos| ensures logos[k].id in ids {
          assert logos[k].id == Ids(logos)[k];
          assert !NotIn(ids)(Ids(logos)[k]);
        }
      }
      Ok(ids)
  }

  /** Logo `i` of the result is the logo with id `ids[i]`, numbered `i + 1`. */
  function Reordered(logos: seq<Logo>, ids: seq<int>): (r: seq<Logo>)
    requires forall k :: 0 <= k < |ids| ==> ids[k] in Ids(logos)
    ensures |r| == |ids|
    ensures forall k :: 0 <= k < |ids| ==> r[k] == LastWithId(logos, ids[k]).(order := k + 1) && r[k].id == ids[k]
  {
    seq(|ids|, k requires 0 <= k < |ids| => LastWithId(logos, ids[k]).(order := k + 1))
  }

  /**
   * `PUT /brands/reorder` as written: the request must be a non-empty
   * array of numbers, every requested id must exist and every existing id
   * must be requested; nothing stops an id from being requested twice.
   */
  function ReorderLogosAsWritten(logos: seq<Logo>, logoIds: Option<seq<JsValue>>): (r: Result<seq<Logo>, LogoError>)
    ensures r.Ok? <==> ReorderChecks(logos, logoIds).Ok?
    ensures r.Ok? ==> r.value == Reordered(logos, ReorderChecks(logos, logoIds).value)
  {
    match ReorderChecks(logos, logoIds)
    case Err(e) => Err(e)
    case Ok(ids) => Ok(Reordered(logos, ids))
  }

  /** A JSON array holding the numbers `ids`. */
  function Request(ids: seq<int>): (vs: seq<JsValue>)
    ensures |vs| == |ids| && forall k :: 0 <= k < |ids| ==> vs[k] == Num(ids[k])
  {
    seq(|ids|, k requires 0 <= k < |ids| => Num(ids[k]))
  }

  /**
   * A request naming the first logo twice and then every logo passes every
   * check, and the reordered list holds that logo twice.
   */
  lemma ReorderAsWrittenDuplicates(logos: seq<Logo>)
    requires logos != []
    ensures var r := ReorderLogosAsWritten(logos, Some(Request([logos[0].id] + Ids(logos))));
      r.Ok? && |r.value| == |logos| + 1 && r.value[0].id == r.value[1].id == logos[0].id
  {
    DuplicatedRequestPasses(logos);
  }

  /** The request of `ReorderAsWrittenDuplicates` passes the checks of the handler. */
  lemma DuplicatedRequestPasses(logos: seq<Logo>)
    requires logos != []
    ensures ReorderChecks(logos, Some(Request([logos[0].id] + Ids(logos)))) == Ok([logos[0].id] + Ids(logos))
  {
    var ids := [logos[0].id] + Ids(logos);
    assert Numbers(Request(ids)) == ids;
    DuplicatedRequestMembers(logos);
  }

  lemma DuplicatedRequestMembers(logos: seq<Logo>)
    requires logos != []
    ensures AllKnown(logos, [logos[0].id] + Ids(logos)) && AllNamed(logos, [logos[0].id] + Ids(logos))
  {
    var ids := [logos[0].id] + Ids(logos);
    forall k | 0 <= k < |ids| ensures ids[k] in Ids(logos) {
      if k == 0 {
        assert Ids(logos)[0] == logos[0].id;
      } else {
        assert ids[k] == Ids(logos)[k - 1];
      }
    }
    forall k | 0 <= k < |logos| ensures logos[k].id in ids {
      assert ids[k + 1] == Ids(logos)[k];
    }
  }

  /**
   * `PUT /brands/reorder` with the request also required to name each
   * logo once: it then returns a permutation of the logos.
   */
  function ReorderLogos(logos: seq<Logo>, logoIds: Option<seq<JsValue>>): (r: Result<seq<Logo>, LogoError>)
    ensures r.Ok? <==> ReorderChecks(logos, logoIds).Ok? && Distinct(ReorderChecks(logos, logoIds).value)
    ensures r.Ok? ==> r.value == Reordered(logos, ReorderChecks(logos, logoIds).value)
    ensures r.Ok? ==> forall k :: 0 <= k < |r.value| ==> r.value[k].order == k + 1
  {
    match ReorderChecks(logos, logoIds)
    case Err(e) => Err(e)
    case Ok(ids) => if Distinct(ids) then Ok(Reordered(logos, ids)) else Err(RepeatedIds)
  }

  /** With unique logo ids, an accepted reorder keeps exactly the same logos: the ids are permuted. */
  lemma ReorderPermutes(logos: seq<Logo>, logoIds: Option<seq<JsValue>>)
    requires Distinct(Ids(logos))
    requires ReorderLogos(logos, logoIds).Ok?
    ensures var r := ReorderLogos(logos, logoIds).value;
      |r| == |logos| && multiset(Ids(r)) == multiset(Ids(logos))
  {
    var ids := ReorderChecks(logos, logoIds).value;
    var r := ReorderLogos(logos, logoIds).value;
    assert Ids(r) == ids;
    DistinctSameElements(ids, Ids(logos));
    assert |multiset(ids)| == |multiset(Ids(logos))|;
  }
}

=== FILE: js.dfy ===
/**
 * Dynamically typed JavaScript values as they reach the CMS validators
 * from request bodies, and the truthiness test `if (v)` applies to them.
 */
module Js {
  import opened Text

  /**
   * A JavaScript value.  Numbers are integers or NaN; every object,
   * array or function is an `Obj` told apart by its reference, which is
   * how `===` and `Set.has` compare them.
   */
  datatype JsValue =
    | Undefined
    | Null
    | Bool(b: bool)
    | Num(n: int)
    | NaN
    | Str(s: string)
    | Obj(ref: nat)

  /** `!!v`: false for undefined, null, false, 0, NaN and the empty string. */
  predicate Truthy(v: JsValue) {
    match v
    case Undefined => false
    case Null => false
    case Bool(b) => b
    case Num(n) => n != 0
    case NaN => false
    case Str(s) => s != []
    case Obj(_) => true
  }

  /** `typeof v === 'number'`, which holds for NaN as well. */
  predicate IsNumber(v: JsValue) {
    v.Num? || v.NaN?
  }

  predicate IsDigit(c: char) {
    '0' <= c <= '9'
  }

  predicate AllDigits(s: string) {
    forall i :: 0 <= i < |s| ==> IsDigit(s[i])
  }

  /** The value of a run of decimal digits. */
  function DigitsValue(s: string): nat
    requires AllDigits(s)
    decreases |s|
  {
    if s == [] then 0 else 10 * DigitsValue(s[..|s| - 1]) + (s[|s| - 1] as int - '0' as int)
  }

  /** The decimal digits of `n`, most significant first, without leading zeros. */
  function NatText(n: nat): (s: string)
    ensures s != [] && AllDigits(s)
    decreases n
  {
    var d := ['0', '1', '2', '3', '4', '5', '6', '7', '8', '9'][n % 10];
    if n < 10 then [d] else NatText(n / 10) + [d]
  }

  /** `String(v)`, which is also what a template literal interpolates. */
  function Shown(v: JsValue): string {
    match v
    case Undefined => "undefined"
    case Null => "null"
    case Bool(b) => if b then "true" else "false"
    case Num(n) => if n < 0 then "-" + NatText(-n) else NatText(n)
    case NaN => "NaN"
    case Str(s) => s
    case Obj(_) => "[object Object]"
  }

  /**
   * `Number(s)` for a string already trimmed: the empty string is 0, and
   * decimal digits after an optional sign are that integer; anything else
   * is NaN.
   */
  function NumberOfText(s: string): (r: JsValue)
    ensures r.Num? || r.NaN?
  {
    if s == [] then Num(0)
    else if AllDigits(s) then Num(DigitsValue(s))
    else if |s| > 1 && (s[0] == '-' || s[0] == '+') && AllDigits(s[1..]) then
      var magnitude: int := DigitsValue(s[1..]);
      Num(if s[0] == '-' then -magnitude else magnitude)
    else NaN
  }

  /**
   * `Number(v)`, the conversion `-` applies to its operands: undefined is
   * NaN, null is 0, a boolean is 0 or 1, a string is read after trimming,
   * and a plain object (`"[object Object]"`) is NaN.
   */
  function ToNumber(v: JsValue): (r: JsValue)
    ensures IsNumber(r)
    ensures IsNumber(v) ==> r == v
  {
    match v
    case Undefined => NaN
    case Null => Num(0)
    case Bool(b) => Num(if b then 1 else 0)
    case Num(_) => v
    case NaN => NaN
    case Str(s) => NumberOfText(Trim(s))
    case Obj(_) => NaN
  }

  /** Reading the digits back gives the number they were written from. */
  lemma {:induction false} DigitsOfNatText(n: nat)
    ensures DigitsValue(NatText(n)) == n
    decreases n
  {
    var s := NatText(n);
    if n >= 10 {
      DigitsOfNatText(n / 10);
      assert s[..|s| - 1] == NatText(n / 10);
    }
  }

  /** A string that neither starts nor ends with white space is its own trim. */
  lemma TrimUnpadded(s: string)
    requires s != [] && !IsSpace(s[0]) && !IsSpace(s[|s| - 1])
    ensures Trim(s) == s
  {
    assert LeadingSpaces(s) == 0;
    assert TrimStart(s) == s;
    assert TrailingSpaces(s) == 0;
  }

  /** The text of a negative number is read back as that number. */
  lemma NumberOfSigned(digits: string)
    requires digits != [] && AllDigits(digits)
    ensures NumberOfText("-" + digits) == Num(-(DigitsValue(digits) as int))
  {
    var s := "-" + digits;
    assert s[1..] == digits;
    assert !IsDigit(s[0]);
  }

  /** A run of digits is its own trim, and so is its negation. */
  lemma DigitsUnpadded(digits: string)
    requires digits != [] && AllDigits(digits)
    ensures Trim(digits) == digits && Trim("-" + digits) == "-" + digits
  {
    assert IsDigit(digits[0]) && IsDigit(digits[|digits| - 1]);
    TrimUnpadded(digits);
    var s := "-" + digits;
    assert s[|s| - 1] == digits[|digits| - 1];
    TrimUnpadded(s);
  }

  /** `Number(String(n)) === n`: an integer survives being written out and read back. */
  lemma NumberOfShown(n: int)
    ensures ToNumber(Str(Shown(Num(n)))) == Num(n)
  {
    var m: nat := if n < 0 then -n else n;
    var digits := NatText(m);
    DigitsOfNatText(m);
    DigitsUnpadded(digits);
    if n < 0 {
      assert Shown(Num(n)) == "-" + digits;
      NumberOfSigned(digits);
    } else {
      assert Shown(Num(n)) == digits;
    }
  }

  /** `!v || typeof v !== 'string' || v.trim() === ''`. */
  predicate MissingText(v: JsValue) {
    !Truthy(v) || !v.Str? || IsBlank(v.s)
  }
}

=== FILE: lists.dfy ===
/**
 * Sequence operations shared by the CMS list editors and services:
 * `Array.prototype.filter`, the drag-and-drop splice move, concatenation of
 * per-item reports and de-duplication through a `Set`.
 */
module Lists {

  /** `s.filter(p)`. */
  function Filter<T(!new)>(s: seq<T>, p: T -> bool): (r: seq<T>)
    ensures |r| <= |s|
    ensures forall i :: 0 <= i < |r| ==> p(r[i])
    ensures forall x :: x in r <==> x in s && p(x)
    ensures multiset(r) <= multiset(s)
    decreases |s|
  {
    if s == [] then []
    else
      var rest := Filter(s[1..], p);
      assert s == [s[0]] + s[1..];
      if p(s[0]) then [s[0]] + rest else rest
  }

  /** Filtering distributes over concatenation: the kept elements keep their order. */
  lemma {:induction false} FilterAppend<T(!new)>(a: seq<T>, b: seq<T>, p: T -> bool)
    ensures Filter(a + b, p) == Filter(a, p) + Filter(b, p)
    decreases |a|
  {
    if a == [] {
      assert a + b == b;
    } else {
      assert (a + b)[1..] == a[1..] + b;
      FilterAppend(a[1..], b, p);
    }
  }

  /** Filtering a list grown by one element grows the filtered list by that element when it is kept. */
  lemma FilterSnoc<T(!new)>(s: seq<T>, x: T, p: T -> bool)
    ensures Filter(s + [x], p) == Filter(s, p) + if p(x) then [x] else []
  {
    FilterAppend(s, [x], p);
    assert [x][1..] == [];
  }

  /** The filter written from the last element back, the way a loop over the list builds it. */
  function Keep<T>(s: seq<T>, p: T -> bool): seq<T> {
    if |s| == 0 then []
    else Keep(s[..|s| - 1], p) + if p(s[|s| - 1]) then [s[|s| - 1]] else []
  }

  /** Built from either end, the filter is the same list. */
  lemma {:induction false} KeepIsFilter<T(!new)>(s: seq<T>, p: T -> bool)
    ensures Keep(s, p) == Filter(s, p)
  {
    if |s| > 0 {
      KeepIsFilter(s[..|s| - 1], p);
      assert s == s[..|s| - 1] + [s[|s| - 1]];
      FilterSnoc(s[..|s| - 1], s[|s| - 1], p);
    }
  }

  /** Keeping by a test and by its negation splits the list's elements between the two. */
  lemma {:induction false} KeepPartition<T>(s: seq<T>, p: T -> bool, q: T -> bool)
    requires forall x :: q(x) == !p(x)
    ensures multiset(Keep(s, p)) + multiset(Keep(s, q)) == multiset(s)
  {
    if |s| > 0 {
      var init := s[..|s| - 1];
      KeepPartition(init, p, q);
      assert s == init + [s[|s| - 1]];
    }
  }

  /** Filtering by a test and by its negation splits the list's elements between the two. */
  lemma FilterPartition<T(!new)>(s: seq<T>, p: T -> bool, q: T -> bool)
    requires forall x :: q(x) == !p(x)
    ensures multiset(Filter(s, p)) + multiset(Filter(s, q)) == multiset(s)
  {
    KeepIsFilter(s, p);
    KeepIsFilter(s, q);
    KeepPartition(s, p, q);
  }

  /** A filter keeps nothing exactly when no element passes it. */
  lemma FilterEmptyIff<T(!new)>(s: seq<T>, p: T -> bool)
    ensures Filter(s, p) == [] <==> forall i :: 0 <= i < |s| ==> !p(s[i])
  {
    if Filter(s, p) != [] {
      assert Filter(s, p)[0] in s;
    }
  }

  /** A filter that keeps everything is the identity. */
  lemma {:induction false} FilterAll<T(!new)>(s: seq<T>, p: T -> bool)
    requires forall i :: 0 <= i < |s| ==> p(s[i])
    ensures Filter(s, p) == s
    decreases |s|
  {
    if s != [] {
      FilterAll(s[1..], p);
    }
  }

  /** `s` without the element at position `i`. */
  function RemoveAt<T>(s: seq<T>, i: nat): (r: seq<T>)
    requires i < |s|
    ensures |r| == |s| - 1
  {
    s[..i] + s[i + 1..]
  }

  /** `s` with `x` inserted so that it lands at position `i`. */
  function InsertAt<T>(s: seq<T>, i: nat, x: T): (r: seq<T>)
    requires i <= |s|
    ensures |r| == |s| + 1 && r[i] == x
  {
    s[..i] + [x] + s[i..]
  }

  /**
   * The drag-and-drop move: `splice(from, 1)` followed by
   * `splice(to, 0, moved)`.  The same move is `arrayMove` of dnd-kit.
   */
  function Move<T>(s: seq<T>, from: nat, to: nat): (r: seq<T>)
    requires from < |s| && to < |s|
    ensures |r| == |s|
    ensures r[to] == s[from]
  {
    InsertAt(RemoveAt(s, from), to, s[from])
  }

  /**
   * Taking the moved element out of the result gives the list with the
   * element taken out of its old place: every other element keeps its
   * relative order.
   */
  lemma MoveKeepsOthers<T>(s: seq<T>, from: nat, to: nat)
    requires from < |s| && to < |s|
    ensures RemoveAt(Move(s, from, to), to) == RemoveAt(s, from)
  {
  }

  /** Where each element ends up after a move. */
  lemma MoveIndex<T>(s: seq<T>, from: nat, to: nat, k: nat)
    requires from < |s| && to < |s| && k < |s|
    ensures Move(s, from, to)[k] ==
      if k == to then s[from]
      else if from < to && from <= k < to then s[k + 1]
      else if to < from && to < k <= from then s[k - 1]
      else s[k]
  {
  }

  lemma MultisetSplit<T>(a: seq<T>, i: nat)
    requires i <= |a|
    ensures multiset(a) == multiset(a[..i]) + multiset(a[i..])
  {
    assert a == a[..i] + a[i..];
  }

  /** A move only rearranges: the multiset of elements is unchanged. */
  lemma MovePermutes<T>(s: seq<T>, from: nat, to: nat)
    requires from < |s| && to < |s|
    ensures multiset(Move(s, from, to)) == multiset(s)
  {
    var x := s[from];
    var rest := s[..from] + s[from + 1..];
    MultisetSplit(s, from);
    assert s[from..] == [x] + s[from + 1..];
    assert multiset(s[from..]) == multiset{x} + multiset(s[from + 1..]);
    assert multiset(rest) == multiset(s[..from]) + multiset(s[from + 1..]);
    var r := rest[..to] + [x] + rest[to..];
    assert Move(s, from, to) == r;
    MultisetSplit(rest, to);
    assert multiset(r) == multiset(rest[..to]) + multiset{x} + multiset(rest[to..]);
    assert multiset(r) == multiset(rest) + multiset{x};
    assert multiset(s) == multiset(rest) + multiset{x};
  }

  /** Moving an element back to where it came from is the identity. */
  lemma MoveSame<T>(s: seq<T>, i: nat)
    requires i < |s|
    ensures Move(s, i, i) == s
  {
    forall k | 0 <= k < |s| ensures Move(s, i, i)[k] == s[k] {
      MoveIndex(s, i, i, k);
    }
  }

  /** The move done in place on an array, as a copy of the list is spliced twice. */
  method SpliceMove<T>(a: array<T>, from: nat, to: nat)
    requires from < a.Length && to < a.Length
    modifies a
    ensures a[..] == Move(old(a[..]), from, to)
  {
    ghost var s := a[..];
    var x := a[from];
    if from < to {
      var i := from;
      while i < to
        invariant from <= i <= to
        invariant forall k :: 0 <= k < from ==> a[k] == s[k]
        invariant forall k :: from <= k < i ==> a[k] == s[k + 1]
        invariant forall k :: i <= k < a.Length ==> a[k] == s[k]
      {
        a[i] := a[i + 1];
        i := i + 1;
      }
      a[to] := x;
    } else if to < from {
      var i := from;
      while i > to
        invariant to <= i <= from
        invariant forall k :: 0 <= k <= i ==> a[k] == s[k]
        invariant forall k :: i < k <= from ==> a[k] == s[k - 1]
        invariant forall k :: from < k < a.Length ==> a[k] == s[k]
      {
        a[i] := a[i - 1];
        i := i - 1;
      }
      a[to] := x;
    }
    forall k | 0 <= k < a.Length ensures a[k] == Move(s, from, to)[k] {
      MoveIndex(s, from, to, k);
    }
  }

  /** The move applied to a copy of a list, leaving the list itself untouched. */
  method MoveCopy<T>(s: seq<T>, from: nat, to: nat) returns (r: seq<T>)
    requires from < |s| && to < |s|
    ensures r == Move(s, from, to)
  {
    var a := new T[|s|](i requires 0 <= i < |s| => s[i]);
    assert a[..] == s;
    SpliceMove(a, from, to);
    r := a[..];
  }

  /** `s.map(f)`. */
  function Map<A, B>(s: seq<A>, f: A -> B): (r: seq<B>)
    ensures |r| == |s| && forall k :: 0 <= k < |s| ==> r[k] == f(s[k])
  {
    seq(|s|, k requires 0 <= k < |s| => f(s[k]))
  }

  /** Two lists that agree under `f` at every position have the same map. */
  lemma MapPointwise<A, B>(s: seq<A>, t: seq<A>, f: A -> B)
    requires |s| == |t| && forall k :: 0 <= k < |s| ==> f(s[k]) == f(t[k])
    ensures Map(s, f) == Map(t, f)
  {
  }

  /** Mapping after a move is moving after the map. */
  lemma MapMove<A, B>(s: seq<A>, f: A -> B, from: nat, to: nat)
    requires from < |s| && to < |s|
    ensures Map(Move(s, from, to), f) == Move(Map(s, f), from, to)
  {
    forall k | 0 <= k < |s| ensures Map(Move(s, from, to), f)[k] == Move(Map(s, f), from, to)[k] {
      MoveIndex(s, from, to, k);
      MoveIndex(Map(s, f), from, to, k);
    }
  }

  /** `s.findIndex(y => y === x)` for an element that occurs: its first position. */
  function FirstIndex<T(==)>(s: seq<T>, x: T): (i: nat)
    requires x in s
    ensures i < |s| && s[i] == x
    ensures forall j :: 0 <= j < i ==> s[j] != x
    decreases |s|
  {
    if s[0] == x then 0
    else
      var i := FirstIndex(s[1..], x);
      assert forall j :: 1 <= j <= i ==> s[j] == s[1..][j - 1];
      i + 1
  }

  /** The concatenation of a list of lists, as `forEach` pushes each item's findings in turn. */
  function Flatten<T>(ss: seq<seq<T>>): seq<T>
    decreases |ss|
  {
    if ss == [] then [] else ss[0] + Flatten(ss[1..])
  }

  lemma {:induction false} FlattenAppend<T>(ss: seq<seq<T>>, s: seq<T>)
    ensures Flatten(ss + [s]) == Flatten(ss) + s
    decreases |ss|
  {
    if ss == [] {
      assert [] + [s] == [s];
    } else {
      assert (ss + [s])[1..] == ss[1..] + [s];
      FlattenAppend(ss[1..], s);
    }
  }

  /** The pieces `f(x)` of every element, one after the other, as a loop pushing each piece builds them. */
  function FlatMap<A, B>(s: seq<A>, f: A -> seq<B>): seq<B>
    decreases |s|
  {
    if s == [] then [] else FlatMap(s[..|s| - 1], f) + f(s[|s| - 1])
  }

  /** An element of the pieces is an element of the piece of some element. */
  lemma {:induction false} FlatMapMembers<A, B>(s: seq<A>, f: A -> seq<B>, x: B)
    ensures x in FlatMap(s, f) <==> exists k :: 0 <= k < |s| && x in f(s[k])
    decreases |s|
  {
    if s != [] {
      var init := s[..|s| - 1];
      FlatMapMembers(init, f, x);
      if exists k :: 0 <= k < |init| && x in f(init[k]) {
        var k :| 0 <= k < |init| && x in f(init[k]);
        assert s[k] == init[k];
      }
      if exists k :: 0 <= k < |s| && x in f(s[k]) {
        var k :| 0 <= k < |s| && x in f(s[k]);
        if k < |init| {
          assert init[k] == s[k];
        }
      }
    }
  }

  /** `[...new Set(s)]`: the first occurrence of every element, in order. */
  function Dedupe<T(==,!new)>(s: seq<T>): (r: seq<T>)
    ensures forall i, j :: 0 <= i < j < |r| ==> r[i] != r[j]
    ensures forall x :: x in r <==> x in s
    ensures |r| <= |s|
  {
    DedupeSeen(s, {})
  }

  function DedupeSeen<T(==,!new)>(s: seq<T>, seen: set<T>): (r: seq<T>)
    ensures forall i, j :: 0 <= i < j < |r| ==> r[i] != r[j]
    ensures forall x :: x in r <==> x in s && x !in seen
    ensures |r| <= |s|
    decreases |s|
  {
    if s == [] then []
    else if s[0] in seen then DedupeSeen(s[1..], seen)
    else [s[0]] + DedupeSeen(s[1..], seen + {s[0]})
  }

  /** `s.slice(0, n)`. */
  function Take<T>(s: seq<T>, n: nat): (r: seq<T>)
    ensures |r| == if n < |s| then n else |s|
    ensures r == s[..|r|]
  {
    if n < |s| then s[..n] else s
  }

  /** No element occurs twice. */
  predicate Distinct<T(==)>(s: seq<T>) {
    forall i, j :: 0 <= i < j < |s| ==> s[i] != s[j]
  }

  /** In a list without repetitions every element occurs once. */
  lemma {:induction false} DistinctOccursOnce<T>(s: seq<T>, x: T)
    requires Distinct(s)
    ensures multiset(s)[x] == if x in s then 1 else 0
    decreases |s|
  {
    if s != [] {
      assert s == [s[0]] + s[1..];
      assert Distinct(s[1..]) by {
        forall i, j | 0 <= i < j < |s[1..]| ensures s[1..][i] != s[1..][j] {
          assert s[1..][i] == s[i + 1] && s[1..][j] == s[j + 1];
        }
      }
      DistinctOccursOnce(s[1..], x);
      assert s[0] !in s[1..] by {
        forall k | 0 <= k < |s[1..]| ensures s[1..][k] != s[0] {
          assert s[1..][k] == s[k + 1];
        }
      }
    }
  }

  /** Two lists without repetitions and with the same elements are permutations of each other. */
  lemma DistinctSameElements<T>(a: seq<T>, b: seq<T>)
    requires Distinct(a) && Distinct(b)
    requires forall x :: x in a <==> x in b
    ensures multiset(a) == multiset(b)
  {
    forall x ensures multiset(a)[x] == multiset(b)[x] {
      DistinctOccursOnce(a, x);
      DistinctOccursOnce(b, x);
    }
  }

  /** A filter that rejects exactly one element of the list shortens it by one. */
  lemma {:induction false} FilterDropsOne<T(!new)>(s: seq<T>, p: T -> bool, i: nat)
    requires i < |s| && !p(s[i])
    requires forall j :: 0 <= j < |s| && j != i ==> p(s[j])
    ensures |Filter(s, p)| == |s| - 1
    decreases |s|
  {
    if i == 0 {
      FilterAll(s[1..], p);
    } else {
      FilterDropsOne(s[1..], p, i - 1);
    }
  }

  /** `Math.max(...s)` of a non-empty list. */
  function Max(s: seq<int>): (m: int)
    requires s != []
    ensures m in s
    ensures forall k :: 0 <= k < |s| ==> s[k] <= m
    decreases |s|
  {
    if |s| == 1 then s[0]
    else
      var rest := Max(s[1..]);
      if s[0] >= rest then s[0] else rest
  }

  /** `a` is `b` with some elements left out, the others in their order. */
  predicate IsSubsequence<T(==)>(a: seq<T>, b: seq<T>)
    decreases |b|
  {
    if a == [] then true
    else if b == [] then false
    else if a[0] == b[0] then IsSubsequence(a[1..], b[1..])
    else IsSubsequence(a, b[1..])
  }

  /** A filter keeps a subsequence of its input. */
  lemma {:induction false} FilterSubsequence<T(!new)>(s: seq<T>, p: T -> bool)
    ensures IsSubsequence(Filter(s, p), s)
    decreases |s|
  {
    if s != [] {
      FilterSubsequence(s[1..], p);
      var rest := Filter(s[1..], p);
      if !p(s[0]) && rest != [] {
        assert p(rest[0]);
      }
    }
  }

  /** Two filters in a row keep what passes both. */
  lemma {:induction false} FilterTwice<T(!new)>(s: seq<T>, p: T -> bool, q: T -> bool, both: T -> bool)
    requires forall x :: both(x) == (p(x) && q(x))
    ensures Filter(Filter(s, p), q) == Filter(s, both)
    decreases |s|
  {
    if s != [] {
      FilterTwice(s[1..], p, q, both);
    }
  }

  /** Filters by predicates that agree everywhere keep the same elements. */
  lemma {:induction false} FilterSame<T(!new)>(s: seq<T>, p: T -> bool, q: T -> bool)
    requires forall x :: p(x) == q(x)
    ensures Filter(s, p) == Filter(s, q)
    decreases |s|
  {
    if s != [] {
      FilterSame(s[1..], p, q);
    }
  }

  /** Every pair of elements, taken in list order, is related by `before`. */
  predicate Ordered<T>(s: seq<T>, before: (T, T) -> bool) {
    forall i, j :: 0 <= i < j < |s| ==> before(s[i], s[j])
  }

  lemma OrderedTail<T>(s: seq<T>, before: (T, T) -> bool)
    requires s != [] && Ordered(s, before)
    ensures Ordered(s[1..], before)
  {
    forall i, j | 0 <= i < j < |s[1..]| ensures before(s[1..][i], s[1..][j]) {
      assert s[1..][i] == s[i + 1] && s[1..][j] == s[j + 1];
    }
  }

  /** Keeping first occurrences keeps the order of what is kept. */
  lemma {:induction false} DedupeSeenOrdered<T(!new)>(s: seq<T>, seen: set<T>, before: (T, T) -> bool)
    requires Ordered(s, before)
    ensures Ordered(DedupeSeen(s, seen), before)
    decreases |s|
  {
    if s != [] {
      OrderedTail(s, before);
      var t := s[1..];
      if s[0] in seen {
        DedupeSeenOrdered(t, seen, before);
      } else {
        DedupeSeenOrdered(t, seen + {s[0]}, before);
        var rest := DedupeSeen(t, seen + {s[0]});
        var r := [s[0]] + rest;
        forall i, j | 0 <= i < j < |r| ensures before(r[i], r[j]) {
          if i == 0 {
            assert r[j] == rest[j - 1] && rest[j - 1] in t;
            var k :| 0 <= k < |t| && t[k] == rest[j - 1];
            assert s[k + 1] == t[k];
          } else {
            assert r[i] == rest[i - 1] && r[j] == rest[j - 1];
          }
        }
      }
    }
  }

  lemma DedupeOrdered<T(!new)>(s: seq<T>, before: (T, T) -> bool)
    requires Ordered(s, before)
    ensures Ordered(Dedupe(s), before)
  {
    DedupeSeenOrdered(s, {}, before);
  }

  /** Non-decreasing by `key`. */
  predicate SortedBy<T>(s: seq<T>, key: T -> int) {
    forall i, j :: 0 <= i < j < |s| ==> key(s[i]) <= key(s[j])
  }

  /** An element placed before a sorted list whose first key is not smaller keeps it sorted. */
  lemma SortedCons<T>(x: T, s: seq<T>, key: T -> int)
    requires SortedBy(s, key)
    requires s != [] ==> key(x) <= key(s[0])
    ensures SortedBy([x] + s, key)
  {
    var r := [x] + s;
    forall i, j | 0 <= i < j < |r| ensures key(r[i]) <= key(r[j]) {
      if i == 0 {
        assert r[j] == s[j - 1];
      } else {
        assert r[i] == s[i - 1] && r[j] == s[j - 1];
      }
    }
  }

  /** Inserts `x` before the first element whose key is not smaller. */
  function InsertBy<T(==)>(x: T, s: seq<T>, key: T -> int): (r: seq<T>)
    requires SortedBy(s, key)
    ensures SortedBy(r, key)
    ensures multiset(r) == multiset(s) + multiset{x}
    ensures |r| == |s| + 1
    ensures r[0] == x || (s != [] && r[0] == s[0])
    decreases |s|
  {
    if s == [] || key(x) <= key(s[0]) then
      SortedCons(x, s, key);
      [x] + s
    else
      var tail := s[1..];
      assert SortedBy(tail, key) by {
        forall i, j | 0 <= i < j < |tail| ensures key(tail[i]) <= key(tail[j]) {
          assert tail[i] == s[i + 1] && tail[j] == s[j + 1];
        }
      }
      var rest := InsertBy(x, tail, key);
      assert s == [s[0]] + tail;
      SortedCons(s[0], rest, key);
      [s[0]] + rest
  }

  /**
   * `sort((a, b) => key(a) - key(b))` on a copy: insertion sort, which
   * keeps elements with equal keys in their order, as the stable sort of
   * JavaScript does.
   */
  function SortBy<T(==)>(s: seq<T>, key: T -> int): (r: seq<T>)
    ensures SortedBy(r, key)
    ensures multiset(r) == multiset(s)
    ensures |r| == |s|
    decreases |s|
  {
    if s == [] then []
    else
      assert s == [s[0]] + s[1..];
      InsertBy(s[0], SortBy(s[1..], key), key)
  }

  /** The elements whose key is `v`. */
  function KeyIs<T>(key: T -> int, v: int): T -> bool {
    x => key(x) == v
  }

  /** The elements of `s` whose key is `v`, in order. */
  function OfKey<T>(s: seq<T>, key: T -> int, v: int): seq<T>
    decreases |s|
  {
    if s == [] then [] else (if key(s[0]) == v then [s[0]] else []) + OfKey(s[1..], key, v)
  }

  /** `OfKey` is the filter by `KeyIs`. */
  lemma {:induction false} OfKeyIsFilter<T(!new)>(s: seq<T>, key: T -> int, v: int)
    ensures OfKey(s, key, v) == Filter(s, KeyIs(key, v))
    decreases |s|
  {
    if s != [] {
      OfKeyIsFilter(s[1..], key, v);
    }
  }

  /** Two lists one of which is empty can be put in front of a third in either order. */
  lemma SwapEmpty<T>(a: seq<T>, b: seq<T>, c: seq<T>)
    requires a == [] || b == []
    ensures a + (b + c) == b + (a + c)
  {
    if a == [] {
      assert a + (b + c) == b + c == b + (a + c);
    } else {
      assert a + (b + c) == a + c == b + (a + c);
    }
  }

  /**
   * Inserting `x` puts it before every element of its own key, so among
   * the elements of any one key it comes first and the others keep their order.
   */
  lemma {:induction false} InsertByKeys<T>(x: T, s: seq<T>, key: T -> int, v: int)
    requires SortedBy(s, key)
    ensures OfKey(InsertBy(x, s, key), key, v) == (if key(x) == v then [x] else []) + OfKey(s, key, v)
    decreases |s|
  {
    if s == [] || key(x) <= key(s[0]) {
      assert InsertBy(x, s, key) == [x] + s;
      assert ([x] + s)[0] == x && ([x] + s)[1..] == s;
    } else {
      var tail := s[1..];
      assert SortedBy(tail, key) by {
        forall i, j | 0 <= i < j < |tail| ensures key(tail[i]) <= key(tail[j]) {
          assert tail[i] == s[i + 1] && tail[j] == s[j + 1];
        }
      }
      var rest := InsertBy(x, tail, key);
      var r := [s[0]] + rest;
      assert InsertBy(x, s, key) == r;
      assert r[0] == s[0] && r[1..] == rest;
      InsertByKeys(x, tail, key, v);
      var head := if key(s[0]) == v then [s[0]] else [];
      var mine := if key(x) == v then [x] else [];
      assert key(x) == v ==> head == [];
      SwapEmpty(head, mine, OfKey(tail, key, v));
    }
  }

  /**
   * `SortBy` is stable: the elements of every key come out in the order
   * they went in.
   */
  lemma {:induction false} SortByStable<T(!new)>(s: seq<T>, key: T -> int, v: int)
    ensures Filter(SortBy(s, key), KeyIs(key, v)) == Filter(s, KeyIs(key, v))
  {
    SortByKeys(s, key, v);
    OfKeyIsFilter(SortBy(s, key), key, v);
    OfKeyIsFilter(s, key, v);
  }

  lemma {:induction false} SortByKeys<T>(s: seq<T>, key: T -> int, v: int)
    ensures OfKey(SortBy(s, key), key, v) == OfKey(s, key, v)
    decreases |s|
  {
    if s != [] {
      var sorted := SortBy(s[1..], key);
      assert SortBy(s, key) == InsertBy(s[0], sorted, key);
      SortByKeys(s[1..], key, v);
      InsertByKeys(s[0], sorted, key, v);
    }
  }

  /** The first `n` elements of a subsequence of `b` are a subsequence of `b`. */
  lemma {:induction false} SubsequencePrefix<T>(a: seq<T>, b: seq<T>, n: nat)
    requires IsSubsequence(a, b) && n <= |a|
    ensures IsSubsequence(a[..n], b)
    decreases |b|
  {
    if n > 0 && b != [] {
      if a[0] == b[0] {
        SubsequencePrefix(a[1..], b[1..], n - 1);
        assert a[..n][1..] == a[1..][..n - 1];
      } else {
        SubsequencePrefix(a, b[1..], n);
      }
    }
  }

  /** An element of a concatenation of lists is an element of one of them. */
  lemma {:induction false} FlattenMembers<T>(ss: seq<seq<T>>, x: T)
    ensures x in Flatten(ss) <==> exists k :: 0 <= k < |ss| && x in ss[k]
    decreases |ss|
  {
    if ss != [] {
      FlattenMembers(ss[1..], x);
      if exists k :: 0 <= k < |ss[1..]| && x in ss[1..][k] {
        var k :| 0 <= k < |ss[1..]| && x in ss[1..][k];
        assert ss[k + 1] == ss[1..][k];
      }
      if exists k :: 0 <= k < |ss| && x in ss[k] {
        var k :| 0 <= k < |ss| && x in ss[k];
        if k > 0 {
          assert ss[1..][k - 1] == ss[k];
        }
      }
    }
  }

  /** A prefix keeps the order of the list, its lack of repetitions, and holds only its elements. */
  lemma TakeKeeps<T>(s: seq<T>, n: nat, before: (T, T) -> bool)
    ensures Ordered(s, before) ==> Ordered(Take(s, n), before)
    ensures Distinct(s) ==> Distinct(Take(s, n))
    ensures forall x :: x in Take(s, n) ==> x in s
  {
    var r := Take(s, n);
    assert forall k :: 0 <= k < |r| ==> r[k] == s[k];
  }

  /** The first `n` distinct elements of an ordered list are distinct and ordered. */
  lemma FirstDistinctOrdered<T(!new)>(s: seq<T>, n: nat, before: (T, T) -> bool)
    requires Ordered(s, before)
    ensures Distinct(Take(Dedupe(s), n)) && Ordered(Take(Dedupe(s), n), before)
  {
    DedupeOrdered(s, before);
    TakeKeeps(Dedupe(s), n, before);
  }

  /**
   * The first `n` distinct elements of an ordered list are the best ones:
   * fewer than `n` only when every element is among them, and every element
   * left out comes after every element kept.
   */
  lemma FirstDistinctBest<T(!new)>(s: seq<T>, n: nat, before: (T, T) -> bool)
    requires Ordered(s, before)
    ensures |Take(Dedupe(s), n)| < n ==> forall x :: x in s ==> x in Take(Dedupe(s), n)
    ensures forall c, x :: c in Take(Dedupe(s), n) && x in s && x !in Take(Dedupe(s), n) ==> before(c, x)
  {
    var d := Dedupe(s);
    var t := Take(d, n);
    DedupeOrdered(s, before);
    forall c, x | c in t && x in s && x !in t ensures before(c, x) {
      var i :| 0 <= i < |t| && t[i] == c;
      assert x in d;
      var j :| 0 <= j < |d| && d[j] == x;
      assert d[i] == c;
    }
  }
}

=== FILE: media_selector.dfy ===
/**
 * The media picker of the front end: the rules per media type, the
 * configuration a picker derives from the types it allows, the check of a
 * file before upload, the filtering of the media library, the selection
 * of one or several media and the pagination buttons.
 *
 * React state is passed in and returned as values; the library page
 * fetched from the server is a parameter.
 */
module MediaSelection {
  import opened Wrappers
  import opened Text
  import opened Lists

  const MB: nat := 1024 * 1024

  /** `MediaType`. */
  datatype MediaType = Image | Video | Document | LogoType | Avatar | ProjectImage | Any

  /** `MediaValidationConfig`. */
  datatype SelectorConfig = SelectorConfig(
    allowedTypes: seq<string>,
    maxFileSize: nat,
    allowedExtensions: seq<string>,
    description: string)

  /** `MEDIA_TYPE_CONFIGS`. */
  function TypeConfig(t: MediaType): SelectorConfig {
    match t
    case Image => SelectorConfig(
      ["image/jpeg", "image/png", "image/webp", "image/gif", "image/svg+xml"], 10 * MB,
      [".jpg", ".jpeg", ".png", ".webp", ".gif", ".svg"],
      "Images (JPG, PNG, WebP, GIF, SVG) - Max 10MB")
    case Video => SelectorConfig(
      ["video/mp4", "video/webm", "video/quicktime"], 100 * MB,
      [".mp4", ".webm", ".mov"],
      "Vidéos (MP4, WebM, MOV) - Max 100MB")
    case Document => SelectorConfig(
      ["application/pdf", "application/msword", "application/vnd.openxmlformats-officedocument.wordprocessingml.document"],
      25 * MB, [".pdf", ".doc", ".docx"],
      "Documents (PDF, DOC, DOCX) - Max 25MB")
    case LogoType => SelectorConfig(
      ["image/svg+xml", "image/png", "image/jpeg", "image/webp"], 2 * MB,
      [".svg", ".png", ".jpg", ".jpeg", ".webp"],
      "Logos (SVG, PNG, JPG, WebP) - Max 2MB - SVG recommandé")
    case Avatar => SelectorConfig(
      ["image/jpeg", "image/png", "image/webp"], 5 * MB,
      [".jpg", ".jpeg", ".png", ".webp"],
      "Avatars (JPG, PNG, WebP) - Max 5MB - Format carré recommandé")
    case ProjectImage => SelectorConfig(
      ["image/jpeg", "image/png", "image/webp", "image/gif"], 15 * MB,
      [".jpg", ".jpeg", ".png", ".webp", ".gif"],
      "Images de projet (JPG, PNG, WebP, GIF) - Max 15MB")
    case Any => SelectorConfig(
      ["image/*", "video/*", "application/pdf"], 50 * MB, [],
      "Tous types de médias - Max 50MB")
  }

  const MERGED_DESCRIPTION := "Médias autorisés"

  /** `maxFileSize || 50 MB`: a missing or zero prop falls back to 50 MB. */
  function DefaultMaxFileSize(maxFileSize: Option<nat>): nat {
    if maxFileSize.Some? && maxFileSize.value != 0 then maxFileSize.value else 50 * MB
  }

  function AllowedTypesOf(): MediaType -> seq<string> {
    t => TypeConfig(t).allowedTypes
  }

  function ExtensionsOf(): MediaType -> seq<string> {
    t => TypeConfig(t).allowedExtensions
  }

  /**
   * `getValidationConfig`: one type other than `any` uses its own entry;
   * any other list merges the entries with the size given as a prop.
   */
  function SelectorConfigFor(allowedTypes: seq<MediaType>, maxFileSize: Option<nat>): SelectorConfig {
    if |allowedTypes| == 1 && allowedTypes[0] != Any then TypeConfig(allowedTypes[0])
    else SelectorConfig(FlatMap(allowedTypes, AllowedTypesOf()), DefaultMaxFileSize(maxFileSize), FlatMap(allowedTypes, ExtensionsOf()), MERGED_DESCRIPTION)
  }

  /**
   * What the picker's configuration says: a single specific type keeps its
   * own rules; otherwise the allowed MIME types and extensions are those of
   * the listed types, the description is the merged one, and the size limit
   * is the prop, or 50 MB when it is missing or zero.
   */
  lemma SelectorConfigSpec(allowedTypes: seq<MediaType>, maxFileSize: Option<nat>, mime: string, extension: string)
    ensures var c := SelectorConfigFor(allowedTypes, maxFileSize);
      if |allowedTypes| == 1 && allowedTypes[0] != Any then c == TypeConfig(allowedTypes[0])
      else
        && (mime in c.allowedTypes <==> exists k :: 0 <= k < |allowedTypes| && mime in TypeConfig(allowedTypes[k]).allowedTypes)
        && (extension in c.allowedExtensions <==>
              exists k :: 0 <= k < |allowedTypes| && extension in TypeConfig(allowedTypes[k]).allowedExtensions)
        && c.description == "Médias autorisés"
        && (maxFileSize.Some? && maxFileSize.value > 0 ==> c.maxFileSize == maxFileSize.value)
        && (maxFileSize.None? || maxFileSize == Some(0) ==> c.maxFileSize == 50 * MB)
  {
    FlatMapMembers(allowedTypes, AllowedTypesOf(), mime);
    FlatMapMembers(allowedTypes, ExtensionsOf(), extension);
  }

  /** The `forEach` of `getValidationConfig`: pushes each type's MIME types and extensions onto two lists. */
  method PushEach(types: seq<MediaType>, mimesOf: MediaType -> seq<string>, extensionsOf: MediaType -> seq<string>)
    returns (mimes: seq<string>, extensions: seq<string>)
    ensures mimes == FlatMap(types, mimesOf) && extensions == FlatMap(types, extensionsOf)
  {
    mimes, extensions := [], [];
    for i := 0 to |types|
      invariant mimes == FlatMap(types[..i], mimesOf)
      invariant extensions == FlatMap(types[..i], extensionsOf)
    {
      assert types[..i + 1][..i] == types[..i];
      mimes := mimes + mimesOf(types[i]);
      extensions := extensions + extensionsOf(types[i]);
    }
    assert types[..|types|] == types;
  }

  /** `getValidationConfig`: a single specific type's own entry, or the merged lists of every listed type. */
  method GetValidationConfig(allowedTypes: seq<MediaType>, maxFileSize: Option<nat>) returns (c: SelectorConfig)
    ensures c == SelectorConfigFor(allowedTypes, maxFileSize)
  {
    if |allowedTypes| == 1 && allowedTypes[0] != Any {
      return TypeConfig(allowedTypes[0]);
    }
    var types, extensions := PushEach(allowedTypes, AllowedTypesOf(), ExtensionsOf());
    c := SelectorConfig(types, DefaultMaxFileSize(maxFileSize), extensions, MERGED_DESCRIPTION);
  }

  // ---------------------------------------------------------------------
  // Checking a MIME type against the allowed ones
  // ---------------------------------------------------------------------

  /** An allowed type accepts a MIME type: a wildcard (a family, a slash and a star) by the prefix up to the slash, any other by equality. */
  predicate Accepts(allowed: string, mimeType: string) {
    if EndsWith(allowed, "/*") then StartsWith(mimeType, ReplaceFirst(allowed, "/*", "/"))
    else mimeType == allowed
  }

  /** `allowedTypes.some(...)`. */
  function AnyAccepts(allowed: seq<string>, mimeType: string): (b: bool)
    ensures b <==> exists k :: 0 <= k < |allowed| && Accepts(allowed[k], mimeType)
    decreases |allowed|
  {
    if allowed == [] then false
    else if Accepts(allowed[0], mimeType) then true
    else
      var b := AnyAccepts(allowed[1..], mimeType);
      assert forall k :: 1 <= k < |allowed| ==> allowed[k] == allowed[1..][k - 1];
      b
  }

  /** A wildcard (the family, a slash and a star) accepts exactly the MIME types that start with `family/`. */
  lemma WildcardAccepts(family: string, mimeType: string)
    requires '/' !in family
    ensures Accepts(family + "/*", mimeType) <==> StartsWith(mimeType, family + "/")
  {
    var w := family + "/*";
    assert EndsWith(w, "/*") by {
      assert w[|w| - 2..] == "/*";
    }
    assert StartsWith(w[|family|..], "/*") by {
      assert w[|family|..] == "/*";
    }
    forall j | 0 <= j < |family| ensures !StartsWith(w[j..], "/*") {
      assert w[j..][0] == family[j];
    }
    var i := IndexOf(w, "/*");
    assert i == Some(|family|);
    assert ReplaceFirst(w, "/*", "/") == w[..|family|] + "/" + w[|family| + 2..];
    assert w[..|family|] == family && w[|family| + 2..] == [];
  }

  /** Allowed types that do not end in a star accept only themselves. */
  lemma ExactAccepts(allowed: seq<string>, mimeType: string)
    requires forall k :: 0 <= k < |allowed| ==> |allowed[k]| > 0 && allowed[k][|allowed[k]| - 1] != '*'
    ensures AnyAccepts(allowed, mimeType) <==> mimeType in allowed
  {
    forall k | 0 <= k < |allowed| ensures !EndsWith(allowed[k], "/*") {
    }
  }

  /** The table's entries for specific types hold no wildcard. */
  lemma SpecificTypesExact(t: MediaType)
    requires t != Any
    ensures var l := TypeConfig(t).allowedTypes;
      forall k :: 0 <= k < |l| ==> |l[k]| > 0 && l[k][|l[k]| - 1] != '*'
  {
    match t
    case Image =>
    case Video =>
    case Document =>
    case LogoType =>
    case Avatar =>
    case ProjectImage =>
  }

  // ---------------------------------------------------------------------
  // validateFile
  // ---------------------------------------------------------------------

  /** Why a file is refused before upload; the messages carry the limit or the accepted types. */
  datatype FileError = TooLarge(maxFileSize: nat) | TypeNotAllowed(accepted: string)

  /**
   * `validateFile` (`None` is `null`): the size first, then, unless `any`
   * is allowed, the MIME type against the allowed ones.
   */
  function ValidateFile(size: nat, mimeType: string, allowedTypes: seq<MediaType>, config: SelectorConfig): (r: Option<FileError>)
    ensures r == Some(TooLarge(config.maxFileSize)) <==> size > config.maxFileSize
    ensures r.None? <==>
      size <= config.maxFileSize
      && (Any in allowedTypes || exists k :: 0 <= k < |config.allowedTypes| && Accepts(config.allowedTypes[k], mimeType))
    ensures r.Some? && r.value.TypeNotAllowed? ==> r.value.accepted == config.description
  {
    if size > config.maxFileSize then Some(TooLarge(config.maxFileSize))
    else if Any !in allowedTypes && !AnyAccepts(config.allowedTypes, mimeType) then Some(TypeNotAllowed(config.description))
    else None
  }

  /** A picker for one specific type takes a file exactly when it is within that type's size and of one of its MIME types. */
  lemma SingleTypeValidation(t: MediaType, size: nat, mimeType: string, maxFileSize: Option<nat>)
    requires t != Any
    ensures var c := SelectorConfigFor([t], maxFileSize);
      ValidateFile(size, mimeType, [t], c).None? <==> size <= TypeConfig(t).maxFileSize && mimeType in TypeConfig(t).allowedTypes
  {
    SpecificTypesExact(t);
    ExactAccepts(TypeConfig(t).allowedTypes, mimeType);
  }

  /** The default picker (`['any']`) takes any file within the size limit. */
  lemma DefaultPickerTakesAnyType(size: nat, mimeType: string, maxFileSize: Option<nat>)
    ensures var c := SelectorConfigFor([Any], maxFileSize);
      ValidateFile(size, mimeType, [Any], c).None? <==> size <= DefaultMaxFileSize(maxFileSize)
  {
  }

  // ---------------------------------------------------------------------
  // The media library
  // ---------------------------------------------------------------------

  /** A library entry; `kind` is its `type` field (`image`, `video`, ...). */
  datatype MediaItem = MediaItem(
    id: string, name: string, originalName: string, alt: Option<string>, mimeType: string, kind: string)

  /** The search on name, original name or (non-empty) alternative text, ignoring case. */
  predicate MatchesSearch(m: MediaItem, term: string) {
    var t := Lower(term);
    Contains(Lower(m.name), t) || Contains(Lower(m.originalName), t)
    || (m.alt.Some? && m.alt.value != "" && Contains(Lower(m.alt.value), t))
  }

  /** Everything a shown item satisfies. */
  predicate Shown(m: MediaItem, term: string, filterType: string, allowedTypes: seq<MediaType>, config: SelectorConfig) {
    && (term == "" || MatchesSearch(m, term))
    && (filterType == "all" || m.kind == filterType)
    && (Any in allowedTypes || AnyAccepts(config.allowedTypes, m.mimeType))
  }

  function SearchFilter(term: string): MediaItem -> bool {
    (m: MediaItem) => MatchesSearch(m, term)
  }

  function KindFilter(filterType: string): MediaItem -> bool {
    (m: MediaItem) => m.kind == filterType
  }

  function AllowedFilter(allowed: seq<string>): MediaItem -> bool {
    (m: MediaItem) => AnyAccepts(allowed, m.mimeType)
  }

  function ShownFilter(term: string, filterType: string, allowedTypes: seq<MediaType>, config: SelectorConfig): MediaItem -> bool {
    (m: MediaItem) => Shown(m, term, filterType, allowedTypes, config)
  }

  /** `filterMedia`: the search, then the type filter, then the allowed types, each only when it applies. */
  function FilterMedia(
    mediaList: seq<MediaItem>, term: string, filterType: string,
    allowedTypes: seq<MediaType>, config: SelectorConfig): seq<MediaItem>
  {
    var bySearch := if term != "" then Filter(mediaList, SearchFilter(term)) else mediaList;
    var byKind := if filterType != "all" then Filter(bySearch, KindFilter(filterType)) else bySearch;
    if Any !in allowedTypes then Filter(byKind, AllowedFilter(config.allowedTypes)) else byKind
  }

  /** A filter applied only under a condition is a filter by "the condition fails, or the predicate holds". */
  function When(cond: bool, p: MediaItem -> bool): MediaItem -> bool {
    (m: MediaItem) => !cond || p(m)
  }

  lemma MaybeFilter(s: seq<MediaItem>, cond: bool, p: MediaItem -> bool)
    ensures (if cond then Filter(s, p) else s) == Filter(s, When(cond, p))
  {
    if cond {
      FilterSame(s, p, When(cond, p));
    } else {
      FilterAll(s, When(cond, p));
    }
  }

  /** The first two filters as one. */
  function SearchAndKind(term: string, filterType: string): MediaItem -> bool {
    (m: MediaItem) => (term == "" || MatchesSearch(m, term)) && (filterType == "all" || m.kind == filterType)
  }

  /** `filterMedia` as three filters, each keeping everything when it does not apply. */
  lemma FilterMediaThreeFilters(
    mediaList: seq<MediaItem>, term: string, filterType: string,
    allowedTypes: seq<MediaType>, config: SelectorConfig)
    ensures FilterMedia(mediaList, term, filterType, allowedTypes, config)
      == Filter(Filter(Filter(mediaList, When(term != "", SearchFilter(term))),
                       When(filterType != "all", KindFilter(filterType))),
                When(Any !in allowedTypes, AllowedFilter(config.allowedTypes)))
  {
    MaybeFilter(mediaList, term != "", SearchFilter(term));
    var s1 := Filter(mediaList, When(term != "", SearchFilter(term)));
    MaybeFilter(s1, filterType != "all", KindFilter(filterType));
    var s2 := Filter(s1, When(filterType != "all", KindFilter(filterType)));
    MaybeFilter(s2, Any !in allowedTypes, AllowedFilter(config.allowedTypes));
  }

  /** The three filters in a row keep what is shown. */
  lemma ThreeFiltersShown(
    mediaList: seq<MediaItem>, term: string, filterType: string,
    allowedTypes: seq<MediaType>, config: SelectorConfig)
    ensures Filter(Filter(Filter(mediaList, When(term != "", SearchFilter(term))),
                          When(filterType != "all", KindFilter(filterType))),
                   When(Any !in allowedTypes, AllowedFilter(config.allowedTypes)))
      == Filter(mediaList, ShownFilter(term, filterType, allowedTypes, config))
  {
    FilterTwice(mediaList, When(term != "", SearchFilter(term)), When(filterType != "all", KindFilter(filterType)),
                SearchAndKind(term, filterType));
    FilterTwice(mediaList, SearchAndKind(term, filterType), When(Any !in allowedTypes, AllowedFilter(config.allowedTypes)),
                ShownFilter(term, filterType, allowedTypes, config));
  }

  /**
   * The filtered library keeps the library's order and holds exactly the
   * items that match the search, the type filter and the allowed types.
   */
  lemma FilterMediaSpec(
    mediaList: seq<MediaItem>, term: string, filterType: string,
    allowedTypes: seq<MediaType>, config: SelectorConfig)
    ensures var r := FilterMedia(mediaList, term, filterType, allowedTypes, config);
      && IsSubsequence(r, mediaList)
      && forall m :: m in r <==> m in mediaList && Shown(m, term, filterType, allowedTypes, config)
  {
    FilterMediaThreeFilters(mediaList, term, filterType, allowedTypes, config);
    ThreeFiltersShown(mediaList, term, filterType, allowedTypes, config);
    FilterSubsequence(mediaList, ShownFilter(term, filterType, allowedTypes, config));
  }

  // ---------------------------------------------------------------------
  // Selection and pagination
  // ---------------------------------------------------------------------

  /** The selection after clicking an item, and the item handed to `onSelect` in single mode. */
  datatype SelectOutcome = SelectOutcome(selected: set<string>, chosen: Option<MediaItem>)

  /** `handleMediaSelect`: in multiple mode the item's id is toggled; otherwise the item is chosen. */
  function HandleMediaSelect(multiple: bool, selected: set<string>, media: MediaItem): (r: SelectOutcome)
    ensures multiple ==> r.chosen.None? && (media.id in r.selected <==> media.id !in selected)
    ensures multiple ==> forall id :: id != media.id ==> (id in r.selected <==> id in selected)
    ensures !multiple ==> r == SelectOutcome(selected, Some(media))
  {
    if multiple then
      SelectOutcome(if media.id in selected then selected - {media.id} else selected + {media.id}, None)
    else SelectOutcome(selected, Some(media))
  }

  /** Clicking the same item twice in multiple mode restores the selection. */
  lemma SelectTwiceRestores(selected: set<string>, media: MediaItem)
    ensures HandleMediaSelect(true, HandleMediaSelect(true, selected, media).selected, media).selected == selected
  {
  }

  function IsSelected(selected: set<string>): MediaItem -> bool {
    (m: MediaItem) => m.id in selected
  }

  /** `handleMultipleConfirm`: the selected items of the library, in library order. */
  function ConfirmSelection(mediaList: seq<MediaItem>, selected: set<string>): seq<MediaItem> {
    Filter(mediaList, IsSelected(selected))
  }

  lemma ConfirmSelectionSpec(mediaList: seq<MediaItem>, selected: set<string>)
    ensures var r := ConfirmSelection(mediaList, selected);
      IsSubsequence(r, mediaList) && forall m :: m in r <==> m in mediaList && m.id in selected
  {
    FilterSubsequence(mediaList, IsSelected(selected));
  }

  /** The "previous" button: `Math.max(1, page - 1)`. */
  function PreviousPage(page: int): int {
    if page - 1 > 1 then page - 1 else 1
  }

  /** The "next" button: `Math.min(totalPages, page + 1)`. */
  function NextPage(page: int, totalPages: int): int {
    if page + 1 < totalPages then page + 1 else totalPages
  }

  /** Both buttons keep the page within `1..totalPages`, moving by one where there is room. */
  lemma PagesStayInRange(page: int, totalPages: int)
    requires 1 <= page <= totalPages
    ensures 1 <= PreviousPage(page) <= totalPages && 1 <= NextPage(page, totalPages) <= totalPages
    ensures page > 1 ==> PreviousPage(page) == page - 1
    ensures page < totalPages ==> NextPage(page, totalPages) == page + 1
    ensures page == 1 ==> PreviousPage(page) == 1
    ensures page == totalPages ==> NextPage(page, totalPages) == totalPages
  {
  }
}

=== FILE: media_validation.dfy ===
/**
 * The back end's media validation: a table of rules per content type
 * (logo, avatar, project image, video, general image, document), the
 * checks of an uploaded file against its type's rules, and the advice on
 * optimising it.
 *
 * What `fs.stat` and `sharp(...).metadata()` report about the file are
 * parameters: a size or the message of the failure, and the image's
 * metadata or the message of the failure.  Errors, warnings and advice
 * are values; the warnings' texts, which `shouldOptimize` searches, are
 * given by `WarningText`.
 */
module MediaValidation {
  import opened Wrappers
  import opened Text
  import Js

  const MB: nat := 1024 * 1024

  /** A minimum or maximum size in pixels. */
  datatype Dims = Dims(width: nat, height: nat)

  /** An aspect-ratio range, its bounds in hundredths (`0.5` is 50). */
  datatype RatioRange = RatioRange(minPct: nat, maxPct: nat)

  datatype Optimization = Optimization(compress: bool, generateThumbnail: bool, generateResponsive: bool)

  /** `ValidationConfig`; every configured type has an `optimization` entry. */
  datatype ValidationConfig = ValidationConfig(
    allowedMimeTypes: seq<string>,
    maxFileSize: nat,
    minDimensions: Option<Dims>,
    maxDimensions: Option<Dims>,
    aspectRatio: Option<RatioRange>,
    optimization: Optimization)

  /** What `sharp` reports; a width, height or density of 0 stands for a missing one. */
  datatype ImageMeta = ImageMeta(width: nat, height: nat, format: string, hasAlpha: bool, density: nat)

  /** The errors `validateMedia` can report. */
  datatype MediaError =
    | UnknownContentType(contentType: string)
    | SizeExceeded(size: nat, maxSize: nat)
    | MimeNotAllowed(mimeType: string, forType: ContentType)
    | BelowMinimum(width: nat, height: nat)
    | MetadataUnreadable(reason: string)
    | VideoUnreadable(reason: string)
    | FileUnreadable(reason: string)

  /** The warnings `validateImage` and `validateVideo` can give. */
  datatype MediaWarning =
    | AboveMaximum(width: nat, height: nat, max: Dims)
    | AspectOutside(width: nat, height: nat, range: RatioRange)
    | TransparencyAtRisk
    | LowDpi
    | LargeVideo

  /** The recommendations, each standing for its fixed sentence. */
  datatype Advice =
    | UseMp4 | ShortVideo
    | SvgLogo | LogoBackgrounds | LogoTransparency
    | SquareAvatar | VisibleFace | AvatarContrast
    | ProjectQuality | ProjectComposition | ProjectLighting
    | VideoCaptions | VideoThumbnail | VideoFileSize
    | WebP

  /** `MediaValidationResult`. */
  datatype MediaResult = MediaResult(
    isValid: bool, errors: seq<MediaError>, warnings: seq<MediaWarning>, recommendations: seq<Advice>,
    metadata: Option<ImageMeta>)

  /** What one of the image or video checks adds to the result. */
  datatype Check = Check(errors: seq<MediaError>, warnings: seq<MediaWarning>, recommendations: seq<Advice>)

  // ---------------------------------------------------------------------
  // The rule table
  // ---------------------------------------------------------------------

  /** The keys of `VALIDATION_CONFIGS`. */
  datatype ContentType = Logo | Avatar | ProjectImage | Video | GeneralImage | Document

  /** `getSupportedContentTypes`: the keys of the table, in order. */
  const SUPPORTED_CONTENT_TYPES: seq<string> := ["logo", "avatar", "projectImage", "video", "image", "document"]

  function Name(t: ContentType): string {
    match t
    case Logo => "logo"
    case Avatar => "avatar"
    case ProjectImage => "projectImage"
    case Video => "video"
    case GeneralImage => "image"
    case Document => "document"
  }

  /** The table entry a content type names, if any. */
  function ContentTypeNamed(s: string): (t: Option<ContentType>)
    ensures t.Some? <==> s in SUPPORTED_CONTENT_TYPES
    ensures t.Some? ==> Name(t.value) == s
  {
    match s
    case "logo" => Some(Logo)
    case "avatar" => Some(Avatar)
    case "projectImage" => Some(ProjectImage)
    case "video" => Some(Video)
    case "image" => Some(GeneralImage)
    case "document" => Some(Document)
    case _ => None
  }

  /** Every content type is found under its own name. */
  lemma NamesRoundTrip(t: ContentType)
    ensures ContentTypeNamed(Name(t)) == Some(t)
  {
  }

  /** `VALIDATION_CONFIGS[contentType]`. */
  function Config(t: ContentType): (c: ValidationConfig)
    ensures c.maxFileSize > 0 && c.allowedMimeTypes != []
    ensures c.minDimensions.Some? <==> c.maxDimensions.Some?
    ensures c.minDimensions.Some? ==>
      c.minDimensions.value.width <= c.maxDimensions.value.width &&
      c.minDimensions.value.height <= c.maxDimensions.value.height
  {
    match t
    case Logo =>
      ValidationConfig(["image/svg+xml", "image/png", "image/jpeg", "image/webp"], 2 * MB,
        Some(Dims(100, 100)), Some(Dims(2000, 2000)), Some(RatioRange(50, 300)), Optimization(true, true, false))
    case Avatar =>
      ValidationConfig(["image/jpeg", "image/png", "image/webp"], 5 * MB,
        Some(Dims(150, 150)), Some(Dims(1000, 1000)), Some(RatioRange(80, 125)), Optimization(true, true, false))
    case ProjectImage =>
      ValidationConfig(["image/jpeg", "image/png", "image/webp"], 15 * MB,
        Some(Dims(800, 600)), Some(Dims(4000, 3000)), Some(RatioRange(50, 250)), Optimization(true, true, true))
    case Video =>
      ValidationConfig(["video/mp4", "video/webm", "video/quicktime"], 100 * MB,
        None, None, None, Optimization(false, true, false))
    case GeneralImage =>
      ValidationConfig(["image/jpeg", "image/png", "image/webp", "image/gif"], 10 * MB,
        Some(Dims(200, 200)), Some(Dims(5000, 5000)), None, Optimization(true, true, true))
    case Document =>
      ValidationConfig(
        ["application/pdf", "application/msword",
         "application/vnd.openxmlformats-officedocument.wordprocessingml.document"], 25 * MB,
        None, None, None, Optimization(false, false, false))
  }

  /** `getValidationConfig`: `null` for a name not in the table. */
  function ConfigFor(contentType: string): (c: Option<ValidationConfig>)
    ensures c.Some? <==> contentType in SUPPORTED_CONTENT_TYPES
  {
    match ContentTypeNamed(contentType)
    case None => None
    case Some(t) => Some(Config(t))
  }

  // ---------------------------------------------------------------------
  // Texts
  // ---------------------------------------------------------------------

  function Digit(d: nat): char
    requires d < 10
  {
    ('0' as int + d) as char
  }

  /** `(w / h).toFixed(2)`, halves rounded up. */
  function FixedTwo(w: nat, h: nat): string
    requires h > 0
  {
    var q := (200 * w + h) / (2 * h);
    Js.NatText(q / 100) + "." + [Digit(q % 100 / 10), Digit(q % 10)]
  }

  /** A number given in hundredths as JavaScript prints it: no trailing zeros. */
  function Hundredths(p: nat): string {
    Js.NatText(p / 100)
    + if p % 100 == 0 then ""
      else if p % 10 == 0 then "." + [Digit(p % 100 / 10)]
      else "." + [Digit(p % 100 / 10), Digit(p % 10)]
  }

  /** The text of a warning, as pushed by the source. */
  function WarningText(w: MediaWarning): string {
    match w
    case AboveMaximum(width, height, max) =>
      "Image dimensions (" + Js.NatText(width) + "x" + Js.NatText(height) + ") exceed recommended maximum ("
      + Js.NatText(max.width) + "x" + Js.NatText(max.height) + "). Image will be resized."
    case AspectOutside(width, height, range) =>
      "Image aspect ratio (" + (if height > 0 then FixedTwo(width, height) else "Infinity")
      + ") is outside recommended range (" + Hundredths(range.minPct) + "-" + Hundredths(range.maxPct) + ")"
    case TransparencyAtRisk =>
      "Image has transparency but is not in PNG or WebP format. Transparency may be lost during optimization."
    case LowDpi =>
      "Image has low DPI. Consider using higher resolution images for better quality."
    case LargeVideo =>
      "Video file is quite large. Consider compressing for better web performance."
  }

  function WarningTexts(ws: seq<MediaWarning>): (ts: seq<string>)
    ensures |ts| == |ws| && forall i :: 0 <= i < |ws| ==> ts[i] == WarningText(ws[i])
  {
    seq(|ws|, i requires 0 <= i < |ws| => WarningText(ws[i]))
  }

  /** The text of a recommendation. */
  function AdviceText(a: Advice): string {
    match a
    case UseMp4 => "Consider using MP4 format with H.264 codec for best browser compatibility"
    case ShortVideo => "Keep video duration under 2 minutes for better user engagement"
    case SvgLogo => "Consider using SVG format for logos to ensure crisp display at all sizes"
    case LogoBackgrounds => "Ensure logo works well on both light and dark backgrounds"
    case LogoTransparency => "Use transparent background for better integration"
    case SquareAvatar => "Use square format (1:1 aspect ratio) for best results"
    case VisibleFace => "Ensure face is clearly visible and centered"
    case AvatarContrast => "Use high contrast and avoid busy backgrounds"
    case ProjectQuality => "Use high-quality images to showcase your work effectively"
    case ProjectComposition => "Consider the image composition and visual hierarchy"
    case ProjectLighting => "Ensure images are well-lit and professionally presented"
    case VideoCaptions => "Include captions or subtitles for accessibility"
    case VideoThumbnail => "Provide a compelling thumbnail image"
    case VideoFileSize => "Keep file size reasonable for web streaming"
    case WebP => "Images will be automatically converted to WebP format for better performance"
  }

  /** The fixed advice per content type, after the SVG advice for logos. */
  function TypeAdvice(t: ContentType): seq<Advice> {
    match t
    case Logo => [LogoBackgrounds, LogoTransparency]
    case Avatar => [SquareAvatar, VisibleFace, AvatarContrast]
    case ProjectImage => [ProjectQuality, ProjectComposition, ProjectLighting]
    case Video => [VideoCaptions, VideoThumbnail, VideoFileSize]
    case _ => []
  }

  // ---------------------------------------------------------------------
  // The checks, as functions
  // ---------------------------------------------------------------------

  /** Both sides known and one of them below the minimum. */
  predicate BelowMin(m: ImageMeta, min: Option<Dims>) {
    min.Some? && m.width > 0 && m.height > 0 && (m.width < min.value.width || m.height < min.value.height)
  }

  /** Both sides known and one of them above the maximum. */
  predicate AboveMax(m: ImageMeta, max: Option<Dims>) {
    max.Some? && m.width > 0 && m.height > 0 && (m.width > max.value.width || m.height > max.value.height)
  }

  /** `width / height` outside the range, compared exactly. */
  predicate RatioOutside(m: ImageMeta, r: Option<RatioRange>) {
    r.Some? && m.width > 0 && m.height > 0
    && (100 * m.width < r.value.minPct * m.height || 100 * m.width > r.value.maxPct * m.height)
  }

  predicate LosesTransparency(m: ImageMeta) {
    m.hasAlpha && m.format != "png" && m.format != "webp"
  }

  predicate LowDensity(m: ImageMeta) {
    m.density > 0 && m.density < 72
  }

  /** The warnings of `validateImage`, in the order it checks. */
  function ImageWarnings(m: ImageMeta, config: ValidationConfig): seq<MediaWarning> {
    (if AboveMax(m, config.maxDimensions) then [AboveMaximum(m.width, m.height, config.maxDimensions.value)] else [])
    + (if RatioOutside(m, config.aspectRatio) then [AspectOutside(m.width, m.height, config.aspectRatio.value)] else [])
    + (if LosesTransparency(m) then [TransparencyAtRisk] else [])
    + (if LowDensity(m) then [LowDpi] else [])
  }

  /** `validateImage`: the minimum size is the only error; the rest are warnings. */
  function ImageCheck(meta: Result<ImageMeta, string>, config: ValidationConfig): (c: Check)
    ensures forall e :: e in c.errors ==> e.BelowMinimum? || e.MetadataUnreadable?
    ensures c.recommendations == []
  {
    match meta
    case Err(reason) => Check([MetadataUnreadable(reason)], [], [])
    case Ok(m) =>
      Check(if BelowMin(m, config.minDimensions) then [BelowMinimum(m.width, m.height)] else [], ImageWarnings(m, config), [])
  }

  /** `validateVideo`: a video above 50 MB is only warned about. */
  function VideoCheck(videoStat: Result<nat, string>): (c: Check)
    ensures forall e :: e in c.errors ==> e.VideoUnreadable?
    ensures forall a :: a in c.recommendations ==> a == UseMp4 || a == ShortVideo
  {
    match videoStat
    case Err(reason) => Check([VideoUnreadable(reason)], [], [])
    case Ok(size) => Check([], if size > 50 * MB then [LargeVideo] else [], [UseMp4, ShortVideo])
  }

  /** `addContentSpecificRecommendations`. */
  function ContentAdvice(t: ContentType, mimeType: string): seq<Advice> {
    (if t == Logo && mimeType != "image/svg+xml" then [SvgLogo] else [])
    + TypeAdvice(t)
    + (if StartsWith(mimeType, "image/") && mimeType != "image/webp" then [WebP] else [])
  }

  const NO_CHECK := Check([], [], [])

  /** The size and MIME errors, in that order. */
  function BasicErrors(config: ValidationConfig, t: ContentType, mimeType: string, size: nat): seq<MediaError> {
    (if size > config.maxFileSize then [SizeExceeded(size, config.maxFileSize)] else [])
    + (if mimeType !in config.allowedMimeTypes then [MimeNotAllowed(mimeType, t)] else [])
  }

  /** The image checks for an image MIME type followed by the video checks for a video one. */
  function MediaChecks(config: ValidationConfig, mimeType: string, meta: Result<ImageMeta, string>, videoStat: Result<nat, string>): (c: Check)
    ensures forall e :: e in c.errors ==> e.BelowMinimum? || e.MetadataUnreadable? || e.VideoUnreadable?
    ensures forall a :: a in c.recommendations ==> a == UseMp4 || a == ShortVideo
  {
    var image := if StartsWith(mimeType, "image/") then ImageCheck(meta, config) else NO_CHECK;
    var video := if StartsWith(mimeType, "video/") then VideoCheck(videoStat) else NO_CHECK;
    Check(image.errors + video.errors, image.warnings + video.warnings, image.recommendations + video.recommendations)
  }

  /** The checks on a readable file of a known type, against that type's rules `config`. */
  function FileReport(
    config: ValidationConfig, t: ContentType, mimeType: string, size: nat,
    meta: Result<ImageMeta, string>, videoStat: Result<nat, string>): MediaResult
  {
    var checks := MediaChecks(config, mimeType, meta, videoStat);
    var errors := BasicErrors(config, t, mimeType, size) + checks.errors;
    MediaResult(
      errors == [], errors, checks.warnings, checks.recommendations + ContentAdvice(t, mimeType),
      if StartsWith(mimeType, "image/") && meta.Ok? then Some(meta.value) else None)
  }

  /**
   * `validateMedia`: an unknown type and a file that cannot be read stop
   * at one error; otherwise the size and MIME checks, the image or video
   * checks and the advice are gathered, and the file is valid when no
   * error was found.
   */
  function MediaReport(
    contentType: string, mimeType: string, stat: Result<nat, string>,
    meta: Result<ImageMeta, string>, videoStat: Result<nat, string>): MediaResult
  {
    match ContentTypeNamed(contentType)
    case None => MediaResult(false, [UnknownContentType(contentType)], [], [], None)
    case Some(t) =>
      match stat
      case Err(reason) => MediaResult(false, [FileUnreadable(reason)], [], [], None)
      case Ok(size) => FileReport(Config(t), t, mimeType, size, meta, videoStat)
  }

  // ---------------------------------------------------------------------
  // What the report promises
  // ---------------------------------------------------------------------

  /** An unknown content type gives exactly one error and nothing else. */
  lemma UnknownTypeRejected(contentType: string, mimeType: string, stat: Result<nat, string>,
                            meta: Result<ImageMeta, string>, videoStat: Result<nat, string>)
    requires contentType !in SUPPORTED_CONTENT_TYPES
    ensures var r := MediaReport(contentType, mimeType, stat, meta, videoStat);
      !r.isValid && r.errors == [UnknownContentType(contentType)] && r.warnings == [] && r.recommendations == []
  {
  }

  /** A file too large, or of a MIME type not allowed, is reported so and invalid. */
  lemma SizeAndMimeChecked(c: ValidationConfig, t: ContentType, mimeType: string, size: nat,
                           meta: Result<ImageMeta, string>, videoStat: Result<nat, string>)
    ensures var r := FileReport(c, t, mimeType, size, meta, videoStat);
      (SizeExceeded(size, c.maxFileSize) in r.errors <==> size > c.maxFileSize)
      && (MimeNotAllowed(mimeType, t) in r.errors <==> mimeType !in c.allowedMimeTypes)
      && (size > c.maxFileSize || mimeType !in c.allowedMimeTypes ==> !r.isValid)
  {
    var checks := MediaChecks(c, mimeType, meta, videoStat);
    assert forall e :: e in checks.errors ==> !e.SizeExceeded? && !e.MimeNotAllowed?;
  }

  /** An image MIME type is not a video one. */
  lemma ImageNotVideo(mimeType: string)
    requires StartsWith(mimeType, "image/")
    ensures !StartsWith(mimeType, "video/")
  {
    assert mimeType[0] == 'i';
  }

  /** For an image, the checks are the image checks alone. */
  lemma ImageChecksOnly(config: ValidationConfig, mimeType: string, meta: Result<ImageMeta, string>, videoStat: Result<nat, string>)
    requires StartsWith(mimeType, "image/")
    ensures MediaChecks(config, mimeType, meta, videoStat) == ImageCheck(meta, config)
  {
    ImageNotVideo(mimeType);
    var image := ImageCheck(meta, config);
    assert image.errors + [] == image.errors && image.warnings + [] == image.warnings;
  }

  /** An image below the minimum size is an error; above the maximum it is only a warning. */
  lemma DimensionsChecked(c: ValidationConfig, t: ContentType, mimeType: string, size: nat, m: ImageMeta, videoStat: Result<nat, string>)
    requires StartsWith(mimeType, "image/") && m.width > 0 && m.height > 0
    ensures var r := FileReport(c, t, mimeType, size, Ok(m), videoStat);
      (BelowMinimum(m.width, m.height) in r.errors <==> BelowMin(m, c.minDimensions))
      && (c.maxDimensions.Some? ==>
           (AboveMax(m, c.maxDimensions) <==> AboveMaximum(m.width, m.height, c.maxDimensions.value) in r.warnings))
      && r.metadata == Some(m)
  {
    ImageChecksOnly(c, mimeType, Ok(m), videoStat);
  }

  /** A video above 50 MB is warned about and still valid when nothing else is wrong. */
  lemma LargeVideoWarned(c: ValidationConfig, t: ContentType, mimeType: string, size: nat, meta: Result<ImageMeta, string>, videoSize: nat)
    requires StartsWith(mimeType, "video/") && videoSize > 50 * MB
    ensures var r := FileReport(c, t, mimeType, size, meta, Ok(videoSize));
      LargeVideo in r.warnings
      && (r.isValid <==> size <= c.maxFileSize && mimeType in c.allowedMimeTypes)
  {
    if StartsWith(mimeType, "image/") {
      ImageNotVideo(mimeType);
    }
  }

  /** The SVG and WebP advice come from the content advice alone. */
  lemma ContentAdviceFormats(t: ContentType, mimeType: string)
    ensures SvgLogo in ContentAdvice(t, mimeType) <==> t == Logo && mimeType != "image/svg+xml"
    ensures WebP in ContentAdvice(t, mimeType) <==> StartsWith(mimeType, "image/") && mimeType != "image/webp"
  {
    assert SvgLogo !in TypeAdvice(t) && WebP !in TypeAdvice(t);
  }

  /** A logo not in SVG is advised to be SVG; an image not in WebP is told it will become WebP. */
  lemma FormatAdvice(config: ValidationConfig, t: ContentType, mimeType: string, size: nat,
                     meta: Result<ImageMeta, string>, videoStat: Result<nat, string>)
    ensures var r := FileReport(config, t, mimeType, size, meta, videoStat);
      (SvgLogo in r.recommendations <==> t == Logo && mimeType != "image/svg+xml")
      && (WebP in r.recommendations <==> StartsWith(mimeType, "image/") && mimeType != "image/webp")
  {
    var before := MediaChecks(config, mimeType, meta, videoStat).recommendations;
    ContentAdviceFormats(t, mimeType);
    assert FileReport(config, t, mimeType, size, meta, videoStat).recommendations == before + ContentAdvice(t, mimeType);
  }

  // ---------------------------------------------------------------------
  // The checks, as the source performs them
  // ---------------------------------------------------------------------

  /** `validateImage`: the warnings pushed one check after the other. */
  method ValidateImage(meta: Result<ImageMeta, string>, config: ValidationConfig)
    returns (c: Check, metadata: Option<ImageMeta>)
    ensures c == ImageCheck(meta, config)
    ensures metadata == if meta.Ok? then Some(meta.value) else None
  {
    if meta.Err? {
      return Check([MetadataUnreadable(meta.error)], [], []), None;
    }
    var m := meta.value;
    metadata := Some(m);
    var errors: seq<MediaError> := [];
    if config.minDimensions.Some? && m.width > 0 && m.height > 0 {
      if m.width < config.minDimensions.value.width || m.height < config.minDimensions.value.height {
        errors := errors + [BelowMinimum(m.width, m.height)];
      }
    }
    var warnings := DimensionWarnings(m, config);
    if m.hasAlpha && m.format != "png" && m.format != "webp" {
      warnings := warnings + [TransparencyAtRisk];
    }
    if m.density > 0 && m.density < 72 {
      warnings := warnings + [LowDpi];
    }
    c := Check(errors, warnings, []);
  }

  /** The first two checks of `validateImage`: the maximum size, then the aspect ratio. */
  method DimensionWarnings(m: ImageMeta, config: ValidationConfig) returns (warnings: seq<MediaWarning>)
    ensures warnings
      == (if AboveMax(m, config.maxDimensions) then [AboveMaximum(m.width, m.height, config.maxDimensions.value)] else [])
      + (if RatioOutside(m, config.aspectRatio) then [AspectOutside(m.width, m.height, config.aspectRatio.value)] else [])
  {
    warnings := [];
    if config.maxDimensions.Some? && m.width > 0 && m.height > 0 {
      if m.width > config.maxDimensions.value.width || m.height > config.maxDimensions.value.height {
        warnings := warnings + [AboveMaximum(m.width, m.height, config.maxDimensions.value)];
      }
    }
    if config.aspectRatio.Some? && m.width > 0 && m.height > 0 {
      var r := config.aspectRatio.value;
      if 100 * m.width < r.minPct * m.height || 100 * m.width > r.maxPct * m.height {
        warnings := warnings + [AspectOutside(m.width, m.height, r)];
      }
    }
  }

  /** `validateVideo`. */
  method ValidateVideo(videoStat: Result<nat, string>) returns (c: Check)
    ensures c == VideoCheck(videoStat)
  {
    if videoStat.Err? {
      return Check([VideoUnreadable(videoStat.error)], [], []);
    }
    var warnings: seq<MediaWarning> := [];
    if videoStat.value > 50 * MB {
      warnings := warnings + [LargeVideo];
    }
    c := Check([], warnings, [UseMp4, ShortVideo]);
  }

  /** `addContentSpecificRecommendations`: pushes onto the recommendations gathered so far. */
  method AddContentSpecificRecommendations(recommendations: seq<Advice>, t: ContentType, mimeType: string)
    returns (r: seq<Advice>)
    ensures r == recommendations + ContentAdvice(t, mimeType)
  {
    r := recommendations;
    if t == Logo && mimeType != "image/svg+xml" {
      r := r + [SvgLogo];
    }
    r := r + TypeAdvice(t);
    if StartsWith(mimeType, "image/") && mimeType != "image/webp" {
      r := r + [WebP];
    }
  }

  /** `validateMedia`: an unknown type or an unreadable file stops at one error. */
  method ValidateMedia(
    contentType: string, mimeType: string, stat: Result<nat, string>,
    meta: Result<ImageMeta, string>, videoStat: Result<nat, string>) returns (result: MediaResult)
    ensures result == MediaReport(contentType, mimeType, stat, meta, videoStat)
    ensures result.isValid <==> result.errors == []
  {
    var t := ContentTypeNamed(contentType);
    if t.None? {
      return MediaResult(false, [UnknownContentType(contentType)], [], [], None);
    }
    if stat.Err? {
      return MediaResult(false, [FileUnreadable(stat.error)], [], [], None);
    }
    result := CheckFile(Config(t.value), t.value, mimeType, stat.value, meta, videoStat);
  }

  /** The size and MIME checks of `validateMedia`: each failure pushes an error and clears the flag. */
  method CheckSizeAndMime(config: ValidationConfig, t: ContentType, mimeType: string, size: nat) returns (isValid: bool, errors: seq<MediaError>)
    ensures errors == BasicErrors(config, t, mimeType, size)
    ensures isValid <==> errors == []
  {
    isValid := true;
    errors := [];
    if size > config.maxFileSize {
      errors := errors + [SizeExceeded(size, config.maxFileSize)];
      isValid := false;
    }
    if mimeType !in config.allowedMimeTypes {
      errors := errors + [MimeNotAllowed(mimeType, t)];
      isValid := false;
    }
  }

  /** The image checks for an image and the video checks for a video, as `validateMedia` runs them. */
  method CheckMedia(config: ValidationConfig, mimeType: string, meta: Result<ImageMeta, string>, videoStat: Result<nat, string>)
    returns (checks: Check, metadata: Option<ImageMeta>)
    ensures checks == MediaChecks(config, mimeType, meta, videoStat)
    ensures metadata == if StartsWith(mimeType, "image/") && meta.Ok? then Some(meta.value) else None
  {
    metadata := None;
    var image := NO_CHECK;
    if StartsWith(mimeType, "image/") {
      image, metadata := ValidateImage(meta, config);
    }
    var video := NO_CHECK;
    if StartsWith(mimeType, "video/") {
      video := ValidateVideo(videoStat);
    }
    checks := Check(image.errors + video.errors, image.warnings + video.warnings,
                    image.recommendations + video.recommendations);
  }

  /** The rest of `validateMedia` on a readable file: the flag is cleared with every error, so it ends true exactly when there is none. */
  method CheckFile(
    config: ValidationConfig, t: ContentType, mimeType: string, size: nat,
    meta: Result<ImageMeta, string>, videoStat: Result<nat, string>) returns (result: MediaResult)
    ensures result == FileReport(config, t, mimeType, size, meta, videoStat)
    ensures result.isValid <==> result.errors == []
  {
    var isValid, errors := CheckSizeAndMime(config, t, mimeType, size);
    var checks, metadata := CheckMedia(config, mimeType, meta, videoStat);
    if |checks.errors| > 0 {
      isValid := false;
    }
    errors := errors + checks.errors;
    var recommendations := AddContentSpecificRecommendations(checks.recommendations, t, mimeType);
    result := MediaResult(isValid, errors, checks.warnings, recommendations, metadata);
  }

  // ---------------------------------------------------------------------
  // Optimisation advice
  // ---------------------------------------------------------------------

  /** The words that make a warning call for optimisation. */
  predicate CallsForOptimization(warning: string) {
    Contains(warning, "dimensions") || Contains(warning, "size") || Contains(warning, "quality")
  }

  /** `warnings.some(...)`, from the first warning on. */
  function AnyCallsForOptimization(warnings: seq<string>): (b: bool)
    ensures b <==> exists w :: w in warnings && CallsForOptimization(w)
  {
    if warnings == [] then false
    else CallsForOptimization(warnings[0]) || AnyCallsForOptimization(warnings[1..])
  }

  /** `shouldOptimize`: the type compresses and some warning is about dimensions, size or quality. */
  function ShouldOptimize(warnings: seq<string>, contentType: string): (b: bool)
    ensures b <==> ConfigFor(contentType).Some? && ConfigFor(contentType).value.optimization.compress
                   && exists w :: w in warnings && CallsForOptimization(w)
  {
    match ConfigFor(contentType)
    case None => false
    case Some(c) => c.optimization.compress && AnyCallsForOptimization(warnings)
  }

  lemma ContainsAt(s: string, p: string, i: nat)
    requires i + |p| <= |s| && s[i..i + |p|] == p
    ensures Contains(s, p)
  {
    assert StartsWith(s[i..], p);
  }

  /** The warning about the maximum size mentions dimensions. */
  lemma AboveMaximumCallsForOptimization(width: nat, height: nat, max: Dims)
    ensures CallsForOptimization(WarningText(AboveMaximum(width, height, max)))
  {
    var pre := "Image dimensions (";
    var s := WarningText(AboveMaximum(width, height, max));
    assert s == pre + s[|pre|..];
    assert s[6..16] == pre[6..16] == "dimensions";
    ContainsAt(s, "dimensions", 6);
  }

  /** The warning about density mentions quality. */
  lemma LowDpiCallsForOptimization()
    ensures CallsForOptimization(WarningText(LowDpi))
  {
    var s := WarningText(LowDpi);
    assert s[70..77] == "quality";
    ContainsAt(s, "quality", 70);
  }

  /** The warnings of a valid image report, as `shouldOptimize` reads them. */
  lemma ImageWarningTexts(config: ValidationConfig, t: ContentType, mimeType: string, size: nat, m: ImageMeta, videoStat: Result<nat, string>)
    requires StartsWith(mimeType, "image/")
    ensures WarningTexts(FileReport(config, t, mimeType, size, Ok(m), videoStat).warnings) == WarningTexts(ImageWarnings(m, config))
  {
    ImageChecksOnly(config, mimeType, Ok(m), videoStat);
  }

  /** A warning text that calls for optimisation is found by `some`. */
  lemma TextCallsForOptimization(texts: seq<string>, k: nat)
    requires k < |texts| && CallsForOptimization(texts[k])
    ensures AnyCallsForOptimization(texts)
  {
    assert texts[k] in texts;
  }

  /** An image larger than the maximum, or of low density, gets a warning that calls for optimisation. */
  lemma ImageWarningsCallForOptimization(m: ImageMeta, config: ValidationConfig)
    requires AboveMax(m, config.maxDimensions) || LowDensity(m)
    ensures AnyCallsForOptimization(WarningTexts(ImageWarnings(m, config)))
  {
    var ws := ImageWarnings(m, config);
    var texts := WarningTexts(ws);
    if AboveMax(m, config.maxDimensions) {
      AboveMaximumCallsForOptimization(m.width, m.height, config.maxDimensions.value);
      assert ws[0] == AboveMaximum(m.width, m.height, config.maxDimensions.value);
      TextCallsForOptimization(texts, 0);
    } else {
      LowDpiCallsForOptimization();
      assert ws[|ws| - 1] == LowDpi;
      TextCallsForOptimization(texts, |ws| - 1);
    }
  }

  /** An image larger than its type's maximum, or of low density, is to be optimised when the type compresses. */
  lemma FlaggedImageOptimized(t: ContentType, mimeType: string, size: nat, m: ImageMeta, videoStat: Result<nat, string>)
    requires StartsWith(mimeType, "image/") && Config(t).optimization.compress
    requires AboveMax(m, Config(t).maxDimensions) || LowDensity(m)
    ensures ShouldOptimize(WarningTexts(FileReport(Config(t), t, mimeType, size, Ok(m), videoStat).warnings), Name(t))
  {
    ImageWarningTexts(Config(t), t, mimeType, size, m, videoStat);
    ImageWarningsCallForOptimization(m, Config(t));
    NamesRoundTrip(t);
  }

  /** `getOptimizationRecommendations`: one line per optimisation the type performs, in the table's order. */
  method GetOptimizationRecommendations(contentType: string) returns (r: seq<string>)
    ensures ConfigFor(contentType).None? ==> r == []
    ensures ConfigFor(contentType).Some? ==>
      var o := ConfigFor(contentType).value.optimization;
      r == (if o.compress then [COMPRESS_ADVICE] else [])
           + (if o.generateThumbnail then [THUMBNAIL_ADVICE] else [])
           + (if o.generateResponsive then [RESPONSIVE_ADVICE] else [])
  {
    var config := ConfigFor(contentType);
    if config.None? {
      return [];
    }
    var o := config.value.optimization;
    r := [];
    if o.compress {
      r := r + [COMPRESS_ADVICE];
    }
    if o.generateThumbnail {
      r := r + [THUMBNAIL_ADVICE];
    }
    if o.generateResponsive {
      r := r + [RESPONSIVE_ADVICE];
    }
  }

  const COMPRESS_ADVICE: string := "Image will be compressed for optimal web delivery"
  const THUMBNAIL_ADVICE: string := "Thumbnail will be generated for faster loading"
  const RESPONSIVE_ADVICE: string := "Multiple sizes will be generated for responsive design"

  /** One file handed to `validateMultipleMedia`, with what the file system reports about it. */
  datatype MediaFile = MediaFile(
    contentType: string, mimeType: string, stat: Result<nat, string>,
    meta: Result<ImageMeta, string>, videoStat: Result<nat, string>)

  /** `validateMultipleMedia`: one report per file, in order. */
  function ValidateAll(files: seq<MediaFile>): (rs: seq<MediaResult>)
    ensures |rs| == |files|
    ensures forall i :: 0 <= i < |files| ==>
      rs[i] == MediaReport(files[i].contentType, files[i].mimeType, files[i].stat, files[i].meta, files[i].videoStat)
  {
    seq(|files|, i requires 0 <= i < |files| =>
      MediaReport(files[i].contentType, files[i].mimeType, files[i].stat, files[i].meta, files[i].videoStat))
  }
}

=== FILE: memory_manager.dfy ===
/**
 * The universal editor's memory manager: it keeps the object URLs it was
 * given with an expiry time and revokes them when they expire, when too
 * many are kept or on a full cleanup; it keeps groups of event listeners
 * to detach them together; and it tracks whether the user is idle.
 *
 * The `Map`s are modelled as sequences in insertion order (the order a
 * `Map` iterates in) with distinct keys.  The calls into the browser that
 * matter, `URL.revokeObjectURL` and `removeEventListener`, are recorded in
 * the logs `revoked` and `detached`.  `Date.now()` is the parameter `now`,
 * and `performance.memory.usedJSHeapSize` the parameter `usedHeap`.
 */
module MemoryManagement {
  import opened Wrappers
  import opened Text
  import opened Lists
  import CacheService

  /** `MEMORY_CONFIG.MEMORY_THRESHOLD_MB`. */
  const MEMORY_THRESHOLD_MB: int := 150
  /** `MEMORY_CONFIG.MAX_IDLE_TIME`: five minutes in milliseconds. */
  const MAX_IDLE_TIME: int := 5 * 60 * 1000
  /** `MEMORY_CONFIG.MAX_OBJECT_URLS`. */
  const MAX_OBJECT_URLS: int := 50
  /** `MEMORY_CONFIG.AUTO_CLEANUP_ENABLED`. */
  const AUTO_CLEANUP_ENABLED := true
  /** `Number.MAX_SAFE_INTEGER`. */
  const MAX_SAFE_INTEGER: int := 9007199254740991
  /** `Math.floor(MAX_OBJECT_URLS * 0.2)`: how many URLs go when there are too many. */
  const CLEANUP_BATCH: int := 10

  /** A registered object URL and the time it expires at. */
  datatype UrlEntry = UrlEntry(url: string, timestamp: int)

  /** A registered listener: its target and its handler are references, given as numbers. */
  datatype Listener = Listener(target: nat, eventType: string, handler: nat)

  /** A group of listeners under one identifier. */
  datatype Group = Group(id: string, listeners: seq<Listener>)

  // ---------------------------------------------------------------------
  // Object URLs
  // ---------------------------------------------------------------------

  /** Only `blob:` and `data:` URLs are kept track of. */
  predicate Trackable(url: string) {
    StartsWith(url, "blob:") || StartsWith(url, "data:")
  }

  /** When a URL registered at `now` expires; a lifespan that is not positive means never. */
  function ExpiryTime(now: int, lifespan: int): int {
    now + (if lifespan > 0 then lifespan else MAX_SAFE_INTEGER)
  }

  predicate DistinctUrls(es: seq<UrlEntry>) {
    forall i, j :: 0 <= i < j < |es| ==> es[i].url != es[j].url
  }

  /** `objectUrls.has(url)`. */
  predicate Registered(es: seq<UrlEntry>, url: string) {
    exists k :: 0 <= k < |es| && es[k].url == url
  }

  lemma SameUrlSameEntry(es: seq<UrlEntry>, a: UrlEntry, b: UrlEntry)
    requires DistinctUrls(es) && a in es && b in es && a.url == b.url
    ensures a == b
  {
    var i :| 0 <= i < |es| && es[i] == a;
    var j :| 0 <= j < |es| && es[j] == b;
  }

  /** The URLs in iteration order. */
  function UrlsOf(es: seq<UrlEntry>): (us: seq<string>)
    ensures |us| == |es| && forall k :: 0 <= k < |es| ==> us[k] == es[k].url
  {
    seq(|es|, k requires 0 <= k < |es| => es[k].url)
  }

  /** `objectUrls.delete(url)`. */
  function Remove(es: seq<UrlEntry>, url: string): (r: seq<UrlEntry>)
    ensures forall e :: e in r <==> e in es && e.url != url
    ensures |r| <= |es|
    decreases |es|
  {
    if es == [] then []
    else if es[0].url == url then Remove(es[1..], url)
    else [es[0]] + Remove(es[1..], url)
  }

  /** What the first entry tells about the rest. */
  lemma TailFacts(es: seq<UrlEntry>, url: string)
    requires es != []
    ensures Registered(es, url) <==> es[0].url == url || Registered(es[1..], url)
    ensures DistinctUrls(es) ==> DistinctUrls(es[1..]) && !Registered(es[1..], es[0].url)
  {
    if Registered(es[1..], url) {
      var k :| 0 <= k < |es[1..]| && es[1..][k].url == url;
      assert es[k + 1].url == url;
    }
    if Registered(es, url) && es[0].url != url {
      var k :| 0 <= k < |es| && es[k].url == url;
      assert es[1..][k - 1].url == url;
    }
    if DistinctUrls(es) {
      forall i, j | 0 <= i < j < |es[1..]| ensures es[1..][i].url != es[1..][j].url {
        assert es[1..][i] == es[i + 1] && es[1..][j] == es[j + 1];
      }
    }
  }

  /** An entry whose URL no other entry has can go in front. */
  lemma ConsDistinct(e: UrlEntry, rest: seq<UrlEntry>)
    requires DistinctUrls(rest) && forall x :: x in rest ==> x.url != e.url
    ensures DistinctUrls([e] + rest)
  {
    var r := [e] + rest;
    forall i, j | 0 <= i < j < |r| ensures r[i].url != r[j].url {
      assert r[j] == rest[j - 1] && rest[j - 1] in rest;
      if i > 0 {
        assert r[i] == rest[i - 1];
      }
    }
  }

  /** Deleting an absent URL changes nothing, and deleting keeps URLs distinct; a registered one goes once. */
  lemma {:induction false} RemoveFacts(es: seq<UrlEntry>, url: string)
    ensures !Registered(es, url) ==> Remove(es, url) == es
    ensures DistinctUrls(es) ==> DistinctUrls(Remove(es, url))
    ensures DistinctUrls(es) && Registered(es, url) ==> |Remove(es, url)| == |es| - 1
    decreases |es|
  {
    if es != [] {
      RemoveFacts(es[1..], url);
      TailFacts(es, url);
      var rest := Remove(es[1..], url);
      if es[0].url != url {
        assert es == [es[0]] + es[1..];
        if DistinctUrls(es) {
          forall x | x in rest ensures x.url != es[0].url {
            var k :| 0 <= k < |es[1..]| && es[1..][k] == x;
          }
          ConsDistinct(es[0], rest);
        }
      }
    }
  }

  /** `objectUrls.set(url, ...)`: a known URL keeps its place with the new expiry; a new one goes last. */
  function SetUrl(es: seq<UrlEntry>, url: string, timestamp: int): (r: seq<UrlEntry>)
    requires DistinctUrls(es)
    ensures DistinctUrls(r) && UrlEntry(url, timestamp) in r
    ensures forall e :: e in r <==> e == UrlEntry(url, timestamp) || (e in es && e.url != url)
    ensures |r| == if Registered(es, url) then |es| else |es| + 1
  {
    if Registered(es, url) then
      var i :| 0 <= i < |es| && es[i].url == url;
      var r := es[i := UrlEntry(url, timestamp)];
      assert r[i] == UrlEntry(url, timestamp);
      assert forall e :: e in r <==> e == UrlEntry(url, timestamp) || (e in es && e.url != url) by {
        forall e ensures e in r <==> e == UrlEntry(url, timestamp) || (e in es && e.url != url) {
          if e in es && e.url != url {
            var k :| 0 <= k < |es| && es[k] == e;
            assert r[k] == e;
          }
          if e in r && e != UrlEntry(url, timestamp) {
            var k :| 0 <= k < |r| && r[k] == e;
            assert k != i && es[k] == e;
          }
        }
      }
      r
    else
      var r := es + [UrlEntry(url, timestamp)];
      assert r[|es|] == UrlEntry(url, timestamp);
      assert forall e :: e in es ==> e.url != url;
      r
  }

  /**
   * The entries left after revoking each URL of `urls` in turn, each
   * revocation deleting the URL when it is registered.
   */
  function WithoutAll(es: seq<UrlEntry>, urls: seq<string>): (r: seq<UrlEntry>)
    ensures forall e :: e in r <==> e in es && e.url !in urls
    ensures DistinctUrls(es) ==> DistinctUrls(r)
    ensures |r| <= |es|
    decreases |urls|
  {
    if urls == [] then es
    else
      var k := |urls| - 1;
      assert forall u :: u in urls <==> u in urls[..k] || u == urls[k] by {
        assert urls == urls[..k] + [urls[k]];
      }
      RemoveFacts(WithoutAll(es, urls[..k]), urls[k]);
      Remove(WithoutAll(es, urls[..k]), urls[k])
  }

  /** Dropping the last of distinct values leaves distinct values without it. */
  lemma DistinctInit<T>(s: seq<T>)
    requires s != [] && Distinct(s)
    ensures Distinct(s[..|s| - 1]) && s[|s| - 1] !in s[..|s| - 1]
  {
    var init := s[..|s| - 1];
    forall i, j | 0 <= i < j < |init| ensures init[i] != init[j] {
      assert init[i] == s[i] && init[j] == s[j];
    }
    forall j | 0 <= j < |init| ensures init[j] != s[|s| - 1] {
      assert init[j] == s[j];
    }
  }

  /** A registered URL not revoked by `urls` is still registered after them. */
  lemma StillRegistered(es: seq<UrlEntry>, urls: seq<string>, u: string)
    requires Registered(es, u) && u !in urls
    ensures Registered(WithoutAll(es, urls), u)
  {
    var i :| 0 <= i < |es| && es[i].url == u;
    assert es[i] in es;
    var rest := WithoutAll(es, urls);
    assert es[i] in rest;
    var m :| 0 <= m < |rest| && rest[m] == es[i];
  }

  /** Revoking distinct registered URLs removes one entry each. */
  lemma {:induction false} WithoutAllCount(es: seq<UrlEntry>, urls: seq<string>)
    requires DistinctUrls(es) && Distinct(urls)
    requires forall u :: u in urls ==> Registered(es, u)
    ensures |WithoutAll(es, urls)| == |es| - |urls|
    decreases |urls|
  {
    if urls != [] {
      var k := |urls| - 1;
      var init := urls[..k];
      DistinctInit(urls);
      assert forall u :: u in init ==> u in urls;
      WithoutAllCount(es, init);
      assert urls[k] in urls;
      StillRegistered(es, init, urls[k]);
      RemoveFacts(WithoutAll(es, init), urls[k]);
    }
  }

  /** The URLs of the entries expired at `now` (`timestamp <= now`), in iteration order. */
  function ExpiredUrls(es: seq<UrlEntry>, now: int): (us: seq<string>)
    ensures forall u :: u in us ==> Registered(es, u)
    ensures forall e :: e in es && e.timestamp <= now ==> e.url in us
    decreases |es|
  {
    if es == [] then []
    else
      var k := |es| - 1;
      var init := es[..k];
      var before := ExpiredUrls(init, now);
      assert es == init + [es[k]];
      assert forall u :: u in before ==> Registered(es, u) by {
        forall u | u in before ensures Registered(es, u) {
          var j :| 0 <= j < |init| && init[j].url == u;
          assert es[j].url == u;
        }
      }
      before + (if es[k].timestamp <= now then [es[k].url] else [])
  }

  /** With distinct URLs, the expired URLs are distinct and name only expired entries. */
  lemma {:induction false} ExpiredUrlsDistinct(es: seq<UrlEntry>, now: int)
    requires DistinctUrls(es)
    ensures Distinct(ExpiredUrls(es, now))
    ensures forall e :: e in es && e.url in ExpiredUrls(es, now) ==> e.timestamp <= now
    decreases |es|
  {
    if es != [] {
      var k := |es| - 1;
      var init := es[..k];
      assert es == init + [es[k]];
      assert DistinctUrls(init) by {
        forall i, j | 0 <= i < j < |init| ensures init[i].url != init[j].url {
          assert init[i] == es[i] && init[j] == es[j];
        }
      }
      ExpiredUrlsDistinct(init, now);
      var before := ExpiredUrls(init, now);
      assert es[k].url !in before;
      forall e | e in es && e.url in ExpiredUrls(es, now) ensures e.timestamp <= now {
        if e.url in before {
          var j :| 0 <= j < |init| && init[j].url == e.url;
          assert init[j] in init;
          SameUrlSameEntry(es, e, es[j]);
        } else {
          SameUrlSameEntry(es, e, es[k]);
        }
      }
    }
  }

  /** After the expired URLs are revoked, exactly the entries that have not expired are left. */
  lemma ExpiredGone(es: seq<UrlEntry>, now: int)
    requires DistinctUrls(es)
    ensures forall e :: e in WithoutAll(es, ExpiredUrls(es, now)) <==> e in es && e.timestamp > now
  {
  }

  /** The expiry order that `cleanupOldestObjectUrls` sorts by. */
  function ByExpiry(): UrlEntry -> int {
    (e: UrlEntry) => e.timestamp
  }

  /** The URLs `cleanupOldestObjectUrls(count)` revokes: the first `count` in expiry order. */
  function Victims(es: seq<UrlEntry>, count: nat): seq<string> {
    UrlsOf(Take(SortBy(es, ByExpiry()), count))
  }

  lemma TwiceCounted<T>(s: seq<T>, i: nat, j: nat)
    requires i < j < |s| && s[i] == s[j]
    ensures multiset(s)[s[i]] >= 2
  {
    assert s == s[..j] + s[j..];
    assert s[i] in s[..j];
    assert s[j..][0] == s[j];
  }

  /** A reordering of entries with distinct URLs still has distinct URLs. */
  lemma ReorderedDistinct(es: seq<UrlEntry>, sorted: seq<UrlEntry>)
    requires DistinctUrls(es) && multiset(sorted) == multiset(es)
    ensures DistinctUrls(sorted)
  {
    forall i, j | 0 <= i < j < |sorted| ensures sorted[i].url != sorted[j].url {
      assert sorted[i] in multiset(es) && sorted[j] in multiset(es);
      if sorted[i] == sorted[j] {
        TwiceCounted(sorted, i, j);
        assert Distinct(es);
        DistinctOccursOnce(es, sorted[i]);
      }
    }
  }

  /**
   * The victims are `count` distinct registered URLs (all of them when
   * fewer are registered), and none expires later than an entry that stays.
   */
  lemma VictimsOldest(es: seq<UrlEntry>, count: nat)
    requires DistinctUrls(es)
    ensures |Victims(es, count)| == if count < |es| then count else |es|
    ensures Distinct(Victims(es, count))
    ensures forall u :: u in Victims(es, count) ==> Registered(es, u)
    ensures forall v, k :: v in es && v.url in Victims(es, count) && k in es && k.url !in Victims(es, count) ==>
      v.timestamp <= k.timestamp
  {
    var sorted := SortBy(es, ByExpiry());
    var taken := Take(sorted, count);
    var victims := Victims(es, count);
    ReorderedDistinct(es, sorted);
    assert forall k :: 0 <= k < |taken| ==> taken[k] == sorted[k];
    forall i, j | 0 <= i < j < |victims| ensures victims[i] != victims[j] {
      assert victims[i] == sorted[i].url && victims[j] == sorted[j].url;
    }
    forall u | u in victims ensures Registered(es, u) {
      var i :| 0 <= i < |victims| && victims[i] == u;
      assert sorted[i] in multiset(es);
      var m :| 0 <= m < |es| && es[m] == sorted[i];
    }
    forall v, k | v in es && v.url in victims && k in es && k.url !in victims ensures v.timestamp <= k.timestamp {
      var i :| 0 <= i < |victims| && victims[i] == v.url;
      assert sorted[i] in multiset(es);
      SameUrlSameEntry(es, v, sorted[i]);
      assert k in multiset(sorted);
      var j :| 0 <= j < |sorted| && sorted[j] == k;
      assert ByExpiry()(sorted[i]) <= ByExpiry()(sorted[j]);
    }
  }

  /**
   * `cleanupOldestObjectUrls(count)` removes `count` entries (all of them
   * when fewer are kept) and every entry it removes expires no later than
   * every entry it keeps.
   */
  lemma OldestRemoved(es: seq<UrlEntry>, count: nat)
    requires DistinctUrls(es)
    ensures |WithoutAll(es, Victims(es, count))| == |es| - (if count < |es| then count else |es|)
    ensures forall v, k :: v in es && v !in WithoutAll(es, Victims(es, count)) && k in WithoutAll(es, Victims(es, count)) ==>
      v.timestamp <= k.timestamp
  {
    VictimsOldest(es, count);
    WithoutAllCount(es, Victims(es, count));
  }

  /** The entries after `registerObjectUrl(url, lifespan)` at `now`. */
  function Registration(es: seq<UrlEntry>, url: string, lifespan: int, now: int): seq<UrlEntry>
    requires DistinctUrls(es)
  {
    if !Trackable(url) then es
    else
      var added := SetUrl(es, url, ExpiryTime(now, lifespan));
      if |added| > MAX_OBJECT_URLS then WithoutAll(added, Victims(added, CLEANUP_BATCH)) else added
  }

  /** The URLs the registration revokes: the oldest `CLEANUP_BATCH` once the map outgrows its limit. */
  function RegistrationRevoked(es: seq<UrlEntry>, url: string, lifespan: int, now: int): seq<string>
    requires DistinctUrls(es)
  {
    if !Trackable(url) then []
    else
      var added := SetUrl(es, url, ExpiryTime(now, lifespan));
      if |added| > MAX_OBJECT_URLS then Victims(added, CLEANUP_BATCH) else []
  }

  /**
   * Registration keeps at most `MAX_OBJECT_URLS` entries with distinct
   * URLs; an untracked URL changes nothing; a tracked one is kept with its
   * expiry unless the cleanup it triggers removes it, which only happens
   * when it was new and the list was full.
   */
  lemma RegistrationSpec(es: seq<UrlEntry>, url: string, lifespan: int, now: int)
    requires DistinctUrls(es) && |es| <= MAX_OBJECT_URLS
    ensures DistinctUrls(Registration(es, url, lifespan, now))
    ensures |Registration(es, url, lifespan, now)| <= MAX_OBJECT_URLS
    ensures !Trackable(url) ==> Registration(es, url, lifespan, now) == es
    ensures Trackable(url) && (Registered(es, url) || |es| < MAX_OBJECT_URLS) ==>
      UrlEntry(url, ExpiryTime(now, lifespan)) in Registration(es, url, lifespan, now)
  {
    if Trackable(url) {
      var added := SetUrl(es, url, ExpiryTime(now, lifespan));
      if |added| > MAX_OBJECT_URLS {
        OldestRemoved(added, CLEANUP_BATCH);
      }
    }
  }

  // ---------------------------------------------------------------------
  // Event listener groups
  // ---------------------------------------------------------------------

  predicate DistinctIds(gs: seq<Group>) {
    forall i, j :: 0 <= i < j < |gs| ==> gs[i].id != gs[j].id
  }

  /** Where the group `id` is, if anywhere. */
  function GroupIndex(gs: seq<Group>, id: string): (r: Option<nat>)
    ensures r.None? <==> forall k :: 0 <= k < |gs| ==> gs[k].id != id
    ensures r.Some? ==> r.value < |gs| && gs[r.value].id == id
    decreases |gs|
  {
    if gs == [] then None
    else if gs[0].id == id then Some(0)
    else
      match GroupIndex(gs[1..], id)
      case None => None
      case Some(k) => Some(k + 1)
  }

  /** `eventListeners.get(id)`. */
  function GroupOf(gs: seq<Group>, id: string): Option<seq<Listener>> {
    match GroupIndex(gs, id)
    case None => None
    case Some(k) => Some(gs[k].listeners)
  }

  /** The number of listeners over all groups. */
  function Total(gs: seq<Group>): nat
    decreases |gs|
  {
    if gs == [] then 0 else Total(gs[..|gs| - 1]) + |gs[|gs| - 1].listeners|
  }

  lemma {:induction false} TotalConcat(a: seq<Group>, b: seq<Group>)
    ensures Total(a + b) == Total(a) + Total(b)
    decreases |b|
  {
    if b == [] {
      assert a + b == a;
    } else {
      var k := |b| - 1;
      assert (a + b)[..|a + b| - 1] == a + b[..k];
      TotalConcat(a, b[..k]);
    }
  }

  lemma TotalSplit(gs: seq<Group>, i: nat)
    requires i < |gs|
    ensures Total(gs) == Total(gs[..i]) + |gs[i].listeners| + Total(gs[i + 1..])
  {
    assert gs == gs[..i] + [gs[i]] + gs[i + 1..];
    TotalConcat(gs[..i] + [gs[i]], gs[i + 1..]);
    TotalConcat(gs[..i], [gs[i]]);
    assert ([gs[i]])[..0] == [];
  }

  /** All the listeners, group after group. */
  function AllListeners(gs: seq<Group>): (ls: seq<Listener>)
    ensures |ls| == Total(gs)
    decreases |gs|
  {
    if gs == [] then [] else AllListeners(gs[..|gs| - 1]) + gs[|gs| - 1].listeners
  }

  /** `registerEventListener`: the listener joins its group, which is created at the end if new. */
  function AddListener(gs: seq<Group>, id: string, l: Listener): (r: seq<Group>)
    requires DistinctIds(gs)
    ensures DistinctIds(r)
    ensures Total(r) == Total(gs) + 1
    ensures GroupOf(r, id) == Some((if GroupOf(gs, id).Some? then GroupOf(gs, id).value else []) + [l])
    ensures forall other :: other != id ==> GroupOf(r, other) == GroupOf(gs, other)
  {
    match GroupIndex(gs, id)
    case Some(i) =>
      var r := gs[i := Group(id, gs[i].listeners + [l])];
      TotalSplit(gs, i);
      TotalSplit(r, i);
      assert r[..i] == gs[..i] && r[i + 1..] == gs[i + 1..];
      GroupIndexUpdate(gs, i, Group(id, gs[i].listeners + [l]));
      r
    case None =>
      var r := gs + [Group(id, [l])];
      assert r[..|r| - 1] == gs && r[|gs|] == Group(id, [l]);
      GroupIndexAppend(gs, Group(id, [l]));
      assert GroupOf(gs, id).None? && GroupOf(r, id) == Some([l]);
      assert [] + [l] == [l];
      r
  }

  /** Updating a group in place does not move any group. */
  lemma GroupIndexUpdate(gs: seq<Group>, i: nat, g: Group)
    requires DistinctIds(gs) && i < |gs| && g.id == gs[i].id
    ensures DistinctIds(gs[i := g])
    ensures forall id :: GroupIndex(gs[i := g], id) == GroupIndex(gs, id)
  {
    var r := gs[i := g];
    forall id ensures GroupIndex(r, id) == GroupIndex(gs, id) {
      DistinctIndex(gs, id);
      DistinctIndex(r, id);
    }
  }

  /** In a list with distinct identifiers, the index of an identifier is the one position holding it. */
  lemma DistinctIndex(gs: seq<Group>, id: string)
    requires DistinctIds(gs)
    ensures forall k :: 0 <= k < |gs| && gs[k].id == id ==> GroupIndex(gs, id) == Some(k)
  {
  }

  lemma GroupIndexAppend(gs: seq<Group>, g: Group)
    requires DistinctIds(gs) && GroupIndex(gs, g.id).None?
    ensures DistinctIds(gs + [g])
    ensures GroupIndex(gs + [g], g.id) == Some(|gs|)
    ensures forall id :: id != g.id ==> GroupIndex(gs + [g], id) == GroupIndex(gs, id)
  {
    var r := gs + [g];
    DistinctIndex(r, g.id);
    forall id | id != g.id ensures GroupIndex(r, id) == GroupIndex(gs, id) {
      DistinctIndex(gs, id);
      DistinctIndex(r, id);
    }
  }

  /** Taking one group out keeps the identifiers distinct. */
  lemma CutDistinct(gs: seq<Group>, i: nat)
    requires DistinctIds(gs) && i < |gs|
    ensures DistinctIds(gs[..i] + gs[i + 1..])
  {
    var r := gs[..i] + gs[i + 1..];
    forall a, b | 0 <= a < b < |r| ensures r[a].id != r[b].id {
      var a' := if a < i then a else a + 1;
      var b' := if b < i then b else b + 1;
      assert r[a] == gs[a'] && r[b] == gs[b'];
    }
  }

  /** After taking out the group at `i`, every other group is found where it now sits, and that one is gone. */
  lemma CutIndex(gs: seq<Group>, i: nat, other: string)
    requires DistinctIds(gs) && i < |gs|
    ensures other == gs[i].id ==> GroupOf(gs[..i] + gs[i + 1..], other).None?
    ensures other != gs[i].id ==> GroupOf(gs[..i] + gs[i + 1..], other) == GroupOf(gs, other)
  {
    var r := gs[..i] + gs[i + 1..];
    CutDistinct(gs, i);
    assert forall k :: 0 <= k < |r| ==> r[k] == gs[if k < i then k else k + 1];
    if other == gs[i].id || GroupIndex(gs, other).None? {
      forall k | 0 <= k < |r| ensures r[k].id != other {
        assert r[k] == gs[if k < i then k else k + 1];
      }
    } else {
      var k := GroupIndex(gs, other).value;
      var k' := if k < i then k else k - 1;
      assert r[k'] == gs[k];
      DistinctIndex(r, other);
    }
  }

  /** `eventListeners.delete(id)`. */
  function RemoveGroup(gs: seq<Group>, id: string): (r: seq<Group>)
    requires DistinctIds(gs)
    ensures DistinctIds(r)
    ensures GroupOf(r, id).None?
    ensures GroupOf(gs, id).None? ==> r == gs
    ensures GroupOf(gs, id).Some? ==> Total(r) == Total(gs) - |GroupOf(gs, id).value|
    ensures forall other :: other != id ==> GroupOf(r, other) == GroupOf(gs, other)
  {
    match GroupIndex(gs, id)
    case None => gs
    case Some(i) =>
      var r := gs[..i] + gs[i + 1..];
      TotalSplit(gs, i);
      TotalConcat(gs[..i], gs[i + 1..]);
      CutDistinct(gs, i);
      CutIndex(gs, i, id);
      assert forall other :: other != id ==> GroupOf(r, other) == GroupOf(gs, other) by {
        forall other | other != id ensures GroupOf(r, other) == GroupOf(gs, other) {
          CutIndex(gs, i, other);
        }
      }
      r
  }

  // ---------------------------------------------------------------------
  // The manager
  // ---------------------------------------------------------------------

  datatype MemoryStats = MemoryStats(
    objectUrlCount: nat, eventListenerGroups: nat, totalEventListeners: nat, isIdle: bool, idleTime: int)

  /** `usedJSHeapSize / (1024 * 1024) > MEMORY_THRESHOLD_MB`, with the division left out: the divisor is exact. */
  predicate MemoryHigh(usedHeap: Option<nat>) {
    usedHeap.Some? && usedHeap.value > MEMORY_THRESHOLD_MB * 1024 * 1024
  }

  class MemoryManager {
    var objectUrls: seq<UrlEntry>
    var eventListeners: seq<Group>
    var isEnabled: bool
    var isIdle: bool
    var lastActivityTime: int
    /** Whether the periodic check is scheduled (`checkTimer` is not null). */
    var checking: bool
    /** The URLs handed to `URL.revokeObjectURL`, in order. */
    var revoked: seq<string>
    /** The listeners handed to `removeEventListener`, in order. */
    var detached: seq<Listener>

    /** Distinct keys in both maps, and never more than `MAX_OBJECT_URLS` object URLs. */
    predicate Valid()
      reads this
    {
      DistinctUrls(objectUrls) && |objectUrls| <= MAX_OBJECT_URLS && DistinctIds(eventListeners)
    }

    /** The constructor: enabled, active since `now`, checking periodically since cleanup is on by default. */
    constructor(now: int)
      ensures Valid() && objectUrls == [] && eventListeners == [] && revoked == [] && detached == []
      ensures isEnabled == AUTO_CLEANUP_ENABLED && checking == AUTO_CLEANUP_ENABLED
      ensures !isIdle && lastActivityTime == now
    {
      objectUrls := [];
      eventListeners := [];
      isEnabled := AUTO_CLEANUP_ENABLED;
      isIdle := false;
      lastActivityTime := now;
      checking := AUTO_CLEANUP_ENABLED;
      revoked := [];
      detached := [];
    }

    /** `setEnabled`: the periodic check runs exactly when enabled. */
    method SetEnabled(enabled: bool)
      modifies this
      ensures isEnabled == enabled
      ensures checking == (if enabled && !old(checking) then true else if !enabled && old(checking) then false else old(checking))
      ensures objectUrls == old(objectUrls) && eventListeners == old(eventListeners) && revoked == old(revoked)
      ensures detached == old(detached) && isIdle == old(isIdle) && lastActivityTime == old(lastActivityTime)
    {
      isEnabled := enabled;
      if enabled && !checking {
        checking := true;
      } else if !enabled && checking {
        checking := false;
      }
    }

    /** `revokeObjectUrl`: only a registered URL is revoked and deleted. */
    method RevokeObjectUrl(url: string)
      requires Valid()
      modifies this
      ensures Valid()
      ensures objectUrls == Remove(old(objectUrls), url)
      ensures revoked == old(revoked) + (if Registered(old(objectUrls), url) then [url] else [])
      ensures eventListeners == old(eventListeners) && detached == old(detached)
      ensures isEnabled == old(isEnabled) && isIdle == old(isIdle) && checking == old(checking)
      ensures lastActivityTime == old(lastActivityTime)
    {
      RemoveFacts(objectUrls, url);
      if Registered(objectUrls, url) {
        revoked := revoked + [url];
        objectUrls := Remove(objectUrls, url);
      }
    }

    /** Each URL of `urls` revoked in turn; the callers pass distinct registered URLs. */
    method RevokeEach(urls: seq<string>)
      requires Valid() && Distinct(urls) && forall u :: u in urls ==> Registered(objectUrls, u)
      modifies this
      ensures Valid()
      ensures objectUrls == WithoutAll(old(objectUrls), urls)
      ensures revoked == old(revoked) + urls
      ensures eventListeners == old(eventListeners) && detached == old(detached)
      ensures isEnabled == old(isEnabled) && isIdle == old(isIdle) && checking == old(checking)
      ensures lastActivityTime == old(lastActivityTime)
    {
      var k := 0;
      while k < |urls|
        invariant 0 <= k <= |urls| && Valid()
        invariant objectUrls == WithoutAll(old(objectUrls), urls[..k])
        invariant revoked == old(revoked) + urls[..k]
        invariant eventListeners == old(eventListeners) && detached == old(detached)
        invariant isEnabled == old(isEnabled) && isIdle == old(isIdle) && checking == old(checking)
        invariant lastActivityTime == old(lastActivityTime)
      {
        assert urls[..k + 1][..k] == urls[..k] && urls[..k + 1] == urls[..k] + [urls[k]];
        assert urls[k] !in urls[..k] by {
          forall j | 0 <= j < k ensures urls[..k][j] != urls[k] {
            assert urls[..k][j] == urls[j];
          }
        }
        assert urls[k] in urls;
        StillRegistered(old(objectUrls), urls[..k], urls[k]);
        RevokeObjectUrl(urls[k]);
        k := k + 1;
      }
      assert urls[..k] == urls;
    }

    /** `cleanupExpiredObjectUrls`: the expired URLs are collected in order, then revoked. */
    method CleanupExpiredObjectUrls(now: int)
      requires Valid()
      modifies this
      ensures Valid()
      ensures objectUrls == WithoutAll(old(objectUrls), ExpiredUrls(old(objectUrls), now))
      ensures revoked == old(revoked) + ExpiredUrls(old(objectUrls), now)
      ensures eventListeners == old(eventListeners) && detached == old(detached)
      ensures isEnabled == old(isEnabled) && isIdle == old(isIdle) && checking == old(checking)
      ensures lastActivityTime == old(lastActivityTime)
    {
      var expired := CollectExpired(objectUrls, now);
      ExpiredUrlsDistinct(objectUrls, now);
      RevokeEach(expired);
    }

    /** `cleanupOldestObjectUrls`: nothing for a count that is not positive or an empty map. */
    method CleanupOldestObjectUrls(count: int)
      requires Valid()
      modifies this
      ensures Valid()
      ensures objectUrls == if count <= 0 || old(objectUrls) == [] then old(objectUrls)
                            else WithoutAll(old(objectUrls), Victims(old(objectUrls), count))
      ensures revoked == if count <= 0 || old(objectUrls) == [] then old(revoked)
                         else old(revoked) + Victims(old(objectUrls), count)
      ensures eventListeners == old(eventListeners) && detached == old(detached)
      ensures isEnabled == old(isEnabled) && isIdle == old(isIdle) && checking == old(checking)
      ensures lastActivityTime == old(lastActivityTime)
    {
      if count <= 0 || |objectUrls| == 0 {
        return;
      }
      var sortedUrls := UrlsOf(Take(SortBy(objectUrls, ByExpiry()), count));
      VictimsOldest(objectUrls, count);
      RevokeEach(sortedUrls);
    }

    /**
     * `registerObjectUrl`: an untracked URL is ignored; otherwise the URL is
     * set with its expiry and, past `MAX_OBJECT_URLS`, the
     * `CLEANUP_BATCH` oldest are revoked.
     */
    method RegisterObjectUrl(url: string, lifespan: int, now: int)
      requires Valid()
      modifies this
      ensures Valid()
      ensures objectUrls == Registration(old(objectUrls), url, lifespan, now)
      ensures revoked == old(revoked) + RegistrationRevoked(old(objectUrls), url, lifespan, now)
      ensures eventListeners == old(eventListeners) && detached == old(detached)
      ensures isEnabled == old(isEnabled) && isIdle == old(isIdle) && checking == old(checking)
      ensures lastActivityTime == old(lastActivityTime)
    {
      if !StartsWith(url, "blob:") && !StartsWith(url, "data:") {
        return;
      }
      RegistrationSpec(objectUrls, url, lifespan, now);
      var added := SetUrl(objectUrls, url, ExpiryTime(now, lifespan));
      if |added| > MAX_OBJECT_URLS {
        var victims := Victims(added, CLEANUP_BATCH);
        revoked := revoked + victims;
        objectUrls := WithoutAll(added, victims);
      } else {
        objectUrls := added;
      }
    }

    /** `registerEventListener`. */
    method RegisterEventListener(id: string, l: Listener)
      requires Valid()
      modifies this
      ensures Valid()
      ensures eventListeners == AddListener(old(eventListeners), id, l)
      ensures objectUrls == old(objectUrls) && revoked == old(revoked) && detached == old(detached)
      ensures isEnabled == old(isEnabled) && isIdle == old(isIdle) && checking == old(checking)
      ensures lastActivityTime == old(lastActivityTime)
    {
      eventListeners := AddListener(eventListeners, id, l);
    }

    /** `removeEventListeners`: the group's listeners are detached in order and the group is deleted. */
    method RemoveEventListeners(id: string)
      requires Valid()
      modifies this
      ensures Valid()
      ensures eventListeners == RemoveGroup(old(eventListeners), id)
      ensures detached == old(detached) + (if GroupOf(old(eventListeners), id).Some? then GroupOf(old(eventListeners), id).value else [])
      ensures objectUrls == old(objectUrls) && revoked == old(revoked)
      ensures isEnabled == old(isEnabled) && isIdle == old(isIdle) && checking == old(checking)
      ensures lastActivityTime == old(lastActivityTime)
    {
      var listeners := GroupOf(eventListeners, id);
      if listeners.Some? {
        var k := 0;
        while k < |listeners.value|
          invariant 0 <= k <= |listeners.value|
          invariant detached == old(detached) + listeners.value[..k]
          invariant eventListeners == old(eventListeners) && objectUrls == old(objectUrls) && revoked == old(revoked)
          invariant isEnabled == old(isEnabled) && isIdle == old(isIdle) && checking == old(checking)
          invariant lastActivityTime == old(lastActivityTime)
        {
          assert listeners.value[..k + 1] == listeners.value[..k] + [listeners.value[k]];
          detached := detached + [listeners.value[k]];
          k := k + 1;
        }
        assert listeners.value[..k] == listeners.value;
      }
      eventListeners := RemoveGroup(eventListeners, id);
    }

    /** `cleanupAllObjectUrls`: every URL revoked in order, then the map cleared. */
    method CleanupAllObjectUrls()
      requires Valid()
      modifies this
      ensures Valid()
      ensures objectUrls == [] && revoked == old(revoked) + UrlsOf(old(objectUrls))
      ensures eventListeners == old(eventListeners) && detached == old(detached)
      ensures isEnabled == old(isEnabled) && isIdle == old(isIdle) && checking == old(checking)
      ensures lastActivityTime == old(lastActivityTime)
    {
      var k := 0;
      while k < |objectUrls|
        invariant 0 <= k <= |objectUrls| && objectUrls == old(objectUrls)
        invariant revoked == old(revoked) + UrlsOf(objectUrls[..k])
        invariant eventListeners == old(eventListeners) && detached == old(detached)
        invariant isEnabled == old(isEnabled) && isIdle == old(isIdle) && checking == old(checking)
        invariant lastActivityTime == old(lastActivityTime)
      {
        assert UrlsOf(objectUrls[..k + 1]) == UrlsOf(objectUrls[..k]) + [objectUrls[k].url];
        revoked := revoked + [objectUrls[k].url];
        k := k + 1;
      }
      assert objectUrls[..k] == objectUrls;
      objectUrls := [];
    }

    /** `removeAllEventListeners`: every group's listeners detached in order, then the map cleared. */
    method RemoveAllEventListeners()
      requires Valid()
      modifies this
      ensures Valid()
      ensures eventListeners == [] && detached == old(detached) + AllListeners(old(eventListeners))
      ensures objectUrls == old(objectUrls) && revoked == old(revoked)
      ensures isEnabled == old(isEnabled) && isIdle == old(isIdle) && checking == old(checking)
      ensures lastActivityTime == old(lastActivityTime)
    {
      var k := 0;
      while k < |eventListeners|
        invariant 0 <= k <= |eventListeners| && eventListeners == old(eventListeners)
        invariant detached == old(detached) + AllListeners(eventListeners[..k])
        invariant objectUrls == old(objectUrls) && revoked == old(revoked)
        invariant isEnabled == old(isEnabled) && isIdle == old(isIdle) && checking == old(checking)
        invariant lastActivityTime == old(lastActivityTime)
      {
        assert eventListeners[..k + 1][..k] == eventListeners[..k];
        detached := detached + eventListeners[k].listeners;
        k := k + 1;
      }
      assert eventListeners[..k] == eventListeners;
      eventListeners := [];
    }

    /**
     * `cleanup`: nothing when disabled and not forced; otherwise the expired
     * object URLs are revoked.
     */
    method Cleanup(force: bool, now: int)
      requires Valid()
      modifies this
      ensures Valid()
      ensures objectUrls == if !isEnabled && !force then old(objectUrls)
                            else WithoutAll(old(objectUrls), ExpiredUrls(old(objectUrls), now))
      ensures revoked == if !isEnabled && !force then old(revoked)
                         else old(revoked) + ExpiredUrls(old(objectUrls), now)
      ensures eventListeners == old(eventListeners) && detached == old(detached)
      ensures isEnabled == old(isEnabled) && isIdle == old(isIdle) && checking == old(checking)
      ensures lastActivityTime == old(lastActivityTime)
    {
      if !isEnabled && !force {
        return;
      }
      CleanupExpiredObjectUrls(now);
    }

    /** `fullCleanup`: all URLs revoked, all listeners detached, the cache cleared, then a forced cleanup. */
    method FullCleanup(cache: CacheService.Cache, now: int)
      requires Valid() && cache.Valid()
      modifies this, cache
      ensures Valid()
      ensures objectUrls == [] && eventListeners == []
      ensures revoked == old(revoked) + UrlsOf(old(objectUrls))
      ensures detached == old(detached) + AllListeners(old(eventListeners))
      ensures cache.Valid() && cache.entries == [] && cache.totalSize == 0
      ensures isEnabled == old(isEnabled) && isIdle == old(isIdle) && checking == old(checking)
      ensures lastActivityTime == old(lastActivityTime)
    {
      CleanupAllObjectUrls();
      RemoveAllEventListeners();
      cache.Clear();
      Cleanup(true, now);
    }

    /**
     * `checkMemoryUsage`, run by the periodic check: the user is idle after
     * `MAX_IDLE_TIME` without activity; becoming idle triggers a cleanup,
     * and otherwise so does a heap above the threshold.
     */
    method CheckMemoryUsage(now: int, usedHeap: Option<nat>)
      requires Valid()
      modifies this
      ensures Valid()
      ensures isIdle == (now - lastActivityTime > MAX_IDLE_TIME)
      ensures var cleans := (isIdle && !old(isIdle)) || MemoryHigh(usedHeap);
              objectUrls == if cleans && isEnabled then WithoutAll(old(objectUrls), ExpiredUrls(old(objectUrls), now))
                            else old(objectUrls)
      ensures var cleans := (isIdle && !old(isIdle)) || MemoryHigh(usedHeap);
              revoked == if cleans && isEnabled then old(revoked) + ExpiredUrls(old(objectUrls), now) else old(revoked)
      ensures eventListeners == old(eventListeners) && detached == old(detached)
      ensures isEnabled == old(isEnabled) && checking == old(checking) && lastActivityTime == old(lastActivityTime)
    {
      var idleTime := now - lastActivityTime;
      var wasIdle := isIdle;
      isIdle := idleTime > MAX_IDLE_TIME;
      if isIdle && !wasIdle {
        Cleanup(false, now);
        return;
      }
      if usedHeap.Some? {
        if usedHeap.value > MEMORY_THRESHOLD_MB * 1024 * 1024 {
          Cleanup(false, now);
        }
      }
    }

    /** `updateActivity`, run on user input and when the window gains focus or the page becomes visible. */
    method UpdateActivity(now: int)
      modifies this
      ensures lastActivityTime == now && !isIdle
      ensures objectUrls == old(objectUrls) && eventListeners == old(eventListeners) && revoked == old(revoked)
      ensures detached == old(detached) && isEnabled == old(isEnabled) && checking == old(checking)
    {
      lastActivityTime := now;
      isIdle := false;
    }

    /** The `visibilitychange` handler: visible is activity; hidden makes the user idle and cleans up. */
    method OnVisibilityChange(visible: bool, now: int)
      requires Valid()
      modifies this
      ensures Valid()
      ensures visible ==> lastActivityTime == now && !isIdle && objectUrls == old(objectUrls)
      ensures !visible ==> isIdle && lastActivityTime == old(lastActivityTime)
      ensures !visible ==> objectUrls == if isEnabled then WithoutAll(old(objectUrls), ExpiredUrls(old(objectUrls), now))
                                         else old(objectUrls)
      ensures revoked == if !visible && isEnabled then old(revoked) + ExpiredUrls(old(objectUrls), now) else old(revoked)
      ensures eventListeners == old(eventListeners) && detached == old(detached)
      ensures isEnabled == old(isEnabled) && checking == old(checking)
    {
      if visible {
        UpdateActivity(now);
      } else {
        isIdle := true;
        Cleanup(false, now);
      }
    }

    /** The `blur` handler: losing focus makes the user idle, with no cleanup. */
    method OnBlur()
      modifies this
      ensures isIdle
      ensures objectUrls == old(objectUrls) && eventListeners == old(eventListeners) && revoked == old(revoked)
      ensures detached == old(detached) && isEnabled == old(isEnabled) && checking == old(checking)
      ensures lastActivityTime == old(lastActivityTime)
    {
      isIdle := true;
    }

    /** `getStats`. */
    method GetStats(now: int) returns (stats: MemoryStats)
      ensures stats.objectUrlCount == |objectUrls| && stats.eventListenerGroups == |eventListeners|
      ensures stats.totalEventListeners == Total(eventListeners) == |AllListeners(eventListeners)|
      ensures stats.isIdle == isIdle && stats.idleTime == now - lastActivityTime
    {
      var total := 0;
      var k := 0;
      while k < |eventListeners|
        invariant 0 <= k <= |eventListeners|
        invariant total == Total(eventListeners[..k])
      {
        assert eventListeners[..k + 1][..k] == eventListeners[..k];
        total := total + |eventListeners[k].listeners|;
        k := k + 1;
      }
      assert eventListeners[..k] == eventListeners;
      stats := MemoryStats(|objectUrls|, |eventListeners|, total, isIdle, now - lastActivityTime);
    }
  }

  /** The first loop of `cleanupExpiredObjectUrls`: the URLs with `timestamp <= now`, in iteration order. */
  method CollectExpired(es: seq<UrlEntry>, now: int) returns (expired: seq<string>)
    ensures expired == ExpiredUrls(es, now)
  {
    expired := [];
    var k := 0;
    while k < |es|
      invariant 0 <= k <= |es|
      invariant expired == ExpiredUrls(es[..k], now)
    {
      assert es[..k + 1][..k] == es[..k];
      if es[k].timestamp <= now {
        expired := expired + [es[k].url];
      }
      k := k + 1;
    }
    assert es[..k] == es;
  }
}

=== FILE: notion_editor.dfy ===
/**
 * The block editor of the project pages: a list of typed blocks that are
 * updated, inserted after one another and removed, the slash menu that
 * lists the block types matching a filter and changes a block's type, and
 * the focus that follows each edit.
 *
 * The block list is the editor's `blocks` property, replaced through
 * `onChange`; here it is a field of the editor, next to the focused block
 * and the menu state.  Generated block ids are parameters.
 */
module NotionEditing {
  import opened Wrappers
  import opened Text
  import opened Lists

  /** `BlockType`. */
  datatype BlockType = Paragraph | Heading1 | Heading2 | Heading3 | Image | Quote

  /** `EditorBlock`, without the uploaded file kept beside an image. */
  datatype Block = Block(id: string, kind: BlockType, content: string)

  /** `Partial<EditorBlock>`: the fields an update sets. */
  datatype BlockUpdate = BlockUpdate(kind: Option<BlockType>, content: Option<string>)

  function Ids(blocks: seq<Block>): seq<string> {
    Map(blocks, (b: Block) => b.id)
  }

  // ---------------------------------------------------------------------
  // The slash menu's block types
  // ---------------------------------------------------------------------

  /** An entry of `blockTypes`: the type, its label and its description (the icon is left out). */
  datatype BlockTypeEntry = BlockTypeEntry(kind: BlockType, name: string, description: string)

  const BLOCK_TYPES: seq<BlockTypeEntry> := [
    BlockTypeEntry(Paragraph, "Paragraphe", "Texte normal"),
    BlockTypeEntry(Heading1, "Titre 1", "Grand titre"),
    BlockTypeEntry(Heading2, "Titre 2", "Titre moyen"),
    BlockTypeEntry(Heading3, "Titre 3", "Petit titre"),
    BlockTypeEntry(Image, "Image", "Ajouter une image"),
    BlockTypeEntry(Quote, "Citation", "Citation ou témoignage")
  ]

  /** The menu's test: the label or the description contains the filter, ignoring case. */
  predicate EntryMatches(e: BlockTypeEntry, filter: string) {
    Contains(Lower(e.name), Lower(filter)) || Contains(Lower(e.description), Lower(filter))
  }

  function MatchesFilter(filter: string): BlockTypeEntry -> bool {
    (e: BlockTypeEntry) => EntryMatches(e, filter)
  }

  /** `filteredBlocks` of the block menu. */
  function MenuEntries(filter: string): seq<BlockTypeEntry> {
    Filter(BLOCK_TYPES, MatchesFilter(filter))
  }

  /** The filter of the menu, on any table of entries. */
  lemma {:induction false} FilterEntriesSpec(entries: seq<BlockTypeEntry>, filter: string)
    ensures IsSubsequence(Filter(entries, MatchesFilter(filter)), entries)
    ensures forall e :: e in Filter(entries, MatchesFilter(filter)) <==> e in entries && EntryMatches(e, filter)
    ensures filter == "" ==> Filter(entries, MatchesFilter(filter)) == entries
  {
    FilterSubsequence(entries, MatchesFilter(filter));
    if filter == "" {
      forall k | 0 <= k < |entries| ensures MatchesFilter(filter)(entries[k]) {
        ContainsPrefix(Lower(entries[k].name), Lower(filter));
      }
      FilterAll(entries, MatchesFilter(filter));
    }
  }

  /** Every block type the menu lists matches the filter. */
  lemma MenuEntryMatches(filter: string, e: BlockTypeEntry)
    requires e in MenuEntries(filter)
    ensures EntryMatches(e, filter)
  {
    FilterEntriesSpec(BLOCK_TYPES, filter);
  }

  /** The menu keeps the table's order. */
  lemma MenuEntriesInOrder(filter: string)
    ensures IsSubsequence(MenuEntries(filter), BLOCK_TYPES)
  {
    FilterEntriesSpec(BLOCK_TYPES, filter);
  }

  /** Every block type whose label or description contains the filter is listed. */
  lemma MenuListsEveryMatch(filter: string, k: nat)
    requires k < |BLOCK_TYPES| && EntryMatches(BLOCK_TYPES[k], filter)
    ensures BLOCK_TYPES[k] in MenuEntries(filter)
  {
    FilterEntriesSpec(BLOCK_TYPES, filter);
  }

  /** With an empty filter the menu lists all six block types. */
  lemma MenuListsAllWhenUnfiltered()
    ensures MenuEntries("") == BLOCK_TYPES
  {
    FilterEntriesSpec(BLOCK_TYPES, "");
  }

  // ---------------------------------------------------------------------
  // The block list
  // ---------------------------------------------------------------------

  /** `createNewBlock()`: an empty paragraph. */
  function NewBlock(id: string): Block {
    Block(id, Paragraph, "")
  }

  /** `{ ...block, ...updates }`: the fields the update sets replace the block's. */
  function Merge(b: Block, u: BlockUpdate): (r: Block)
    ensures r.id == b.id
    ensures r.kind == if u.kind.Some? then u.kind.value else b.kind
    ensures r.content == if u.content.Some? then u.content.value else b.content
  {
    Block(b.id,
      if u.kind.Some? then u.kind.value else b.kind,
      if u.content.Some? then u.content.value else b.content)
  }

  /** `updateBlock`'s new list: the update is merged into the blocks with that id. */
  function UpdateBlocks(blocks: seq<Block>, blockId: string, u: BlockUpdate): (r: seq<Block>)
    ensures |r| == |blocks| && Ids(r) == Ids(blocks)
    ensures forall k :: 0 <= k < |blocks| && blocks[k].id != blockId ==> r[k] == blocks[k]
    ensures forall k :: 0 <= k < |blocks| && blocks[k].id == blockId ==> r[k] == Merge(blocks[k], u)
  {
    var r := seq(|blocks|, k requires 0 <= k < |blocks| => if blocks[k].id == blockId then Merge(blocks[k], u) else blocks[k]);
    MapPointwise(r, blocks, (b: Block) => b.id);
    r
  }

  /** Applying the same update twice is applying it once. */
  lemma UpdateBlocksIdempotent(blocks: seq<Block>, blockId: string, u: BlockUpdate)
    ensures UpdateBlocks(UpdateBlocks(blocks, blockId, u), blockId, u) == UpdateBlocks(blocks, blockId, u)
  {
    var once := UpdateBlocks(blocks, blockId, u);
    var twice := UpdateBlocks(once, blockId, u);
    forall k | 0 <= k < |blocks| ensures twice[k] == once[k] {
      assert Ids(once)[k] == Ids(blocks)[k];
    }
  }

  /** `findIndex` on the ids: the first block with that id, or -1. */
  function IndexOfId(blocks: seq<Block>, id: string): (i: int)
    ensures -1 <= i < |blocks|
    ensures i == -1 <==> id !in Ids(blocks)
    ensures i >= 0 ==> blocks[i].id == id && forall j :: 0 <= j < i ==> blocks[j].id != id
  {
    if id in Ids(blocks) then
      var i := FirstIndex(Ids(blocks), id);
      assert forall j :: 0 <= j < i ==> Ids(blocks)[j] != id;
      i
    else -1
  }

  /** `addBlockAfter`'s new list: the block goes right after the first block with that id, or first. */
  function InsertAfter(blocks: seq<Block>, afterId: string, b: Block): seq<Block> {
    InsertAt(blocks, IndexOfId(blocks, afterId) + 1, b)
  }

  /**
   * The new block sits right after the block with that id (at the front
   * when there is none), and taking it out again gives back the list.
   */
  lemma InsertAfterSpec(blocks: seq<Block>, afterId: string, b: Block)
    ensures var r := InsertAfter(blocks, afterId, b);
      var at := IndexOfId(blocks, afterId) + 1;
      && |r| == |blocks| + 1
      && r[at] == b
      && (afterId in Ids(blocks) ==> r[at - 1].id == afterId)
      && (afterId !in Ids(blocks) ==> at == 0)
      && RemoveAt(r, at) == blocks
  {
    var at := IndexOfId(blocks, afterId) + 1;
    var r := InsertAfter(blocks, afterId, b);
    assert RemoveAt(r, at) == blocks by {
      assert r[..at] == blocks[..at];
      assert r[at + 1..] == blocks[at..];
    }
  }

  function OtherThan(blockId: string): Block -> bool {
    (b: Block) => b.id != blockId
  }

  /** `removeBlock`'s new list: the last block is never removed; otherwise the blocks with that id go. */
  function RemoveBlocks(blocks: seq<Block>, blockId: string): seq<Block> {
    if |blocks| <= 1 then blocks else Filter(blocks, OtherThan(blockId))
  }

  /** With two blocks or more the id is gone; a single block is never removed. */
  lemma RemoveBlocksSpec(blocks: seq<Block>, blockId: string)
    ensures |blocks| <= 1 ==> RemoveBlocks(blocks, blockId) == blocks
    ensures |blocks| > 1 ==> blockId !in Ids(RemoveBlocks(blocks, blockId))
  {
    if |blocks| > 1 {
      var kept := Filter(blocks, OtherThan(blockId));
      assert forall k :: 0 <= k < |kept| ==> Ids(kept)[k] != blockId;
    }
  }

  /** The blocks left keep their order. */
  lemma RemoveBlocksKeepsOrder(blocks: seq<Block>, blockId: string)
    ensures IsSubsequence(RemoveBlocks(blocks, blockId), blocks)
  {
    if |blocks| > 1 {
      FilterSubsequence(blocks, OtherThan(blockId));
    } else {
      SubsequenceReflexive(blocks);
    }
  }

  /** With unique ids, removing a block that exists leaves one fewer, so never an empty editor. */
  lemma RemoveBlocksShortens(blocks: seq<Block>, blockId: string)
    requires Distinct(Ids(blocks)) && blockId in Ids(blocks) && |blocks| > 1
    ensures |RemoveBlocks(blocks, blockId)| == |blocks| - 1 >= 1
  {
    var i :| 0 <= i < |blocks| && Ids(blocks)[i] == blockId;
    forall j | 0 <= j < |blocks| && j != i ensures OtherThan(blockId)(blocks[j]) {
      assert Ids(blocks)[j] != Ids(blocks)[i];
    }
    FilterDropsOne(blocks, OtherThan(blockId), i);
  }

  lemma {:induction false} SubsequenceReflexive(s: seq<Block>)
    ensures IsSubsequence(s, s)
    decreases |s|
  {
    if s != [] {
      SubsequenceReflexive(s[1..]);
    }
  }

  /**
   * The block focused after a removal: the one before the removed block,
   * or else the first remaining one; `None` leaves the focus where it was.
   */
  function FocusAfterRemove(blocks: seq<Block>, blockId: string): Option<string> {
    var i := IndexOfId(blocks, blockId);
    if i > 0 then Some(blocks[i - 1].id)
    else
      var rest := Filter(blocks, OtherThan(blockId));
      if |rest| > 0 then Some(rest[0].id) else None
  }

  /**
   * The focus moves to the block before the removed one when there is
   * one, always to a block that stays, and is left alone only when every
   * block had the removed id.
   */
  lemma FocusAfterRemoveSpec(blocks: seq<Block>, blockId: string)
    ensures var f := FocusAfterRemove(blocks, blockId);
      && (IndexOfId(blocks, blockId) > 0 ==> f == Some(blocks[IndexOfId(blocks, blockId) - 1].id))
      && (f.Some? ==> f.value in Ids(Filter(blocks, OtherThan(blockId))))
      && (f.None? ==> forall k :: 0 <= k < |blocks| ==> blocks[k].id == blockId)
  {
    var i := IndexOfId(blocks, blockId);
    var rest := Filter(blocks, OtherThan(blockId));
    if i > 0 {
      FocusStays(blocks, blockId, i - 1);
    } else if |rest| > 0 {
      assert Ids(rest)[0] == rest[0].id;
    } else {
      FilterEmptyIff(blocks, OtherThan(blockId));
    }
  }

  /** A block whose id is not the removed one stays. */
  lemma FocusStays(blocks: seq<Block>, blockId: string, k: nat)
    requires k < |blocks| && blocks[k].id != blockId
    ensures blocks[k].id in Ids(Filter(blocks, OtherThan(blockId)))
  {
    var rest := Filter(blocks, OtherThan(blockId));
    assert blocks[k] in rest;
    var j :| 0 <= j < |rest| && rest[j] == blocks[k];
    assert Ids(rest)[j] == blocks[k].id;
  }

  /** The update `handleBlockTypeSelect` applies: the new type, and empty content unless an image. */
  function TypeChange(kind: BlockType): BlockUpdate {
    BlockUpdate(Some(kind), if kind == Image then None else Some(""))
  }

  /** Choosing a type sets it and clears the content, except for an image, which keeps it. */
  lemma TypeChangeSpec(b: Block, kind: BlockType)
    ensures Merge(b, TypeChange(kind)).kind == kind
    ensures Merge(b, TypeChange(kind)).content == if kind == Image then b.content else ""
    ensures Merge(b, TypeChange(kind)).id == b.id
  {
  }

  /** The slash menu's state, without its screen position. */
  datatype MenuState = MenuState(isOpen: bool, blockId: Option<string>, filter: string)

  /** The editor: its blocks, the focused block and the slash menu. */
  class NotionEditor {
    var blocks: seq<Block>
    var activeBlockId: Option<string>
    var menu: MenuState

    /**
     * A new editor over the given blocks; an empty list is replaced by one
     * empty paragraph, as the editor's first effect does.
     */
    constructor(initial: seq<Block>, newId: string)
      ensures blocks == if initial == [] then [NewBlock(newId)] else initial
      ensures blocks != []
      ensures activeBlockId == None && menu == MenuState(false, None, "")
    {
      blocks := if initial == [] then [NewBlock(newId)] else initial;
      activeBlockId := None;
      menu := MenuState(false, None, "");
    }

    /** `updateBlock`. */
    method UpdateBlock(blockId: string, u: BlockUpdate)
      modifies this
      ensures blocks == UpdateBlocks(old(blocks), blockId, u)
      ensures activeBlockId == old(activeBlockId) && menu == old(menu)
    {
      blocks := UpdateBlocks(blocks, blockId, u);
    }

    /** `addBlockAfter`: inserts the given block, or a new empty paragraph, and focuses it. */
    method AddBlockAfter(afterId: string, newBlock: Option<Block>, newId: string)
      modifies this
      ensures var b := if newBlock.Some? then newBlock.value else NewBlock(newId);
        blocks == InsertAfter(old(blocks), afterId, b) && activeBlockId == Some(b.id)
      ensures menu == old(menu)
    {
      var b := if newBlock.Some? then newBlock.value else NewBlock(newId);
      blocks := InsertAfter(blocks, afterId, b);
      activeBlockId := Some(b.id);
    }

    /** `removeBlock`: keeps the last block; otherwise removes the block and moves the focus. */
    method RemoveBlock(blockId: string)
      modifies this
      ensures blocks == RemoveBlocks(old(blocks), blockId)
      ensures activeBlockId ==
        if |old(blocks)| <= 1 || FocusAfterRemove(old(blocks), blockId).None? then old(activeBlockId)
        else FocusAfterRemove(old(blocks), blockId)
      ensures menu == old(menu)
    {
      if |blocks| <= 1 {
        return;
      }
      var focus := FocusAfterRemove(blocks, blockId);
      blocks := Filter(blocks, OtherThan(blockId));
      if focus.Some? {
        activeBlockId := focus;
      }
    }

    /** `handleSlashCommand`: opens the menu for a block with an empty filter. */
    method OpenMenu(blockId: string)
      modifies this
      ensures menu == MenuState(true, Some(blockId), "")
      ensures blocks == old(blocks) && activeBlockId == old(activeBlockId)
    {
      menu := MenuState(true, Some(blockId), "");
    }

    /**
     * `handleBlockTypeSelect`: when the menu belongs to a block (a
     * non-empty id), that block takes the type and is focused; the menu
     * closes either way.
     */
    method SelectBlockType(kind: BlockType)
      modifies this
      ensures var target := old(menu).blockId;
        if target.Some? && target.value != "" then
          blocks == UpdateBlocks(old(blocks), target.value, TypeChange(kind)) && activeBlockId == target
        else
          blocks == old(blocks) && activeBlockId == old(activeBlockId)
      ensures menu == old(menu).(isOpen := false)
    {
      var target := menu.blockId;
      if target.Some? && target.value != "" {
        UpdateBlock(target.value, TypeChange(kind));
        activeBlockId := target;
      }
      menu := menu.(isOpen := false);
    }
  }
}

=== FILE: offer_editor.dfy ===
/**
 * The editor of the home page's offer section: its bullet points are
 * added (at most six, each with a fresh numeric id), edited, removed and
 * reordered by drag and drop.  A point's `order` is its position plus one.
 */
module OfferEditing {
  import opened Wrappers
  import opened Text
  import opened Lists

  /** `OfferPoint`. */
  datatype OfferPoint = OfferPoint(id: int, text: string, order: int)

  /** The most points the section holds. */
  const MAX_POINTS := 6

  /** Why an add or an update is refused. */
  datatype PointRefusal = BlankText | TooManyPoints | NotEditing

  function Ids(points: seq<OfferPoint>): seq<int> {
    Map(points, (p: OfferPoint) => p.id)
  }

  /** Point k carries the order k + 1. */
  predicate NumberedFromOne(points: seq<OfferPoint>) {
    forall k :: 0 <= k < |points| ==> points[k].order == k + 1
  }

  /** `Math.max(0, ...ids) + 1`: above every id in use, and at least 1. */
  function NextId(points: seq<OfferPoint>): (id: int)
    ensures id >= 1
    ensures forall k :: 0 <= k < |points| ==> points[k].id < id
  {
    var ids := [0] + Ids(points);
    assert forall k :: 0 <= k < |points| ==> ids[k + 1] == points[k].id;
    Max(ids) + 1
  }

  /**
   * `handleAddPoint`: blank text is refused first, then a seventh point;
   * otherwise the point, with a fresh id, the trimmed text and the order
   * one past the list's length, is appended.
   */
  function AddPoint(points: seq<OfferPoint>, text: string): (r: Result<seq<OfferPoint>, PointRefusal>)
    ensures r == Err(BlankText) <==> IsBlank(text)
    ensures r == Err(TooManyPoints) <==> !IsBlank(text) && |points| >= MAX_POINTS
    ensures r.Ok? <==> !IsBlank(text) && |points| < MAX_POINTS
    ensures r.Ok? ==> r.value == points + [OfferPoint(NextId(points), Trim(text), |points| + 1)]
  {
    BlankIffTrimmedEmpty(text);
    if Trim(text) == "" then Err(BlankText)
    else if |points| >= MAX_POINTS then Err(TooManyPoints)
    else Ok(points + [OfferPoint(NextId(points), Trim(text), |points| + 1)])
  }

  /**
   * Adding keeps the ids unique (the new one is above all of them), the
   * list numbered from one, and never grows it past six points.
   */
  lemma AddPointKeeps(points: seq<OfferPoint>, text: string)
    requires AddPoint(points, text).Ok?
    ensures Distinct(Ids(points)) ==> Distinct(Ids(AddPoint(points, text).value))
    ensures NumberedFromOne(points) ==> NumberedFromOne(AddPoint(points, text).value)
    ensures |AddPoint(points, text).value| <= MAX_POINTS
  {
    var point := OfferPoint(NextId(points), Trim(text), |points| + 1);
    if Distinct(Ids(points)) {
      AppendAboveKeepsDistinct(points, point);
    }
  }

  /** Appending a point whose id is above every other keeps the ids unique. */
  lemma AppendAboveKeepsDistinct(points: seq<OfferPoint>, point: OfferPoint)
    requires Distinct(Ids(points))
    requires forall k :: 0 <= k < |points| ==> points[k].id < point.id
    ensures Distinct(Ids(points + [point]))
  {
    var ids := Ids(points + [point]);
    assert forall k :: 0 <= k < |points| ==> ids[k] == Ids(points)[k] < point.id;
  }

  /**
   * `handleUpdatePoint`: with a point being edited and text that is not
   * blank, the points with the edited id get the trimmed text; ids and
   * orders stay.
   */
  function UpdatePoint(points: seq<OfferPoint>, editingId: Option<int>, text: string): (r: Result<seq<OfferPoint>, PointRefusal>)
    ensures editingId.None? ==> r == Err(NotEditing)
    ensures editingId.Some? ==> (r.Err? <==> IsBlank(text)) && (r.Err? ==> r.error == BlankText)
    ensures r.Ok? ==> |r.value| == |points|
    ensures r.Ok? ==> forall k :: 0 <= k < |points| ==>
      r.value[k] == if points[k].id == editingId.value then points[k].(text := Trim(text)) else points[k]
  {
    BlankIffTrimmedEmpty(text);
    if editingId.None? then Err(NotEditing)
    else if Trim(text) == "" then Err(BlankText)
    else
      Ok(seq(|points|, k requires 0 <= k < |points| =>
        if points[k].id == editingId.value then points[k].(text := Trim(text)) else points[k]))
  }

  /** An update keeps the ids in their places and a numbered list numbered. */
  lemma UpdatePointKeeps(points: seq<OfferPoint>, editingId: Option<int>, text: string)
    requires UpdatePoint(points, editingId, text).Ok?
    ensures Ids(UpdatePoint(points, editingId, text).value) == Ids(points)
    ensures NumberedFromOne(points) ==> NumberedFromOne(UpdatePoint(points, editingId, text).value)
  {
    var r := UpdatePoint(points, editingId, text).value;
    MapPointwise(r, points, (p: OfferPoint) => p.id);
  }

  /** The `map` that gives point i the order i + 1 and keeps the rest. */
  function Renumber(points: seq<OfferPoint>): (r: seq<OfferPoint>)
    ensures |r| == |points| && NumberedFromOne(r)
    ensures forall k :: 0 <= k < |r| ==> r[k].(order := points[k].order) == points[k]
  {
    seq(|points|, k requires 0 <= k < |points| => points[k].(order := k + 1))
  }

  lemma RenumberKeepsIds(points: seq<OfferPoint>)
    ensures Ids(Renumber(points)) == Ids(points)
  {
    var r := Renumber(points);
    MapPointwise(r, points, (p: OfferPoint) => p.id);
  }

  function OtherThan(pointId: int): OfferPoint -> bool {
    (p: OfferPoint) => p.id != pointId
  }

  /** `handleRemovePoint`: the points with that id are dropped and the rest renumbered from one. */
  function RemovePoint(points: seq<OfferPoint>, pointId: int): seq<OfferPoint> {
    Renumber(Filter(points, OtherThan(pointId)))
  }

  /**
   * After a removal no point has that id, the others keep their order and
   * are numbered from one; with unique ids, removing a point that exists
   * leaves one fewer.
   */
  lemma RemovePointSpec(points: seq<OfferPoint>, pointId: int)
    ensures var r := RemovePoint(points, pointId);
      && pointId !in Ids(r)
      && NumberedFromOne(r)
      && Ids(r) == Ids(Filter(points, OtherThan(pointId)))
      && (Distinct(Ids(points)) && pointId in Ids(points) ==> |r| == |points| - 1)
  {
    var kept := Filter(points, OtherThan(pointId));
    RenumberKeepsIds(kept);
    assert forall k :: 0 <= k < |kept| ==> Ids(kept)[k] != pointId;
    if Distinct(Ids(points)) && pointId in Ids(points) {
      var i :| 0 <= i < |points| && Ids(points)[i] == pointId;
      forall j | 0 <= j < |points| && j != i ensures OtherThan(pointId)(points[j]) {
        assert Ids(points)[j] != Ids(points)[i];
      }
      FilterDropsOne(points, OtherThan(pointId), i);
    }
  }

  /** What `handleDrop` leaves: nothing changes without a dragged point or onto its own place. */
  function Dropped(points: seq<OfferPoint>, dragIndex: Option<nat>, dropIndex: nat): seq<OfferPoint>
    requires dragIndex.Some? ==> dragIndex.value < |points| && dropIndex < |points|
  {
    if dragIndex.None? || dragIndex.value == dropIndex then points
    else Renumber(Move(points, dragIndex.value, dropIndex))
  }

  /**
   * `handleDrop`: copies the points, splices the dragged one out and back
   * in at the drop index, then renumbers from one.
   */
  method HandleDrop(points: seq<OfferPoint>, dragIndex: Option<nat>, dropIndex: nat) returns (r: seq<OfferPoint>)
    requires dragIndex.Some? ==> dragIndex.value < |points| && dropIndex < |points|
    ensures r == Dropped(points, dragIndex, dropIndex)
  {
    if dragIndex.None? {
      return points;
    }
    if dragIndex.value == dropIndex {
      return points;
    }
    var moved := MoveCopy(points, dragIndex.value, dropIndex);
    r := Renumber(moved);
  }

  /**
   * A drop moves exactly the dragged point to the drop index, keeps the
   * others in their relative order and every id, and renumbers.
   */
  lemma DroppedSpec(points: seq<OfferPoint>, dragIndex: nat, dropIndex: nat)
    requires dragIndex < |points| && dropIndex < |points|
    ensures var r := Dropped(points, Some(dragIndex), dropIndex);
      && (dragIndex == dropIndex ==> r == points)
      && (dragIndex != dropIndex ==>
            && Ids(r) == Move(Ids(points), dragIndex, dropIndex)
            && r[dropIndex].id == points[dragIndex].id
            && RemoveAt(Ids(r), dropIndex) == RemoveAt(Ids(points), dragIndex)
            && multiset(Ids(r)) == multiset(Ids(points))
            && NumberedFromOne(r))
  {
    if dragIndex != dropIndex {
      var moved := Move(points, dragIndex, dropIndex);
      RenumberKeepsIds(moved);
      MapMove(points, (p: OfferPoint) => p.id, dragIndex, dropIndex);
      MoveKeepsOthers(Ids(points), dragIndex, dropIndex);
      MovePermutes(Ids(points), dragIndex, dropIndex);
    }
  }
}

=== FILE: search_service.dfy ===
/**
 * The search service of the CMS front end.  A search filters the searchable
 * items, scores each one against the normalised query, drops those that
 * score nothing and sorts the rest; it then records the query in the search
 * history and in the popular searches, two lists kept in browser storage.
 *
 * The storage is modelled by the fields of a `SearchStore`.  The built-in
 * sample items, the titles and descriptions behind the suggestions, the
 * current time and the `localeCompare` order on strings are parameters.
 */
module SearchService {
  import opened Wrappers
  import opened Text
  import opened Lists

  datatype ItemType = Project | Media | Testimonial

  /** The `type` tag the items carry. */
  function TypeName(t: ItemType): string {
    match t
    case Project => "project"
    case Media => "media"
    case Testimonial => "testimonial"
  }

  /** A `createdAt` date: absent or empty, a text `Date` cannot read, or a time in milliseconds. */
  datatype Stamp = NoDate | InvalidDate | At(ms: int)

  datatype SearchItem = SearchItem(
    title: string,
    description: Option<string>,
    category: Option<string>,
    status: Option<string>,
    createdAt: Stamp,
    itemType: ItemType)

  /** The bounds of a date filter, in milliseconds. */
  datatype DateRange = DateRange(start: Option<int>, end: Option<int>)

  datatype SearchFilters = SearchFilters(
    itemType: Option<string>,
    category: Option<string>,
    status: Option<string>,
    dateRange: Option<DateRange>,
    sortBy: Option<string>,
    sortOrder: Option<string>)

  /** A text filter is set when it is present and not empty, as `if (filters.category)` reads it. */
  predicate Given(o: Option<string>) {
    o.Some? && o.value != ""
  }

  // ---------------------------------------------------------------------
  // applyFilters
  // ---------------------------------------------------------------------

  predicate TypeOk(f: SearchFilters, x: SearchItem) {
    Given(f.itemType) && f.itemType.value != "all" ==> TypeName(x.itemType) == f.itemType.value
  }

  predicate CategoryOk(f: SearchFilters, x: SearchItem) {
    Given(f.category) ==> x.category == f.category
  }

  predicate StatusOk(f: SearchFilters, x: SearchItem) {
    Given(f.status) ==> x.status == f.status
  }

  /** An item without a date passes; one whose date cannot be read compares as NaN and fails. */
  predicate AfterStart(f: SearchFilters, x: SearchItem) {
    f.dateRange.Some? && f.dateRange.value.start.Some? ==>
      match x.createdAt
      case NoDate => true
      case InvalidDate => false
      case At(ms) => ms >= f.dateRange.value.start.value
  }

  predicate BeforeEnd(f: SearchFilters, x: SearchItem) {
    f.dateRange.Some? && f.dateRange.value.end.Some? ==>
      match x.createdAt
      case NoDate => true
      case InvalidDate => false
      case At(ms) => ms <= f.dateRange.value.end.value
  }

  /** An item passes the filters when it passes each of them. */
  predicate Admits(f: SearchFilters, x: SearchItem) {
    TypeOk(f, x) && CategoryOk(f, x) && StatusOk(f, x) && AfterStart(f, x) && BeforeEnd(f, x)
  }

  function Admission(f: SearchFilters): SearchItem -> bool {
    x => Admits(f, x)
  }

  /** The filters applied so far: type, then category, status, start date and end date. */
  predicate Stage(f: SearchFilters, x: SearchItem, n: nat) {
    (n >= 1 ==> TypeOk(f, x)) && (n >= 2 ==> CategoryOk(f, x)) && (n >= 3 ==> StatusOk(f, x))
    && (n >= 4 ==> AfterStart(f, x)) && (n >= 5 ==> BeforeEnd(f, x))
  }

  function Passing(f: SearchFilters, n: nat): SearchItem -> bool {
    x => Stage(f, x, n)
  }

  function OfType(wanted: string): SearchItem -> bool {
    (x: SearchItem) => TypeName(x.itemType) == wanted
  }

  function InCategory(wanted: Option<string>): SearchItem -> bool {
    (x: SearchItem) => x.category == wanted
  }

  function WithStatus(wanted: Option<string>): SearchItem -> bool {
    (x: SearchItem) => x.status == wanted
  }

  /** `new Date(item.createdAt) >= startDate` for a dated item; an undated one is kept. */
  function NotBefore(start: int): SearchItem -> bool {
    (x: SearchItem) => x.createdAt.NoDate? || (x.createdAt.At? && x.createdAt.ms >= start)
  }

  function NotAfter(end: int): SearchItem -> bool {
    (x: SearchItem) => x.createdAt.NoDate? || (x.createdAt.At? && x.createdAt.ms <= end)
  }

  /** The `type` filter, unless it is `all`. */
  method FilterByType(items: seq<SearchItem>, f: SearchFilters, r: seq<SearchItem>) returns (narrowed: seq<SearchItem>)
    requires r == Filter(items, Passing(f, 0))
    ensures narrowed == Filter(items, Passing(f, 1))
  {
    if Given(f.itemType) && f.itemType.value != "all" {
      narrowed := Filter(r, OfType(f.itemType.value));
      FilterTwice(items, Passing(f, 0), OfType(f.itemType.value), Passing(f, 1));
    } else {
      narrowed := r;
      FilterSame(items, Passing(f, 0), Passing(f, 1));
    }
  }

  method FilterByCategory(items: seq<SearchItem>, f: SearchFilters, r: seq<SearchItem>) returns (narrowed: seq<SearchItem>)
    requires r == Filter(items, Passing(f, 1))
    ensures narrowed == Filter(items, Passing(f, 2))
  {
    if Given(f.category) {
      narrowed := Filter(r, InCategory(f.category));
      FilterTwice(items, Passing(f, 1), InCategory(f.category), Passing(f, 2));
    } else {
      narrowed := r;
      FilterSame(items, Passing(f, 1), Passing(f, 2));
    }
  }

  method FilterByStatus(items: seq<SearchItem>, f: SearchFilters, r: seq<SearchItem>) returns (narrowed: seq<SearchItem>)
    requires r == Filter(items, Passing(f, 2))
    ensures narrowed == Filter(items, Passing(f, 3))
  {
    if Given(f.status) {
      narrowed := Filter(r, WithStatus(f.status));
      FilterTwice(items, Passing(f, 2), WithStatus(f.status), Passing(f, 3));
    } else {
      narrowed := r;
      FilterSame(items, Passing(f, 2), Passing(f, 3));
    }
  }

  method FilterByStart(items: seq<SearchItem>, f: SearchFilters, r: seq<SearchItem>) returns (narrowed: seq<SearchItem>)
    requires r == Filter(items, Passing(f, 3))
    ensures narrowed == Filter(items, Passing(f, 4))
  {
    if f.dateRange.Some? && f.dateRange.value.start.Some? {
      narrowed := Filter(r, NotBefore(f.dateRange.value.start.value));
      FilterTwice(items, Passing(f, 3), NotBefore(f.dateRange.value.start.value), Passing(f, 4));
    } else {
      narrowed := r;
      FilterSame(items, Passing(f, 3), Passing(f, 4));
    }
  }

  method FilterByEnd(items: seq<SearchItem>, f: SearchFilters, r: seq<SearchItem>) returns (narrowed: seq<SearchItem>)
    requires r == Filter(items, Passing(f, 4))
    ensures narrowed == Filter(items, Passing(f, 5))
  {
    if f.dateRange.Some? && f.dateRange.value.end.Some? {
      narrowed := Filter(r, NotAfter(f.dateRange.value.end.value));
      FilterTwice(items, Passing(f, 4), NotAfter(f.dateRange.value.end.value), Passing(f, 5));
    } else {
      narrowed := r;
      FilterSame(items, Passing(f, 4), Passing(f, 5));
    }
  }

  /**
   * `applyFilters`: each filter that is set narrows the list in turn.  The
   * result is exactly the items that pass every filter, in their order.
   */
  method ApplyFilters(items: seq<SearchItem>, f: SearchFilters) returns (r: seq<SearchItem>)
    ensures r == Filter(items, Admission(f))
  {
    FilterAll(items, Passing(f, 0));
    r := FilterByType(items, f, items);
    r := FilterByCategory(items, f, r);
    r := FilterByStatus(items, f, r);
    r := FilterByStart(items, f, r);
    r := FilterByEnd(items, f, r);
    FilterSame(items, Passing(f, 5), Admission(f));
  }

  /** The filtered items are a subsequence of the input, holding exactly the items that pass. */
  lemma FilteredSubsequence(items: seq<SearchItem>, f: SearchFilters)
    ensures IsSubsequence(Filter(items, Admission(f)), items)
    ensures forall x :: x in Filter(items, Admission(f)) <==> x in items && Admits(f, x)
  {
    FilterSubsequence(items, Admission(f));
  }

  /** With no filter set, every item passes. */
  lemma NoFiltersKeepAll(items: seq<SearchItem>, f: SearchFilters)
    requires !Given(f.itemType) && !Given(f.category) && !Given(f.status) && f.dateRange.None?
    ensures Filter(items, Admission(f)) == items
  {
    FilterAll(items, Admission(f));
  }

  // ---------------------------------------------------------------------
  // performTextSearch
  // ---------------------------------------------------------------------

  const DAY_MS := 1000 * 60 * 60 * 24

  function Points(hit: bool, n: nat): nat {
    if hit then n else 0
  }

  /** `item.description || ''`. */
  function DescriptionText(x: SearchItem): string {
    if x.description.Some? then x.description.value else ""
  }

  /** Some term occurs in `text`. */
  predicate AnyTermIn(terms: seq<string>, text: string) {
    exists k :: 0 <= k < |terms| && Contains(text, terms[k])
  }

  /** What the terms add: 5 for each term found in the title and 3 for each term found in the description. */
  function TermPoints(terms: seq<string>, title: string, description: string): nat
    decreases |terms|
  {
    if terms == [] then 0
    else
      var k := |terms| - 1;
      TermPoints(terms[..k], title, description)
      + Points(Contains(title, terms[k]), 5) + Points(Contains(description, terms[k]), 3)
  }

  /** The terms add nothing exactly when none of them occurs in the title or the description. */
  lemma {:induction false} TermPointsZero(terms: seq<string>, title: string, description: string)
    ensures TermPoints(terms, title, description) == 0 <==> !AnyTermIn(terms, title) && !AnyTermIn(terms, description)
    ensures TermPoints(terms, title, description) <= 8 * |terms|
    decreases |terms|
  {
    if terms != [] {
      var k := |terms| - 1;
      var init := terms[..k];
      TermPointsZero(init, title, description);
      assert forall j :: 0 <= j < k ==> init[j] == terms[j];
      if AnyTermIn(init, title) {
        var j :| 0 <= j < |init| && Contains(title, init[j]);
        assert Contains(title, terms[j]);
      }
      if AnyTermIn(init, description) {
        var j :| 0 <= j < |init| && Contains(description, init[j]);
        assert Contains(description, terms[j]);
      }
    }
  }

  /** The recency bonus: 5 under a week old, 2 under thirty days; a date that cannot be read gives NaN and nothing. */
  function RecencyPoints(createdAt: Stamp, now: int): nat {
    match createdAt
    case At(ms) =>
      var days := (now - ms) / DAY_MS;
      if days < 7 then 5 else if days < 30 then 2 else 0
    case _ => 0
  }

  predicate PublishedProject(x: SearchItem) {
    x.itemType == Project && x.status == Some("published")
  }

  /** The points the whole query earns against a title and a description. */
  function PhrasePoints(title: string, description: string, query: string): nat {
    Points(title == query, 50) + Points(description == query, 30)
    + Points(StartsWith(title, query), 25) + Points(Contains(title, query), 15)
    + Points(Contains(description, query), 10)
  }

  /** The relevance score of an item for a normalised query and its terms. */
  function Relevance(x: SearchItem, query: string, terms: seq<string>, now: int): nat {
    var title := Lower(x.title);
    var description := Lower(DescriptionText(x));
    PhrasePoints(title, description, query) + TermPoints(terms, title, description)
    + RecencyPoints(x.createdAt, now) + Points(PublishedProject(x), 3)
  }

  /** An item scores nothing exactly when nothing about it matches and it earns no bonus. */
  lemma RelevanceZero(x: SearchItem, query: string, terms: seq<string>, now: int)
    ensures Relevance(x, query, terms, now) == 0 <==>
      !Contains(Lower(x.title), query) && !Contains(Lower(DescriptionText(x)), query)
      && !AnyTermIn(terms, Lower(x.title)) && !AnyTermIn(terms, Lower(DescriptionText(x)))
      && RecencyPoints(x.createdAt, now) == 0 && !PublishedProject(x)
  {
    var title := Lower(x.title);
    var description := Lower(DescriptionText(x));
    TermPointsZero(terms, title, description);
    ContainsSelf(title);
    ContainsSelf(description);
    if StartsWith(title, query) {
      ContainsPrefix(title, query);
    }
  }

  lemma StartsWithContains(s: string, p: string)
    ensures StartsWith(s, p) ==> Contains(s, p)
  {
    if StartsWith(s, p) {
      ContainsPrefix(s, p);
    }
  }

  lemma ContainsSelf(s: string)
    ensures Contains(s, s)
  {
    assert s[0..] == s;
  }

  /** A title equal to the query also starts with it and contains it: at least 90 points. */
  lemma ExactTitleScore(x: SearchItem, query: string, terms: seq<string>, now: int)
    requires Lower(x.title) == query
    ensures Relevance(x, query, terms, now) >= 90
  {
    ContainsSelf(query);
    assert StartsWith(query, query);
  }

  /** No item scores more than 138 points plus 8 per term. */
  lemma RelevanceBound(x: SearchItem, query: string, terms: seq<string>, now: int)
    ensures Relevance(x, query, terms, now) <= 138 + 8 * |terms|
  {
    TermPointsZero(terms, Lower(x.title), Lower(DescriptionText(x)));
  }

  /** `n` copies of `s`. */
  function Repeat(s: string, n: nat): (r: seq<string>)
    ensures |r| == n && forall k :: 0 <= k < n ==> r[k] == s
  {
    seq(n, _ => s)
  }

  /** How often the whole query matches the title: exactly, at its start, anywhere. */
  function TitlePhraseHits(title: string, query: string): nat {
    Points(title == query, 1) + Points(StartsWith(title, query), 1) + Points(Contains(title, query), 1)
  }

  function DescriptionPhraseHits(description: string, query: string): nat {
    Points(description == query, 1) + Points(Contains(description, query), 1)
  }

  /** One entry per phrase match, or a single entry when only terms match. */
  function Hits(phrase: nat, termMatch: bool): nat {
    if phrase == 0 && termMatch then 1 else phrase
  }

  /**
   * `matchDetails.titleMatches`: the title, once per phrase match, or once
   * when only terms match it.  It is empty exactly when neither the query
   * nor any term occurs in the title.
   */
  function TitleMatches(x: SearchItem, query: string, terms: seq<string>): (m: seq<string>)
    ensures forall k :: 0 <= k < |m| ==> m[k] == x.title
    ensures |m| <= 3
    ensures m == [] <==> !Contains(Lower(x.title), query) && !AnyTermIn(terms, Lower(x.title))
  {
    var title := Lower(x.title);
    ContainsSelf(title);
    StartsWithContains(title, query);
    Repeat(x.title, Hits(TitlePhraseHits(title, query), AnyTermIn(terms, title)))
  }

  /** `matchDetails.descriptionMatches`, built the same way from `item.description || ''`. */
  function DescriptionMatches(x: SearchItem, query: string, terms: seq<string>): (m: seq<string>)
    ensures forall k :: 0 <= k < |m| ==> m[k] == DescriptionText(x)
    ensures |m| <= 2
    ensures m == [] <==> !Contains(Lower(DescriptionText(x)), query) && !AnyTermIn(terms, Lower(DescriptionText(x)))
  {
    var description := Lower(DescriptionText(x));
    ContainsSelf(description);
    Repeat(DescriptionText(x), Hits(DescriptionPhraseHits(description, query), AnyTermIn(terms, description)))
  }

  datatype SearchResult = SearchResult(
    item: SearchItem,
    relevanceScore: nat,
    titleMatches: seq<string>,
    descriptionMatches: seq<string>)

  /** What the `map` callback of `performTextSearch` makes of an item. */
  function Scored(x: SearchItem, query: string, terms: seq<string>, now: int): SearchResult {
    SearchResult(x, Relevance(x, query, terms, now), TitleMatches(x, query, terms), DescriptionMatches(x, query, terms))
  }

  /** One more term: its points are added and the term matches are updated. */
  lemma TermStep(terms: seq<string>, k: nat, title: string, description: string)
    requires k < |terms|
    ensures TermPoints(terms[..k + 1], title, description)
      == TermPoints(terms[..k], title, description) + Points(Contains(title, terms[k]), 5) + Points(Contains(description, terms[k]), 3)
    ensures AnyTermIn(terms[..k + 1], title) <==> AnyTermIn(terms[..k], title) || Contains(title, terms[k])
    ensures AnyTermIn(terms[..k + 1], description) <==> AnyTermIn(terms[..k], description) || Contains(description, terms[k])
  {
    assert terms[..k + 1][..k] == terms[..k];
    assert forall j :: 0 <= j < k ==> terms[..k + 1][j] == terms[..k][j];
  }

  /** A term match adds the text once, and only when it is not listed yet. */
  lemma MatchStep(s: string, phrase: nat, had: bool, hit: bool)
    ensures (if hit && s !in Repeat(s, Hits(phrase, had)) then Repeat(s, Hits(phrase, had)) + [s] else Repeat(s, Hits(phrase, had)))
      == Repeat(s, Hits(phrase, had || hit))
  {
    if Hits(phrase, had) > 0 {
      assert Repeat(s, Hits(phrase, had))[0] == s;
    }
  }

  /** The checks of the whole query against the title and the description. */
  method ScorePhrase(x: SearchItem, title: string, description: string, query: string)
    returns (score: nat, titleMatches: seq<string>, descriptionMatches: seq<string>)
    ensures score == PhrasePoints(title, description, query)
    ensures titleMatches == Repeat(x.title, TitlePhraseHits(title, query))
    ensures descriptionMatches == Repeat(DescriptionText(x), DescriptionPhraseHits(description, query))
  {
    score := 0;
    titleMatches := [];
    descriptionMatches := [];
    if title == query {
      score := score + 50;
      titleMatches := titleMatches + [x.title];
    }
    if description == query {
      score := score + 30;
      descriptionMatches := descriptionMatches + [DescriptionText(x)];
    }
    if StartsWith(title, query) {
      score := score + 25;
      titleMatches := titleMatches + [x.title];
    }
    if Contains(title, query) {
      score := score + 15;
      titleMatches := titleMatches + [x.title];
    }
    if Contains(description, query) {
      score := score + 10;
      descriptionMatches := descriptionMatches + [DescriptionText(x)];
    }
  }

  /** The bonuses for a recent item and for a published project. */
  method Bonuses(x: SearchItem, now: int) returns (bonus: nat)
    ensures bonus == RecencyPoints(x.createdAt, now) + Points(PublishedProject(x), 3)
  {
    bonus := 0;
    match x.createdAt {
      case At(ms) =>
        var days := (now - ms) / DAY_MS;
        if days < 7 {
          bonus := bonus + 5;
        } else if days < 30 {
          bonus := bonus + 2;
        }
      case _ =>
    }
    if x.itemType == Project && x.status == Some("published") {
      bonus := bonus + 3;
    }
  }

  /** The `forEach` over the query terms, continuing from the phrase checks. */
  method ScoreTerms(x: SearchItem, title: string, description: string, terms: seq<string>,
                    score0: nat, titleMatches0: seq<string>, descriptionMatches0: seq<string>,
                    ghost titlePhrase: nat, ghost descriptionPhrase: nat)
    returns (score: nat, titleMatches: seq<string>, descriptionMatches: seq<string>)
    requires titleMatches0 == Repeat(x.title, titlePhrase)
    requires descriptionMatches0 == Repeat(DescriptionText(x), descriptionPhrase)
    ensures score == score0 + TermPoints(terms, title, description)
    ensures titleMatches == Repeat(x.title, Hits(titlePhrase, AnyTermIn(terms, title)))
    ensures descriptionMatches == Repeat(DescriptionText(x), Hits(descriptionPhrase, AnyTermIn(terms, description)))
  {
    score, titleMatches, descriptionMatches := score0, titleMatches0, descriptionMatches0;
    var k := 0;
    while k < |terms|
      invariant 0 <= k <= |terms|
      invariant score == score0 + TermPoints(terms[..k], title, description)
      invariant titleMatches == Repeat(x.title, Hits(titlePhrase, AnyTermIn(terms[..k], title)))
      invariant descriptionMatches == Repeat(DescriptionText(x), Hits(descriptionPhrase, AnyTermIn(terms[..k], description)))
    {
      var term := terms[k];
      TermStep(terms, k, title, description);
      MatchStep(x.title, titlePhrase, AnyTermIn(terms[..k], title), Contains(title, term));
      MatchStep(DescriptionText(x), descriptionPhrase, AnyTermIn(terms[..k], description), Contains(description, term));
      if Contains(title, term) {
        score := score + 5;
        if x.title !in titleMatches {
          titleMatches := titleMatches + [x.title];
        }
      }
      if Contains(description, term) {
        score := score + 3;
        if DescriptionText(x) !in descriptionMatches {
          descriptionMatches := descriptionMatches + [DescriptionText(x)];
        }
      }
      k := k + 1;
    }
    assert terms[..|terms|] == terms;
  }

  /** The callback itself: a running score and two match lists, updated check by check and term by term. */
  method ScoreItem(x: SearchItem, query: string, terms: seq<string>, now: int) returns (r: SearchResult)
    ensures r == Scored(x, query, terms, now)
  {
    var title := Lower(x.title);
    var description := Lower(DescriptionText(x));
    var score, titleMatches, descriptionMatches := ScorePhrase(x, title, description, query);
    score, titleMatches, descriptionMatches := ScoreTerms(x, title, description, terms, score, titleMatches, descriptionMatches,
      TitlePhraseHits(title, query), DescriptionPhraseHits(description, query));
    var bonus := Bonuses(x, now);
    score := score + bonus;
    r := SearchResult(x, score, titleMatches, descriptionMatches);
  }

  predicate IsHit(r: SearchResult) {
    r.relevanceScore > 0
  }

  /** `performTextSearch`: every item scored, then those scoring 0 dropped. */
  function TextSearch(items: seq<SearchItem>, query: string, terms: seq<string>, now: int): (rs: seq<SearchResult>)
    ensures forall r :: r in rs <==> r.item in items && r == Scored(r.item, query, terms, now) && r.relevanceScore > 0
    ensures |rs| <= |items|
  {
    var scored := seq(|items|, k requires 0 <= k < |items| => Scored(items[k], query, terms, now));
    assert forall r: SearchResult :: r in scored <==> r.item in items && r == Scored(r.item, query, terms, now) by {
      forall r: SearchResult | r.item in items && r == Scored(r.item, query, terms, now) ensures r in scored {
        var k :| 0 <= k < |items| && items[k] == r.item;
        assert scored[k] == r;
      }
    }
    Filter(scored, IsHit)
  }

  // ---------------------------------------------------------------------
  // sortResults
  // ---------------------------------------------------------------------

  /** The time `new Date(createdAt || '')` gives; one that is NaN is taken as 0. */
  function DateKey(s: Stamp): int {
    if s.At? then s.ms else 0
  }

  /**
   * The order of `sortResults`, as an ascending key: by title through
   * `titleRank`, the position of a title in the `localeCompare` order; by
   * date; or, by default and for `relevance`, by decreasing score.
   */
  function SortKey(f: SearchFilters, titleRank: string -> int): SearchResult -> int {
    var ascending := f.sortOrder == Some("asc");
    if f.sortBy == Some("title") then
      (r: SearchResult) => if ascending then titleRank(r.item.title) else -titleRank(r.item.title)
    else if f.sortBy == Some("date") then
      (r: SearchResult) => if ascending then DateKey(r.item.createdAt) else -DateKey(r.item.createdAt)
    else
      (r: SearchResult) => -(r.relevanceScore as int)
  }

  function SortResults(rs: seq<SearchResult>, f: SearchFilters, titleRank: string -> int): (sorted: seq<SearchResult>)
    ensures multiset(sorted) == multiset(rs)
    ensures SortedBy(sorted, SortKey(f, titleRank))
    ensures forall v :: Filter(sorted, KeyIs(SortKey(f, titleRank), v)) == Filter(rs, KeyIs(SortKey(f, titleRank), v))
  {
    var key := SortKey(f, titleRank);
    assert forall v :: Filter(SortBy(rs, key), KeyIs(key, v)) == Filter(rs, KeyIs(key, v)) by {
      forall v ensures Filter(SortBy(rs, key), KeyIs(key, v)) == Filter(rs, KeyIs(key, v)) {
        SortByStable(rs, key, v);
      }
    }
    SortBy(rs, key)
  }

  /** Unless sorted by title or date, the results come by non-increasing score. */
  lemma RelevanceFirst(rs: seq<SearchResult>, f: SearchFilters, titleRank: string -> int)
    requires f.sortBy != Some("title") && f.sortBy != Some("date")
    ensures forall i, j :: 0 <= i < j < |SortResults(rs, f, titleRank)| ==>
      SortResults(rs, f, titleRank)[i].relevanceScore >= SortResults(rs, f, titleRank)[j].relevanceScore
  {
    var sorted := SortResults(rs, f, titleRank);
    var key := SortKey(f, titleRank);
    forall i, j | 0 <= i < j < |sorted| ensures sorted[i].relevanceScore >= sorted[j].relevanceScore {
      assert key(sorted[i]) <= key(sorted[j]);
    }
  }

  // ---------------------------------------------------------------------
  // search
  // ---------------------------------------------------------------------

  /** `query.toLowerCase().trim()`. */
  function Normalized(query: string): string {
    Trim(Lower(query))
  }

  predicate LongerThanOne(w: string) {
    |w| > 1
  }

  /** The query terms: the pieces of the normalised query longer than one character. */
  function QueryTerms(normalized: string): (terms: seq<string>)
    ensures forall k :: 0 <= k < |terms| ==> |terms[k]| > 1 && forall i :: 0 <= i < |terms[k]| ==> !IsSpace(terms[k][i])
  {
    Filter(Words(normalized), LongerThanOne)
  }

  /**
   * The terms are cut at every white-space character: the terms of the
   * text on either side of one, one list after the other.
   */
  lemma QueryTermsSplit(a: string, c: char, b: string)
    requires IsSpace(c)
    ensures QueryTerms(a + [c] + b) == QueryTerms(a) + QueryTerms(b)
  {
    WordsSplit(a, c, b);
    FilterAppend(Words(a), Words(b), LongerThanOne);
  }

  /** A run without white space is one term when longer than one character, and no term otherwise; blank text has none. */
  lemma QueryTermsOfRun(w: string)
    ensures (forall i :: 0 <= i < |w| ==> !IsSpace(w[i])) ==> QueryTerms(w) == if |w| > 1 then [w] else []
    ensures (forall i :: 0 <= i < |w| ==> IsSpace(w[i])) ==> QueryTerms(w) == []
  {
    if w != [] && forall i :: 0 <= i < |w| ==> !IsSpace(w[i]) {
      WordsOfWord(w);
      assert [w][1..] == [];
    }
    if forall i :: 0 <= i < |w| ==> IsSpace(w[i]) {
      WordsOfBlank(w);
    }
  }

  /** What `search` returns. */
  function SearchResults(query: string, f: SearchFilters, items: seq<SearchItem>, now: int, titleRank: string -> int): seq<SearchResult> {
    if Trim(query) == [] then []
    else
      var normalized := Normalized(query);
      SortResults(TextSearch(Filter(items, Admission(f)), normalized, QueryTerms(normalized), now), f, titleRank)
  }

  /** Sorting neither adds nor drops a result. */
  lemma SortedMembers(rs: seq<SearchResult>, f: SearchFilters, titleRank: string -> int)
    ensures forall r :: r in SortResults(rs, f, titleRank) <==> r in rs
  {
    var sorted := SortResults(rs, f, titleRank);
    forall r ensures r in sorted <==> r in rs {
      assert r in sorted <==> r in multiset(sorted);
      assert r in rs <==> r in multiset(rs);
    }
  }

  /** A result of the filtering, scoring and sorting: an item that passes the filters, scored above 0. */
  predicate Hit(r: SearchResult, items: seq<SearchItem>, f: SearchFilters, query: string, terms: seq<string>, now: int) {
    r.item in items && Admits(f, r.item) && r == Scored(r.item, query, terms, now) && r.relevanceScore > 0
  }

  lemma PipelineMembers(items: seq<SearchItem>, f: SearchFilters, query: string, terms: seq<string>, now: int, titleRank: string -> int)
    ensures forall r :: (r in SortResults(TextSearch(Filter(items, Admission(f)), query, terms, now), f, titleRank)
                         <==> Hit(r, items, f, query, terms, now))
  {
    var filtered := Filter(items, Admission(f));
    var found := TextSearch(filtered, query, terms, now);
    SortedMembers(found, f, titleRank);
    forall r ensures r in found <==> Hit(r, items, f, query, terms, now) {
      assert r.item in filtered <==> r.item in items && Admits(f, r.item);
    }
  }

  /**
   * Every result is an item that passes the filters, scored above 0 for the
   * normalised query; every such item is among the results; a blank query
   * finds nothing.
   */
  lemma SearchResultsSound(query: string, f: SearchFilters, items: seq<SearchItem>, now: int, titleRank: string -> int)
    ensures Trim(query) == [] ==> SearchResults(query, f, items, now, titleRank) == []
    ensures Trim(query) != [] ==> forall r :: r in SearchResults(query, f, items, now, titleRank) <==>
      Hit(r, items, f, Normalized(query), QueryTerms(Normalized(query)), now)
  {
    if Trim(query) != [] {
      PipelineMembers(items, f, Normalized(query), QueryTerms(Normalized(query)), now, titleRank);
    }
  }

  // ---------------------------------------------------------------------
  // getSuggestions
  // ---------------------------------------------------------------------

  predicate NonEmpty(s: string) {
    |s| > 0
  }

  predicate LongerThanThree(w: string) {
    |w| > 3
  }

  /** The words longer than three characters of each description, each kept once, in order of first appearance. */
  function Keywords(descriptions: seq<string>): (ks: seq<string>)
    ensures Distinct(ks)
    ensures forall w :: w in ks ==> |w| > 3 && exists k :: 0 <= k < |descriptions| && w in Words(descriptions[k])
    ensures forall k, w :: 0 <= k < |descriptions| && w in Words(descriptions[k]) && |w| > 3 ==> w in ks
  {
    var ds := Filter(descriptions, NonEmpty);
    var pieces := seq(|ds|, k requires 0 <= k < |ds| => Filter(Words(ds[k]), LongerThanThree));
    var ks := Dedupe(Flatten(pieces));
    assert forall w :: w in ks ==> |w| > 3 && exists k :: 0 <= k < |descriptions| && w in Words(descriptions[k]) by {
      forall w | w in ks ensures |w| > 3 && exists k :: 0 <= k < |descriptions| && w in Words(descriptions[k]) {
        FlattenMembers(pieces, w);
        var k :| 0 <= k < |pieces| && w in pieces[k];
        assert ds[k] in descriptions;
        var d :| 0 <= d < |descriptions| && descriptions[d] == ds[k];
      }
    }
    forall k, w | 0 <= k < |descriptions| && w in Words(descriptions[k]) && |w| > 3 ensures w in ks {
      assert descriptions[k] in ds;
      var d :| 0 <= d < |ds| && ds[d] == descriptions[k];
      assert w in pieces[d];
      FlattenMembers(pieces, w);
    }
    ks
  }

  function MatchesQuery(lowerQuery: string): string -> bool {
    s => Contains(Lower(s), lowerQuery)
  }

  function StartsWithQuery(lowerQuery: string): string -> bool {
    s => StartsWith(Lower(s), lowerQuery)
  }

  function OtherThanStart(lowerQuery: string): string -> bool {
    s => !StartsWith(Lower(s), lowerQuery)
  }

  /**
   * The order the comparator of `getSuggestions` puts two suggestions in:
   * one that starts with the query never comes after one that does not,
   * and within each group the `localeCompare` order, given as `rank`.
   */
  function SuggestionOrder(lowerQuery: string, rank: string -> int): (string, string) -> bool {
    (a, b) =>
      && (StartsWith(Lower(b), lowerQuery) ==> StartsWith(Lower(a), lowerQuery))
      && (StartsWith(Lower(a), lowerQuery) == StartsWith(Lower(b), lowerQuery) ==> rank(a) <= rank(b))
  }

  /** Every element of a sort of `s` passes `p` when every element of `s` does. */
  lemma SortKeeps(s: seq<string>, p: string -> bool, rank: string -> int)
    requires forall x :: x in s ==> p(x)
    ensures forall x :: x in SortBy(s, rank) ==> p(x)
  {
    forall x | x in SortBy(s, rank) ensures p(x) {
      assert x in multiset(SortBy(s, rank));
    }
  }

  /**
   * A group that starts with the query, sorted by rank, followed by a group
   * that does not, sorted by rank, is in the comparator's order.
   */
  lemma GroupsOrdered(a: seq<string>, b: seq<string>, lowerQuery: string, rank: string -> int)
    requires forall x :: x in a ==> StartsWithQuery(lowerQuery)(x)
    requires forall x :: x in b ==> OtherThanStart(lowerQuery)(x)
    requires SortedBy(a, rank) && SortedBy(b, rank)
    ensures Ordered(a + b, SuggestionOrder(lowerQuery, rank))
  {
    forall i, j | 0 <= i < j < |a + b| ensures SuggestionOrder(lowerQuery, rank)((a + b)[i], (a + b)[j]) {
      if j < |a| {
        assert (a + b)[i] == a[i] && (a + b)[j] == a[j] && a[i] in a && a[j] in a;
        assert StartsWith(Lower(a[i]), lowerQuery) && StartsWith(Lower(a[j]), lowerQuery);
      } else if i >= |a| {
        assert (a + b)[i] == b[i - |a|] && (a + b)[j] == b[j - |a|] && b[i - |a|] in b && b[j - |a|] in b;
        assert !StartsWith(Lower(b[i - |a|]), lowerQuery) && !StartsWith(Lower(b[j - |a|]), lowerQuery);
      } else {
        assert (a + b)[i] == a[i] && a[i] in a;
        assert (a + b)[j] == b[j - |a|] && b[j - |a|] in b;
        assert StartsWith(Lower(a[i]), lowerQuery) && !StartsWith(Lower(b[j - |a|]), lowerQuery);
      }
    }
  }

  /**
   * The comparator of `getSuggestions`: those that start with the query
   * first, each group in the `localeCompare` order, given as `rank`.
   */
  function Arranged(matches: seq<string>, lowerQuery: string, rank: string -> int): (r: seq<string>)
    ensures multiset(r) == multiset(matches)
    ensures Ordered(r, SuggestionOrder(lowerQuery, rank))
  {
    var first := Filter(matches, StartsWithQuery(lowerQuery));
    var rest := Filter(matches, OtherThanStart(lowerQuery));
    PartitionMultiset(matches, lowerQuery);
    SortKeeps(first, StartsWithQuery(lowerQuery), rank);
    SortKeeps(rest, OtherThanStart(lowerQuery), rank);
    GroupsOrdered(SortBy(first, rank), SortBy(rest, rank), lowerQuery, rank);
    SortBy(first, rank) + SortBy(rest, rank)
  }

  /** Splitting by "starts with the query" loses and adds nothing. */
  lemma PartitionMultiset(s: seq<string>, lowerQuery: string)
    ensures multiset(Filter(s, StartsWithQuery(lowerQuery))) + multiset(Filter(s, OtherThanStart(lowerQuery))) == multiset(s)
  {
    FilterPartition(s, StartsWithQuery(lowerQuery), OtherThanStart(lowerQuery));
  }

  const SUGGESTION_LIMIT := 5

  /** The chain of `getSuggestions`: keep the matches, arrange them, drop repeats, keep five. */
  function Chosen(sources: seq<string>, lowerQuery: string, rank: string -> int): seq<string> {
    Take(Dedupe(Arranged(Filter(sources, MatchesQuery(lowerQuery)), lowerQuery, rank)), SUGGESTION_LIMIT)
  }

  /**
   * The suggestions drawn from `sources`: at most five, none repeated, each
   * containing the query, in the comparator's order; fewer than five only
   * when every matching source is among them, and no matching source left
   * out comes before a chosen one.
   */
  lemma ChosenSpec(sources: seq<string>, lowerQuery: string, rank: string -> int)
    ensures |Chosen(sources, lowerQuery, rank)| <= SUGGESTION_LIMIT
    ensures Distinct(Chosen(sources, lowerQuery, rank)) && Ordered(Chosen(sources, lowerQuery, rank), SuggestionOrder(lowerQuery, rank))
    ensures forall s :: s in Chosen(sources, lowerQuery, rank) ==> s in sources && Contains(Lower(s), lowerQuery)
    ensures |Chosen(sources, lowerQuery, rank)| < SUGGESTION_LIMIT ==>
      forall s :: s in sources && Contains(Lower(s), lowerQuery) ==> s in Chosen(sources, lowerQuery, rank)
    ensures forall c, s ::
      (c in Chosen(sources, lowerQuery, rank) && s in sources && Contains(Lower(s), lowerQuery) &&
       s !in Chosen(sources, lowerQuery, rank)) ==> SuggestionOrder(lowerQuery, rank)(c, s)
  {
    var matches := Filter(sources, MatchesQuery(lowerQuery));
    var arranged := Arranged(matches, lowerQuery, rank);
    FirstDistinctOrdered(arranged, SUGGESTION_LIMIT, SuggestionOrder(lowerQuery, rank));
    FirstDistinctBest(arranged, SUGGESTION_LIMIT, SuggestionOrder(lowerQuery, rank));
    ArrangedMembers(sources, lowerQuery, rank);
    TakeKeeps(Dedupe(arranged), SUGGESTION_LIMIT, SuggestionOrder(lowerQuery, rank));
    forall s | s in sources && Contains(Lower(s), lowerQuery) ensures s in arranged {
      assert s in matches;
      assert s in multiset(arranged);
    }
  }

  lemma ArrangedMembers(sources: seq<string>, lowerQuery: string, rank: string -> int)
    ensures forall s :: s in Dedupe(Arranged(Filter(sources, MatchesQuery(lowerQuery)), lowerQuery, rank)) ==>
      s in sources && Contains(Lower(s), lowerQuery)
  {
    var matches := Filter(sources, MatchesQuery(lowerQuery));
    var arranged := Arranged(matches, lowerQuery, rank);
    forall s | s in Dedupe(arranged) ensures s in sources && Contains(Lower(s), lowerQuery) {
      assert s in multiset(arranged);
      assert s in matches;
    }
  }

  /** What `getSuggestions` returns for the given titles, descriptions and history. */
  function Suggestions(query: string, titles: seq<string>, descriptions: seq<string>, history: seq<string>, rank: string -> int): seq<string> {
    if Trim(query) == [] then []
    else Chosen(titles + Keywords(descriptions) + history, Lower(query), rank)
  }

  /**
   * At most five distinct suggestions, each a title, a keyword or a past
   * search containing the query (ignoring case), those starting with the
   * query first; none for a blank query.
   */
  lemma SuggestionsSpec(query: string, titles: seq<string>, descriptions: seq<string>, history: seq<string>, rank: string -> int)
    ensures Trim(query) == [] ==> Suggestions(query, titles, descriptions, history, rank) == []
    ensures |Suggestions(query, titles, descriptions, history, rank)| <= SUGGESTION_LIMIT
    ensures Distinct(Suggestions(query, titles, descriptions, history, rank))
    ensures forall s :: s in Suggestions(query, titles, descriptions, history, rank) ==>
      s in titles + Keywords(descriptions) + history && Contains(Lower(s), Lower(query))
    ensures Ordered(Suggestions(query, titles, descriptions, history, rank), SuggestionOrder(Lower(query), rank))
    ensures Trim(query) != [] && |Suggestions(query, titles, descriptions, history, rank)| < SUGGESTION_LIMIT ==>
      forall s :: s in titles + Keywords(descriptions) + history && Contains(Lower(s), Lower(query)) ==>
        s in Suggestions(query, titles, descriptions, history, rank)
    ensures Trim(query) != [] ==> forall c, s ::
      (c in Suggestions(query, titles, descriptions, history, rank) && s in titles + Keywords(descriptions) + history &&
       Contains(Lower(s), Lower(query)) && s !in Suggestions(query, titles, descriptions, history, rank)) ==>
        SuggestionOrder(Lower(query), rank)(c, s)
  {
    if Trim(query) != [] {
      ChosenSpec(titles + Keywords(descriptions) + history, Lower(query), rank);
    }
  }

  // ---------------------------------------------------------------------
  // History and popular searches
  // ---------------------------------------------------------------------

  const HISTORY_LIMIT := 10
  const POPULAR_LIMIT := 10

  /** What `getPopularSearches` returns when nothing is stored. */
  const DEFAULT_POPULAR := ["Zesty", "Mobile", "Website", "Design", "Portfolio"]

  function Except(q: string): string -> bool {
    s => s != q
  }

  /**
   * The history after `saveSearchHistory(q)`: `q` first and only there,
   * then the other past searches in their order, ten entries at most.
   */
  function Remembered(history: seq<string>, q: string): (h: seq<string>)
    ensures h != [] && h[0] == q && q !in h[1..]
    ensures |h| <= HISTORY_LIMIT
    ensures IsSubsequence(h[1..], history)
    ensures |h| == if |Filter(history, Except(q))| < HISTORY_LIMIT then |Filter(history, Except(q))| + 1 else HISTORY_LIMIT
  {
    var others := Filter(history, Except(q));
    var h := Take([q] + others, HISTORY_LIMIT);
    assert h[1..] == others[..|h| - 1];
    FilterSubsequence(history, Except(q));
    SubsequencePrefix(others, history, |h| - 1);
    h
  }

  /** The list `getPopularSearches` gives: the stored one, or the defaults. */
  function PopularList(stored: Option<seq<string>>): seq<string> {
    if stored.Some? then stored.value else DEFAULT_POPULAR
  }

  /**
   * The stored popular searches after `updatePopularSearches(q)`: unchanged
   * when `q` is among them; otherwise `q` put in front, ten entries at most.
   */
  function Popularized(stored: Option<seq<string>>, q: string): (s: Option<seq<string>>)
    ensures q in PopularList(stored) ==> s == stored
    ensures q !in PopularList(stored) ==>
      && s.Some? && s.value != [] && s.value[0] == q && s.value[1..] <= PopularList(stored)
      && |s.value| == if |PopularList(stored)| + 1 < POPULAR_LIMIT then |PopularList(stored)| + 1 else POPULAR_LIMIT
    ensures q in PopularList(s)
  {
    var popular := PopularList(stored);
    if q in popular then stored
    else
      var p := Take([q] + popular, POPULAR_LIMIT);
      assert p[1..] == popular[..|p| - 1];
      Some(p)
  }

  /** The two lists kept in browser storage. */
  class SearchStore {
    var history: seq<string>
    var popular: Option<seq<string>>

    constructor ()
      ensures history == [] && popular == None
    {
      history := [];
      popular := None;
    }

    /** `getSearchHistory`. */
    method GetSearchHistory() returns (h: seq<string>)
      ensures h == history
    {
      h := history;
    }

    /** `getPopularSearches`. */
    method GetPopularSearches() returns (p: seq<string>)
      ensures p == PopularList(popular)
    {
      if popular.Some? {
        p := popular.value;
      } else {
        p := DEFAULT_POPULAR;
      }
    }

    /** `clearSearchHistory`. */
    method ClearSearchHistory()
      modifies this
      ensures history == [] && popular == old(popular)
    {
      history := [];
    }

    /** `updatePopularSearches`. */
    method UpdatePopularSearches(q: string)
      modifies this
      ensures popular == Popularized(old(popular), q) && history == old(history)
    {
      var current := GetPopularSearches();
      if q !in current {
        popular := Some(Take([q] + current, POPULAR_LIMIT));
      }
    }

    /** `saveSearchHistory`. */
    method SaveSearchHistory(q: string)
      modifies this
      ensures history == Remembered(old(history), q)
      ensures popular == Popularized(old(popular), q)
    {
      var h := GetSearchHistory();
      var filtered := Filter(h, Except(q));
      history := Take([q] + filtered, HISTORY_LIMIT);
      UpdatePopularSearches(q);
    }

    /**
     * `search`: nothing for a blank query; otherwise the filtered, scored
     * and sorted items, after which the raw query is recorded.
     */
    method Search(query: string, f: SearchFilters, items: seq<SearchItem>, now: int, titleRank: string -> int)
      returns (results: seq<SearchResult>)
      modifies this
      ensures results == SearchResults(query, f, items, now, titleRank)
      ensures Trim(query) == [] ==> history == old(history) && popular == old(popular)
      ensures Trim(query) != [] ==>
        history == Remembered(old(history), query) && popular == Popularized(old(popular), query)
    {
      if Trim(query) == [] {
        return [];
      }
      var normalized := Trim(Lower(query));
      var terms := Filter(Words(normalized), LongerThanOne);
      var filtered := ApplyFilters(items, f);
      var found := TextSearch(filtered, normalized, terms, now);
      results := SortResults(found, f, titleRank);
      SaveSearchHistory(query);
    }

    /** `getSuggestions`, drawing on the stored history. */
    method GetSuggestions(query: string, titles: seq<string>, descriptions: seq<string>, rank: string -> int)
      returns (r: seq<string>)
      ensures r == Suggestions(query, titles, descriptions, history, rank)
    {
      if Trim(query) == [] {
        return [];
      }
      var h := GetSearchHistory();
      r := Chosen(titles + Keywords(descriptions) + h, Lower(query), rank);
    }
  }
}

=== FILE: services_grid_editor.dfy ===
/**
 * The editor of the services grid: the service form's rules, adding,
 * updating and removing services, and reordering them by drag and drop.
 * Each service carries both a displayed `number` (from 1) and an `order`
 * (from 0).
 */
module ServicesGridEditing {
  import opened Wrappers
  import opened Text
  import opened Lists
  import opened FormRules

  /** `ServiceItem`. */
  datatype Service = Service(
    id: string, number: int, title: string, description: string, color: string, colorClass: string, order: int)

  /** `ServiceFormData`. */
  datatype ServiceForm = ServiceForm(title: string, description: string, color: string, colorClass: string)

  /** The form's errors record: at most one error per field. */
  datatype ServiceFormErrors = ServiceFormErrors(title: Option<FieldError>, description: Option<FieldError>) {
    predicate Empty() {
      title.None? && description.None?
    }
  }

  function Ids(services: seq<Service>): seq<string> {
    Map(services, (s: Service) => s.id)
  }

  /** Service k carries the number k + 1 and the order k. */
  predicate Numbered(services: seq<Service>) {
    forall k :: 0 <= k < |services| ==> services[k].number == k + 1 && services[k].order == k
  }

  /**
   * The errors of the service form: a title that is blank or longer
   * than 100 characters, a description that is blank or longer than 200.
   * The lengths are those of the text as typed, not trimmed.
   */
  function FormErrors(form: ServiceForm): (e: ServiceFormErrors)
    ensures e.title == Some(Required) <==> IsBlank(form.title)
    ensures e.title == Some(TooLong(100)) <==> !IsBlank(form.title) && |form.title| > 100
    ensures e.description == Some(Required) <==> IsBlank(form.description)
    ensures e.description == Some(TooLong(200)) <==> !IsBlank(form.description) && |form.description| > 200
    ensures e.Empty() <==> !IsBlank(form.title) && |form.title| <= 100 && !IsBlank(form.description) && |form.description| <= 200
  {
    BlankIffTrimmedEmpty(form.title);
    BlankIffTrimmedEmpty(form.description);
    ServiceFormErrors(RequiredAtMost(form.title, form.title, 100), RequiredAtMost(form.description, form.description, 200))
  }

  /**
   * `validateServiceForm`: fills a fresh errors record field by field and
   * reports whether it stayed empty.
   */
  method ValidateServiceForm(form: ServiceForm) returns (errors: ServiceFormErrors, valid: bool)
    ensures errors == FormErrors(form)
    ensures valid <==> !IsBlank(form.title) && |form.title| <= 100 && !IsBlank(form.description) && |form.description| <= 200
  {
    errors := ServiceFormErrors(None, None);
    if Trim(form.title) == "" {
      errors := errors.(title := Some(Required));
    } else if |form.title| > 100 {
      errors := errors.(title := Some(TooLong(100)));
    }
    if Trim(form.description) == "" {
      errors := errors.(description := Some(Required));
    } else if |form.description| > 200 {
      errors := errors.(description := Some(TooLong(200)));
    }
    valid := errors.Empty();
  }

  /**
   * `handleAddService`: an invalid form is refused; otherwise the service,
   * its texts trimmed, numbered one past the list's length and ordered at
   * its length, is appended.
   */
  function AddService(services: seq<Service>, form: ServiceForm, newId: string): (r: Result<seq<Service>, ServiceFormErrors>)
    ensures r.Err? <==> IsBlank(form.title) || |form.title| > 100 || IsBlank(form.description) || |form.description| > 200
    ensures r.Err? ==> r.error == FormErrors(form)
    ensures r.Ok? ==> |r.value| == |services| + 1 && r.value[..|services|] == services
    ensures r.Ok? ==> var s := r.value[|services|];
      && s.id == newId && s.number == |services| + 1 && s.order == |services|
      && s.title == Trim(form.title) && s.description == Trim(form.description)
      && s.color == form.color && s.colorClass == form.colorClass
  {
    var errors := FormErrors(form);
    if !errors.Empty() then Err(errors)
    else
      Ok(services + [Service(newId, |services| + 1, Trim(form.title), Trim(form.description), form.color, form.colorClass, |services|)])
  }

  lemma AppendKeepsNumbering(services: seq<Service>, s: Service)
    requires Numbered(services) && s.number == |services| + 1 && s.order == |services|
    ensures Numbered(services + [s])
  {
  }

  /** Adding to a numbered grid keeps it numbered. */
  lemma AddServiceKeepsNumbering(services: seq<Service>, form: ServiceForm, newId: string)
    requires Numbered(services) && AddService(services, form, newId).Ok?
    ensures Numbered(AddService(services, form, newId).value)
  {
    var r := AddService(services, form, newId).value;
    assert r == r[..|services|] + [r[|services|]];
    AppendKeepsNumbering(services, r[|services|]);
  }

  /** Why an update is refused: no service is being edited, or the form is invalid. */
  datatype UpdateRefusal = NotEditing | InvalidForm(errors: ServiceFormErrors)

  /**
   * `handleUpdateService`: with a service being edited and a valid form,
   * the services with the edited id get the trimmed title and description
   * and the chosen colour; the id, number and order of every service stay.
   */
  function UpdateService(services: seq<Service>, editingId: Option<string>, form: ServiceForm): (r: Result<seq<Service>, UpdateRefusal>)
    ensures editingId.None? ==> r == Err(NotEditing)
    ensures editingId.Some? ==> (r.Err? <==> !FormErrors(form).Empty())
    ensures r.Ok? ==> |r.value| == |services|
    ensures r.Ok? ==> forall k :: 0 <= k < |services| ==>
      && r.value[k].id == services[k].id && r.value[k].number == services[k].number && r.value[k].order == services[k].order
      && (services[k].id != editingId.value ==> r.value[k] == services[k])
      && (services[k].id == editingId.value ==>
            && r.value[k].title == Trim(form.title) && r.value[k].description == Trim(form.description)
            && r.value[k].color == form.color && r.value[k].colorClass == form.colorClass)
  {
    if editingId.None? then Err(NotEditing)
    else
      var errors := FormErrors(form);
      if !errors.Empty() then Err(InvalidForm(errors))
      else
        Ok(seq(|services|, k requires 0 <= k < |services| =>
          if services[k].id == editingId.value
          then services[k].(title := Trim(form.title), description := Trim(form.description), color := form.color, colorClass := form.colorClass)
          else services[k]))
  }

  /** An update keeps the ids in their places and a numbered grid numbered. */
  lemma UpdateServiceKeeps(services: seq<Service>, editingId: Option<string>, form: ServiceForm)
    requires UpdateService(services, editingId, form).Ok?
    ensures Ids(UpdateService(services, editingId, form).value) == Ids(services)
    ensures Numbered(services) ==> Numbered(UpdateService(services, editingId, form).value)
  {
    var r := UpdateService(services, editingId, form).value;
    MapPointwise(r, services, (s: Service) => s.id);
  }

  /** The `map` that gives service i the number i + 1 and the order i, and keeps the rest. */
  function Renumber(services: seq<Service>): (r: seq<Service>)
    ensures |r| == |services| && Numbered(r)
    ensures forall k :: 0 <= k < |r| ==> r[k].(number := services[k].number, order := services[k].order) == services[k]
  {
    seq(|services|, k requires 0 <= k < |services| => services[k].(number := k + 1, order := k))
  }

  lemma RenumberKeepsIds(services: seq<Service>)
    ensures Ids(Renumber(services)) == Ids(services)
  {
    var r := Renumber(services);
    MapPointwise(r, services, (s: Service) => s.id);
  }

  function OtherThan(serviceId: string): Service -> bool {
    (s: Service) => s.id != serviceId
  }

  /** `handleRemoveService`: the services with that id are dropped and the rest renumbered. */
  function RemoveService(services: seq<Service>, serviceId: string): seq<Service> {
    Renumber(Filter(services, OtherThan(serviceId)))
  }

  /**
   * After a removal no service has that id, the others keep their order
   * and service i has the number i + 1 and the order i; with unique ids,
   * removing a service that exists leaves one fewer.
   */
  lemma RemoveServiceSpec(services: seq<Service>, serviceId: string)
    ensures var r := RemoveService(services, serviceId);
      && serviceId !in Ids(r)
      && Numbered(r)
      && Ids(r) == Ids(Filter(services, OtherThan(serviceId)))
      && (Distinct(Ids(services)) && serviceId in Ids(services) ==> |r| == |services| - 1)
  {
    var kept := Filter(services, OtherThan(serviceId));
    RenumberKeepsIds(kept);
    assert forall k :: 0 <= k < |kept| ==> Ids(kept)[k] != serviceId;
    if Distinct(Ids(services)) && serviceId in Ids(services) {
      var i :| 0 <= i < |services| && Ids(services)[i] == serviceId;
      forall j | 0 <= j < |services| && j != i ensures OtherThan(serviceId)(services[j]) {
        assert Ids(services)[j] != Ids(services)[i];
      }
      FilterDropsOne(services, OtherThan(serviceId), i);
    }
  }

  /** What `handleDrop` leaves: nothing changes without a dragged service or onto its own place. */
  function Dropped(services: seq<Service>, dragIndex: Option<nat>, dropIndex: nat): seq<Service>
    requires dragIndex.Some? ==> dragIndex.value < |services| && dropIndex < |services|
  {
    if dragIndex.None? || dragIndex.value == dropIndex then services
    else Renumber(Move(services, dragIndex.value, dropIndex))
  }

  /**
   * `handleDrop`: copies the grid, splices the dragged service out and back
   * in at the drop index, then renumbers.  Both indices are positions of
   * the displayed grid.
   */
  method HandleDrop(services: seq<Service>, dragIndex: Option<nat>, dropIndex: nat) returns (r: seq<Service>)
    requires dragIndex.Some? ==> dragIndex.value < |services| && dropIndex < |services|
    ensures r == Dropped(services, dragIndex, dropIndex)
  {
    if dragIndex.None? {
      return services;
    }
    if dragIndex.value == dropIndex {
      return services;
    }
    var moved := MoveCopy(services, dragIndex.value, dropIndex);
    r := Renumber(moved);
  }

  /**
   * A drop moves exactly the dragged service: it lands at the drop index,
   * the others keep their relative order, no id is lost or repeated, and
   * the grid is renumbered.  A drop onto the dragged service's own place
   * changes nothing.
   */
  lemma DroppedSpec(services: seq<Service>, dragIndex: nat, dropIndex: nat)
    requires dragIndex < |services| && dropIndex < |services|
    ensures var r := Dropped(services, Some(dragIndex), dropIndex);
      && (dragIndex == dropIndex ==> r == services)
      && (dragIndex != dropIndex ==>
            && Ids(r) == Move(Ids(services), dragIndex, dropIndex)
            && r[dropIndex].id == services[dragIndex].id
            && RemoveAt(Ids(r), dropIndex) == RemoveAt(Ids(services), dragIndex)
            && multiset(Ids(r)) == multiset(Ids(services))
            && Numbered(r))
  {
    if dragIndex != dropIndex {
      var moved := Move(services, dragIndex, dropIndex);
      RenumberKeepsIds(moved);
      MapMove(services, (s: Service) => s.id, dragIndex, dropIndex);
      MoveKeepsOthers(Ids(services), dragIndex, dropIndex);
      MovePermutes(Ids(services), dragIndex, dropIndex);
    }
  }
}

=== FILE: services_validation.dfy ===
/**
 * The services-page content validator of the CMS back end.  Every section
 * of the services page (hero, services grid, skills and video, approach,
 * testimonials, clients, SEO) is checked field by field; findings are
 * split into errors, which make the page invalid, and warnings, which do
 * not.  Messages are left out: an issue is identified by its field path,
 * its section and its code.
 */
module ServicesValidation {
  import opened Wrappers
  import opened Text
  import opened Js

  datatype Section = HeroSection | ServicesSection | SkillsSection | ApproachSection | TestimonialsSection | ClientsSection

  datatype Code =
    | RequiredField
    | MaxLengthExceeded
    | MinLengthWarning
    | InvalidDataFormat
    | InvalidType
    | MinItemsRequired
    | MaxItemsExceeded
    | DuplicateValue
    | InvalidValue
    | InvalidFormat
    | AccessibilityWarning
    | EmptyCollection
    | MissingMedia
    | SeoLengthWarning
    | SeoOptimizationWarning
    | CrossReferenceWarning
    | DesignConsistencyWarning
    | ValidationError

  /** The field names and list names that appear in issue paths; `SeoTitle` is `seo.title`, `Quote` is a testimonial's `text`. */
  datatype FieldName =
    | Data | General | Title | Description | HighlightText | Id | Number | Color | ColorClass | Order | Name | Icon
    | Services | Skills | Steps | Testimonials | Clients
    | VideoUrl | VideoCaption | VideoAutoplay | VideoLoop | VideoMuted | CtaText | CtaUrl
    | Quote | AuthorName | AuthorTitle | AuthorCompany | AuthorAvatar | ProjectName | ProjectImage | ProjectUrl
    | Logo | Industry | IsActive | SeoTitle | SeoDescription | SeoKeywords | SeoOgImage

  /** A field path: `title`, `seo.title`, or `services[2].color` written as `Indexed(Services, 2, Color)`. */
  datatype Path = Field(name: FieldName) | Indexed(list: FieldName, index: nat, name: FieldName)

  datatype Issue = Issue(field: Path, section: Section, code: Code)

  /** The errors and warnings one check pushes, in push order. */
  datatype Report = Report(errors: seq<Issue>, warnings: seq<Issue>)

  datatype ValidationResult = ValidationResult(isValid: bool, errors: seq<Issue>, warnings: seq<Issue>)

  /** A list-valued field: an array, or `undefined`/`null` in its place. */
  datatype ListValue<T> = Absent | Items(items: seq<T>)

  const NoIssues := Report([], [])

  function Error(p: Path, sec: Section, c: Code): Report {
    Report([Issue(p, sec, c)], [])
  }

  function Warning(p: Path, sec: Section, c: Code): Report {
    Report([], [Issue(p, sec, c)])
  }

  /** The findings of one check followed by those of the next. */
  function Then(a: Report, b: Report): Report {
    Report(a.errors + b.errors, a.warnings + b.warnings)
  }

  lemma ThenAssoc(a: Report, b: Report, c: Report)
    ensures Then(Then(a, b), c) == Then(a, Then(b, c))
  {
    assert (a.errors + b.errors) + c.errors == a.errors + (b.errors + c.errors);
    assert (a.warnings + b.warnings) + c.warnings == a.warnings + (b.warnings + c.warnings);
  }

  /**
   * What a `forEach` over a list pushes in its first `k` iterations, when
   * iteration `j` pushes the findings `rs[j]`.
   */
  function Pushed(rs: seq<Report>, k: nat): Report
    requires k <= |rs|
  {
    if k == 0 then NoIssues else Then(Pushed(rs, k - 1), rs[k - 1])
  }

  /** An issue is pushed by the loop exactly when some iteration pushes it. */
  lemma {:induction false} PushedMembers(rs: seq<Report>, k: nat, x: Issue)
    requires k <= |rs|
    ensures x in Pushed(rs, k).errors <==> exists j :: 0 <= j < k && x in rs[j].errors
    ensures x in Pushed(rs, k).warnings <==> exists j :: 0 <= j < k && x in rs[j].warnings
    decreases k
  {
    if k > 0 {
      PushedMembers(rs, k - 1, x);
    }
  }

  /** If every iteration reports only about list elements, so does the loop. */
  lemma {:induction false} PushedIndexed(rs: seq<Report>, k: nat)
    requires k <= |rs|
    requires forall j :: 0 <= j < k ==> AllIndexed(rs[j].errors) && AllIndexed(rs[j].warnings)
    ensures AllIndexed(Pushed(rs, k).errors) && AllIndexed(Pushed(rs, k).warnings)
    decreases k
  {
    if k > 0 {
      PushedIndexed(rs, k - 1);
      AllIndexedAppend(Pushed(rs, k - 1).errors, rs[k - 1].errors);
      AllIndexedAppend(Pushed(rs, k - 1).warnings, rs[k - 1].warnings);
    }
  }

  /** `{ isValid: errors.length === 0, errors, warnings }`. */
  function ToResult(r: Report): (v: ValidationResult)
    ensures v.isValid <==> v.errors == []
    ensures v.errors == r.errors && v.warnings == r.warnings
  {
    ValidationResult(|r.errors| == 0, r.errors, r.warnings)
  }

  // ---------------------------------------------------------------------
  // Formats
  // ---------------------------------------------------------------------

  predicate IsHexDigit(c: char) {
    '0' <= c <= '9' || 'a' <= c <= 'f' || 'A' <= c <= 'F'
  }

  /** `n` hex digits start at position `i` of `t`. */
  predicate HexRun(t: string, i: nat, n: nat) {
    i + n <= |t| && forall k :: i <= k < i + n ==> IsHexDigit(t[k])
  }

  /** `/^#([A-Fa-f0-9]{6}|[A-Fa-f0-9]{3})$/.test(color)`. */
  predicate IsValidHexColor(color: string) {
    (|color| == 7 || |color| == 4) && color[0] == '#' && HexRun(color, 1, |color| - 1)
  }

  /**
   * `isValidUrl`: the string parses as an absolute URL (`new URL(url)`
   * succeeds, given here as `parsesAsUrl`), or it is relative, starting
   * with `/`, `./` or `../`.
   */
  predicate IsValidUrl(url: string, parsesAsUrl: string -> bool) {
    parsesAsUrl(url) || StartsWith(url, "/") || StartsWith(url, "./") || StartsWith(url, "../")
  }

  /** A relative URL is accepted whatever the URL parser says. */
  lemma RelativeUrlsAreValid(url: string, parsesAsUrl: string -> bool)
    requires StartsWith(url, "/") || StartsWith(url, "./") || StartsWith(url, "../")
    ensures IsValidUrl(url, parsesAsUrl)
  {
  }

  /** A string that neither parses nor starts with a relative prefix is rejected. */
  lemma UnparsableAbsoluteUrlsAreInvalid(url: string, parsesAsUrl: string -> bool)
    requires !parsesAsUrl(url) && (url == [] || (url[0] != '/' && url[0] != '.'))
    ensures !IsValidUrl(url, parsesAsUrl)
  {
  }

  /**
   * `text.match(/#([A-Fa-f0-9]{6}|[A-Fa-f0-9]{3})/g) || []` from position
   * `i` on: the leftmost match, trying six digits before three, then the
   * search resumes after it.
   */
  function ColorsFrom(text: string, i: nat): (colors: seq<string>)
    ensures forall k :: 0 <= k < |colors| ==> IsValidHexColor(colors[k])
    decreases |text| - i
  {
    if i >= |text| then []
    else if text[i] == '#' && HexRun(text, i + 1, 6) then
      assert HexRun(text[i..i + 7], 1, 6);
      [text[i..i + 7]] + ColorsFrom(text, i + 7)
    else if text[i] == '#' && HexRun(text, i + 1, 3) then
      assert HexRun(text[i..i + 4], 1, 3);
      [text[i..i + 4]] + ColorsFrom(text, i + 4)
    else ColorsFrom(text, i + 1)
  }

  /** `extractColorsFromText`. */
  function ExtractColors(text: string): seq<string> {
    ColorsFrom(text, 0)
  }

  /** The anchored colour test and the unanchored extraction agree: a valid colour extracts to itself. */
  lemma ExtractValidColor(color: string)
    requires IsValidHexColor(color)
    ensures ExtractColors(color) == [color]
  {
    assert color[0..|color|] == color;
    if |color| == 4 {
      assert !HexRun(color, 1, 6);
      assert ColorsFrom(color, 4) == [];
    } else {
      assert ColorsFrom(color, 7) == [];
    }
  }

  /** `areColorsSimilar`: equal after lower-casing. */
  predicate AreColorsSimilar(c1: string, c2: string) {
    Lower(c1) == Lower(c2)
  }

  /** Colour similarity is an equivalence: reflexive, symmetric and transitive. */
  lemma SimilarityIsEquivalence(a: string, b: string, c: string)
    ensures AreColorsSimilar(a, a)
    ensures AreColorsSimilar(a, b) ==> AreColorsSimilar(b, a)
    ensures AreColorsSimilar(a, b) && AreColorsSimilar(b, c) ==> AreColorsSimilar(a, c)
  {
  }

  // ---------------------------------------------------------------------
  // Field rules shared by the sections
  // ---------------------------------------------------------------------

  /** A required string: missing gives `REQUIRED_FIELD`, longer than `max` an error, shorter than `min` a warning. */
  function TextRule(v: JsValue, p: Path, sec: Section, max: nat, min: nat): (r: Report)
    ensures OneAbout(r.errors, p) && OneAbout(r.warnings, p)
  {
    if MissingText(v) then Error(p, sec, RequiredField)
    else if |v.s| > max then Error(p, sec, MaxLengthExceeded)
    else if |v.s| < min then Warning(p, sec, MinLengthWarning)
    else NoIssues
  }

  /** A required string without a length bound. */
  function PresentTextRule(v: JsValue, p: Path, sec: Section): (r: Report)
    ensures OneAbout(r.errors, p) && OneAbout(r.warnings, p)
  {
    if MissingText(v) then Error(p, sec, RequiredField) else NoIssues
  }

  /** `!v || typeof v !== 'string'` gives `REQUIRED_FIELD` (ids and colour classes). */
  function IdRule(v: JsValue, p: Path, sec: Section): (r: Report)
    ensures OneAbout(r.errors, p) && OneAbout(r.warnings, p)
  {
    if !Truthy(v) || !v.Str? then Error(p, sec, RequiredField) else NoIssues
  }

  /** `typeof v !== 'number' || v < lo` gives `INVALID_VALUE`; NaN passes, as every comparison with it is false. */
  function NumberRule(v: JsValue, p: Path, sec: Section, lo: int): (r: Report)
    ensures OneAbout(r.errors, p) && OneAbout(r.warnings, p)
  {
    if !IsNumber(v) || (v.Num? && v.n < lo) then Error(p, sec, InvalidValue) else NoIssues
  }

  function BoolRule(v: JsValue, p: Path, sec: Section): (r: Report)
    ensures OneAbout(r.errors, p) && OneAbout(r.warnings, p)
  {
    if !v.Bool? then Error(p, sec, InvalidType) else NoIssues
  }

  /** An optional string: present but not a string, or longer than `max`, is an error. */
  function OptionalTextRule(v: JsValue, p: Path, sec: Section, max: nat): (r: Report)
    ensures OneAbout(r.errors, p) && OneAbout(r.warnings, p)
  {
    if Truthy(v) && !v.Str? then Error(p, sec, InvalidType)
    else if Truthy(v) && |v.s| > max then Error(p, sec, MaxLengthExceeded)
    else NoIssues
  }

  /** An optional URL: present but not a string, or not a valid URL, is an error. */
  function OptionalUrlRule(v: JsValue, p: Path, sec: Section, parsesAsUrl: string -> bool): (r: Report)
    ensures OneAbout(r.errors, p) && OneAbout(r.warnings, p)
  {
    if Truthy(v) && !v.Str? then Error(p, sec, InvalidType)
    else if Truthy(v) && !IsValidUrl(v.s, parsesAsUrl) then Error(p, sec, InvalidFormat)
    else NoIssues
  }

  /** A required URL: missing gives `REQUIRED_FIELD`, an invalid one `INVALID_FORMAT`. */
  function RequiredUrlRule(v: JsValue, p: Path, sec: Section, parsesAsUrl: string -> bool): (r: Report)
    ensures OneAbout(r.errors, p) && OneAbout(r.warnings, p)
  {
    if MissingText(v) then Error(p, sec, RequiredField)
    else if !IsValidUrl(v.s, parsesAsUrl) then Error(p, sec, InvalidFormat)
    else NoIssues
  }

  /** An image URL: missing is only a `MISSING_MEDIA` warning, an invalid one an `INVALID_FORMAT` error. */
  function MediaRule(v: JsValue, p: Path, sec: Section, parsesAsUrl: string -> bool): (r: Report)
    ensures OneAbout(r.errors, p) && OneAbout(r.warnings, p)
  {
    if MissingText(v) then Warning(p, sec, MissingMedia)
    else if !IsValidUrl(v.s, parsesAsUrl) then Error(p, sec, InvalidFormat)
    else NoIssues
  }

  /** The rule a field of a list element is checked against. */
  datatype Rule =
    | Required(max: nat, min: nat)  // `TextRule`
    | Present                       // `PresentTextRule`
    | Ident                         // `IdRule`
    | AtLeast(lo: int)              // `NumberRule`
    | Flag                          // `BoolRule`
    | OptionalText(max: nat)        // `OptionalTextRule`
    | OptionalUrl                   // `OptionalUrlRule`
    | RequiredUrl                   // `RequiredUrlRule`
    | Media                         // `MediaRule`
    | HexColor                      // `ColorRule`

  /** One field of a list element, the path it is reported under, and its rule. */
  datatype FieldCheck = FieldCheck(value: JsValue, path: Path, rule: Rule)

  /**
   * One field check.  Whatever it reports is one issue at most, about that
   * field, and never a duplicate; it warns only for a missing image or a
   * string shorter than its minimum.
   */
  function Check(c: FieldCheck, sec: Section, parsesAsUrl: string -> bool): (r: Report)
    ensures OneAbout(r.errors, c.path) && OneAbout(r.warnings, c.path)
    ensures !c.rule.Media? && (c.rule.Required? ==> c.rule.min == 0) ==> r.warnings == []
  {
    match c.rule
    case Required(max, min) => TextRule(c.value, c.path, sec, max, min)
    case Present => PresentTextRule(c.value, c.path, sec)
    case Ident => IdRule(c.value, c.path, sec)
    case AtLeast(lo) => NumberRule(c.value, c.path, sec, lo)
    case Flag => BoolRule(c.value, c.path, sec)
    case OptionalText(max) => OptionalTextRule(c.value, c.path, sec, max)
    case OptionalUrl => OptionalUrlRule(c.value, c.path, sec, parsesAsUrl)
    case RequiredUrl => RequiredUrlRule(c.value, c.path, sec, parsesAsUrl)
    case Media => MediaRule(c.value, c.path, sec, parsesAsUrl)
    case HexColor => ColorRule(c.value, c.path, sec)
  }

  /** At most one issue, about `p`, and not a duplicate. */
  predicate OneAbout(issues: seq<Issue>, p: Path) {
    |issues| <= 1 && (|issues| == 1 ==> issues[0].field == p && issues[0].code != DuplicateValue)
  }

  /** A report about `p` alone says nothing about another path. */
  lemma OnlyAbout(r: Report, p: Path, x: Issue)
    requires OneAbout(r.errors, p) && OneAbout(r.warnings, p) && x.field != p
    ensures x !in r.errors && x !in r.warnings
  {
  }

  /** The report of each field check, in order. */
  function CheckReports(cs: seq<FieldCheck>, sec: Section, parsesAsUrl: string -> bool): seq<Report> {
    seq(|cs|, k requires 0 <= k < |cs| => Check(cs[k], sec, parsesAsUrl))
  }

  /** The field checks of one list element, run in order, each pushing its findings. */
  function Checks(cs: seq<FieldCheck>, sec: Section, parsesAsUrl: string -> bool): Report {
    Pushed(CheckReports(cs, sec, parsesAsUrl), |cs|)
  }

  /** When only check `k` is about its path, the run reports about that path exactly what check `k` reports. */
  lemma ChecksAt(cs: seq<FieldCheck>, sec: Section, parsesAsUrl: string -> bool, k: nat)
    requires k < |cs|
    requires forall j :: 0 <= j < |cs| && j != k ==> cs[j].path != cs[k].path
    ensures forall x: Issue :: x.field == cs[k].path ==>
      (x in Checks(cs, sec, parsesAsUrl).errors <==> x in Check(cs[k], sec, parsesAsUrl).errors)
      && (x in Checks(cs, sec, parsesAsUrl).warnings <==> x in Check(cs[k], sec, parsesAsUrl).warnings)
  {
    var rs := CheckReports(cs, sec, parsesAsUrl);
    forall x: Issue | x.field == cs[k].path
      ensures x in Pushed(rs, |cs|).errors <==> x in rs[k].errors
      ensures x in Pushed(rs, |cs|).warnings <==> x in rs[k].warnings
    {
      PushedMembers(rs, |cs|, x);
      forall j | 0 <= j < |cs| && j != k ensures x !in rs[j].errors && x !in rs[j].warnings {
        OnlyAbout(rs[j], cs[j].path, x);
      }
    }
  }

  /** Every finding of each field check is among the findings of the run. */
  lemma ChecksInclude(cs: seq<FieldCheck>, sec: Section, parsesAsUrl: string -> bool, k: nat)
    requires k < |cs|
    ensures forall x :: x in Check(cs[k], sec, parsesAsUrl).errors ==> x in Checks(cs, sec, parsesAsUrl).errors
    ensures forall x :: x in Check(cs[k], sec, parsesAsUrl).warnings ==> x in Checks(cs, sec, parsesAsUrl).warnings
  {
    var rs := CheckReports(cs, sec, parsesAsUrl);
    forall x | x in rs[k].errors || x in rs[k].warnings
      ensures (x in rs[k].errors ==> x in Pushed(rs, |cs|).errors) && (x in rs[k].warnings ==> x in Pushed(rs, |cs|).warnings)
    {
      PushedMembers(rs, |cs|, x);
    }
  }

  /** The URL parser handed to field checks that have no URL field. */
  predicate NoUrls(url: string) {
    false
  }

  /** The fields of a list element, all reported under element paths. */
  predicate ElementChecks(cs: seq<FieldCheck>) {
    forall k :: 0 <= k < |cs| ==> cs[k].path.Indexed? && !cs[k].rule.Media? && (cs[k].rule.Required? ==> cs[k].rule.min == 0)
  }

  /** A required hex colour: missing gives `REQUIRED_FIELD`, a malformed one `INVALID_FORMAT`. */
  function ColorRule(v: JsValue, p: Path, sec: Section): (r: Report)
    ensures OneAbout(r.errors, p) && OneAbout(r.warnings, p)
  {
    if !Truthy(v) || !v.Str? then Error(p, sec, RequiredField)
    else if !IsValidHexColor(v.s) then Error(p, sec, InvalidFormat)
    else NoIssues
  }

  /** Every issue in `issues` concerns an element of a list. */
  predicate AllIndexed(issues: seq<Issue>) {
    forall k :: 0 <= k < |issues| ==> issues[k].field.Indexed?
  }

  /** No issue in `issues` has the given code. */
  predicate NoneWithCode(issues: seq<Issue>, c: Code) {
    forall k :: 0 <= k < |issues| ==> issues[k].code != c
  }

  /** The findings of one list element's own check: errors only, each about an element, none a duplicate. */
  predicate ElementErrors(r: Report) {
    r.warnings == [] && AllIndexed(r.errors) && NoneWithCode(r.errors, DuplicateValue)
  }

  /** One field check of a list element without an image or a minimum length reports errors only, about the element. */
  lemma CheckElementErrors(c: FieldCheck, sec: Section, parsesAsUrl: string -> bool)
    requires c.path.Indexed? && !c.rule.Media? && (c.rule.Required? ==> c.rule.min == 0)
    ensures ElementErrors(Check(c, sec, parsesAsUrl))
  {
    OneAboutElement(Check(c, sec, parsesAsUrl), c.path);
  }

  /** A report of errors only, all about one list element and none a duplicate, is an element's report. */
  lemma OneAboutElement(r: Report, p: Path)
    requires OneAbout(r.errors, p) && r.warnings == [] && p.Indexed?
    ensures ElementErrors(r)
  {
  }

  lemma ElementErrorsThen(a: Report, b: Report)
    requires ElementErrors(a) && ElementErrors(b)
    ensures ElementErrors(Then(a, b))
  {
    var e := a.errors + b.errors;
    forall k | 0 <= k < |e| ensures e[k].field.Indexed? && e[k].code != DuplicateValue {
      if k >= |a.errors| {
        assert e[k] == b.errors[k - |a.errors|];
      }
    }
  }

  lemma {:induction false} PushedElementErrors(rs: seq<Report>, k: nat)
    requires k <= |rs|
    requires forall j :: 0 <= j < k ==> ElementErrors(rs[j])
    ensures ElementErrors(Pushed(rs, k))
    decreases k
  {
    if k > 0 {
      PushedElementErrors(rs, k - 1);
      ElementErrorsThen(Pushed(rs, k - 1), rs[k - 1]);
    }
  }

  /** The checks of a list element without image fields or minimum lengths report errors only, about the element. */
  lemma ChecksElementErrors(cs: seq<FieldCheck>, sec: Section, parsesAsUrl: string -> bool)
    requires ElementChecks(cs)
    ensures ElementErrors(Checks(cs, sec, parsesAsUrl))
  {
    var rs := CheckReports(cs, sec, parsesAsUrl);
    forall j | 0 <= j < |cs| ensures ElementErrors(rs[j]) {
      CheckElementErrors(cs[j], sec, parsesAsUrl);
    }
    PushedElementErrors(rs, |cs|);
  }

  lemma AllIndexedAppend(a: seq<Issue>, b: seq<Issue>)
    requires AllIndexed(a) && AllIndexed(b)
    ensures AllIndexed(a + b)
  {
  }

  /** An issue carrying a code that none of `issues` carries is not among them. */
  lemma NotInWithoutCode(issues: seq<Issue>, x: Issue)
    requires NoneWithCode(issues, x.code)
    ensures x !in issues
  {
  }

  /** An issue about a whole field is not among issues that are all about list elements. */
  lemma NotInIndexed(issues: seq<Issue>, x: Issue)
    requires AllIndexed(issues) && x.field.Field?
    ensures x !in issues
  {
  }

  // ---------------------------------------------------------------------
  // Hero
  // ---------------------------------------------------------------------

  /** The hero section: anything that is not a plain object is `HeroNotObject`. */
  datatype HeroData = HeroNotObject | Hero(title: JsValue, description: JsValue, highlightText: JsValue)

  function HeroTitleRule(title: JsValue): Report {
    TextRule(title, Field(Title), HeroSection, 200, 10)
  }

  /** `validateHeroSection`. */
  function HeroReport(h: HeroData): Report {
    match h
    case HeroNotObject => Error(Field(Data), HeroSection, InvalidDataFormat)
    case Hero(title, description, highlightText) =>
      Then(HeroTitleRule(title),
      Then(TextRule(description, Field(Description), HeroSection, 1000, 50),
           OptionalTextRule(highlightText, Field(HighlightText), HeroSection, 50)))
  }

  /** A hero that is not an object yields one `INVALID_DATA_FORMAT` error and nothing else. */
  lemma HeroNotObjectOnlyError()
    ensures HeroReport(HeroNotObject) == Report([Issue(Field(Data), HeroSection, InvalidDataFormat)], [])
  {
  }

  /**
   * The hero title yields at most one issue, and exactly one of: a
   * `REQUIRED_FIELD` error (blank), a `MAX_LENGTH_EXCEEDED` error (over
   * 200), a `MIN_LENGTH_WARNING` warning (under 10), or nothing.
   */
  lemma HeroTitleOutcomes(title: JsValue)
    ensures var r := HeroTitleRule(title);
      |r.errors| + |r.warnings| <= 1
      && (r.errors == [Issue(Field(Title), HeroSection, RequiredField)] <==> MissingText(title))
      && (r.errors == [Issue(Field(Title), HeroSection, MaxLengthExceeded)] <==> !MissingText(title) && |title.s| > 200)
      && (r.warnings == [Issue(Field(Title), HeroSection, MinLengthWarning)] <==> !MissingText(title) && |title.s| < 10)
      && (r == NoIssues <==> !MissingText(title) && 10 <= |title.s| <= 200)
  {
  }

  // ---------------------------------------------------------------------
  // Services grid
  // ---------------------------------------------------------------------

  datatype ServiceItem = ServiceItem(id: JsValue, number: JsValue, title: JsValue, description: JsValue,
                                     color: JsValue, colorClass: JsValue, order: JsValue)

  datatype ServicesGridData = ServicesGridData(services: ListValue<ServiceItem>)


  /** The fields `validateServiceItem` checks, in order. */
  function ServiceItemChecks(s: ServiceItem, i: nat): seq<FieldCheck> {
    [FieldCheck(s.id, Indexed(Services, i, Id), Ident),
     FieldCheck(s.number, Indexed(Services, i, Number), AtLeast(1)),
     FieldCheck(s.title, Indexed(Services, i, Title), Required(100, 0)),
     FieldCheck(s.description, Indexed(Services, i, Description), Required(200, 0)),
     FieldCheck(s.color, Indexed(Services, i, Color), HexColor),
     FieldCheck(s.colorClass, Indexed(Services, i, ColorClass), Ident),
     FieldCheck(s.order, Indexed(Services, i, Order), AtLeast(0))]
  }

  /** `validateServiceItem`. */
  function ServiceItemReport(s: ServiceItem, i: nat): Report {
    Checks(ServiceItemChecks(s, i), ServicesSection, NoUrls)
  }

  /** All of a service's findings are errors about element `i`, none of them a duplicate. */
  lemma ServiceItemErrors(s: ServiceItem, i: nat)
    ensures ElementErrors(ServiceItemReport(s, i))
  {
    ChecksElementErrors(ServiceItemChecks(s, i), ServicesSection, NoUrls);
  }

  lemma ServiceItemNoWarnings(s: ServiceItem, i: nat)
    ensures ServiceItemReport(s, i).warnings == []
  {
    ServiceItemErrors(s, i);
  }

  /** A colour that is present but not a 3- or 6-digit hex colour is reported as `INVALID_FORMAT`. */
  lemma BadColorIsInvalidFormat(s: ServiceItem, i: nat)
    requires s.color.Str? && s.color.s != [] && !IsValidHexColor(s.color.s)
    ensures Issue(Indexed(Services, i, Color), ServicesSection, InvalidFormat) in ServiceItemReport(s, i).errors
  {
    ChecksInclude(ServiceItemChecks(s, i), ServicesSection, NoUrls, 4);
  }

  /** Element `i` repeats a truthy colour of an earlier element (`usedColors.has`). */
  predicate DuplicateColorAt(items: seq<ServiceItem>, i: nat)
    requires i < |items|
  {
    Truthy(items[i].color) && exists j :: 0 <= j < i && items[j].color == items[i].color
  }

  /** Element `i` repeats a truthy number of an earlier element (`usedNumbers.has`). */
  predicate DuplicateNumberAt(items: seq<ServiceItem>, i: nat)
    requires i < |items|
  {
    Truthy(items[i].number) && exists j :: 0 <= j < i && items[j].number == items[i].number
  }

  /** What one iteration of the grid's `forEach` pushes. */
  function GridEntry(items: seq<ServiceItem>, i: nat): Report
    requires i < |items|
  {
    Then(ServiceItemReport(items[i], i), GridDuplicatesAt(items, i))
  }

  /** The duplicate colour warning and the duplicate number error for element `i`. */
  function GridDuplicatesAt(items: seq<ServiceItem>, i: nat): Report
    requires i < |items|
  {
    Report(if DuplicateNumberAt(items, i) then [Issue(Indexed(Services, i, Number), ServicesSection, DuplicateValue)] else [],
           if DuplicateColorAt(items, i) then [Issue(Indexed(Services, i, Color), ServicesSection, DuplicateValue)] else [])
  }

  /** Service `j`'s entry reports duplicates at service `i` exactly when `j` is `i` and its colour or number repeats. */
  lemma GridEntryDuplicates(items: seq<ServiceItem>, j: nat, i: nat)
    requires j < |items|
    ensures Issue(Indexed(Services, i, Color), ServicesSection, DuplicateValue) in GridEntry(items, j).warnings
            <==> j == i && DuplicateColorAt(items, i)
    ensures Issue(Indexed(Services, i, Number), ServicesSection, DuplicateValue) in GridEntry(items, j).errors
            <==> j == i && DuplicateNumberAt(items, i)
  {
    ServiceItemErrors(items[j], j);
    NotInWithoutCode(ServiceItemReport(items[j], j).errors, Issue(Indexed(Services, i, Number), ServicesSection, DuplicateValue));
    GridDuplicatesAtMembers(items, j, i);
  }

  /** Element `j`'s duplicate findings concern element `j` only. */
  lemma GridDuplicatesAtMembers(items: seq<ServiceItem>, j: nat, i: nat)
    requires j < |items|
    ensures Issue(Indexed(Services, i, Color), ServicesSection, DuplicateValue) in GridDuplicatesAt(items, j).warnings
            <==> i == j && DuplicateColorAt(items, j)
    ensures Issue(Indexed(Services, i, Number), ServicesSection, DuplicateValue) in GridDuplicatesAt(items, j).errors
            <==> i == j && DuplicateNumberAt(items, j)
  {
  }

  /** What each iteration of the grid's `forEach` pushes. */
  function GridEntries(items: seq<ServiceItem>): seq<Report> {
    seq(|items|, j requires 0 <= j < |items| => GridEntry(items, j))
  }

  function GridCountRule(n: nat): Report {
    if n < 1 then Error(Field(Services), ServicesSection, MinItemsRequired)
    else if n > 5 then Error(Field(Services), ServicesSection, MaxItemsExceeded)
    else NoIssues
  }

  /** `validateServicesGrid`. */
  function GridReport(data: ServicesGridData): Report {
    match data.services
    case Absent => Error(Field(Services), ServicesSection, InvalidType)
    case Items(items) => Then(GridCountRule(|items|), Pushed(GridEntries(items), |items|))
  }

  /** `validateServicesGrid`, with the `usedColors` and `usedNumbers` sets of its loop. */
  method ValidateServicesGrid(data: ServicesGridData) returns (r: ValidationResult)
    ensures r == ToResult(GridReport(data))
  {
    if data.services.Absent? {
      return ToResult(Error(Field(Services), ServicesSection, InvalidType));
    }
    var items := data.services.items;
    var entries := GridLoop(items);
    r := ToResult(Then(GridCountRule(|items|), entries));
  }

  /** The grid's `forEach`: each service's own findings, then its duplicate colour warning and duplicate number error. */
  method GridLoop(items: seq<ServiceItem>) returns (acc: Report)
    ensures acc == Pushed(GridEntries(items), |items|)
  {
    acc := NoIssues;
    var usedColors: set<JsValue> := {};
    var usedNumbers: set<JsValue> := {};
    var i := 0;
    while i < |items|
      invariant 0 <= i <= |items|
      invariant acc == Pushed(GridEntries(items), i)
      invariant UsedColors(items, i, usedColors) && UsedNumbers(items, i, usedNumbers)
    {
      var dups;
      dups, usedColors, usedNumbers := GridDuplicateChecks(items, i, usedColors, usedNumbers);
      var entry := Then(ServiceItemReport(items[i], i), dups);
      GridEntryIs(items, i, dups);
      acc := Then(acc, entry);
      i := i + 1;
    }
  }

  lemma GridEntryIs(items: seq<ServiceItem>, i: nat, dups: Report)
    requires i < |items| && dups == GridDuplicatesAt(items, i)
    ensures GridEntries(items)[i] == Then(ServiceItemReport(items[i], i), dups)
  {
  }

  /** `usedColors` holds the truthy colours of the first `i` services. */
  ghost predicate UsedColors(items: seq<ServiceItem>, i: nat, used: set<JsValue>)
    requires i <= |items|
  {
    forall c :: c in used <==> Truthy(c) && exists j :: 0 <= j < i && items[j].color == c
  }

  /** `usedNumbers` holds the truthy numbers of the first `i` services. */
  ghost predicate UsedNumbers(items: seq<ServiceItem>, i: nat, used: set<JsValue>)
    requires i <= |items|
  {
    forall n :: n in used <==> Truthy(n) && exists j :: 0 <= j < i && items[j].number == n
  }

  /** The duplicate colour and duplicate number checks of service `i`, which then record its colour and number. */
  method GridDuplicateChecks(items: seq<ServiceItem>, i: nat, usedColors: set<JsValue>, usedNumbers: set<JsValue>)
    returns (dups: Report, colors: set<JsValue>, numbers: set<JsValue>)
    requires i < |items| && UsedColors(items, i, usedColors) && UsedNumbers(items, i, usedNumbers)
    ensures dups == GridDuplicatesAt(items, i)
    ensures UsedColors(items, i + 1, colors) && UsedNumbers(items, i + 1, numbers)
  {
    var service := items[i];
    var colorWarnings: seq<Issue> := [];
    var numberErrors: seq<Issue> := [];
    colors, numbers := usedColors, usedNumbers;
    if Truthy(service.color) && service.color in colors {
      colorWarnings := [Issue(Indexed(Services, i, Color), ServicesSection, DuplicateValue)];
    } else if Truthy(service.color) {
      colors := colors + {service.color};
    }
    if Truthy(service.number) && service.number in numbers {
      numberErrors := [Issue(Indexed(Services, i, Number), ServicesSection, DuplicateValue)];
    } else if Truthy(service.number) {
      numbers := numbers + {service.number};
    }
    dups := Report(numberErrors, colorWarnings);
  }

  /** A grid with no service or more than five yields exactly one count error, the first error of the section. */
  lemma GridCountError(items: seq<ServiceItem>)
    ensures var r := GridReport(ServicesGridData(Items(items)));
      (|items| < 1 ==> r.errors[0] == Issue(Field(Services), ServicesSection, MinItemsRequired))
      && (|items| > 5 ==> r.errors[0] == Issue(Field(Services), ServicesSection, MaxItemsExceeded))
      && CountField(r.errors, Field(Services)) == (if |items| < 1 || |items| > 5 then 1 else 0)
  {
    GridIndexed(items);
    CountFieldAppend(GridCountRule(|items|).errors, Pushed(GridEntries(items), |items|).errors, Field(Services));
  }

  /** The number of issues about the given path. */
  function CountField(issues: seq<Issue>, p: Path): nat
  {
    if issues == [] then 0 else (if issues[0].field == p then 1 else 0) + CountField(issues[1..], p)
  }

  lemma {:induction false} CountFieldAppend(a: seq<Issue>, b: seq<Issue>, p: Path)
    ensures CountField(a + b, p) == CountField(a, p) + CountField(b, p)
    decreases |a|
  {
    if a == [] {
      assert a + b == b;
    } else {
      assert (a + b)[1..] == a[1..] + b;
      CountFieldAppend(a[1..], b, p);
    }
  }

  lemma {:induction false} CountFieldIndexed(issues: seq<Issue>, name: FieldName)
    requires AllIndexed(issues)
    ensures CountField(issues, Field(name)) == 0
    decreases |issues|
  {
    if issues != [] {
      CountFieldIndexed(issues[1..], name);
    }
  }

  /** Everything the grid's loop pushes is about a service, never about the whole list. */
  lemma GridIndexed(items: seq<ServiceItem>)
    ensures AllIndexed(Pushed(GridEntries(items), |items|).errors)
    ensures CountField(Pushed(GridEntries(items), |items|).errors, Field(Services)) == 0
  {
    var rs := GridEntries(items);
    forall j | 0 <= j < |items| ensures AllIndexed(rs[j].errors) && AllIndexed(rs[j].warnings) {
      ServiceItemErrors(items[j], j);
      AllIndexedAppend(ServiceItemReport(items[j], j).errors, GridDuplicatesAt(items, j).errors);
      AllIndexedAppend(ServiceItemReport(items[j], j).warnings, GridDuplicatesAt(items, j).warnings);
    }
    PushedIndexed(rs, |items|);
    CountFieldIndexed(Pushed(rs, |items|).errors, Services);
  }

  /**
   * The grid warns `DUPLICATE_VALUE` at `services[i].color` exactly when
   * element `i` repeats the truthy colour of an earlier element, and
   * reports a `DUPLICATE_VALUE` error at `services[i].number` exactly when
   * it repeats a truthy number.
   */
  lemma GridDuplicates(items: seq<ServiceItem>, i: nat)
    requires i < |items|
    ensures var r := GridReport(ServicesGridData(Items(items)));
      (Issue(Indexed(Services, i, Color), ServicesSection, DuplicateValue) in r.warnings <==> DuplicateColorAt(items, i))
      && (Issue(Indexed(Services, i, Number), ServicesSection, DuplicateValue) in r.errors <==> DuplicateNumberAt(items, i))
  {
    var rs := GridEntries(items);
    var color := Issue(Indexed(Services, i, Color), ServicesSection, DuplicateValue);
    var number := Issue(Indexed(Services, i, Number), ServicesSection, DuplicateValue);
    PushedMembers(rs, |items|, color);
    PushedMembers(rs, |items|, number);
    forall j | 0 <= j < |items|
      ensures color in rs[j].warnings <==> j == i && DuplicateColorAt(items, i)
      ensures number in rs[j].errors <==> j == i && DuplicateNumberAt(items, i)
    {
      GridEntryDuplicates(items, j, i);
    }
    assert color in rs[i].warnings <==> DuplicateColorAt(items, i);
    assert number in rs[i].errors <==> DuplicateNumberAt(items, i);
  }

  // ---------------------------------------------------------------------
  // Skills and video
  // ---------------------------------------------------------------------

  datatype SkillItem = SkillItem(id: JsValue, name: JsValue, order: JsValue)

  datatype VideoData = VideoData(url: JsValue, caption: JsValue, autoplay: JsValue, loop: JsValue, muted: JsValue)

  datatype SkillsVideoData = SkillsVideoData(description: JsValue, skills: ListValue<SkillItem>, ctaText: JsValue,
                                             ctaUrl: JsValue, video: VideoData)

  /** `validateSkillItem`. */
  function SkillItemReport(s: SkillItem, i: nat): Report {
    Checks([FieldCheck(s.id, Indexed(Skills, i, Id), Ident),
            FieldCheck(s.name, Indexed(Skills, i, Name), Required(50, 0)),
            FieldCheck(s.order, Indexed(Skills, i, Order), AtLeast(0))],
           SkillsSection, NoUrls)
  }

  lemma SkillItemErrors(s: SkillItem, i: nat)
    ensures ElementErrors(SkillItemReport(s, i))
  {
    ChecksElementErrors([FieldCheck(s.id, Indexed(Skills, i, Id), Ident),
                         FieldCheck(s.name, Indexed(Skills, i, Name), Required(50, 0)),
                         FieldCheck(s.order, Indexed(Skills, i, Order), AtLeast(0))],
                        SkillsSection, NoUrls);
  }

  /** What each iteration of the skills' `forEach` pushes. */
  function SkillEntries(items: seq<SkillItem>): seq<Report> {
    seq(|items|, j requires 0 <= j < |items| => SkillItemReport(items[j], j))
  }

  function SkillsCountRule(n: nat): Report {
    if n < 5 then Error(Field(Skills), SkillsSection, MinItemsRequired)
    else if n > 20 then Error(Field(Skills), SkillsSection, MaxItemsExceeded)
    else NoIssues
  }

  function SkillsListReport(skills: ListValue<SkillItem>): Report {
    match skills
    case Absent => Error(Field(Skills), SkillsSection, InvalidType)
    case Items(items) => Then(SkillsCountRule(|items|), Pushed(SkillEntries(items), |items|))
  }

  /** `validateVideoData`: a missing caption is an accessibility warning, a long one an error. */
  function VideoReport(v: VideoData, parsesAsUrl: string -> bool): Report {
    Then(RequiredUrlRule(v.url, Field(VideoUrl), SkillsSection, parsesAsUrl),
    Then(if MissingText(v.caption) then Warning(Field(VideoCaption), SkillsSection, AccessibilityWarning)
         else if |v.caption.s| > 200 then Error(Field(VideoCaption), SkillsSection, MaxLengthExceeded)
         else NoIssues,
    Then(BoolRule(v.autoplay, Field(VideoAutoplay), SkillsSection),
    Then(BoolRule(v.loop, Field(VideoLoop), SkillsSection),
         BoolRule(v.muted, Field(VideoMuted), SkillsSection)))))
  }

  /** `validateSkillsVideo`. */
  function SkillsVideoReport(d: SkillsVideoData, parsesAsUrl: string -> bool): Report {
    Then(Then(Then(Then(TextRule(d.description, Field(Description), SkillsSection, 500, 0),
                        SkillsListReport(d.skills)),
                   PresentTextRule(d.ctaText, Field(CtaText), SkillsSection)),
              RequiredUrlRule(d.ctaUrl, Field(CtaUrl), SkillsSection, parsesAsUrl)),
         VideoReport(d.video, parsesAsUrl))
  }

  method ValidateSkillsVideo(d: SkillsVideoData, parsesAsUrl: string -> bool) returns (r: ValidationResult)
    ensures r == ToResult(SkillsVideoReport(d, parsesAsUrl))
  {
    var acc := TextRule(d.description, Field(Description), SkillsSection, 500, 0);
    var skills := ValidateSkillsList(d.skills);
    acc := Then(acc, skills);
    acc := Then(acc, PresentTextRule(d.ctaText, Field(CtaText), SkillsSection));
    acc := Then(acc, RequiredUrlRule(d.ctaUrl, Field(CtaUrl), SkillsSection, parsesAsUrl));
    acc := Then(acc, VideoReport(d.video, parsesAsUrl));
    r := ToResult(acc);
  }

  /** The skills array check and the `forEach` over its entries. */
  method ValidateSkillsList(skills: ListValue<SkillItem>) returns (acc: Report)
    ensures acc == SkillsListReport(skills)
  {
    if skills.Absent? {
      return Error(Field(Skills), SkillsSection, InvalidType);
    }
    var items := skills.items;
    acc := SkillsCountRule(|items|);
    var i := 0;
    while i < |items|
      invariant 0 <= i <= |items|
      invariant acc == Then(SkillsCountRule(|items|), Pushed(SkillEntries(items), i))
    {
      var item := SkillItemReport(items[i], i);
      assert SkillEntries(items)[i] == item;
      ThenAssoc(SkillsCountRule(|items|), Pushed(SkillEntries(items), i), item);
      acc := Then(acc, item);
      i := i + 1;
    }
  }

  /** The skills list must hold 5 to 20 entries: outside that range its first finding is the count error. */
  lemma SkillsCountBounds(items: seq<SkillItem>)
    ensures var r := SkillsListReport(Items(items));
      (|items| < 5 ==> r.errors[0] == Issue(Field(Skills), SkillsSection, MinItemsRequired))
      && (|items| > 20 ==> r.errors[0] == Issue(Field(Skills), SkillsSection, MaxItemsExceeded))
      && CountField(r.errors, Field(Skills)) == (if |items| < 5 || |items| > 20 then 1 else 0)
  {
    SkillsIndexed(items);
    CountFieldAppend(SkillsCountRule(|items|).errors, Pushed(SkillEntries(items), |items|).errors, Field(Skills));
  }

  lemma SkillsIndexed(items: seq<SkillItem>)
    ensures CountField(Pushed(SkillEntries(items), |items|).errors, Field(Skills)) == 0
  {
    var rs := SkillEntries(items);
    forall j | 0 <= j < |items| ensures AllIndexed(rs[j].errors) && AllIndexed(rs[j].warnings) {
      SkillItemErrors(items[j], j);
    }
    PushedIndexed(rs, |items|);
    CountFieldIndexed(Pushed(rs, |items|).errors, Skills);
  }

  // ---------------------------------------------------------------------
  // Approach
  // ---------------------------------------------------------------------

  datatype ApproachStep = ApproachStep(id: JsValue, number: JsValue, title: JsValue, description: JsValue,
                                       icon: JsValue, order: JsValue)

  datatype ApproachData = ApproachData(description: JsValue, steps: ListValue<ApproachStep>)

  /** The fields `validateApproachStep` checks, in order. */
  function StepChecks(s: ApproachStep, i: nat): seq<FieldCheck> {
    [FieldCheck(s.id, Indexed(Steps, i, Id), Ident),
     FieldCheck(s.number, Indexed(Steps, i, Number), AtLeast(1)),
     FieldCheck(s.title, Indexed(Steps, i, Title), Required(100, 0)),
     FieldCheck(s.description, Indexed(Steps, i, Description), Required(300, 0)),
     FieldCheck(s.icon, Indexed(Steps, i, Icon), OptionalUrl),
     FieldCheck(s.order, Indexed(Steps, i, Order), AtLeast(0))]
  }

  /** `validateApproachStep`. */
  function StepReport(s: ApproachStep, i: nat, parsesAsUrl: string -> bool): Report {
    Checks(StepChecks(s, i), ApproachSection, parsesAsUrl)
  }

  /** All of a step's findings are errors about step `i`, none of them a duplicate. */
  lemma StepErrors(s: ApproachStep, i: nat, parsesAsUrl: string -> bool)
    ensures ElementErrors(StepReport(s, i, parsesAsUrl))
  {
    ChecksElementErrors(StepChecks(s, i), ApproachSection, parsesAsUrl);
  }

  /** Step `i` repeats a truthy number of an earlier step. */
  predicate DuplicateStepNumberAt(steps: seq<ApproachStep>, i: nat)
    requires i < |steps|
  {
    Truthy(steps[i].number) && exists j :: 0 <= j < i && steps[j].number == steps[i].number
  }

  /** The duplicate number error for step `i`. */
  function StepDuplicateAt(steps: seq<ApproachStep>, i: nat): Report
    requires i < |steps|
  {
    if DuplicateStepNumberAt(steps, i) then Error(Indexed(Steps, i, Number), ApproachSection, DuplicateValue) else NoIssues
  }

  /** What one iteration of the steps' `forEach` pushes. */
  function StepEntry(steps: seq<ApproachStep>, i: nat, parsesAsUrl: string -> bool): Report
    requires i < |steps|
  {
    Then(StepReport(steps[i], i, parsesAsUrl), StepDuplicateAt(steps, i))
  }

  /** Step `j`'s entry reports a duplicate number at step `i` exactly when `j` is `i` and its number repeats. */
  lemma StepEntryDuplicates(steps: seq<ApproachStep>, j: nat, i: nat, parsesAsUrl: string -> bool)
    requires j < |steps|
    ensures Issue(Indexed(Steps, i, Number), ApproachSection, DuplicateValue) in StepEntry(steps, j, parsesAsUrl).errors
            <==> j == i && DuplicateStepNumberAt(steps, i)
  {
    StepErrors(steps[j], j, parsesAsUrl);
    NotInWithoutCode(StepReport(steps[j], j, parsesAsUrl).errors, Issue(Indexed(Steps, i, Number), ApproachSection, DuplicateValue));
  }

  /** `usedNumbers` holds the truthy numbers of the first `i` steps. */
  ghost predicate UsedStepNumbers(steps: seq<ApproachStep>, i: nat, used: set<JsValue>)
    requires i <= |steps|
  {
    forall n :: n in used <==> Truthy(n) && exists j :: 0 <= j < i && steps[j].number == n
  }

  /** The duplicate number check of step `i`, which then records its number. */
  method StepDuplicateCheck(steps: seq<ApproachStep>, i: nat, usedNumbers: set<JsValue>)
    returns (duplicate: Report, numbers: set<JsValue>)
    requires i < |steps| && UsedStepNumbers(steps, i, usedNumbers)
    ensures duplicate == StepDuplicateAt(steps, i)
    ensures UsedStepNumbers(steps, i + 1, numbers)
  {
    var step := steps[i];
    duplicate, numbers := NoIssues, usedNumbers;
    if Truthy(step.number) && step.number in numbers {
      duplicate := Error(Indexed(Steps, i, Number), ApproachSection, DuplicateValue);
    } else if Truthy(step.number) {
      numbers := numbers + {step.number};
    }
  }

  /** What each iteration of the steps' `forEach` pushes. */
  function StepEntries(steps: seq<ApproachStep>, parsesAsUrl: string -> bool): seq<Report> {
    seq(|steps|, j requires 0 <= j < |steps| => StepEntry(steps, j, parsesAsUrl))
  }

  function StepsCountRule(n: nat): Report {
    if n < 3 then Error(Field(Steps), ApproachSection, MinItemsRequired)
    else if n > 6 then Error(Field(Steps), ApproachSection, MaxItemsExceeded)
    else NoIssues
  }

  /** `validateApproach`. */
  function ApproachReport(d: ApproachData, parsesAsUrl: string -> bool): Report {
    Then(OptionalTextRule(d.description, Field(Description), ApproachSection, 500), StepsListReport(d.steps, parsesAsUrl))
  }

  function StepsListReport(steps: ListValue<ApproachStep>, parsesAsUrl: string -> bool): Report {
    match steps
    case Absent => Error(Field(Steps), ApproachSection, InvalidType)
    case Items(items) => Then(StepsCountRule(|items|), Pushed(StepEntries(items, parsesAsUrl), |items|))
  }

  method ValidateApproach(d: ApproachData, parsesAsUrl: string -> bool) returns (r: ValidationResult)
    ensures r == ToResult(ApproachReport(d, parsesAsUrl))
  {
    var head := OptionalTextRule(d.description, Field(Description), ApproachSection, 500);
    if d.steps.Absent? {
      return ToResult(Then(head, Error(Field(Steps), ApproachSection, InvalidType)));
    }
    var steps := d.steps.items;
    var entries := StepsLoop(steps, parsesAsUrl);
    r := ToResult(Then(head, Then(StepsCountRule(|steps|), entries)));
  }

  /** The steps' `forEach`: each step's own findings, then its duplicate number error. */
  method StepsLoop(steps: seq<ApproachStep>, parsesAsUrl: string -> bool) returns (acc: Report)
    ensures acc == Pushed(StepEntries(steps, parsesAsUrl), |steps|)
  {
    acc := NoIssues;
    var usedNumbers: set<JsValue> := {};
    var i := 0;
    while i < |steps|
      invariant 0 <= i <= |steps|
      invariant acc == Pushed(StepEntries(steps, parsesAsUrl), i)
      invariant UsedStepNumbers(steps, i, usedNumbers)
    {
      var duplicate;
      duplicate, usedNumbers := StepDuplicateCheck(steps, i, usedNumbers);
      assert StepEntries(steps, parsesAsUrl)[i] == Then(StepReport(steps[i], i, parsesAsUrl), duplicate);
      acc := Then(acc, Then(StepReport(steps[i], i, parsesAsUrl), duplicate));
      i := i + 1;
    }
  }

  /** The steps list must hold 3 to 6 entries: outside that range there is exactly one count error. */
  lemma StepsCountBounds(steps: seq<ApproachStep>, description: JsValue, parsesAsUrl: string -> bool)
    ensures var r := ApproachReport(ApproachData(description, Items(steps)), parsesAsUrl);
      CountField(r.errors, Field(Steps)) == (if |steps| < 3 || |steps| > 6 then 1 else 0)
      && (|steps| < 3 <==> Issue(Field(Steps), ApproachSection, MinItemsRequired) in r.errors)
      && (|steps| > 6 <==> Issue(Field(Steps), ApproachSection, MaxItemsExceeded) in r.errors)
  {
    var head := OptionalTextRule(description, Field(Description), ApproachSection, 500);
    var entries := Pushed(StepEntries(steps, parsesAsUrl), |steps|);
    StepsIndexed(steps, parsesAsUrl);
    CountFieldAppend(StepsCountRule(|steps|).errors, entries.errors, Field(Steps));
    CountFieldAppend(head.errors, StepsCountRule(|steps|).errors + entries.errors, Field(Steps));
    var count := StepsCountRule(|steps|).errors;
    var r := ApproachReport(ApproachData(description, Items(steps)), parsesAsUrl);
    assert r.errors == head.errors + (count + entries.errors);
    NotInIndexed(entries.errors, Issue(Field(Steps), ApproachSection, MinItemsRequired));
    NotInIndexed(entries.errors, Issue(Field(Steps), ApproachSection, MaxItemsExceeded));
  }

  lemma StepsIndexed(steps: seq<ApproachStep>, parsesAsUrl: string -> bool)
    ensures AllIndexed(Pushed(StepEntries(steps, parsesAsUrl), |steps|).errors)
    ensures CountField(Pushed(StepEntries(steps, parsesAsUrl), |steps|).errors, Field(Steps)) == 0
  {
    var rs := StepEntries(steps, parsesAsUrl);
    forall j | 0 <= j < |steps| ensures AllIndexed(rs[j].errors) && AllIndexed(rs[j].warnings) {
      StepErrors(steps[j], j, parsesAsUrl);
    }
    PushedIndexed(rs, |steps|);
    CountFieldIndexed(Pushed(rs, |steps|).errors, Steps);
  }

  /** A `DUPLICATE_VALUE` error is reported at `steps[i].number` exactly when step `i` repeats an earlier truthy number. */
  lemma StepDuplicates(d: ApproachData, i: nat, parsesAsUrl: string -> bool)
    requires d.steps.Items? && i < |d.steps.items|
    ensures Issue(Indexed(Steps, i, Number), ApproachSection, DuplicateValue) in ApproachReport(d, parsesAsUrl).errors
            <==> DuplicateStepNumberAt(d.steps.items, i)
  {
    var steps := d.steps.items;
    var rs := StepEntries(steps, parsesAsUrl);
    var number := Issue(Indexed(Steps, i, Number), ApproachSection, DuplicateValue);
    PushedMembers(rs, |steps|, number);
    forall j | 0 <= j < |steps| ensures number in rs[j].errors <==> j == i && DuplicateStepNumberAt(steps, i) {
      StepEntryDuplicates(steps, j, i, parsesAsUrl);
    }
    assert number in rs[i].errors <==> DuplicateStepNumberAt(steps, i);
  }

  // ---------------------------------------------------------------------
  // Testimonials
  // ---------------------------------------------------------------------

  datatype Author = Author(name: JsValue, title: JsValue, company: JsValue, avatar: JsValue)

  datatype Project = Project(name: JsValue, image: JsValue, url: JsValue)

  datatype Testimonial = Testimonial(id: JsValue, text: JsValue, author: Author, project: Project, order: JsValue)

  datatype TestimonialsData = TestimonialsData(testimonials: ListValue<Testimonial>)

  /** The fields `validateTestimonialAuthor` checks: a missing avatar is a warning, an invalid one an error. */
  function AuthorChecks(a: Author, i: nat): seq<FieldCheck> {
    [FieldCheck(a.name, Indexed(Testimonials, i, AuthorName), Required(100, 0)),
     FieldCheck(a.title, Indexed(Testimonials, i, AuthorTitle), Required(150, 0)),
     FieldCheck(a.company, Indexed(Testimonials, i, AuthorCompany), Required(100, 0)),
     FieldCheck(a.avatar, Indexed(Testimonials, i, AuthorAvatar), Media)]
  }

  /** The fields `validateTestimonialProject` checks. */
  function ProjectChecks(p: Project, i: nat): seq<FieldCheck> {
    [FieldCheck(p.name, Indexed(Testimonials, i, ProjectName), Required(100, 0)),
     FieldCheck(p.image, Indexed(Testimonials, i, ProjectImage), Media),
     FieldCheck(p.url, Indexed(Testimonials, i, ProjectUrl), OptionalUrl)]
  }

  /** The fields `validateTestimonial` checks, the author's and the project's pushed between the text and the order. */
  function TestimonialChecks(t: Testimonial, i: nat): seq<FieldCheck> {
    [FieldCheck(t.id, Indexed(Testimonials, i, Id), Ident),
     FieldCheck(t.text, Indexed(Testimonials, i, Quote), Required(1000, 20))]
    + AuthorChecks(t.author, i) + ProjectChecks(t.project, i)
    + [FieldCheck(t.order, Indexed(Testimonials, i, Order), AtLeast(0))]
  }

  /** `validateTestimonial`. */
  function TestimonialReport(t: Testimonial, i: nat, parsesAsUrl: string -> bool): Report {
    Checks(TestimonialChecks(t, i), TestimonialsSection, parsesAsUrl)
  }

  /** What each iteration of the testimonials' `forEach` pushes. */
  function TestimonialEntries(items: seq<Testimonial>, parsesAsUrl: string -> bool): seq<Report> {
    seq(|items|, j requires 0 <= j < |items| => TestimonialReport(items[j], j, parsesAsUrl))
  }

  /** The testimonials list bounds: more than ten is an error, none only a warning. */
  function TestimonialsCountRule(n: nat): Report {
    Then(if n > 10 then Error(Field(Testimonials), TestimonialsSection, MaxItemsExceeded) else NoIssues,
         if n == 0 then Warning(Field(Testimonials), TestimonialsSection, EmptyCollection) else NoIssues)
  }

  /** `validateTestimonials`. */
  function TestimonialsReport(d: TestimonialsData, parsesAsUrl: string -> bool): Report {
    match d.testimonials
    case Absent => Error(Field(Testimonials), TestimonialsSection, InvalidType)
    case Items(items) => Then(TestimonialsCountRule(|items|), Pushed(TestimonialEntries(items, parsesAsUrl), |items|))
  }

  method ValidateTestimonials(d: TestimonialsData, parsesAsUrl: string -> bool) returns (r: ValidationResult)
    ensures r == ToResult(TestimonialsReport(d, parsesAsUrl))
  {
    if d.testimonials.Absent? {
      return ToResult(Error(Field(Testimonials), TestimonialsSection, InvalidType));
    }
    var items := d.testimonials.items;
    var acc := TestimonialsCountRule(|items|);
    var i := 0;
    while i < |items|
      invariant 0 <= i <= |items|
      invariant acc == Then(TestimonialsCountRule(|items|), Pushed(TestimonialEntries(items, parsesAsUrl), i))
    {
      var item := TestimonialReport(items[i], i, parsesAsUrl);
      assert TestimonialEntries(items, parsesAsUrl)[i] == item;
      ThenAssoc(TestimonialsCountRule(|items|), Pushed(TestimonialEntries(items, parsesAsUrl), i), item);
      acc := Then(acc, item);
      i := i + 1;
    }
    r := ToResult(acc);
  }

  /** An empty testimonials list is valid and carries exactly one `EMPTY_COLLECTION` warning. */
  lemma EmptyTestimonials(parsesAsUrl: string -> bool)
    ensures TestimonialsReport(TestimonialsData(Items([])), parsesAsUrl)
            == Report([], [Issue(Field(Testimonials), TestimonialsSection, EmptyCollection)])
  {
  }

  /** More than ten testimonials make `MAX_ITEMS_EXCEEDED` the first error of the section. */
  lemma TooManyTestimonials(items: seq<Testimonial>, parsesAsUrl: string -> bool)
    requires |items| > 10
    ensures var r := TestimonialsReport(TestimonialsData(Items(items)), parsesAsUrl);
      r.errors != [] && r.errors[0] == Issue(Field(Testimonials), TestimonialsSection, MaxItemsExceeded)
  {
  }

  /** A missing avatar is only a warning; an avatar that is not a valid URL is an error. */
  lemma AvatarRule(t: Testimonial, i: nat, parsesAsUrl: string -> bool)
    ensures var p := Indexed(Testimonials, i, AuthorAvatar);
      var a := t.author;
      var r := TestimonialReport(t, i, parsesAsUrl);
      (MissingText(a.avatar) ==> Issue(p, TestimonialsSection, MissingMedia) in r.warnings
                                 && Issue(p, TestimonialsSection, InvalidFormat) !in r.errors)
      && (!MissingText(a.avatar) && !IsValidUrl(a.avatar.s, parsesAsUrl) ==> Issue(p, TestimonialsSection, InvalidFormat) in r.errors)
  {
    var cs := TestimonialChecks(t, i);
    var p := Indexed(Testimonials, i, AuthorAvatar);
    assert cs[5] == FieldCheck(t.author.avatar, p, Media);
    assert forall j :: 0 <= j < |cs| && j != 5 ==> cs[j].path != p;
    ChecksAt(cs, TestimonialsSection, parsesAsUrl, 5);
  }

  // ---------------------------------------------------------------------
  // Clients
  // ---------------------------------------------------------------------

  datatype ClientItem = ClientItem(id: JsValue, name: JsValue, logo: JsValue, description: JsValue,
                                   industry: JsValue, order: JsValue, isActive: JsValue)

  datatype ClientsData = ClientsData(clients: ListValue<ClientItem>)

  /** `validateClientItem`. */
  function ClientItemReport(c: ClientItem, i: nat, parsesAsUrl: string -> bool): Report {
    Checks([FieldCheck(c.id, Indexed(Clients, i, Id), Ident),
            FieldCheck(c.name, Indexed(Clients, i, Name), Required(100, 0)),
            FieldCheck(c.logo, Indexed(Clients, i, Logo), Media),
            FieldCheck(c.description, Indexed(Clients, i, Description), Required(300, 0)),
            FieldCheck(c.industry, Indexed(Clients, i, Industry), Required(50, 0)),
            FieldCheck(c.order, Indexed(Clients, i, Order), AtLeast(0)),
            FieldCheck(c.isActive, Indexed(Clients, i, IsActive), Flag)],
           ClientsSection, parsesAsUrl)
  }

  /** What each iteration of the clients' `forEach` pushes. */
  function ClientEntries(items: seq<ClientItem>, parsesAsUrl: string -> bool): seq<Report> {
    seq(|items|, j requires 0 <= j < |items| => ClientItemReport(items[j], j, parsesAsUrl))
  }

  /** `validateClients`. */
  function ClientsReport(d: ClientsData, parsesAsUrl: string -> bool): Report {
    match d.clients
    case Absent => Error(Field(Clients), ClientsSection, InvalidType)
    case Items(items) => Then(ClientsCountRule(|items|), Pushed(ClientEntries(items, parsesAsUrl), |items|))
  }

  /** An empty clients list is only a warning. */
  function ClientsCountRule(n: nat): Report {
    if n == 0 then Warning(Field(Clients), ClientsSection, EmptyCollection) else NoIssues
  }

  method ValidateClients(d: ClientsData, parsesAsUrl: string -> bool) returns (r: ValidationResult)
    ensures r == ToResult(ClientsReport(d, parsesAsUrl))
  {
    if d.clients.Absent? {
      return ToResult(Error(Field(Clients), ClientsSection, InvalidType));
    }
    var items := d.clients.items;
    var acc := ClientsCountRule(|items|);
    var i := 0;
    while i < |items|
      invariant 0 <= i <= |items|
      invariant acc == Then(ClientsCountRule(|items|), Pushed(ClientEntries(items, parsesAsUrl), i))
    {
      var item := ClientItemReport(items[i], i, parsesAsUrl);
      assert ClientEntries(items, parsesAsUrl)[i] == item;
      ThenAssoc(ClientsCountRule(|items|), Pushed(ClientEntries(items, parsesAsUrl), i), item);
      acc := Then(acc, item);
      i := i + 1;
    }
    r := ToResult(acc);
  }

  // ---------------------------------------------------------------------
  // SEO
  // ---------------------------------------------------------------------

  datatype SeoData = SeoData(title: JsValue, description: JsValue, keywords: ListValue<JsValue>, ogImage: JsValue)

  /** An SEO text: missing is an error, too long or too short only a `SEO_LENGTH_WARNING`. */
  function SeoTextRule(v: JsValue, p: Path, max: nat, min: nat): Report {
    if MissingText(v) then Error(p, HeroSection, RequiredField)
    else if |v.s| > max then Warning(p, HeroSection, SeoLengthWarning)
    else if |v.s| < min then Warning(p, HeroSection, SeoLengthWarning)
    else NoIssues
  }

  /** `validateSEO`: every finding is filed under the hero section. */
  function SeoReport(seo: SeoData, parsesAsUrl: string -> bool): Report {
    Then(SeoTextRule(seo.title, Field(SeoTitle), 60, 30),
    Then(SeoTextRule(seo.description, Field(SeoDescription), 160, 120),
    Then(SeoKeywordsRule(seo.keywords),
         OptionalUrlRule(seo.ogImage, Field(SeoOgImage), HeroSection, parsesAsUrl))))
  }

  /** The keywords must be an array; none, or more than ten, only warn. */
  function SeoKeywordsRule(keywords: ListValue<JsValue>): Report {
    match keywords
    case Absent => Error(Field(SeoKeywords), HeroSection, InvalidType)
    case Items(ks) =>
      if |ks| == 0 then Warning(Field(SeoKeywords), HeroSection, EmptyCollection)
      else if |ks| > 10 then Warning(Field(SeoKeywords), HeroSection, SeoOptimizationWarning)
      else NoIssues
  }

  lemma SeoTextErrors(v: JsValue, p: Path, max: nat, min: nat)
    ensures SeoTextRule(v, p, max, min).errors == [] <==> !MissingText(v)
  {
  }

  lemma SeoKeywordsErrors(keywords: ListValue<JsValue>)
    ensures SeoKeywordsRule(keywords).errors == [] <==> keywords.Items?
  {
  }

  /** An optional URL is either accepted outright or rejected with an error. */
  lemma OptionalUrlErrors(v: JsValue, p: Path, sec: Section, parsesAsUrl: string -> bool)
    ensures OptionalUrlRule(v, p, sec, parsesAsUrl).errors == [] <==> OptionalUrlRule(v, p, sec, parsesAsUrl) == NoIssues
  {
  }

  /** Only a missing title or description, a non-array keyword list or a bad image make the SEO data invalid. */
  lemma SeoErrors(seo: SeoData, parsesAsUrl: string -> bool)
    ensures SeoReport(seo, parsesAsUrl).errors == [] <==>
      !MissingText(seo.title) && !MissingText(seo.description) && seo.keywords.Items?
      && OptionalUrlRule(seo.ogImage, Field(SeoOgImage), HeroSection, parsesAsUrl) == NoIssues
  {
    SeoTextErrors(seo.title, Field(SeoTitle), 60, 30);
    SeoTextErrors(seo.description, Field(SeoDescription), 160, 120);
    SeoKeywordsErrors(seo.keywords);
    OptionalUrlErrors(seo.ogImage, Field(SeoOgImage), HeroSection, parsesAsUrl);
  }

  // ---------------------------------------------------------------------
  // Cross-section consistency
  // ---------------------------------------------------------------------

  /**
   * `clients.find(c => c.name.toLowerCase() === company.toLowerCase())`
   * from client `k` on: each client's name is lower-cased before the
   * company, and either one not being a string throws.
   */
  function FindClient(clients: seq<ClientItem>, k: nat, company: JsValue): Outcome<bool>
    requires k <= |clients|
    decreases |clients| - k
  {
    if k == |clients| then Done(false)
    else if !clients[k].name.Str? then Threw
    else if !company.Str? then Threw
    else if Lower(clients[k].name.s) == Lower(company.s) then Done(true)
    else FindClient(clients, k + 1, company)
  }

  /** The warnings of the company-to-client loop for the first `k` testimonials. */
  function CompanyWarnings(ts: seq<Testimonial>, clients: seq<ClientItem>, k: nat): Outcome<seq<Issue>>
    requires k <= |ts|
  {
    if k == 0 then Done([])
    else match CompanyWarnings(ts, clients, k - 1)
      case Threw => Threw
      case Done(ws) =>
        match FindClient(clients, 0, ts[k - 1].author.company)
        case Threw => Threw
        case Done(found) =>
          Done(if found then ws else ws + [Issue(Indexed(Testimonials, k - 1, AuthorCompany), TestimonialsSection, CrossReferenceWarning)])
  }

  /** `serviceColors.some(sc => areColorsSimilar(color, sc))` from position `k`; a non-string service colour throws. */
  function AnySimilar(color: string, serviceColors: seq<JsValue>, k: nat): Outcome<bool>
    requires k <= |serviceColors|
    decreases |serviceColors| - k
  {
    if k == |serviceColors| then Done(false)
    else if !serviceColors[k].Str? then Threw
    else if AreColorsSimilar(color, serviceColors[k].s) then Done(true)
    else AnySimilar(color, serviceColors, k + 1)
  }

  /** `heroColors.some(...)` from position `k`. */
  function ConsistentColors(heroColors: seq<string>, serviceColors: seq<JsValue>, k: nat): Outcome<bool>
    requires k <= |heroColors|
    decreases |heroColors| - k
  {
    if k == |heroColors| then Done(false)
    else match AnySimilar(heroColors[k], serviceColors, 0)
      case Threw => Threw
      case Done(true) => Done(true)
      case Done(false) => ConsistentColors(heroColors, serviceColors, k + 1)
  }

  datatype ServicesData = ServicesData(hero: HeroData, services: ServicesGridData, skillsVideo: SkillsVideoData,
                                       approach: ApproachData, testimonials: TestimonialsData, clients: ClientsData,
                                       seo: SeoData)

  function ServiceColors(items: seq<ServiceItem>): (cs: seq<JsValue>)
    ensures |cs| == |items| && forall k :: 0 <= k < |items| ==> cs[k] == items[k].color
  {
    seq(|items|, k requires 0 <= k < |items| => items[k].color)
  }

  /** The colour part of `validateCrossSectionConsistency`, after the testimonial loop. */
  function DesignConsistency(d: ServicesData): Outcome<seq<Issue>> {
    if d.hero.HeroNotObject? || !d.hero.description.Str? || d.services.services.Absent? then Threw
    else
      var heroColors := ExtractColors(d.hero.description.s);
      var serviceColors := ServiceColors(d.services.services.items);
      if |heroColors| > 0 && |serviceColors| > 0 then
        match ConsistentColors(heroColors, serviceColors, 0)
        case Threw => Threw
        case Done(consistent) =>
          Done(if consistent then [] else [Issue(Field(General), HeroSection, DesignConsistencyWarning)])
      else Done([])
  }

  /**
   * `validateCrossSectionConsistency`: a testimonial whose company names
   * no client is warned about, and the hero description's colours must
   * meet a service colour.  `Threw` where the source dereferences a value
   * that is not there.
   */
  function CrossSectionReport(d: ServicesData): Outcome<Report> {
    var companies :=
      if d.testimonials.testimonials.Absent? then Threw
      else if |d.testimonials.testimonials.items| == 0 then Done([])
      else if d.clients.clients.Absent? then Threw
      else if |d.clients.clients.items| == 0 then Done([])
      else CompanyWarnings(d.testimonials.testimonials.items, d.clients.clients.items, |d.testimonials.testimonials.items|);
    match companies
    case Threw => Threw
    case Done(ws) =>
      match DesignConsistency(d)
      case Threw => Threw
      case Done(ws2) => Done(Report([], ws + ws2))
  }

  method ValidateCrossSection(d: ServicesData) returns (r: Outcome<ValidationResult>)
    ensures r.Threw? <==> CrossSectionReport(d).Threw?
    ensures r.Done? ==> r.value == ToResult(CrossSectionReport(d).value)
  {
    var warnings: seq<Issue> := [];
    if d.testimonials.testimonials.Absent? {
      return Threw;
    }
    var ts := d.testimonials.testimonials.items;
    if |ts| > 0 {
      if d.clients.clients.Absent? {
        return Threw;
      }
      var clients := d.clients.clients.items;
      if |clients| > 0 {
        var i := 0;
        while i < |ts|
          invariant 0 <= i <= |ts|
          invariant CompanyWarnings(ts, clients, i) == Done(warnings)
        {
          var found := FindClient(clients, 0, ts[i].author.company);
          if found.Threw? {
            ThrowPersists(ts, clients, i + 1, |ts|);
            return Threw;
          }
          if !found.value {
            warnings := warnings + [Issue(Indexed(Testimonials, i, AuthorCompany), TestimonialsSection, CrossReferenceWarning)];
          }
          i := i + 1;
        }
      }
    }
    var design := DesignConsistency(d);
    if design.Threw? {
      return Threw;
    }
    r := Done(ToResult(Report([], warnings + design.value)));
  }

  /** Once the company loop has thrown, it has thrown for every longer prefix too. */
  lemma {:induction false} ThrowPersists(ts: seq<Testimonial>, clients: seq<ClientItem>, k: nat, n: nat)
    requires k <= n <= |ts| && CompanyWarnings(ts, clients, k).Threw?
    ensures CompanyWarnings(ts, clients, n).Threw?
    decreases n - k
  {
    if k < n {
      ThrowPersists(ts, clients, k + 1, n);
    }
  }

  /** A testimonial with a company naming a client (case-insensitively) gets no cross-reference warning. */
  lemma MatchingCompanyNotWarned(ts: seq<Testimonial>, clients: seq<ClientItem>, i: nat, c: nat)
    requires i < |ts| && c < |clients|
    requires forall j :: 0 <= j < |clients| ==> clients[j].name.Str?
    requires ts[i].author.company.Str?
    requires Lower(clients[c].name.s) == Lower(ts[i].author.company.s)
    ensures FindClient(clients, 0, ts[i].author.company) == Done(true)
  {
    FindClientFound(clients, 0, c, ts[i].author.company);
  }

  lemma {:induction false} FindClientFound(clients: seq<ClientItem>, k: nat, c: nat, company: JsValue)
    requires k <= c < |clients| && company.Str?
    requires forall j :: 0 <= j < |clients| ==> clients[j].name.Str?
    requires Lower(clients[c].name.s) == Lower(company.s)
    ensures FindClient(clients, k, company) == Done(true)
    decreases c - k
  {
    if k < c && Lower(clients[k].name.s) != Lower(company.s) {
      FindClientFound(clients, k + 1, c, company);
    }
  }

  // ---------------------------------------------------------------------
  // The whole page
  // ---------------------------------------------------------------------

  /** The sections in the order `validateServicesData` runs them, before the cross-section check. */
  function SectionsReport(d: ServicesData, parsesAsUrl: string -> bool): Report {
    Then(Then(Then(Then(Then(Then(HeroReport(d.hero),
                                  GridReport(d.services)),
                             SkillsVideoReport(d.skillsVideo, parsesAsUrl)),
                        ApproachReport(d.approach, parsesAsUrl)),
                   TestimonialsReport(d.testimonials, parsesAsUrl)),
              ClientsReport(d.clients, parsesAsUrl)),
         SeoReport(d.seo, parsesAsUrl))
  }

  /** `validateServicesData`: a throw in the cross-section check becomes one `VALIDATION_ERROR` filed under `general`. */
  function ServicesReport(d: ServicesData, parsesAsUrl: string -> bool): Report {
    match CrossSectionReport(d)
    case Done(cross) => Then(SectionsReport(d, parsesAsUrl), cross)
    case Threw => Then(SectionsReport(d, parsesAsUrl), Error(Field(General), HeroSection, ValidationError))
  }

  method ValidateServicesData(d: ServicesData, parsesAsUrl: string -> bool) returns (r: ValidationResult)
    ensures r == ToResult(ServicesReport(d, parsesAsUrl))
    ensures r.isValid <==> r.errors == []
  {
    var acc := HeroReport(d.hero);
    var grid := ValidateServicesGrid(d.services);
    acc := Then(acc, Report(grid.errors, grid.warnings));
    var skills := ValidateSkillsVideo(d.skillsVideo, parsesAsUrl);
    acc := Then(acc, Report(skills.errors, skills.warnings));
    var approach := ValidateApproach(d.approach, parsesAsUrl);
    acc := Then(acc, Report(approach.errors, approach.warnings));
    var testimonials := ValidateTestimonials(d.testimonials, parsesAsUrl);
    acc := Then(acc, Report(testimonials.errors, testimonials.warnings));
    var clients := ValidateClients(d.clients, parsesAsUrl);
    acc := Then(acc, Report(clients.errors, clients.warnings));
    acc := Then(acc, SeoReport(d.seo, parsesAsUrl));
    var cross := ValidateCrossSection(d);
    if cross.Threw? {
      acc := Then(acc, Error(Field(General), HeroSection, ValidationError));
    } else {
      acc := Then(acc, Report(cross.value.errors, cross.value.warnings));
    }
    r := ToResult(acc);
  }

  /** Warnings never decide validity: the page is valid exactly when no section reports an error. */
  lemma ValidityIgnoresWarnings(d: ServicesData, parsesAsUrl: string -> bool)
    ensures ToResult(ServicesReport(d, parsesAsUrl)).isValid <==>
      SectionsReport(d, parsesAsUrl).errors == [] && CrossSectionReport(d).Done?
  {
  }

  // ---------------------------------------------------------------------
  // Real-time field validation
  // ---------------------------------------------------------------------

  /** `validateHeroField`: only the title and the description are checked. */
  function HeroField(field: string, value: JsValue): Option<Issue> {
    if field == "title" then
      if MissingText(value) then Some(Issue(Field(Title), HeroSection, RequiredField))
      else if |value.s| > 200 then Some(Issue(Field(Title), HeroSection, MaxLengthExceeded))
      else None
    else if field == "description" then
      if MissingText(value) then Some(Issue(Field(Description), HeroSection, RequiredField))
      else if |value.s| > 1000 then Some(Issue(Field(Description), HeroSection, MaxLengthExceeded))
      else None
    else None
  }

  /**
   * `validateField`: hero fields are checked, the other sections' field
   * validators are empty, and an unknown section gives null (`None`).
   */
  function ValidateField(section: string, field: string, value: JsValue): Option<Issue> {
    if section == "hero" then HeroField(field, value) else None
  }

  /**
   * Real-time validation of the hero title reports exactly the error the
   * full hero check reports for it (the short-title warning aside), and any
   * section other than `hero` gives nothing.
   */
  lemma FieldMirrorsHeroTitle(section: string, field: string, value: JsValue)
    ensures section != "hero" ==> ValidateField(section, field, value) == None
    ensures var r := HeroTitleRule(value);
      (ValidateField("hero", "title", value) == None <==> r.errors == [])
      && (ValidateField("hero", "title", value).Some? ==> r.errors == [ValidateField("hero", "title", value).value])
  {
  }
}

=== FILE: skills_editor.dfy ===
/**
 * The skills list of the skills-and-video section: the skill form's rules
 * (including the case-insensitive duplicate check), adding, updating and
 * removing skills, and reordering them by drag and drop.  A skill's
 * `order` is its position, from 0.
 */
module SkillsEditing {
  import opened Wrappers
  import opened Text
  import opened Lists
  import opened FormRules

  /** `SkillItem`. */
  datatype Skill = Skill(id: string, name: string, order: int)

  function Ids(skills: seq<Skill>): seq<string> {
    Map(skills, (s: Skill) => s.id)
  }

  /** Skill k carries the order k. */
  predicate Positioned(skills: seq<Skill>) {
    forall k :: 0 <= k < |skills| ==> skills[k].order == k
  }

  /** No two skills have the same name, ignoring case. */
  predicate UniqueNames(skills: seq<Skill>) {
    forall i, j :: 0 <= i < j < |skills| ==> Lower(skills[i].name) != Lower(skills[j].name)
  }

  /**
   * The duplicate check of `validateSkillForm`: some skill other than the
   * one being edited has, lower-cased, the trimmed and lower-cased name.
   */
  predicate IsDuplicate(skills: seq<Skill>, name: string, editingId: Option<string>) {
    exists k :: 0 <= k < |skills| && Lower(skills[k].name) == Lower(Trim(name))
      && (editingId.None? || skills[k].id != editingId.value)
  }

  /**
   * The error `validateSkillForm` records for the name.  A duplicate
   * overwrites the blank or length error; the length is that of the name
   * as typed.
   */
  function NameError(skills: seq<Skill>, name: string, editingId: Option<string>): (e: Option<FieldError>)
    ensures e == Some(Duplicate) <==> IsDuplicate(skills, name, editingId)
    ensures e == Some(Required) <==> IsBlank(name) && !IsDuplicate(skills, name, editingId)
    ensures e == Some(TooLong(100)) <==> !IsBlank(name) && |name| > 100 && !IsDuplicate(skills, name, editingId)
    ensures e.None? <==> !IsBlank(name) && |name| <= 100 && !IsDuplicate(skills, name, editingId)
  {
    BlankIffTrimmedEmpty(name);
    if IsDuplicate(skills, name, editingId) then Some(Duplicate)
    else RequiredAtMost(name, name, 100)
  }

  /**
   * `validateSkillForm`: records the blank or length error, then
   * overwrites it when some other skill already has the name.
   */
  method ValidateSkillForm(skills: seq<Skill>, name: string, editingId: Option<string>) returns (error: Option<FieldError>, valid: bool)
    ensures error == NameError(skills, name, editingId)
    ensures valid <==> !IsBlank(name) && |name| <= 100 && !IsDuplicate(skills, name, editingId)
  {
    error := None;
    if Trim(name) == "" {
      error := Some(Required);
    } else if |name| > 100 {
      error := Some(TooLong(100));
    }
    var duplicate := false;
    for k := 0 to |skills|
      invariant duplicate <==>
        (exists j :: 0 <= j < k && Lower(skills[j].name) == Lower(Trim(name)) && (editingId.None? || skills[j].id != editingId.value))
    {
      if Lower(skills[k].name) == Lower(Trim(name)) && (editingId.None? || skills[k].id != editingId.value) {
        duplicate := true;
      }
    }
    if duplicate {
      error := Some(Duplicate);
    }
    BlankIffTrimmedEmpty(name);
    valid := error.None?;
  }

  /**
   * `handleAddSkill` as intended: an invalid name is refused, every skill
   * counting for the duplicate check; otherwise the skill, its name trimmed
   * and its order the list's length, is appended.
   */
  function AddSkill(skills: seq<Skill>, name: string, newId: string): (r: Result<seq<Skill>, FieldError>)
    ensures r.Err? <==> NameError(skills, name, None).Some?
    ensures r.Err? ==> r.error == NameError(skills, name, None).value
    ensures r.Ok? ==> r.value == skills + [Skill(newId, Trim(name), |skills|)]
  {
    var error := NameError(skills, name, None);
    if error.Some? then Err(error.value)
    else Ok(skills + [Skill(newId, Trim(name), |skills|)])
  }

  /** An accepted skill keeps the names unique and the orders equal to the positions. */
  lemma AddSkillKeeps(skills: seq<Skill>, name: string, newId: string)
    requires AddSkill(skills, name, newId).Ok?
    ensures UniqueNames(skills) ==> UniqueNames(AddSkill(skills, name, newId).value)
    ensures Positioned(skills) ==> Positioned(AddSkill(skills, name, newId).value)
  {
    var r := AddSkill(skills, name, newId).value;
    assert !IsDuplicate(skills, name, None);
    forall i | 0 <= i < |skills| ensures Lower(r[i].name) != Lower(r[|skills|].name) {
      assert r[i] == skills[i];
    }
  }

  /**
   * `handleAddSkill` as written: `validateSkillForm` skips the skill held
   * in `editingSkill`, which closing the edit dialog with Escape or a click
   * outside it leaves set, so an add can run with a stale edited id.
   */
  function AddSkillAsWritten(skills: seq<Skill>, name: string, newId: string, editingId: Option<string>): (r: Result<seq<Skill>, FieldError>)
    ensures r.Err? <==> NameError(skills, name, editingId).Some?
    ensures r.Err? ==> r.error == NameError(skills, name, editingId).value
    ensures r.Ok? ==> r.value == skills + [Skill(newId, Trim(name), |skills|)]
  {
    var error := NameError(skills, name, editingId);
    if error.Some? then Err(error.value)
    else Ok(skills + [Skill(newId, Trim(name), |skills|)])
  }

  /** With no edited skill, or a stale id naming no skill, the handler as written is `AddSkill`. */
  lemma AddSkillAsWrittenAgrees(skills: seq<Skill>, name: string, newId: string, editingId: Option<string>)
    requires editingId.None? || forall k :: 0 <= k < |skills| ==> skills[k].id != editingId.value
    ensures AddSkillAsWritten(skills, name, newId, editingId) == AddSkill(skills, name, newId)
  {
    assert IsDuplicate(skills, name, editingId) <==> IsDuplicate(skills, name, None);
  }

  /**
   * Editing "React", closing the dialog with Escape and adding "React"
   * appends a second "React": the names are no longer unique.
   */
  lemma StaleEditAddsDuplicate()
    ensures var skills := [Skill("skill-1", "React", 0)];
      && UniqueNames(skills)
      && AddSkillAsWritten(skills, "React", "skill-2", Some("skill-1")).Ok?
      && !UniqueNames(AddSkillAsWritten(skills, "React", "skill-2", Some("skill-1")).value)
  {
    var skills := [Skill("skill-1", "React", 0)];
    assert Trim("React") == "React" by {
      assert !IsSpace('R') && !IsSpace('t');
    }
    assert !IsDuplicate(skills, "React", Some("skill-1"));
    assert !IsBlank("React");
    var r := AddSkillAsWritten(skills, "React", "skill-2", Some("skill-1")).value;
    assert r[0].name == r[1].name;
  }

  /** Why an update is refused: no skill is being edited, or the name is invalid. */
  datatype UpdateRefusal = NotEditing | InvalidName(error: FieldError)

  /**
   * `handleUpdateSkill`: with a skill being edited and a valid name, the
   * skills with the edited id get the trimmed name; nothing else changes.
   */
  function UpdateSkill(skills: seq<Skill>, editingId: Option<string>, name: string): (r: Result<seq<Skill>, UpdateRefusal>)
    ensures editingId.None? ==> r == Err(NotEditing)
    ensures editingId.Some? ==> (r.Err? <==> NameError(skills, name, editingId).Some?)
    ensures r.Ok? ==> |r.value| == |skills|
    ensures r.Ok? ==> forall k :: 0 <= k < |skills| ==>
      r.value[k] == if skills[k].id == editingId.value then skills[k].(name := Trim(name)) else skills[k]
  {
    if editingId.None? then Err(NotEditing)
    else
      var error := NameError(skills, name, editingId);
      if error.Some? then Err(InvalidName(error.value))
      else
        Ok(seq(|skills|, k requires 0 <= k < |skills| =>
          if skills[k].id == editingId.value then skills[k].(name := Trim(name)) else skills[k]))
  }

  /**
   * With unique ids, an accepted update keeps the names unique: the
   * duplicate check has ruled out every other skill's name.  The ids and
   * orders do not move.
   */
  lemma UpdateSkillKeeps(skills: seq<Skill>, editingId: Option<string>, name: string)
    requires UpdateSkill(skills, editingId, name).Ok?
    ensures Distinct(Ids(skills)) && UniqueNames(skills) ==> UniqueNames(UpdateSkill(skills, editingId, name).value)
    ensures Ids(UpdateSkill(skills, editingId, name).value) == Ids(skills)
    ensures Positioned(skills) ==> Positioned(UpdateSkill(skills, editingId, name).value)
  {
    var r := UpdateSkill(skills, editingId, name).value;
    var e := editingId.value;
    assert !IsDuplicate(skills, name, editingId);
    if Distinct(Ids(skills)) && UniqueNames(skills) {
      forall i, j | 0 <= i < j < |r| ensures Lower(r[i].name) != Lower(r[j].name) {
        if skills[i].id == e && skills[j].id == e {
          assert false;
        } else if skills[i].id == e {
          assert Lower(skills[j].name) != Lower(Trim(name));
        } else if skills[j].id == e {
          assert Lower(skills[i].name) != Lower(Trim(name));
        }
      }
    }
    MapPointwise(r, skills, (s: Skill) => s.id);
  }

  /** The `map` that gives skill i the order i and keeps the rest. */
  function Reorder(skills: seq<Skill>): (r: seq<Skill>)
    ensures |r| == |skills| && Positioned(r)
    ensures forall k :: 0 <= k < |r| ==> r[k].(order := skills[k].order) == skills[k]
  {
    seq(|skills|, k requires 0 <= k < |skills| => skills[k].(order := k))
  }

  lemma ReorderKeepsIds(skills: seq<Skill>)
    ensures Ids(Reorder(skills)) == Ids(skills)
  {
    var r := Reorder(skills);
    MapPointwise(r, skills, (s: Skill) => s.id);
  }

  function OtherThan(skillId: string): Skill -> bool {
    (s: Skill) => s.id != skillId
  }

  /** `handleRemoveSkill`: the skills with that id are dropped and the rest take their positions as orders. */
  function RemoveSkill(skills: seq<Skill>, skillId: string): seq<Skill> {
    Reorder(Filter(skills, OtherThan(skillId)))
  }

  /**
   * After a removal no skill has that id, the others keep their order and
   * carry their positions; with unique ids, removing a skill that exists
   * leaves one fewer.
   */
  lemma RemoveSkillSpec(skills: seq<Skill>, skillId: string)
    ensures var r := RemoveSkill(skills, skillId);
      && skillId !in Ids(r)
      && Positioned(r)
      && Ids(r) == Ids(Filter(skills, OtherThan(skillId)))
      && (Distinct(Ids(skills)) && skillId in Ids(skills) ==> |r| == |skills| - 1)
  {
    var kept := Filter(skills, OtherThan(skillId));
    ReorderKeepsIds(kept);
    assert forall k :: 0 <= k < |kept| ==> Ids(kept)[k] != skillId;
    if Distinct(Ids(skills)) && skillId in Ids(skills) {
      var i :| 0 <= i < |skills| && Ids(skills)[i] == skillId;
      forall j | 0 <= j < |skills| && j != i ensures OtherThan(skillId)(skills[j]) {
        assert Ids(skills)[j] != Ids(skills)[i];
      }
      FilterDropsOne(skills, OtherThan(skillId), i);
    }
  }

  /** What `handleDrop` leaves: nothing changes without a dragged skill or onto its own place. */
  function Dropped(skills: seq<Skill>, dragIndex: Option<nat>, dropIndex: nat): seq<Skill>
    requires dragIndex.Some? ==> dragIndex.value < |skills| && dropIndex < |skills|
  {
    if dragIndex.None? || dragIndex.value == dropIndex then skills
    else Reorder(Move(skills, dragIndex.value, dropIndex))
  }

  /**
   * `handleDrop`: copies the list, splices the dragged skill out and back
   * in at the drop index, then gives every skill its position as order.
   */
  method HandleDrop(skills: seq<Skill>, dragIndex: Option<nat>, dropIndex: nat) returns (r: seq<Skill>)
    requires dragIndex.Some? ==> dragIndex.value < |skills| && dropIndex < |skills|
    ensures r == Dropped(skills, dragIndex, dropIndex)
  {
    if dragIndex.None? {
      return skills;
    }
    if dragIndex.value == dropIndex {
      return skills;
    }
    var moved := MoveCopy(skills, dragIndex.value, dropIndex);
    r := Reorder(moved);
  }

  /**
   * A drop moves exactly the dragged skill to the drop index, keeps the
   * others in their relative order and every name, and reorders.
   */
  lemma DroppedSpec(skills: seq<Skill>, dragIndex: nat, dropIndex: nat)
    requires dragIndex < |skills| && dropIndex < |skills|
    ensures var r := Dropped(skills, Some(dragIndex), dropIndex);
      && (dragIndex == dropIndex ==> r == skills)
      && (dragIndex != dropIndex ==>
            && Ids(r) == Move(Ids(skills), dragIndex, dropIndex)
            && r[dropIndex].id == skills[dragIndex].id
            && RemoveAt(Ids(r), dropIndex) == RemoveAt(Ids(skills), dragIndex)
            && multiset(Ids(r)) == multiset(Ids(skills))
            && Positioned(r))
  {
    if dragIndex != dropIndex {
      var moved := Move(skills, dragIndex, dropIndex);
      ReorderKeepsIds(moved);
      MapMove(skills, (s: Skill) => s.id, dragIndex, dropIndex);
      MoveKeepsOthers(Ids(skills), dragIndex, dropIndex);
      MovePermutes(Ids(skills), dragIndex, dropIndex);
    }
  }
}

=== FILE: testimonials_editor.dfy ===
/**
 * The editor of the services page's testimonials: the per-field errors
 * shown from a validation report, the testimonial form's rules, adding,
 * updating and removing testimonials, and reordering them by drag and
 * drop.  A testimonial's `order` is its position plus one.
 *
 * `new URL(...)` is the parameter `parsesAsUrl`; generated ids are
 * parameters.
 */
module TestimonialsEditing {
  import opened Wrappers
  import opened Text
  import opened Lists
  import opened FormRules
  import ServicesValidation

  /** `TestimonialAuthor`. */
  datatype Author = Author(name: string, title: string, company: string, avatar: string)

  /** `TestimonialProject`. */
  datatype Project = Project(name: string, image: string, url: string)

  /** `Testimonial`. */
  datatype Testimonial = Testimonial(id: string, text: string, author: Author, project: Project, order: int)

  /** `TestimonialFormData`. */
  datatype TestimonialForm = TestimonialForm(text: string, author: Author, project: Project)

  function Ids(testimonials: seq<Testimonial>): seq<string> {
    Map(testimonials, (t: Testimonial) => t.id)
  }

  /** Testimonial k carries the order k + 1. */
  predicate NumberedFromOne(testimonials: seq<Testimonial>) {
    forall k :: 0 <= k < |testimonials| ==> testimonials[k].order == k + 1
  }

  // ---------------------------------------------------------------------
  // Errors from a validation report
  // ---------------------------------------------------------------------

  /**
   * The error map built from a validation report: each testimonials issue
   * sets its field's entry, a later one overwriting an earlier one; issues
   * of other sections are skipped.  (The messages are not modelled: an
   * entry holds the issue's code.)
   */
  function ErrorMap(issues: seq<ServicesValidation.Issue>): map<ServicesValidation.Path, ServicesValidation.Code> {
    if |issues| == 0 then map[]
    else
      var last := issues[|issues| - 1];
      var m := ErrorMap(issues[..|issues| - 1]);
      if last.section == ServicesValidation.TestimonialsSection then m[last.field := last.code] else m
  }

  /** The `forEach` that fills the error map. */
  method SectionErrors(issues: seq<ServicesValidation.Issue>) returns (errorMap: map<ServicesValidation.Path, ServicesValidation.Code>)
    ensures errorMap == ErrorMap(issues)
  {
    errorMap := map[];
    for i := 0 to |issues|
      invariant errorMap == ErrorMap(issues[..i])
    {
      assert issues[..i + 1][..i] == issues[..i];
      if issues[i].section == ServicesValidation.TestimonialsSection {
        errorMap := errorMap[issues[i].field := issues[i].code];
      }
    }
    assert issues[..|issues|] == issues;
  }

  /** A field has an entry exactly when some testimonials issue names it. */
  lemma {:induction false} ErrorMapKeys(issues: seq<ServicesValidation.Issue>, field: ServicesValidation.Path)
    ensures field in ErrorMap(issues) <==>
      exists k :: 0 <= k < |issues| && issues[k].section == ServicesValidation.TestimonialsSection && issues[k].field == field
  {
    if |issues| > 0 {
      var prefix := issues[..|issues| - 1];
      ErrorMapKeys(prefix, field);
      assert forall k :: 0 <= k < |prefix| ==> prefix[k] == issues[k];
    }
  }

  /** The entry of a field is the code of the last testimonials issue naming it. */
  lemma {:induction false} ErrorMapLastWins(issues: seq<ServicesValidation.Issue>, k: nat)
    requires k < |issues| && issues[k].section == ServicesValidation.TestimonialsSection
    requires forall j :: k < j < |issues| ==>
      issues[j].section != ServicesValidation.TestimonialsSection || issues[j].field != issues[k].field
    ensures issues[k].field in ErrorMap(issues) && ErrorMap(issues)[issues[k].field] == issues[k].code
  {
    if k < |issues| - 1 {
      var prefix := issues[..|issues| - 1];
      ErrorMapLastWins(prefix, k);
    }
  }

  // ---------------------------------------------------------------------
  // The testimonial form
  // ---------------------------------------------------------------------

  /** The form's errors record: at most one error per field. */
  datatype TestimonialFormErrors = TestimonialFormErrors(
    text: Option<FieldError>, authorName: Option<FieldError>, authorTitle: Option<FieldError>,
    authorCompany: Option<FieldError>, projectUrl: Option<FieldError>, projectName: Option<FieldError>)
  {
    predicate Empty() {
      text.None? && authorName.None? && authorTitle.None?
      && authorCompany.None? && projectUrl.None? && projectName.None?
    }
  }

  /** The text's rule: required, and trimmed between 10 and 1000 characters. */
  function TextError(text: string): (e: Option<FieldError>)
    ensures e == Some(Required) <==> IsBlank(text)
    ensures e == Some(TooShort(10)) <==> !IsBlank(text) && |Trim(text)| < 10
    ensures e == Some(TooLong(1000)) <==> !IsBlank(text) && 10 <= |Trim(text)| && |Trim(text)| > 1000
    ensures e.None? <==> 10 <= |Trim(text)| <= 1000
  {
    BlankIffTrimmedEmpty(text);
    if Trim(text) == "" then Some(Required)
    else if |Trim(text)| < 10 then Some(TooShort(10))
    else if |Trim(text)| > 1000 then Some(TooLong(1000))
    else None
  }

  /** An optional text's rule: when given, at most `max` characters once trimmed. */
  function OptionalAtMost(value: string, max: nat): (e: Option<FieldError>)
    ensures e.None? <==> |Trim(value)| <= max
    ensures e.Some? ==> e.value == TooLong(max)
  {
    if value != "" && |Trim(value)| > max then Some(TooLong(max)) else None
  }

  /** The URL's rule: when not blank, the URL as typed must parse. */
  function UrlError(url: string, parsesAsUrl: string -> bool): (e: Option<FieldError>)
    ensures e.None? <==> IsBlank(url) || parsesAsUrl(url)
    ensures e.Some? ==> e.value == InvalidUrl
  {
    BlankIffTrimmedEmpty(url);
    if url != "" && Trim(url) != "" && !parsesAsUrl(url) then Some(InvalidUrl) else None
  }

  /**
   * The errors of the testimonial form: a text of 10 to 1000 characters,
   * a required author name of at most 100 and title of at most 150, an
   * optional company and project name of at most 100, all trimmed, and a
   * project URL that parses when one is given.
   */
  function FormErrors(form: TestimonialForm, parsesAsUrl: string -> bool): TestimonialFormErrors {
    TestimonialFormErrors(
      TextError(form.text),
      RequiredAtMost(form.author.name, Trim(form.author.name), 100),
      RequiredAtMost(form.author.title, Trim(form.author.title), 150),
      OptionalAtMost(form.author.company, 100),
      UrlError(form.project.url, parsesAsUrl),
      OptionalAtMost(form.project.name, 100))
  }

  /** A form passes exactly when every field keeps to its rule. */
  lemma FormErrorsEmptyIff(form: TestimonialForm, parsesAsUrl: string -> bool)
    ensures FormErrors(form, parsesAsUrl).Empty() <==>
      && 10 <= |Trim(form.text)| <= 1000
      && Trim(form.author.name) != "" && |Trim(form.author.name)| <= 100
      && Trim(form.author.title) != "" && |Trim(form.author.title)| <= 150
      && |Trim(form.author.company)| <= 100
      && (IsBlank(form.project.url) || parsesAsUrl(form.project.url))
      && |Trim(form.project.name)| <= 100
  {
  }

  /** The text's checks of `validateTestimonialForm`. */
  method CheckText(text: string) returns (e: Option<FieldError>)
    ensures e == TextError(text)
  {
    var trimmed := Trim(text);
    e := None;
    if trimmed == "" {
      e := Some(Required);
    } else if |trimmed| < 10 {
      e := Some(TooShort(10));
    } else if |trimmed| > 1000 {
      e := Some(TooLong(1000));
    }
  }

  /** The checks of a required field of `validateTestimonialForm`. */
  method CheckRequired(value: string, max: nat) returns (e: Option<FieldError>)
    ensures e == RequiredAtMost(value, Trim(value), max)
  {
    var trimmed := Trim(value);
    e := None;
    if trimmed == "" {
      e := Some(Required);
    } else if |trimmed| > max {
      e := Some(TooLong(max));
    }
  }

  /** The checks of an optional field of `validateTestimonialForm`. */
  method CheckOptional(value: string, max: nat) returns (e: Option<FieldError>)
    ensures e == OptionalAtMost(value, max)
  {
    e := None;
    if value != "" && |Trim(value)| > max {
      e := Some(TooLong(max));
    }
  }

  /** The URL's check of `validateTestimonialForm`. */
  method CheckUrl(url: string, parsesAsUrl: string -> bool) returns (e: Option<FieldError>)
    ensures e == UrlError(url, parsesAsUrl)
  {
    e := None;
    if url != "" && Trim(url) != "" && !parsesAsUrl(url) {
      e := Some(InvalidUrl);
    }
  }

  /** `validateTestimonialForm`: fills a fresh errors record field by field. */
  method ValidateTestimonialForm(form: TestimonialForm, parsesAsUrl: string -> bool) returns (errors: TestimonialFormErrors)
    ensures errors == FormErrors(form, parsesAsUrl)
  {
    errors := TestimonialFormErrors(None, None, None, None, None, None);
    var e := CheckText(form.text);
    errors := errors.(text := e);
    e := CheckRequired(form.author.name, 100);
    errors := errors.(authorName := e);
    e := CheckRequired(form.author.title, 150);
    errors := errors.(authorTitle := e);
    e := CheckOptional(form.author.company, 100);
    errors := errors.(authorCompany := e);
    e := CheckUrl(form.project.url, parsesAsUrl);
    errors := errors.(projectUrl := e);
    e := CheckOptional(form.project.name, 100);
    errors := errors.(projectName := e);
  }

  // ---------------------------------------------------------------------
  // Editing the list
  // ---------------------------------------------------------------------

  function TrimAuthor(a: Author): Author {
    Author(Trim(a.name), Trim(a.title), Trim(a.company), Trim(a.avatar))
  }

  function TrimProject(p: Project): Project {
    Project(Trim(p.name), Trim(p.image), Trim(p.url))
  }

  /**
   * What a testimonial the editor has accepted keeps to: a text of 10 to
   * 1000 characters, a non-empty author name of at most 100 and title of
   * at most 150, a company and project name of at most 100.
   */
  predicate WellFormed(t: Testimonial) {
    && 10 <= |t.text| <= 1000
    && t.author.name != "" && |t.author.name| <= 100
    && t.author.title != "" && |t.author.title| <= 150
    && |t.author.company| <= 100 && |t.project.name| <= 100
  }

  predicate AllWellFormed(testimonials: seq<Testimonial>) {
    forall k :: 0 <= k < |testimonials| ==> WellFormed(testimonials[k])
  }

  /** The testimonial a valid form becomes, with the given id and order. */
  function FromForm(form: TestimonialForm, id: string, order: int): Testimonial {
    Testimonial(id, Trim(form.text), TrimAuthor(form.author), TrimProject(form.project), order)
  }

  /** A form that passes validation becomes a well-formed testimonial. */
  lemma FromValidFormWellFormed(form: TestimonialForm, parsesAsUrl: string -> bool, id: string, order: int)
    requires FormErrors(form, parsesAsUrl).Empty()
    ensures WellFormed(FromForm(form, id, order))
  {
    FormErrorsEmptyIff(form, parsesAsUrl);
  }

  /**
   * `handleAddTestimonial`: a form with errors is refused; otherwise the
   * testimonial, every text trimmed and its order one past the list's
   * length, is appended.
   */
  function AddTestimonial(testimonials: seq<Testimonial>, form: TestimonialForm, parsesAsUrl: string -> bool, newId: string)
    : (r: Result<seq<Testimonial>, TestimonialFormErrors>)
    ensures r.Err? <==> !FormErrors(form, parsesAsUrl).Empty()
    ensures r.Err? ==> r.error == FormErrors(form, parsesAsUrl)
    ensures r.Ok? ==> r.value == testimonials + [FromForm(form, newId, |testimonials| + 1)]
  {
    var errors := FormErrors(form, parsesAsUrl);
    if !errors.Empty() then Err(errors)
    else Ok(testimonials + [FromForm(form, newId, |testimonials| + 1)])
  }

  lemma AppendKeeps(testimonials: seq<Testimonial>, t: Testimonial)
    requires t.order == |testimonials| + 1
    ensures AllWellFormed(testimonials) && WellFormed(t) ==> AllWellFormed(testimonials + [t])
    ensures NumberedFromOne(testimonials) ==> NumberedFromOne(testimonials + [t])
  {
  }

  /** Adding keeps every testimonial well formed and the list numbered from one. */
  lemma AddTestimonialKeeps(testimonials: seq<Testimonial>, form: TestimonialForm, parsesAsUrl: string -> bool, newId: string)
    requires AddTestimonial(testimonials, form, parsesAsUrl, newId).Ok?
    ensures AllWellFormed(testimonials) ==> AllWellFormed(AddTestimonial(testimonials, form, parsesAsUrl, newId).value)
    ensures NumberedFromOne(testimonials) ==> NumberedFromOne(AddTestimonial(testimonials, form, parsesAsUrl, newId).value)
  {
    var t := FromForm(form, newId, |testimonials| + 1);
    FromValidFormWellFormed(form, parsesAsUrl, newId, |testimonials| + 1);
    AppendKeeps(testimonials, t);
  }

  /** Why an update is refused: nothing is being edited, or the form has errors. */
  datatype UpdateRefusal = NotEditing | InvalidForm(errors: TestimonialFormErrors)

  /** A testimonial as an update leaves it: the edited one takes the form's texts and keeps its id and order. */
  function Revised(t: Testimonial, editingId: string, form: TestimonialForm): (r: Testimonial)
    ensures r.id == t.id && r.order == t.order
  {
    if t.id == editingId then FromForm(form, t.id, t.order) else t
  }

  /**
   * `handleUpdateTestimonial`: with a testimonial being edited and a valid
   * form, the testimonials with the edited id take the trimmed text,
   * author and project, and keep their id and order; the others stay.
   */
  function UpdateTestimonial(testimonials: seq<Testimonial>, editingId: Option<string>, form: TestimonialForm, parsesAsUrl: string -> bool)
    : (r: Result<seq<Testimonial>, UpdateRefusal>)
    ensures editingId.None? ==> r == Err(NotEditing)
    ensures editingId.Some? ==> (r.Err? <==> !FormErrors(form, parsesAsUrl).Empty())
    ensures r.Ok? ==> |r.value| == |testimonials|
    ensures r.Ok? ==> forall k :: 0 <= k < |testimonials| ==> r.value[k] == Revised(testimonials[k], editingId.value, form)
  {
    if editingId.None? then Err(NotEditing)
    else
      var errors := FormErrors(form, parsesAsUrl);
      if !errors.Empty() then Err(InvalidForm(errors))
      else Ok(seq(|testimonials|, k requires 0 <= k < |testimonials| => Revised(testimonials[k], editingId.value, form)))
  }

  /** An update keeps the ids in their places and the numbering. */
  lemma UpdateTestimonialKeepsIds(testimonials: seq<Testimonial>, editingId: Option<string>, form: TestimonialForm, parsesAsUrl: string -> bool)
    requires UpdateTestimonial(testimonials, editingId, form, parsesAsUrl).Ok?
    ensures Ids(UpdateTestimonial(testimonials, editingId, form, parsesAsUrl).value) == Ids(testimonials)
    ensures NumberedFromOne(testimonials) ==> NumberedFromOne(UpdateTestimonial(testimonials, editingId, form, parsesAsUrl).value)
  {
    var r := UpdateTestimonial(testimonials, editingId, form, parsesAsUrl).value;
    MapPointwise(r, testimonials, (t: Testimonial) => t.id);
  }

  /** An update keeps every testimonial well formed: the edited ones come from a form that passed. */
  lemma UpdateTestimonialKeepsWellFormed(testimonials: seq<Testimonial>, editingId: Option<string>, form: TestimonialForm, parsesAsUrl: string -> bool)
    requires UpdateTestimonial(testimonials, editingId, form, parsesAsUrl).Ok?
    requires AllWellFormed(testimonials)
    ensures AllWellFormed(UpdateTestimonial(testimonials, editingId, form, parsesAsUrl).value)
  {
    var r := UpdateTestimonial(testimonials, editingId, form, parsesAsUrl).value;
    var id := editingId.value;
    forall k | 0 <= k < |r| ensures WellFormed(r[k]) {
      if testimonials[k].id == id {
        FromValidFormWellFormed(form, parsesAsUrl, testimonials[k].id, testimonials[k].order);
      }
    }
  }

  /** `updateTestimonialOrder`: testimonial i gets the order i + 1 and keeps everything else. */
  function UpdateTestimonialOrder(testimonials: seq<Testimonial>): (r: seq<Testimonial>)
    ensures |r| == |testimonials| && NumberedFromOne(r)
    ensures forall k :: 0 <= k < |r| ==> r[k].(order := testimonials[k].order) == testimonials[k]
  {
    seq(|testimonials|, k requires 0 <= k < |testimonials| => testimonials[k].(order := k + 1))
  }

  /** Renumbering keeps the ids in their places and every testimonial well formed. */
  lemma UpdateTestimonialOrderKeeps(testimonials: seq<Testimonial>)
    ensures Ids(UpdateTestimonialOrder(testimonials)) == Ids(testimonials)
    ensures AllWellFormed(testimonials) ==> AllWellFormed(UpdateTestimonialOrder(testimonials))
  {
    var r := UpdateTestimonialOrder(testimonials);
    MapPointwise(r, testimonials, (t: Testimonial) => t.id);
  }

  function OtherThan(testimonialId: string): Testimonial -> bool {
    (t: Testimonial) => t.id != testimonialId
  }

  /** `handleRemoveTestimonial`: the testimonials with that id are dropped and the rest renumbered from one. */
  function RemoveTestimonial(testimonials: seq<Testimonial>, testimonialId: string): seq<Testimonial> {
    UpdateTestimonialOrder(Filter(testimonials, OtherThan(testimonialId)))
  }

  /**
   * After a removal no testimonial has that id, the others keep their
   * order and are numbered from one; with unique ids, removing one that
   * exists leaves one fewer.
   */
  lemma RemoveTestimonialSpec(testimonials: seq<Testimonial>, testimonialId: string)
    ensures var r := RemoveTestimonial(testimonials, testimonialId);
      && testimonialId !in Ids(r)
      && NumberedFromOne(r)
      && Ids(r) == Ids(Filter(testimonials, OtherThan(testimonialId)))
      && (Distinct(Ids(testimonials)) && testimonialId in Ids(testimonials) ==> |r| == |testimonials| - 1)
  {
    var kept := Filter(testimonials, OtherThan(testimonialId));
    UpdateTestimonialOrderKeeps(kept);
    assert forall k :: 0 <= k < |kept| ==> Ids(kept)[k] != testimonialId;
    if Distinct(Ids(testimonials)) && testimonialId in Ids(testimonials) {
      var i :| 0 <= i < |testimonials| && Ids(testimonials)[i] == testimonialId;
      forall j | 0 <= j < |testimonials| && j != i ensures OtherThan(testimonialId)(testimonials[j]) {
        assert Ids(testimonials)[j] != Ids(testimonials)[i];
      }
      FilterDropsOne(testimonials, OtherThan(testimonialId), i);
    }
  }

  /**
   * `handleDragEnd`: a drop outside the list, or onto the dragged
   * testimonial itself, changes nothing; otherwise the dragged testimonial
   * moves to the place of the one it was dropped on and the list is
   * renumbered.  Both ids are those of listed testimonials.
   */
  function DragEnd(testimonials: seq<Testimonial>, activeId: string, overId: Option<string>): seq<Testimonial>
    requires overId.Some? && overId.value != activeId ==> activeId in Ids(testimonials) && overId.value in Ids(testimonials)
  {
    if overId.None? || overId.value == activeId then testimonials
    else
      var oldIndex := FirstIndex(Ids(testimonials), activeId);
      var newIndex := FirstIndex(Ids(testimonials), overId.value);
      UpdateTestimonialOrder(Move(testimonials, oldIndex, newIndex))
  }

  /**
   * A drag that lands on another testimonial puts the dragged one at that
   * testimonial's place, keeps every id and numbers the list from one.
   */
  lemma DragEndSpec(testimonials: seq<Testimonial>, activeId: string, overId: string)
    requires activeId in Ids(testimonials) && overId in Ids(testimonials) && overId != activeId
    ensures var r := DragEnd(testimonials, activeId, Some(overId));
      var oldIndex := FirstIndex(Ids(testimonials), activeId);
      var newIndex := FirstIndex(Ids(testimonials), overId);
      && Ids(r) == Move(Ids(testimonials), oldIndex, newIndex)
      && multiset(Ids(r)) == multiset(Ids(testimonials))
      && r[newIndex].id == activeId
      && NumberedFromOne(r)
  {
    var oldIndex := FirstIndex(Ids(testimonials), activeId);
    var newIndex := FirstIndex(Ids(testimonials), overId);
    var moved := Move(testimonials, oldIndex, newIndex);
    UpdateTestimonialOrderKeeps(moved);
    MapMove(testimonials, (t: Testimonial) => t.id, oldIndex, newIndex);
    MovePermutes(Ids(testimonials), oldIndex, newIndex);
  }
}

=== FILE: testimonials_html.dfy ===
/**
 * The testimonials carousel generator of the CMS back end: it checks the
 * testimonials data, orders the testimonials by their `order`, fills the
 * fields a testimonial may leave out with fixed defaults and produces one
 * slide per testimonial, or a fixed placeholder slide when there are none.
 * A slide is modelled by the values the HTML template interpolates; the
 * fixed markup around them is not part of this model.
 */
module TestimonialsHtml {
  import opened Wrappers
  import opened Text
  import opened Js
  import opened Lists

  datatype Author = Author(name: JsValue, title: JsValue, company: JsValue, avatar: JsValue)

  datatype Project = Project(name: JsValue, image: JsValue, url: JsValue)

  /** A testimonial as it arrives: the validator is there because any field may be missing or mistyped. */
  datatype Testimonial = Testimonial(id: JsValue, text: JsValue, author: Option<Author>, project: Option<Project>, order: JsValue)

  /** The `testimonials` property: an array, or any other value in its place (`undefined` when it is missing). */
  datatype Collection = NonArray(value: JsValue) | Items(items: seq<Testimonial>)

  datatype TestimonialsData = TestimonialsData(testimonials: Collection)

  // ---------------------------------------------------------------------
  // validateTestimonialsData
  // ---------------------------------------------------------------------

  /** What is wrong with one testimonial. */
  datatype Fault = IdMissing | TextMissing | AuthorNameMissing | AuthorTitleMissing | OrderInvalid

  /** An entry of the error list; `position` is the testimonial's index plus one, as in the messages. */
  datatype DataError = MissingData | NotAnArray | ItemError(position: nat, fault: Fault)

  datatype Validation = Validation(isValid: bool, errors: seq<DataError>)

  /** `if (fails) errors.push(...)`: one check of the testimonial at `index`. */
  function Check(errors: seq<DataError>, fails: bool, index: nat, f: Fault): (r: seq<DataError>)
    ensures |r| == if fails then |errors| + 1 else |errors|
    ensures errors <= r
    ensures fails ==> r[|errors|] == ItemError(index + 1, f)
  {
    if fails then errors + [ItemError(index + 1, f)] else errors
  }

  /** The outcome of the five checks of one testimonial, in the order they run. */
  datatype Verdict = Verdict(idMissing: bool, textMissing: bool, nameMissing: bool, titleMissing: bool, orderInvalid: bool)

  /**
   * `testimonial.text.trim()` is reached with a truthy text that is not a
   * string, which has no `trim`: the check throws a `TypeError`.
   */
  predicate TextThrows(t: Testimonial) {
    Truthy(t.text) && !t.text.Str?
  }

  /**
   * The checks of a testimonial whose text check does not throw: a falsy
   * `id`, a missing or blank `text`, no author or a falsy author name or
   * title, a non-numeric `order`.
   */
  function Judge(t: Testimonial): Verdict {
    Verdict(
      !Truthy(t.id),
      MissingText(t.text),
      t.author.None? || !Truthy(t.author.value.name),
      t.author.None? || !Truthy(t.author.value.title),
      !IsNumber(t.order))
  }

  predicate Passes(v: Verdict) {
    !v.idMissing && !v.textMissing && !v.nameMissing && !v.titleMissing && !v.orderInvalid
  }

  /** A testimonial that passes every check. */
  predicate Complete(t: Testimonial) {
    Truthy(t.id) && !MissingText(t.text) && t.author.Some?
    && Truthy(t.author.value.name) && Truthy(t.author.value.title) && IsNumber(t.order)
  }

  /** A testimonial passes exactly when it is complete, and a complete one never makes the text check throw. */
  lemma JudgeComplete(t: Testimonial)
    ensures Passes(Judge(t)) <==> Complete(t)
    ensures Complete(t) ==> !TextThrows(t)
  {
  }

  /** One iteration of the `forEach`: the errors of the five checks of the testimonial at `index`, appended in order. */
  function CheckItem(errors: seq<DataError>, v: Verdict, index: nat): (r: seq<DataError>)
    ensures |errors| <= |r| <= |errors| + 5
    ensures errors <= r
    ensures |r| == |errors| <==> Passes(v)
  {
    var e1 := Check(errors, v.idMissing, index, IdMissing);
    var e2 := Check(e1, v.textMissing, index, TextMissing);
    var e3 := Check(e2, v.nameMissing, index, AuthorNameMissing);
    var e4 := Check(e3, v.titleMissing, index, AuthorTitleMissing);
    var e5 := Check(e4, v.orderInvalid, index, OrderInvalid);
    e5
  }

  /** Every error of the list is about one of the testimonials at positions `1..n`. */
  predicate PositionsWithin(errors: seq<DataError>, n: nat) {
    forall k :: 0 <= k < |errors| ==> errors[k].ItemError? && 1 <= errors[k].position <= n
  }

  lemma PositionsWithinMore(errors: seq<DataError>, n: nat, m: nat)
    requires PositionsWithin(errors, n) && n <= m
    ensures PositionsWithin(errors, m)
  {
  }

  /** The five checks, done one after the other, push what `CheckItem` pushes. */
  lemma ItemPushed(errors: seq<DataError>, v: Verdict, index: nat,
                   e1: seq<DataError>, e2: seq<DataError>, e3: seq<DataError>, e4: seq<DataError>, e5: seq<DataError>)
    requires e1 == Check(errors, v.idMissing, index, IdMissing)
    requires e2 == Check(e1, v.textMissing, index, TextMissing)
    requires e3 == Check(e2, v.nameMissing, index, AuthorNameMissing)
    requires e4 == Check(e3, v.titleMissing, index, AuthorTitleMissing)
    requires e5 == Check(e4, v.orderInvalid, index, OrderInvalid)
    ensures e5 == CheckItem(errors, v, index)
  {
  }

  /** A check adds only errors that name the testimonial's position. */
  lemma CheckPositions(errors: seq<DataError>, fails: bool, index: nat, f: Fault, n: nat)
    requires index < n && PositionsWithin(errors, n)
    ensures PositionsWithin(Check(errors, fails, index, f), n)
  {
    var r := Check(errors, fails, index, f);
    forall k | 0 <= k < |r| ensures r[k].ItemError? && 1 <= r[k].position <= n {
      if k < |errors| {
        assert r[k] == errors[k];
      }
    }
  }

  /** Every error of a testimonial names its position. */
  lemma CheckItemPositions(errors: seq<DataError>, v: Verdict, index: nat, n: nat)
    requires index < n && PositionsWithin(errors, n)
    ensures PositionsWithin(CheckItem(errors, v, index), n)
  {
    var e1 := Check(errors, v.idMissing, index, IdMissing);
    CheckPositions(errors, v.idMissing, index, IdMissing, n);
    var e2 := Check(e1, v.textMissing, index, TextMissing);
    CheckPositions(e1, v.textMissing, index, TextMissing, n);
    var e3 := Check(e2, v.nameMissing, index, AuthorNameMissing);
    CheckPositions(e2, v.nameMissing, index, AuthorNameMissing, n);
    var e4 := Check(e3, v.titleMissing, index, AuthorTitleMissing);
    CheckPositions(e3, v.titleMissing, index, AuthorTitleMissing, n);
    CheckPositions(e4, v.orderInvalid, index, OrderInvalid, n);
  }

  /** The verdict on every testimonial of the list. */
  function Verdicts(items: seq<Testimonial>): (vs: seq<Verdict>)
    ensures |vs| == |items|
    ensures forall k :: 0 <= k < |items| ==> vs[k] == Judge(items[k])
  {
    seq(|items|, k requires 0 <= k < |items| => Judge(items[k]))
  }

  /** The errors the first `n` iterations of the `forEach` push, given the verdicts of the testimonials. */
  function ErrorsUpTo(vs: seq<Verdict>, n: nat): seq<DataError>
    requires n <= |vs|
  {
    if n == 0 then [] else CheckItem(ErrorsUpTo(vs, n - 1), vs[n - 1], n - 1)
  }

  /** Some testimonial of the list makes its text check throw. */
  predicate AnyTextThrows(items: seq<Testimonial>) {
    exists k :: 0 <= k < |items| && TextThrows(items[k])
  }

  /**
   * The outcome of `validateTestimonialsData`: its complete error list, or
   * the `TypeError` of a text check, which nothing catches.
   */
  function Problems(data: Option<TestimonialsData>): Outcome<seq<DataError>> {
    match data
    case None => Done([MissingData])
    case Some(d) =>
      match d.testimonials
      case Items(items) => if AnyTextThrows(items) then Threw else Done(ErrorsUpTo(Verdicts(items), |items|))
      case NonArray(_) => Done([NotAnArray])
  }

  /**
   * The `forEach` callback: the five checks of the testimonial at `index`,
   * each pushing its error when it fails; the text check throws on a
   * truthy text that is not a string.
   */
  method CheckTestimonial(errors: seq<DataError>, t: Testimonial, index: nat) returns (r: Outcome<seq<DataError>>)
    ensures r.Threw? <==> TextThrows(t)
    ensures r.Done? ==> r.value == CheckItem(errors, Judge(t), index)
  {
    var acc := errors;
    if !Truthy(t.id) {
      acc := acc + [ItemError(index + 1, IdMissing)];
    }
    ghost var e1 := acc;
    if Truthy(t.text) && !t.text.Str? {
      return Threw;
    }
    if MissingText(t.text) {
      acc := acc + [ItemError(index + 1, TextMissing)];
    }
    ghost var e2 := acc;
    if t.author.None? || !Truthy(t.author.value.name) {
      acc := acc + [ItemError(index + 1, AuthorNameMissing)];
    }
    ghost var e3 := acc;
    if t.author.None? || !Truthy(t.author.value.title) {
      acc := acc + [ItemError(index + 1, AuthorTitleMissing)];
    }
    ghost var e4 := acc;
    if !IsNumber(t.order) {
      acc := acc + [ItemError(index + 1, OrderInvalid)];
    }
    ItemPushed(errors, Judge(t), index, e1, e2, e3, e4, acc);
    r := Done(acc);
  }

  /**
   * `validateTestimonialsData`: a missing object or a `testimonials` that is
   * not an array ends the check with one error; otherwise every testimonial
   * is checked in turn and its errors are appended, unless a text check
   * throws, which ends the call with the throw.
   */
  method ValidateTestimonialsData(data: Option<TestimonialsData>) returns (r: Outcome<Validation>)
    ensures r.Threw? <==> Problems(data).Threw?
    ensures r.Done? ==> r.value.errors == Problems(data).value && (r.value.isValid <==> r.value.errors == [])
    ensures data.None? ==> r == Done(Validation(false, [MissingData]))
    ensures data.Some? && data.value.testimonials.NonArray? ==> r == Done(Validation(false, [NotAnArray]))
  {
    var errors: seq<DataError> := [];
    if data.None? {
      errors := errors + [MissingData];
      return Done(Validation(false, errors));
    }
    if !data.value.testimonials.Items? {
      errors := errors + [NotAnArray];
      return Done(Validation(false, errors));
    }
    var items := data.value.testimonials.items;
    ghost var vs := Verdicts(items);
    var i := 0;
    while i < |items|
      invariant 0 <= i <= |items|
      invariant errors == ErrorsUpTo(vs, i)
      invariant forall k :: 0 <= k < i ==> !TextThrows(items[k])
    {
      var checked := CheckTestimonial(errors, items[i], i);
      if checked.Threw? {
        assert TextThrows(items[i]);
        return Threw;
      }
      errors := checked.value;
      i := i + 1;
    }
    r := Done(Validation(errors == [], errors));
  }

  /** The first `n` iterations push no error exactly when each of those testimonials passes every check. */
  lemma {:induction false} ErrorsUpToEmpty(vs: seq<Verdict>, n: nat)
    requires n <= |vs|
    ensures ErrorsUpTo(vs, n) == [] <==> forall k :: 0 <= k < n ==> Passes(vs[k])
    decreases n
  {
    if n > 0 {
      ErrorsUpToEmpty(vs, n - 1);
      if ErrorsUpTo(vs, n) == [] {
        assert ErrorsUpTo(vs, n - 1) == [] && Passes(vs[n - 1]);
        forall k | 0 <= k < n ensures Passes(vs[k]) {
          if k < n - 1 {
            assert Passes(vs[k]);
          }
        }
      }
      if forall k :: 0 <= k < n ==> Passes(vs[k]) {
        assert forall k :: 0 <= k < n - 1 ==> Passes(vs[k]);
      }
    }
  }

  /** Each of the first `n` iterations pushes at most five errors. */
  lemma {:induction false} ErrorsUpToLength(vs: seq<Verdict>, n: nat)
    requires n <= |vs|
    ensures |ErrorsUpTo(vs, n)| <= 5 * n
    decreases n
  {
    if n > 0 {
      ErrorsUpToLength(vs, n - 1);
    }
  }

  /** Every error of the first `n` iterations names one of the positions `1..n`. */
  lemma {:induction false} ErrorsUpToPositions(vs: seq<Verdict>, n: nat)
    requires n <= |vs|
    ensures PositionsWithin(ErrorsUpTo(vs, n), n)
    decreases n
  {
    if n > 0 {
      ErrorsUpToPositions(vs, n - 1);
      var prev := ErrorsUpTo(vs, n - 1);
      PositionsWithinMore(prev, n - 1, n);
      CheckItemPositions(prev, vs[n - 1], n - 1, n);
    }
  }

  /** The data is valid, without a throw, exactly when it is an array of complete testimonials. */
  lemma ValidIffComplete(data: Option<TestimonialsData>)
    ensures Problems(data) == Done([]) <==>
      data.Some? && data.value.testimonials.Items?
      && forall k :: 0 <= k < |data.value.testimonials.items| ==> Complete(data.value.testimonials.items[k])
  {
    if data.Some? && data.value.testimonials.Items? {
      var items := data.value.testimonials.items;
      ErrorsUpToEmpty(Verdicts(items), |items|);
      forall k | 0 <= k < |items| {
        JudgeComplete(items[k]);
      }
    }
  }

  /**
   * Every error names either the data as a whole or one of its
   * testimonials, at most five per testimonial; only an array can make the
   * check throw.
   */
  lemma ProblemsPositions(data: Option<TestimonialsData>)
    ensures Problems(data).Done? && data.Some? && data.value.testimonials.Items? ==>
      PositionsWithin(Problems(data).value, |data.value.testimonials.items|)
      && |Problems(data).value| <= 5 * |data.value.testimonials.items|
    ensures data.None? ==> Problems(data) == Done([MissingData])
    ensures data.Some? && data.value.testimonials.NonArray? ==> Problems(data) == Done([NotAnArray])
  {
    if Problems(data).Done? && data.Some? && data.value.testimonials.Items? {
      var items := data.value.testimonials.items;
      ErrorsUpToPositions(Verdicts(items), |items|);
      ErrorsUpToLength(Verdicts(items), |items|);
    }
  }

  // ---------------------------------------------------------------------
  // generateTestimonialSlide
  // ---------------------------------------------------------------------

  const DEFAULT_AVATAR := "https://cdn.prod.website-files.com/67dac46f3007872e8a7b128f/default-avatar.png"
  const DEFAULT_PROJECT_IMAGE := "https://cdn.prod.website-files.com/67dac46f3007872e8a7b128f/default-project.png"
  const DEFAULT_PROJECT_URL := "#"
  const DEFAULT_PROJECT_NAME := "Projet"
  /** The separator between an author's title and company: a bullet between two spaces. */
  const COMPANY_SEPARATOR := " \U{2022} "

  /** `v || fallback`, shown as text. */
  function OrDefault(v: JsValue, fallback: string): (s: string)
    ensures Truthy(v) ==> s == Shown(v)
    ensures !Truthy(v) ==> s == fallback
  {
    if Truthy(v) then Shown(v) else fallback
  }

  /** The values a slide interpolates into its markup. */
  datatype Slide = Slide(
    quote: string,
    authorName: string,
    avatarSrc: string,
    personLine: string,
    projectImageSrc: string,
    projectName: string,
    projectUrl: string,
    opensNewTab: bool)

  /** The author's title, followed by the company after a bullet when there is one. */
  function PersonLine(a: Author): string {
    Shown(a.title) + (if Truthy(a.company) then COMPANY_SEPARATOR + Shown(a.company) else "")
  }

  /** A project URL that `startsWith` can be called on once the default is applied: a string, or a falsy value. */
  predicate UrlUsable(url: JsValue) {
    !Truthy(url) || url.Str?
  }

  /**
   * Where `generateTestimonialSlide` throws a `TypeError`: it reads
   * `author.avatar` and `project.image` whether or not the author and the
   * project are there, and calls `startsWith` on the project URL, which a
   * truthy non-string URL does not have.
   */
  predicate SlideThrows(t: Testimonial) {
    t.author.None? || t.project.None? || !UrlUsable(t.project.value.url)
  }

  /** `generateTestimonialSlide`: the interpolated values, each missing field replaced by its default. */
  function GenerateSlide(t: Testimonial): (r: Outcome<Slide>)
    ensures r.Threw? <==> SlideThrows(t)
    ensures r.Done? ==> r.value.quote == Shown(t.text) && r.value.authorName == Shown(t.author.value.name)
    ensures r.Done? ==> r.value.avatarSrc == OrDefault(t.author.value.avatar, DEFAULT_AVATAR)
    ensures r.Done? ==> r.value.projectImageSrc == OrDefault(t.project.value.image, DEFAULT_PROJECT_IMAGE)
    ensures r.Done? ==> r.value.projectUrl == OrDefault(t.project.value.url, DEFAULT_PROJECT_URL)
    ensures r.Done? ==> r.value.projectName == OrDefault(t.project.value.name, DEFAULT_PROJECT_NAME)
    ensures r.Done? ==> (r.value.opensNewTab <==> StartsWith(r.value.projectUrl, "http"))
  {
    if t.author.None? || t.project.None? then Threw
    else
      var url := t.project.value.url;
      if !UrlUsable(url) then Threw
      else
        var href := OrDefault(url, DEFAULT_PROJECT_URL);
        Done(Slide(
          Shown(t.text),
          Shown(t.author.value.name),
          OrDefault(t.author.value.avatar, DEFAULT_AVATAR),
          PersonLine(t.author.value),
          OrDefault(t.project.value.image, DEFAULT_PROJECT_IMAGE),
          OrDefault(t.project.value.name, DEFAULT_PROJECT_NAME),
          href,
          StartsWith(href, "http")))
  }

  /** A project without a URL links to `#`, which never opens a new tab. */
  lemma DefaultUrlStaysInTab(t: Testimonial)
    requires t.author.Some? && t.project.Some? && !Truthy(t.project.value.url)
    ensures GenerateSlide(t).Done?
    ensures GenerateSlide(t).value.projectUrl == "#" && !GenerateSlide(t).value.opensNewTab
  {
    assert !StartsWith("#", "http");
  }

  /** The company is shown, after the bullet, exactly when it is truthy. */
  lemma CompanyShownIffTruthy(a: Author)
    ensures Truthy(a.company) ==> PersonLine(a) == Shown(a.title) + COMPANY_SEPARATOR + Shown(a.company)
    ensures !Truthy(a.company) ==> PersonLine(a) == Shown(a.title)
  {
  }

  // ---------------------------------------------------------------------
  // generateTestimonialsSection
  // ---------------------------------------------------------------------

  /**
   * The key of the comparator `a.order - b.order`, which converts both
   * orders to numbers.  An order that converts to NaN makes the comparator
   * NaN, for which the order JavaScript's sort picks is left to the engine;
   * the model sorts such a testimonial as order 0.
   */
  function OrderKey(t: Testimonial): int {
    match ToNumber(t.order)
    case Num(n) => n
    case _ => 0
  }

  /**
   * A numeric order is its own key; `null` and the booleans convert to 0
   * and 1, and a numeric string to the number it writes.
   */
  lemma OrderKeyConverts(t: Testimonial, n: int)
    ensures t.order == Num(n) ==> OrderKey(t) == n
    ensures t.order == Null || t.order == Bool(false) ==> OrderKey(t) == 0
    ensures t.order == Bool(true) ==> OrderKey(t) == 1
    ensures t.order == Str(Shown(Num(n))) ==> OrderKey(t) == n
  {
    NumberOfShown(n);
  }

  /** `[...testimonials].sort((a, b) => a.order - b.order)`: a stable sort by order on a copy. */
  function SortByOrder(ts: seq<Testimonial>): (r: seq<Testimonial>)
    ensures SortedBy(r, OrderKey)
    ensures multiset(r) == multiset(ts)
    ensures forall v :: Filter(r, KeyIs(OrderKey, v)) == Filter(ts, KeyIs(OrderKey, v))
  {
    assert forall v :: Filter(SortBy(ts, OrderKey), KeyIs(OrderKey, v)) == Filter(ts, KeyIs(OrderKey, v)) by {
      forall v ensures Filter(SortBy(ts, OrderKey), KeyIs(OrderKey, v)) == Filter(ts, KeyIs(OrderKey, v)) {
        SortByStable(ts, OrderKey, v);
      }
    }
    SortBy(ts, OrderKey)
  }

  /** The section: the placeholder slide, or one slide per testimonial. */
  datatype Section = Placeholder | Carousel(slides: seq<Slide>)

  /** Some testimonial of the list makes its slide throw. */
  predicate AnySlideThrows(ts: seq<Testimonial>) {
    exists k :: 0 <= k < |ts| && SlideThrows(ts[k])
  }

  /** Reordering the testimonials neither adds nor removes one whose slide throws. */
  lemma PermutationKeepsThrows(a: seq<Testimonial>, b: seq<Testimonial>)
    requires multiset(a) == multiset(b)
    ensures AnySlideThrows(a) <==> AnySlideThrows(b)
  {
    if AnySlideThrows(a) {
      var k :| 0 <= k < |a| && SlideThrows(a[k]);
      assert a[k] in multiset(b);
      var j :| 0 <= j < |b| && b[j] == a[k];
    }
    if AnySlideThrows(b) {
      var k :| 0 <= k < |b| && SlideThrows(b[k]);
      assert b[k] in multiset(a);
      var j :| 0 <= j < |a| && a[j] == b[k];
    }
  }

  /** One slide per testimonial, in the same order, when none of them throws. */
  function Slides(ts: seq<Testimonial>): (r: seq<Slide>)
    requires !AnySlideThrows(ts)
    ensures |r| == |ts|
    ensures forall k :: 0 <= k < |ts| ==> GenerateSlide(ts[k]) == Done(r[k])
  {
    seq(|ts|, k requires 0 <= k < |ts| => GenerateSlide(ts[k]).value)
  }

  /**
   * `generateTestimonialsSection`: a falsy `testimonials` or an empty array
   * gives the placeholder; otherwise the slides of the testimonials sorted
   * by order, or the throw of the first slide that throws.  A truthy value
   * that is not an array has no `length` of 0 and throws once spread or
   * turned into slides; a missing data object throws at once.
   */
  function GenerateSection(data: Option<TestimonialsData>): (s: Outcome<Section>)
    ensures data.None? ==> s.Threw?
    ensures data.Some? ==> var c := data.value.testimonials;
      (s == Done(Placeholder) <==> (c.NonArray? && !Truthy(c.value)) || (c.Items? && c.items == []))
      && (c.NonArray? && Truthy(c.value) ==> s.Threw?)
      && (c.Items? && c.items != [] ==> (s.Threw? <==> AnySlideThrows(c.items)))
    ensures s.Done? && s.value.Carousel? ==>
      (data.Some? && data.value.testimonials.Items?
       && |s.value.slides| == |data.value.testimonials.items|
       && exists sorted: seq<Testimonial> ::
            SortedBy(sorted, OrderKey) && multiset(sorted) == multiset(data.value.testimonials.items)
            && !AnySlideThrows(sorted) && s.value.slides == Slides(sorted))
  {
    if data.None? then Threw
    else
      match data.value.testimonials
      case NonArray(v) => if Truthy(v) then Threw else Done(Placeholder)
      case Items(items) =>
        if items == [] then Done(Placeholder)
        else
          var sorted := SortByOrder(items);
          PermutationKeepsThrows(items, sorted);
          if AnySlideThrows(sorted) then Threw else Done(Carousel(Slides(sorted)))
  }

  // ---------------------------------------------------------------------
  // generatePreviewHtml
  // ---------------------------------------------------------------------

  datatype Preview = ErrorListing(errors: seq<DataError>) | Page(section: Section)

  /**
   * Data that passes validation is an array of testimonials that all have
   * authors and texts; since projects are not checked, its section still
   * throws exactly when some testimonial lacks a project or has a truthy
   * project URL that is not a string.
   */
  lemma ValidDataGenerates(data: Option<TestimonialsData>)
    requires Problems(data) == Done([])
    ensures data.Some? && data.value.testimonials.Items?
    ensures forall k :: 0 <= k < |data.value.testimonials.items| ==> data.value.testimonials.items[k].author.Some?
    ensures GenerateSection(data).Threw? <==>
      exists k :: 0 <= k < |data.value.testimonials.items| &&
        (data.value.testimonials.items[k].project.None? || !UrlUsable(data.value.testimonials.items[k].project.value.url))
  {
    ValidIffComplete(data);
    var items := data.value.testimonials.items;
    if GenerateSection(data).Threw? {
      var k :| 0 <= k < |items| && SlideThrows(items[k]);
      assert items[k].author.Some?;
    }
  }

  /**
   * `generatePreviewHtml`: the throw of validation, the error listing when
   * validation fails, and otherwise the section page or the section's throw.
   */
  method GeneratePreviewHtml(data: Option<TestimonialsData>) returns (p: Outcome<Preview>)
    ensures p.Threw? <==> Problems(data).Threw? || (Problems(data) == Done([]) && GenerateSection(data).Threw?)
    ensures p.Done? && p.value.ErrorListing? <==> Problems(data).Done? && Problems(data).value != []
    ensures p.Done? && p.value.ErrorListing? ==> p.value.errors == Problems(data).value
    ensures p.Done? && p.value.Page? ==> Problems(data) == Done([]) && GenerateSection(data) == Done(p.value.section)
  {
    var validation := ValidateTestimonialsData(data);
    if validation.Threw? {
      return Threw;
    }
    if !validation.value.isValid {
      return Done(ErrorListing(validation.value.errors));
    }
    var section := GenerateSection(data);
    if section.Threw? {
      return Threw;
    }
    p := Done(Page(section.value));
  }
}

=== FILE: text.dfy ===
/**
 * JavaScript string primitives the CMS relies on: `trim`, `toLowerCase`,
 * `startsWith`, `endsWith`, `includes`, `indexOf`, `replace` of a literal
 * and `split(/\s+/)`.  Strings are sequences of characters.
 */
module Text {
  import opened Wrappers

  /** The characters JavaScript's `trim` and the regex class `\s` treat as white space. */
  predicate IsSpace(c: char) {
    c == ' ' || c == '\t' || c == '\n' || c == '\r' || c == '\U{000B}' || c == '\U{000C}'
    || c == '\U{00A0}' || c == '\U{1680}' || ('\U{2000}' <= c <= '\U{200A}')
    || c == '\U{2028}' || c == '\U{2029}' || c == '\U{202F}' || c == '\U{205F}'
    || c == '\U{3000}' || c == '\U{FEFF}'
  }

  predicate AllSpace(s: string) {
    forall i :: 0 <= i < |s| ==> IsSpace(s[i])
  }

  /** The length of the leading run of white space. */
  function LeadingSpaces(s: string): (n: nat)
    ensures n <= |s|
    decreases |s|
  {
    if s != [] && IsSpace(s[0]) then 1 + LeadingSpaces(s[1..]) else 0
  }

  /** The length of the trailing run of white space. */
  function TrailingSpaces(s: string): (n: nat)
    ensures n <= |s|
    decreases |s|
  {
    if s != [] && IsSpace(s[|s| - 1]) then 1 + TrailingSpaces(s[..|s| - 1]) else 0
  }

  /** The leading run is white space and is followed by a character that is not. */
  lemma {:induction false} LeadingSpacesSpec(s: string)
    ensures AllSpace(s[..LeadingSpaces(s)])
    ensures LeadingSpaces(s) < |s| ==> !IsSpace(s[LeadingSpaces(s)])
    decreases |s|
  {
    if s != [] && IsSpace(s[0]) {
      LeadingSpacesSpec(s[1..]);
      var n := LeadingSpaces(s[1..]);
      var run, rest := s[..n + 1], s[1..][..n];
      forall i | 0 <= i < n + 1 ensures IsSpace(run[i]) {
        if i > 0 {
          assert run[i] == rest[i - 1];
        }
      }
    }
  }

  /** The trailing run is white space and is preceded by a character that is not. */
  lemma {:induction false} TrailingSpacesSpec(s: string)
    ensures AllSpace(s[|s| - TrailingSpaces(s)..])
    ensures TrailingSpaces(s) < |s| ==> !IsSpace(s[|s| - TrailingSpaces(s) - 1])
    decreases |s|
  {
    if s != [] && IsSpace(s[|s| - 1]) {
      var p := s[..|s| - 1];
      TrailingSpacesSpec(p);
      var n := TrailingSpaces(p);
      var run, rest := s[|s| - (n + 1)..], p[|p| - n..];
      forall i | 0 <= i < n + 1 ensures IsSpace(run[i]) {
        if i < n {
          assert run[i] == rest[i];
        } else {
          assert run[i] == s[|s| - 1];
        }
      }
    }
  }

  /** `s.trimStart()`: drops the leading run of white space. */
  function TrimStart(s: string): (r: string) {
    s[LeadingSpaces(s)..]
  }

  /** `s.trimEnd()`: drops the trailing run of white space. */
  function TrimEnd(s: string): (r: string) {
    s[..|s| - TrailingSpaces(s)]
  }

  /** `s.trim()`: the infix of `s` left after removing white space at both ends. */
  function Trim(s: string): (r: string)
    ensures |r| <= |s|
  {
    TrimEnd(TrimStart(s))
  }

  /** A trimmed string neither starts nor ends with white space. */
  lemma TrimEnds(s: string)
    ensures var r := Trim(s); r == [] || (!IsSpace(r[0]) && !IsSpace(r[|r| - 1]))
  {
    var t := TrimStart(s);
    var r := TrimEnd(t);
    LeadingSpacesSpec(s);
    TrailingSpacesSpec(t);
    if r != [] {
      assert r[0] == t[0] == s[LeadingSpaces(s)];
      assert r[|r| - 1] == t[|t| - TrailingSpaces(t) - 1];
    }
  }

  /** `s.trim() === ''`: the string holds nothing but white space (see `BlankIffTrimmedEmpty`). */
  predicate IsBlank(s: string)
    decreases |s|
  {
    s == [] || (IsSpace(s[0]) && IsBlank(s[1..]))
  }

  /** A string is blank exactly when every character of it is white space. */
  lemma {:induction false} BlankIffAllSpace(s: string)
    ensures IsBlank(s) <==> AllSpace(s)
    decreases |s|
  {
    if s != [] {
      BlankIffAllSpace(s[1..]);
      if AllSpace(s) {
        assert forall i :: 0 <= i < |s[1..]| ==> s[1..][i] == s[i + 1];
      }
      if IsSpace(s[0]) && AllSpace(s[1..]) {
        assert forall i :: 0 < i < |s| ==> s[i] == s[1..][i - 1];
      }
    }
  }

  /** Blank strings are exactly those that `trim` empties. */
  lemma BlankIffTrimmedEmpty(s: string)
    ensures IsBlank(s) <==> Trim(s) == []
  {
    BlankIffAllSpace(s);
    LeadingSpacesSpec(s);
    var n := LeadingSpaces(s);
    var t := TrimStart(s);
    if n == |s| {
      assert s[..n] == s;
    } else {
      TrailingSpacesSpec(t);
      assert t[0] == s[n];
      assert !AllSpace(s);
    }
  }

  /** Trimming twice is trimming once. */
  lemma TrimIdempotent(s: string)
    ensures Trim(Trim(s)) == Trim(s)
  {
    var r := Trim(s);
    TrimEnds(s);
    assert LeadingSpaces(r) == 0;
    assert TrimStart(r) == r;
    assert TrailingSpaces(r) == 0;
  }

  /** ASCII upper-case letters become lower-case; every other character is kept. */
  function LowerChar(c: char): char {
    if 'A' <= c <= 'Z' then (c as int + 32) as char else c
  }

  /** `s.toLowerCase()` restricted to the ASCII letters. */
  function Lower(s: string): (r: string)
    ensures |r| == |s|
  {
    seq(|s|, i requires 0 <= i < |s| => LowerChar(s[i]))
  }

  /** Lower-casing is idempotent, so comparing lower-cased strings is an equivalence. */
  lemma LowerIdempotent(s: string)
    ensures Lower(Lower(s)) == Lower(s)
  {
  }

  predicate StartsWith(s: string, p: string) {
    |p| <= |s| && s[..|p|] == p
  }

  predicate EndsWith(s: string, p: string) {
    |p| <= |s| && s[|s| - |p|..] == p
  }

  /** `s.includes(p)`. */
  predicate Contains(s: string, p: string) {
    exists i :: 0 <= i <= |s| - |p| && StartsWith(s[i..], p)
  }

  lemma ContainsPrefix(s: string, p: string)
    requires StartsWith(s, p)
    ensures Contains(s, p)
  {
    assert s[0..] == s;
  }

  /** `s.indexOf(p)`, with `None` standing for -1: the first position where `p` occurs. */
  function IndexOf(s: string, p: string): (r: Option<nat>)
    ensures r.Some? ==> r.value <= |s| - |p| && StartsWith(s[r.value..], p)
    ensures r.Some? ==> forall j :: 0 <= j < r.value ==> !StartsWith(s[j..], p)
    ensures r.None? <==> !Contains(s, p)
    decreases |s|
  {
    if StartsWith(s, p) then
      assert s[0..] == s;
      Some(0)
    else if s == [] then None
    else
      var t := IndexOf(s[1..], p);
      if t.Some? then
        assert s[t.value + 1..] == s[1..][t.value..];
        assert forall j :: 1 <= j <= t.value ==> s[j..] == s[1..][j - 1..];
        Some(t.value + 1)
      else
        assert forall j :: 1 <= j <= |s| ==> s[j..] == s[1..][j - 1..];
        None
  }

  /** `s.replace(p, q)` with a literal pattern: only the first occurrence is replaced. */
  function ReplaceFirst(s: string, p: string, q: string): (r: string)
    ensures !Contains(s, p) ==> r == s
    ensures Contains(s, p) ==> exists i :: 0 <= i <= |s| - |p| && StartsWith(s[i..], p) && r == s[..i] + q + s[i + |p|..]
  {
    match IndexOf(s, p)
    case None => s
    case Some(i) => s[..i] + q + s[i + |p|..]
  }

  /** The longest prefix of `s` holding no white space. */
  function WordPrefix(s: string): (w: string)
    ensures |w| <= |s| && w == s[..|w|]
    ensures forall i :: 0 <= i < |w| ==> !IsSpace(w[i])
    ensures |w| < |s| ==> IsSpace(s[|w|])
    decreases |s|
  {
    if s == [] || IsSpace(s[0]) then [] else [s[0]] + WordPrefix(s[1..])
  }

  /**
   * The non-empty pieces of `s.split(/\s+/)`: the maximal runs of non-space
   * characters, in order.
   */
  function Words(s: string): (ws: seq<string>)
    ensures forall k :: 0 <= k < |ws| ==> ws[k] != [] && forall i :: 0 <= i < |ws[k]| ==> !IsSpace(ws[k][i])
    decreases |s|
  {
    if s == [] then []
    else if IsSpace(s[0]) then Words(s[1..])
    else
      var w := WordPrefix(s);
      [w] + Words(s[|w|..])
  }

  /** The word prefix stops at the first white space, whatever follows it. */
  lemma {:induction false} WordPrefixBefore(a: string, t: string)
    requires t != [] && IsSpace(t[0])
    ensures WordPrefix(a + t) == WordPrefix(a)
    decreases |a|
  {
    if a == [] {
      assert a + t == t;
    } else if !IsSpace(a[0]) {
      assert (a + t)[1..] == a[1..] + t;
      WordPrefixBefore(a[1..], t);
    }
  }

  /** A string without white space is its own word prefix. */
  lemma {:induction false} WordPrefixWhole(w: string)
    requires forall i :: 0 <= i < |w| ==> !IsSpace(w[i])
    ensures WordPrefix(w) == w
    decreases |w|
  {
    if w != [] {
      WordPrefixWhole(w[1..]);
      assert w == [w[0]] + w[1..];
    }
  }

  /**
   * The words are cut at every white-space character: the words of the
   * text on either side of one, one list after the other.
   */
  lemma {:induction false} WordsSplit(a: string, c: char, b: string)
    requires IsSpace(c)
    ensures Words(a + [c] + b) == Words(a) + Words(b)
    decreases |a|
  {
    var s := a + [c] + b;
    if a == [] {
      assert s == [c] + b && s[1..] == b;
    } else if IsSpace(a[0]) {
      assert s[1..] == a[1..] + [c] + b;
      WordsSplit(a[1..], c, b);
    } else {
      WordPrefixBefore(a, [c] + b);
      assert s == a + ([c] + b);
      var w := WordPrefix(a);
      assert s[|w|..] == a[|w|..] + [c] + b;
      WordsSplit(a[|w|..], c, b);
    }
  }

  /** A non-empty run without white space is one word. */
  lemma WordsOfWord(w: string)
    requires w != [] && forall i :: 0 <= i < |w| ==> !IsSpace(w[i])
    ensures Words(w) == [w]
  {
    WordPrefixWhole(w);
    assert w[|w|..] == [];
  }

  /** White space alone has no words. */
  lemma {:induction false} WordsOfBlank(s: string)
    requires forall i :: 0 <= i < |s| ==> IsSpace(s[i])
    ensures Words(s) == []
    decreases |s|
  {
    if s != [] {
      WordsOfBlank(s[1..]);
    }
  }
}

=== FILE: upload_debugger.dfy ===
/**
 * The debugger of the duplicate-upload flow: it keeps the last events and
 * errors it was told about, in memory and in `localStorage`, counts them
 * into metrics, and redacts passwords and tokens out of logged data.
 *
 * `Date.now()`, `Math.random()` and `new Date().toISOString()` only make
 * identifiers and timestamps, which are parameters here; the console and
 * the monitoring hook are left out; the two `localStorage` keys are the
 * fields `storedEvents` and `storedErrors`.
 */
module UploadDebugging {
  import opened Wrappers
  import opened Text
  import opened Lists

  /** `maxEvents`. */
  const MAX_EVENTS: nat := 1000
  /** `maxErrors`. */
  const MAX_ERRORS: nat := 100
  /** How many events `persistEvent` keeps in `localStorage`. */
  const MAX_STORED_EVENTS: nat := 500
  /** How many errors `persistError` keeps in `localStorage`. */
  const MAX_STORED_ERRORS: nat := 100
  /** The default `limit` of `getRecentEvents`. */
  const DEFAULT_RECENT_EVENTS: int := 50
  /** The default `limit` of `getRecentErrors`. */
  const DEFAULT_RECENT_ERRORS: int := 20
  /** What a sensitive value is replaced with. */
  const REDACTED: string := "[REDACTED]"

  /** Data that survives `JSON.parse(JSON.stringify(...))`: a tree without cycles. */
  datatype Json =
    | JNull
    | JBool(b: bool)
    | JNum(n: real)
    | JStr(s: string)
    | JArr(items: seq<Json>)
    | JObj(fields: seq<Field>)

  datatype Field = Field(key: string, value: Json)

  /**
   * What `logEvent` is handed: a tree `JSON.stringify` can write, or an
   * object it rejects (one holding a cycle or a BigInt), known by the text
   * `String(data)` gives for it.
   */
  datatype Logged = Tree(j: Json) | Unserialisable(shown: string)

  datatype EventType = Detection | DialogOpen | DialogClose | ActionTaken | ErrorEvent | Validation | Processing

  datatype ErrorType = RenderError | ValidationError | ApiError | TimeoutError | UnknownError

  datatype Severity = Low | Medium | High | Critical

  datatype LogLevel = Log | Info | Warn | Error

  datatype DebugEvent = DebugEvent(id: string, eventType: EventType, timestamp: string, data: Json, sessionId: string)

  datatype DebugError = DebugError(
    id: string, errorType: ErrorType, message: string, timestamp: string, context: Json, severity: Severity)

  datatype DebugMetrics = DebugMetrics(
    totalDetections: nat, successfulActions: int, failedActions: nat, dialogOpenCount: nat,
    dialogCloseCount: nat, averageProcessingTime: real, errorRate: real, lastActivity: string)

  // ---------------------------------------------------------------------
  // Redaction
  // ---------------------------------------------------------------------

  /** A key whose value is hidden: it contains `password` or `token`, whatever the case. */
  predicate Sensitive(key: string) {
    Contains(Lower(key), "password") || Contains(Lower(key), "token")
  }

  /** `!data`. */
  predicate Falsy(j: Json) {
    j.JNull? || (j.JBool? && !j.b) || (j.JNum? && j.n == 0.0) || (j.JStr? && j.s == [])
  }

  /** The replacer of `JSON.stringify` applied under every key of the tree. */
  function Redact(j: Json): Json
    decreases j
  {
    match j
    case JArr(items) => JArr(seq(|items|, i requires 0 <= i < |items| => Redact(items[i])))
    case JObj(fields) =>
      JObj(seq(|fields|, i requires 0 <= i < |fields| =>
        Field(fields[i].key, if Sensitive(fields[i].key) then JStr(REDACTED) else Redact(fields[i].value))))
    case _ => j
  }

  /** The object the `catch` of `sanitizeData` returns for data the round trip rejects. */
  function Fallback(shown: string): Json {
    JObj([Field("error", JStr("Failed to sanitize data")), Field("original", JStr(shown))])
  }

  /**
   * `sanitizeData`: falsy data is returned as it is, the rest goes through
   * the redacting round trip, and data that round trip throws on is
   * replaced by the fallback object.
   */
  function Sanitize(data: Logged): Json {
    match data
    case Tree(j) => if Falsy(j) then j else Redact(j)
    case Unserialisable(shown) => Fallback(shown)
  }

  /**
   * `formatEventMessage` reads a property of `data` for every event type
   * but `error`, which throws a `TypeError` when `data` is `null`.
   */
  predicate MessageThrows(t: EventType, data: Logged) {
    t != ErrorEvent && data == Tree(JNull)
  }

  /** No sensitive key anywhere in the tree holds anything but `[REDACTED]`. */
  predicate AllRedacted(j: Json)
    decreases j
  {
    match j
    case JArr(items) => forall i :: 0 <= i < |items| ==> AllRedacted(items[i])
    case JObj(fields) =>
      forall i :: 0 <= i < |fields| ==>
        (Sensitive(fields[i].key) ==> fields[i].value == JStr(REDACTED)) && AllRedacted(fields[i].value)
    case _ => true
  }

  /** No sensitive key anywhere in the tree. */
  predicate Clean(j: Json)
    decreases j
  {
    match j
    case JArr(items) => forall i :: 0 <= i < |items| ==> Clean(items[i])
    case JObj(fields) => forall i :: 0 <= i < |fields| ==> !Sensitive(fields[i].key) && Clean(fields[i].value)
    case _ => true
  }

  /** The keys of an object, in order. */
  function Keys(fields: seq<Field>): (ks: seq<string>)
    ensures |ks| == |fields| && forall i :: 0 <= i < |fields| ==> ks[i] == fields[i].key
  {
    seq(|fields|, i requires 0 <= i < |fields| => fields[i].key)
  }

  /** Redaction leaves no secret behind, at any depth. */
  lemma {:induction false} RedactComplete(j: Json)
    ensures AllRedacted(Redact(j))
    decreases j
  {
    match j
    case JArr(items) =>
      forall i | 0 <= i < |items| ensures AllRedacted(Redact(items[i])) {
        RedactComplete(items[i]);
      }
    case JObj(fields) =>
      forall i | 0 <= i < |fields| ensures AllRedacted(Redact(fields[i].value)) {
        RedactComplete(fields[i].value);
      }
    case _ =>
  }

  /** Data without a sensitive key comes back unchanged. */
  lemma {:induction false} RedactClean(j: Json)
    requires Clean(j)
    ensures Redact(j) == j
    decreases j
  {
    match j
    case JArr(items) =>
      forall i | 0 <= i < |items| ensures Redact(items[i]) == items[i] {
        RedactClean(items[i]);
      }
      assert Redact(j).items == items;
    case JObj(fields) =>
      forall i | 0 <= i < |fields| ensures Redact(fields[i].value) == fields[i].value {
        RedactClean(fields[i].value);
      }
      assert Redact(j).fields == fields;
    case _ =>
  }

  /** Sanitizing twice is sanitizing once: the events' data, sanitized again by `logEvent`, is unaffected. */
  lemma {:induction false} RedactIdempotent(j: Json)
    ensures Redact(Redact(j)) == Redact(j)
    decreases j
  {
    match j
    case JArr(items) =>
      forall i | 0 <= i < |items| ensures Redact(Redact(items[i])) == Redact(items[i]) {
        RedactIdempotent(items[i]);
      }
      assert Redact(Redact(j)).items == Redact(j).items;
    case JObj(fields) =>
      var r := Redact(j);
      forall i | 0 <= i < |fields| ensures Redact(r).fields[i] == r.fields[i] {
        RedactIdempotent(fields[i].value);
      }
      assert Redact(r).fields == r.fields;
    case _ =>
  }

  /** Neither key of the fallback object is sensitive. */
  lemma FallbackClean(shown: string)
    ensures Clean(Fallback(shown))
  {
    assert Lower("error") == "error";
    assert Lower("original") == "original";
    forall i | 0 <= i <= |"original"| - |"password"| ensures !StartsWith("original"[i..], "password") {
      assert "original"[i..][1] != "password"[1];
    }
    forall i | 0 <= i <= |"original"| - |"token"| ensures !StartsWith("original"[i..], "token") {
      assert "original"[i..][0] != 't';
    }
    assert "error"[..|"token"|][0] != "token"[0];
  }

  /**
   * The sanitized data has every secret hidden and is a fixed point of
   * sanitizing; clean data comes back unchanged, an object keeps its keys
   * in order, and data the round trip rejects becomes the fallback object
   * carrying its text.
   */
  lemma SanitizeSpec(data: Logged)
    ensures AllRedacted(Sanitize(data))
    ensures Sanitize(Tree(Sanitize(data))) == Sanitize(data)
    ensures data.Tree? && Clean(data.j) ==> Sanitize(data) == data.j
    ensures data.Tree? && data.j.JObj? ==> Sanitize(data).JObj? && Keys(Sanitize(data).fields) == Keys(data.j.fields)
    ensures data.Unserialisable? ==>
      Keys(Sanitize(data).fields) == ["error", "original"] && Sanitize(data).fields[1].value == JStr(data.shown)
  {
    match data
    case Tree(j) =>
      RedactComplete(j);
      RedactIdempotent(j);
      if Clean(j) {
        RedactClean(j);
      }
      if j.JObj? {
        assert Keys(Redact(j).fields) == Keys(j.fields);
      }
    case Unserialisable(shown) =>
      FallbackClean(shown);
      RedactClean(Fallback(shown));
      RedactComplete(Fallback(shown));
  }

  // ---------------------------------------------------------------------
  // Log levels
  // ---------------------------------------------------------------------

  /** `getLogLevel`. */
  function LogLevelOf(t: EventType): (l: LogLevel)
    ensures l == Error <==> t == ErrorEvent
    ensures l == Warn <==> t == Detection
    ensures l == Info <==> t == Validation
    ensures l == Log <==> t in {DialogOpen, DialogClose, ActionTaken, Processing}
  {
    match t
    case ErrorEvent => Error
    case Detection => Warn
    case Validation => Info
    case _ => Log
  }

  /** `getErrorLogLevel`. */
  function ErrorLogLevel(s: Severity): (l: LogLevel)
    ensures l == Warn <==> s == Low || s == Medium
    ensures l == Error <==> s == High || s == Critical
  {
    match s
    case Low => Warn
    case Medium => Warn
    case High => Error
    case Critical => Error
  }

  // ---------------------------------------------------------------------
  // Bounded logs
  // ---------------------------------------------------------------------

  /** `if (log.length > n) log = log.slice(-n)`, or the `splice` of the stored copies. */
  function Window<T>(s: seq<T>, n: nat): (r: seq<T>)
    ensures |r| == if |s| > n then n else |s|
    ensures r == s[|s| - |r|..]
  {
    if |s| > n then s[|s| - n..] else s
  }

  /** Appending to a bounded log keeps the newest entry last, and the survivors are the newest of the old entries, in order. */
  lemma WindowAppend<T>(s: seq<T>, x: T, n: nat)
    requires n > 0
    ensures var r := Window(s + [x], n);
      r != [] && r[|r| - 1] == x && r[..|r| - 1] == s[|s| - (|r| - 1)..]
    ensures |s| < n ==> Window(s + [x], n) == s + [x]
  {
    var r := Window(s + [x], n);
    assert r[..|r| - 1] == (s + [x])[|s| + 1 - |r|..|s|];
  }

  /** `array.slice(start)`, a negative start counting from the end. */
  function SliceFrom<T>(s: seq<T>, start: int): (r: seq<T>)
    ensures |r| <= |s| && r == s[|s| - |r|..]
  {
    if start < 0 then (if |s| + start < 0 then s else s[|s| + start..])
    else if start <= |s| then s[start..]
    else []
  }

  /** `getRecentEvents` / `getRecentErrors` as written: `slice(-limit)`. */
  function RecentAsWritten<T>(s: seq<T>, limit: int): seq<T> {
    SliceFrom(s, -limit)
  }

  /** The last `limit` entries, in order; none for a limit that is not positive. */
  function Recent<T>(s: seq<T>, limit: int): (r: seq<T>)
    ensures |r| == if limit <= 0 then 0 else if limit < |s| then limit else |s|
    ensures r == s[|s| - |r|..]
  {
    if limit <= 0 then [] else if limit < |s| then s[|s| - limit..] else s
  }

  /** For a positive limit the source does what it means. */
  lemma RecentAgrees<T>(s: seq<T>, limit: int)
    requires limit > 0
    ensures RecentAsWritten(s, limit) == Recent(s, limit)
  {
  }

  /** `slice(-0)` is `slice(0)`: a limit of zero returns every entry instead of none, and a negative one drops the oldest. */
  lemma RecentZeroReturnsAll<T>(s: seq<T>)
    requires s != []
    ensures RecentAsWritten(s, 0) == s && Recent(s, 0) == []
    ensures RecentAsWritten(s, -1) == s[1..] && Recent(s, -1) == []
  {
  }

  // ---------------------------------------------------------------------
  // Metrics
  // ---------------------------------------------------------------------

  /** How many events have type `t`. */
  function CountOf(es: seq<DebugEvent>, t: EventType): (c: nat)
    ensures c <= |es|
    decreases |es|
  {
    if es == [] then 0
    else CountOf(es[..|es| - 1], t) + (if es[|es| - 1].eventType == t then 1 else 0)
  }

  lemma CountAppend(es: seq<DebugEvent>, e: DebugEvent, t: EventType)
    ensures CountOf(es + [e], t) == CountOf(es, t) + (if e.eventType == t then 1 else 0)
  {
    assert (es + [e])[..|es|] == es;
  }

  /** The counts by type add up to the number of events: each event is counted under its own type only. */
  lemma {:induction false} CountsPartition(es: seq<DebugEvent>)
    ensures CountOf(es, Detection) + CountOf(es, DialogOpen) + CountOf(es, DialogClose) + CountOf(es, ActionTaken)
            + CountOf(es, ErrorEvent) + CountOf(es, Validation) + CountOf(es, Processing) == |es|
    decreases |es|
  {
    if es != [] {
      CountsPartition(es[..|es| - 1]);
    }
  }

  /** `event.data?.duration || 0`, with a non-numeric truthy duration counted as 0. */
  function Duration(data: Json): real {
    if !data.JObj? then 0.0
    else
      match LastValue(data.fields, "duration")
      case Some(JNum(n)) => n
      case Some(JBool(true)) => 1.0
      case _ => 0.0
  }

  /** The value of the last field named `key`, as `JSON.parse` keeps it. */
  function LastValue(fields: seq<Field>, key: string): (r: Option<Json>)
    ensures r.Some? <==> key in Keys(fields)
    decreases |fields|
  {
    if fields == [] then None
    else if fields[|fields| - 1].key == key then Some(fields[|fields| - 1].value)
    else
      assert Keys(fields[..|fields| - 1]) == Keys(fields)[..|fields| - 1];
      LastValue(fields[..|fields| - 1], key)
  }

  /** The summed durations of the processing events. */
  function ProcessingTime(es: seq<DebugEvent>): real
    decreases |es|
  {
    if es == [] then 0.0
    else
      ProcessingTime(es[..|es| - 1])
      + (if es[|es| - 1].eventType == Processing then Duration(es[|es| - 1].data) else 0.0)
  }

  /** `getMetrics`. */
  function Metrics(events: seq<DebugEvent>, errors: seq<DebugError>): (m: DebugMetrics)
    ensures m.successfulActions + m.failedActions == CountOf(events, ActionTaken)
    ensures m.failedActions == |errors|
    ensures m.errorRate == 0.0 <==> CountOf(events, ActionTaken) == 0 || errors == []
    ensures CountOf(events, Processing) == 0 ==> m.averageProcessingTime == 0.0
    ensures m.lastActivity == if events == [] then "" else events[|events| - 1].timestamp
  {
    var actions := CountOf(events, ActionTaken);
    var processing := CountOf(events, Processing);
    DebugMetrics(
      CountOf(events, Detection),
      actions - |errors|,
      |errors|,
      CountOf(events, DialogOpen),
      CountOf(events, DialogClose),
      if processing > 0 then ProcessingTime(events) / processing as real else 0.0,
      if actions > 0 then (|errors| as real / actions as real) * 100.0 else 0.0,
      if |events| > 0 then events[|events| - 1].timestamp else "")
  }

  /** The four counts of the metrics never exceed the number of events together. */
  lemma MetricsBounded(events: seq<DebugEvent>, errors: seq<DebugError>)
    ensures var m := Metrics(events, errors);
      m.totalDetections + m.dialogOpenCount + m.dialogCloseCount + CountOf(events, ActionTaken) <= |events|
  {
    CountsPartition(events);
  }

  /** Logging one more event of type `t` into a log below its limit adds one to that type's count only. */
  lemma LoggedOnce(events: seq<DebugEvent>, e: DebugEvent, t: EventType)
    requires |events| < MAX_EVENTS
    ensures CountOf(Window(events + [e], MAX_EVENTS), t) == CountOf(events, t) + (if e.eventType == t then 1 else 0)
  {
    CountAppend(events, e, t);
  }

  // ---------------------------------------------------------------------
  // The debugger
  // ---------------------------------------------------------------------

  class Debugger {
    const sessionId: string
    var events: seq<DebugEvent>
    var errors: seq<DebugError>
    var isEnabled: bool
    /** `localStorage['duplicateUploadDebugEvents']`. */
    var storedEvents: seq<DebugEvent>
    /** `localStorage['duplicateUploadDebugErrors']`. */
    var storedErrors: seq<DebugError>

    /** Both logs within their limits, and no secret in the data of a kept event. */
    predicate Valid()
      reads this
    {
      |events| <= MAX_EVENTS && |errors| <= MAX_ERRORS && forall e :: e in events ==> AllRedacted(e.data)
    }

    /** A new debugger: enabled, with empty logs, over what `localStorage` already holds. */
    constructor(sessionId: string, storedEvents: seq<DebugEvent>, storedErrors: seq<DebugError>)
      ensures Valid() && this.sessionId == sessionId && events == [] && errors == [] && isEnabled
      ensures this.storedEvents == storedEvents && this.storedErrors == storedErrors
    {
      this.sessionId := sessionId;
      events := [];
      errors := [];
      isEnabled := true;
      this.storedEvents := storedEvents;
      this.storedErrors := storedErrors;
    }

    /**
     * `logEvent`: nothing when disabled; otherwise the sanitized event is
     * appended to the in-memory log, and then to the stored copy unless
     * building the console message throws.
     */
    method LogEvent(t: EventType, data: Logged, id: string, timestamp: string) returns (threw: bool)
      requires Valid()
      modifies this
      ensures Valid() && isEnabled == old(isEnabled) && errors == old(errors) && storedErrors == old(storedErrors)
      ensures threw <==> isEnabled && MessageThrows(t, data)
      ensures !isEnabled ==> events == old(events) && storedEvents == old(storedEvents)
      ensures isEnabled ==>
        var e := DebugEvent(id, t, timestamp, Sanitize(data), sessionId);
        && events == Window(old(events) + [e], MAX_EVENTS)
        && storedEvents == if threw then old(storedEvents) else Window(old(storedEvents) + [e], MAX_STORED_EVENTS)
    {
      threw := false;
      if !isEnabled {
        return;
      }
      var e := DebugEvent(id, t, timestamp, Sanitize(data), sessionId);
      SanitizeSpec(data);
      var kept := Window(events + [e], MAX_EVENTS);
      assert forall x :: x in kept ==> x in events + [e];
      events := kept;
      if MessageThrows(t, data) {
        threw := true;
        return;
      }
      PersistEvent(e);
    }

    /** `persistEvent`: push onto the stored copy and splice it down to its last entries. */
    method PersistEvent(e: DebugEvent)
      modifies this
      ensures storedEvents == Window(old(storedEvents) + [e], MAX_STORED_EVENTS)
      ensures events == old(events) && errors == old(errors) && storedErrors == old(storedErrors)
      ensures isEnabled == old(isEnabled)
    {
      var stored := storedEvents + [e];
      if |stored| > MAX_STORED_EVENTS {
        stored := stored[|stored| - MAX_STORED_EVENTS..];
      }
      storedEvents := stored;
    }

    /** `logError`: logged even when disabled, appended to both bounded logs. */
    method LogError(t: ErrorType, message: string, context: Json, severity: Severity, id: string, timestamp: string)
      requires Valid()
      modifies this
      ensures Valid() && isEnabled == old(isEnabled) && events == old(events) && storedEvents == old(storedEvents)
      ensures var e := DebugError(id, t, message, timestamp, context, severity);
        errors == Window(old(errors) + [e], MAX_ERRORS) && storedErrors == Window(old(storedErrors) + [e], MAX_STORED_ERRORS)
    {
      var e := DebugError(id, t, message, timestamp, context, severity);
      errors := errors + [e];
      if |errors| > MAX_ERRORS {
        errors := errors[|errors| - MAX_ERRORS..];
      }
      var stored := storedErrors + [e];
      if |stored| > MAX_STORED_ERRORS {
        stored := stored[|stored| - MAX_STORED_ERRORS..];
      }
      storedErrors := stored;
    }

    /** `getMetrics`. */
    function GetMetrics(): DebugMetrics
      reads this
    {
      Metrics(events, errors)
    }

    /** `getRecentEvents`. */
    function GetRecentEvents(limit: int): (r: seq<DebugEvent>)
      reads this
      ensures |r| <= |events| && r == events[|events| - |r|..]
      ensures limit > 0 ==> |r| == if limit < |events| then limit else |events|
    {
      Recent(events, limit)
    }

    /** `getRecentErrors`. */
    function GetRecentErrors(limit: int): (r: seq<DebugError>)
      reads this
      ensures |r| <= |errors| && r == errors[|errors| - |r|..]
      ensures limit > 0 ==> |r| == if limit < |errors| then limit else |errors|
    {
      Recent(errors, limit)
    }

    /** `clearDebugData`: both logs and both stored copies emptied. */
    method ClearDebugData()
      modifies this
      ensures Valid() && events == [] && errors == [] && storedEvents == [] && storedErrors == []
      ensures isEnabled == old(isEnabled)
      ensures GetMetrics() == DebugMetrics(0, 0, 0, 0, 0, 0.0, 0.0, "")
    {
      events := [];
      errors := [];
      storedEvents := [];
      storedErrors := [];
    }

    /** `setEnabled`. */
    method SetEnabled(enabled: bool)
      modifies this
      ensures isEnabled == enabled
      ensures events == old(events) && errors == old(errors)
      ensures storedEvents == old(storedEvents) && storedErrors == old(storedErrors)
    {
      isEnabled := enabled;
    }
  }
}

=== FILE: wrappers.dfy ===
/** Optional values, results with an error payload and outcomes that may be a throw, used by every module. */
module Wrappers {
  datatype Option<T> = None | Some(value: T)

  datatype Result<T, E> = Ok(value: T) | Err(error: E)

  /** The result of code that may throw (a method called on a non-string, a property of `undefined`). */
  datatype Outcome<T> = Done(value: T) | Threw
}
